=== FILE: README.md ===
# better-sqlite3-schema in Dafny

A functional model of the core of better-sqlite3-schema. The library is a schema-driven normalizer for SQLite.

- **Rows.** A caller hands it plain row objects. An insert function built from a table schema runs them through a chain of map-row stages before the insert: clone, whitelist, skip, reference map and auto-add column.
- **Reference fields.** A reference field moves its value into a satellite table (one row per distinct value, keyed by a surrogate id). The row keeps only the id. A select function reverses the substitution.
- **Around that.** The library also has:
  - a deduplicating insert and a bounded memo cache;
  - a sink that sends repeated values as short keys;
  - a line-oriented archive format (export and import);
  - a migration runner;
  - code generators for SQL and TypeScript, and a few utilities.

The database is abstract:

- A table is a column map, its rows in rowid order, and its rowid alias: the column declared `integer primary key`, if any. Without an alias the row at index `i` has rowid `i + 1`. With one, the alias column holds the rowid: a null there gets one more than the largest rowid, an integer is taken as the rowid unless a row already has it, and anything else is refused.
- A satellite table is the sequence of its values, and an id is an index plus one.
- Row values are a closed variant: `undefined`, `null`, boolean, number, text, bigint and object.
- Equality in a `where` clause is SQL equality, under which NULL equals nothing.
- Table and column names that the archive writes into SQL unquoted are read by SQLite as themselves or not; that judgement is a parameter (`bare`). For the unquoted field of `alter table … add`, the name SQLite reads, if any, is a parameter too (`read`), and SQLite's ASCII case folding of column names is modelled. The other statements that splice a name in unquoted (the generated `create table` of the newer version, `loadAllRefCache`) are modelled as if every name were read as itself; `## Left out` names each.

Every operation is a pure function over these values. Failures (a missing table, a missing column, an unknown id) are `Result` errors.

Modules, one file each:

| module | models |
|---|---|
| `Outcomes` | `Option` and `Result` |
| `Values` | row values, SQL equality, `toSqliteDataType` in both versions |
| `ArrayUtil` | `uniqueArray` |
| `FunctionUtil` | `chain`, and wrapping a function repeatedly with `chain` |
| `ObjectUtil` | `mapObject` |
| `StringUtil` | `toCamelCase`, and `split`/`join` |
| `Lang` | `toSingular` |
| `JsonText` | `escapeField` (`JSON.stringify` of a string), with a JSON string reader as its inverse |
| `MemoCache` | `newCache`, `get`, `clear` |
| `Schema` | table schemas, `toRefIdFieldNames`, `toRefFieldNames`, `toRefSchema(s)`, `getWhitelistFields`, `cacheAllRefFields`, `toCache` |
| `Refs` | `getRefId` (both versions), `getRefValue`, the cached wrappers, `makeCachedPreparedRefFns`, `loadAllRefCache`, `getRefValueFromCache` |
| `RowMaps` | clone, whitelist, skip, the insert and select reference maps, the auto-add column map |
| `Pipeline` | the composed insert, the table and satellite creation it performs, the deduplicating inserts, the select-row function, `insertArrayField` |
| `Archive` | `exportArchive` and the `importArchive` line machine |
| `Migrate` | `migrateUp`, `migrateDown`, `migrateDownUntil` |
| `Codegen` | `makeInsertSql`, the field-name lists, `makeCreateTableSql`, `makeRefTables`, `makeImports`, `makeTable` |
| `CacheSink` | `CacheSink.write`, with a reader of its lines as its inverse |

Where the two helper files differ, a `legacy` flag or a `Legacy…` member models the older file, src/sqlite/helpers.ts. The differences are:

- its `getRefId` has no null guard;
- its `toSqliteDataType` maps a boolean to `boolean`;
- its dedup uses a single field.

`makePreparedRefFns` (src/helpers.ts:925-969) has no caches:

- its `getRefId` is `Refs.LegacyGetRefId`;
- its `getRefValue` is `Refs.GetRefValue`.

Three places where the code and its description disagree; the model follows the code:

- `importArchive` skips the rows of a table named exactly `migration`. The default migration table of src/migrate.ts is `migrations`, so an archive of a database migrated with the defaults re-inserts its migration rows.
- `migrateDownUntil` rolls back in the order its `select` returns rows. There is no `order by`, and the model takes ascending rowid order (the newest migration last), not newest first.
- `migrateDown` and `migrateDownUntil` do not create the bookkeeping table. On a database without it they fail, where `migrateUp` would have created it.

## Model

| member | source | states |
|---|---|---|
| ArrayUtil.Unique | src/utils/array.ts:1-3 | the output has no duplicates, every input element is in it, and nothing else is |
| ArrayUtil.UniqueKeepsFirstOccurrenceOrder | src/utils/array.ts:2 | the elements come out in the order of their first occurrence in the input |
| ArrayUtil.UniqueIdempotent | src/utils/array.ts:2 | de-duplicating twice is de-duplicating once |
| ArrayUtil.UniqueOfDistinct | src/utils/array.ts:2 | a list without duplicates comes back unchanged |
| FunctionUtil.WrapAllRunsLastAddedFirst | src/utils/function.ts:1-8 | `chain(f, g)` runs `f` and then `g`; after `p := chain(m, p)` for each stage in turn, the last stage added runs first, then the others in reverse order, then the original `p` |
| ObjectUtil.MapObject | src/utils/object.ts:1-10 | the result has exactly the input's keys, and `res[k] = fn(object[k], k)` for each one |
| StringUtil.ToCamelCaseFailsIffEmptySegment | src/utils/string.ts:1-6 | `toCamelCase` throws exactly when some `_`-separated segment is empty: empty input, or a leading, trailing or doubled `_` |
| StringUtil.ToCamelCasePieces | src/utils/string.ts:2-5 | the result is the segments in order, each with its first character upper-cased and the rest unchanged |
| StringUtil.ToCamelCaseShape | src/utils/string.ts:1-6 | the result has no `_`, and its length is the input length minus the number of `_` |
| StringUtil.Capitalize | src/utils/string.ts:4 | an empty word throws; otherwise only the first character is upper-cased |
| StringUtil.JoinSplit | src/utils/string.ts:2-5 | joining the `split` pieces with the separator gives the string back |
| Lang.ToSingular | src/utils/lang.ts:1-10 | `ies` becomes `y`; otherwise one trailing `s` is dropped; otherwise, the empty word included, the word is kept; the result is never longer |
| Lang.SingularOfPlural | src/utils/lang.ts:5-8 | a word not ending in `ie` is the singular of itself plus `s` |
| Lang.SingularOfIesPlural | src/utils/lang.ts:2-4 | the singular of a stem plus `ies` is the stem plus `y` |
| JsonText.Quote | src/helpers.ts:774-776 | the escaped field is wrapped in double quotes and holds no raw control character |
| JsonText.QuoteRoundTrip | src/helpers.ts:774-776 | reading an escaped field as a JSON string gives the name back |
| JsonText.QuoteInjective | src/helpers.ts:774-776 | two names escape to the same text exactly when they are equal |
| JsonText.ReadLiteralOfEscape | src/helpers.ts:774-776 | a string literal written by the escaping ends exactly at its closing quote, whatever text follows, so a quoted name can be read off the front of a longer line |
| MemoCache.NewCache | src/utils/cache.ts:7-11 | a new cache is empty, has size 0 and satisfies the size invariant |
| MemoCache.Get | src/utils/cache.ts:12-22 | an own key hits: it returns the stored value and changes nothing; any other key misses: it returns `genFn(key)` and hands it to the store step |
| MemoCache.Store | src/utils/cache.ts:16-20 | on a miss, once `resetSize` is set and the size reaches it, the whole cache is emptied, the new entry included |
| MemoCache.Clear | src/utils/cache.ts:24-27 | `clear` leaves no entries and size 0, and keeps `resetSize` |
| MemoCache.ClearIsValid | src/utils/cache.ts:24-27 | a cleared cache satisfies the size invariant |
| MemoCache.GetPreservesValid | src/utils/cache.ts:12-22 | `get` keeps the invariant: the size is the total UTF-16 length (`key.length`) of the stored keys, and it stays below a positive `resetSize` |
| MemoCache.GetWithoutBudgetOnlyGrows | src/utils/cache.ts:18 | without `resetSize` the cache never clears: the key is resident afterwards and no entry is lost |
| MemoCache.TriggeringEntryNotResident | src/utils/cache.ts:18-21 | a miss that reaches the budget still returns the generated value, but its key is not resident afterwards |
| MemoCache.GetIsTransparent | src/utils/cache.ts:12-22 | with a deterministic generator, `get` returns what the generator would, whatever was cached or cleared before |
| MemoCache.KeyLength | src/utils/cache.ts:17 | `key.length` counts UTF-16 code units: one per character of the Basic Multilingual Plane, two for any other, so between one and two per character |
| MemoCache.AsWrittenGet | src/utils/cache.ts:12-22 | as written, with `key in cache`: an own key hits, a name `Object.prototype` provides is a hit that returns the inherited member and never calls `genFn`, and any other key misses |
| MemoCache.AsWrittenGetDiffersOnPrototypeNames | src/utils/cache.ts:13 | the `in` test agrees with the own-key lookup on every key that is no prototype member name, and returns something other than `genFn(key)` on one that is |
| MemoCache.AsWrittenConstructorHit | src/utils/cache.ts:13 | on a fresh cache, `get("constructor", genFn)` is a hit and stores nothing |
| CacheSink.WriteKeepsKeys | src/cache.ts:24-37 | one write emits exactly one line; keys stay 0, 1, 2, … and pairwise distinct; no earlier key changes |
| CacheSink.WriteAllKeepsKeys | src/cache.ts:11 | over any number of writes the key map only grows, stays dense, and one line is emitted per value |
| CacheSink.WriteAllAppends | src/cache.ts:24-37 | lines already sent are never touched: a run's output extends the earlier output |
| CacheSink.RepeatWritesFirstKey | src/cache.ts:29-36 | the first occurrence of a cached value takes the next key (the number cached so far) and is sent as `c` plus its encoding; a repeat is sent as `k` plus that key and assigns no key |
| CacheSink.UncachedWritesValue | src/cache.ts:25-28 | over a whole run, every value not chosen for caching is sent as `v` plus its encoding at its own position in the output, however often it recurs, and never gets a key |
| CacheSink.RoundTrip | src/cache.ts:3-7 | when decoding inverts the encoding and key parsing inverts `int_to_str`, reading the lines back yields every value written, in order |
| Values.SqliteType | src/helpers.ts:513-526 | string → `text`, boolean → `integer`, object or null → `json`, integral number → `integer`, other number → `real`, anything else → `blob`, each in both directions |
| Values.LegacySqliteType | src/sqlite/helpers.ts:444-457 | a boolean, and only a boolean, gives `boolean`; every type name is one of the six SQLite names |
| Values.SqliteTypeVersionsDifferOnBooleansOnly | src/sqlite/helpers.ts:448-449 | the two versions agree on a value exactly when it is not a boolean |
| Schema.RefIdFieldNames | src/helpers.ts:131-139 | one id column per reference field, and `[]` without `refFields` |
| Schema.RefSchemasAgreeWithNames | src/helpers.ts:288-312 | the i-th reference schema has the i-th names of `toRefFieldNames` and `toRefIdFieldNames` |
| Schema.ToRefSchema | src/helpers.ts:292-312 | a full schema is kept; a bare name gets `name + suffix` as id column, and the table's cache options only when it is listed in `cacheFields` |
| Schema.WhitelistFields | src/helpers.ts:116-127 | no whitelist when the option is unset or false, or when it is `true` without `fields`; a list as given; `true` gives the `fields` keys followed by the reference id columns |
| Schema.CacheAllRefFields | src/helpers.ts:768-772 | the new `cacheFields` is duplicate-free and holds exactly the old entries plus every reference field name; nothing else in the schema changes |
| Schema.CacheAllRefFieldsCachesEveryBareRef | src/helpers.ts:768-772 | afterwards every bare reference field gets the table's cache options |
| Schema.ToCache | src/helpers.ts:555-562 | there is no cache exactly when neither `cache` nor a non-zero `cacheSize` is given; a fresh cache gets `cacheSize` as its budget |
| Refs.FindId | src/helpers.ts:361-363 | the lookup finds the first satellite row SQL-equal to the value; when nothing matches there is no row |
| Refs.GetRefId | src/helpers.ts:368-379 | null and undefined give null and leave the table alone; any other value gives the id of a row holding it, inserting exactly one row when the value is absent |
| Refs.LegacyGetRefId | src/sqlite/helpers.ts:343-349 | every value, null included, gives the id of a row holding it; a nullish value always inserts a fresh row |
| Refs.GetRefIdIdempotent | src/helpers.ts:374-378 | a second call with the same value returns the same id and adds no row |
| Refs.LegacyGetRefIdOfNullAlwaysInserts | src/sqlite/helpers.ts:343-349 | two lookups of null add two rows |
| Refs.GetRefIdKeepsUniqueValues | src/helpers.ts:370-379 | both versions keep the satellite values pairwise distinct under SQL equality |
| Refs.RepeatedValueSharesOneRow | src/helpers.ts:374-378 | looking a value up any number of times adds at most one row, and every call returns the same id |
| Refs.RepeatedValueFindsSameRow | src/helpers.ts:374-377 | once the value is stored, repeated lookups add no row and return its id |
| Refs.GetRefValue | src/helpers.ts:648-650 | an id of a stored row gives its value; any other id fails |
| Refs.GetRefValueInvertsGetRefId | src/helpers.ts:648-650 | the value of the id returned for a non-null value is that value |
| Refs.NullIdDoesNotRoundTrip | src/helpers.ts:371-373 | the null returned for a nullish value cannot be looked up |
| Refs.GetRefIdInvertsGetRefValue | src/helpers.ts:374-377 | with distinct values, looking up the value of an id returns that id and adds no row |
| Refs.CachedGetRefId | src/helpers.ts:381-386 | a nullish value gives null without touching the cache; a hit returns the cached id; a miss runs `getRefId` and caches its id |
| Refs.CachedGetRefIdIsTransparent | src/helpers.ts:381-386 | with a cache that agrees with the table, the cached lookup gives the same table and id as `getRefId`, and the cache keeps agreeing |
| Refs.LegacyCachedGetRefId | src/sqlite/helpers.ts:351-354 | a hit returns the cached id; a miss runs the unguarded `getRefId` and caches its id |
| Refs.LegacyCachedGetRefIdIsTransparent | src/sqlite/helpers.ts:351-354 | the older cached lookup behaves as the uncached one under a cache that agrees with the table |
| Refs.CachedGetRefValue | src/helpers.ts:652-655 | a hit returns the cached value; a miss looks the id up and caches the value only when it was found |
| Refs.CachedGetRefValueIsTransparent | src/helpers.ts:652-655 | with a coherent cache the cached value lookup equals the uncached one, also after rows are appended to the satellite table |
| Refs.PreparedGetRefId | src/helpers.ts:877-890 | a cached value returns its id; otherwise select-or-insert, and the id is cached under the value |
| Refs.PreparedGetRefIdIsTransparent | src/helpers.ts:877-890 | with coherent caches, `getRefId` returns what select-or-insert on the table would, and keeps both caches coherent |
| Refs.PreparedGetRefValue | src/helpers.ts:892-905 | a cached id returns its value; otherwise an unknown id throws and a known one is cached |
| Refs.PreparedGetRefValueIsTransparent | src/helpers.ts:892-905 | with coherent caches, `getRefValue` returns what the table holds, fails exactly when it would, and keeps the caches coherent |
| Refs.PopulateCache | src/helpers.ts:907-914 | after `populateCache` every stored id maps to its value and every stored value is cached |
| Refs.PopulateCacheKeepsCoherence | src/helpers.ts:907-914 | over a table of distinct values, populating keeps both caches in agreement with the table |
| Refs.LoadAllRefCache | src/helpers.ts:813-826 | the loaded cache maps exactly the stored ids, each to its value |
| Refs.GetRefValueFromCache | src/helpers.ts:828-838 | an id in the cache gives its value; any other id throws |
| Refs.LoadedCacheAgreesWithTable | src/helpers.ts:813-838 | reading through the loaded cache succeeds and fails exactly as reading the table |
| RowMaps.CloneRow | src/helpers.ts:253-255 | the clone has the same keys and values |
| RowMaps.WhitelistRow | src/helpers.ts:257-263 | the result's keys are exactly the whitelist; a listed key absent from the row reads `undefined` |
| RowMaps.SkipRow | src/helpers.ts:265-270 | exactly the listed keys are deleted, and the other values are kept |
| RowMaps.WhitelistAndSkipIdempotent | src/helpers.ts:257-270 | whitelisting or skipping twice is doing it once |
| RowMaps.InsertRef | src/helpers.ts:274-283 | a row without the field is unchanged; otherwise the field is removed and the id column set to the resolved id, even for an `undefined` value; no other key changes; only that satellite table changes |
| RowMaps.InsertRefsKeepsOtherKeys | src/helpers.ts:272-286 | the insert reference map changes no key outside the reference fields and their id columns |
| RowMaps.InsertRefsExtendsStore | src/helpers.ts:272-286 | satellite tables only grow: every earlier row keeps its id |
| RowMaps.InsertRefsCommutesWithOtherKeys | src/sqlite/helpers.ts:240-254 | setting or deleting a key that is no reference name before the map is the same as doing it after |
| RowMaps.SelectRef | src/helpers.ts:659-669 | a row without the id column is unchanged; otherwise the id column is removed and the field set to the satellite value, and an unknown id fails |
| RowMaps.SelectRefs | src/sqlite/helpers.ts:588-603 | a row holding none of the reference names comes back unchanged |
| RowMaps.SelectRefsInvertsInsertRefs | src/helpers.ts:657-672 | for independent reference fields all present with values, the select map undoes the insert map, also after more rows are added to the satellite tables |
| RowMaps.NullRefDoesNotRoundTrip | src/helpers.ts:648-650 | a reference stored from a nullish value gets id null, and selecting it back fails |
| RowMaps.LegacyNullRefAddsRowEachTime | src/sqlite/helpers.ts:343-349 | in the older version each row with a nullish reference adds one more satellite row |
| RowMaps.AutoAddColumns | src/helpers.ts:500-511 | afterwards every row key is a column, existing columns keep their types, and a new column gets the type of the row's value |
| RowMaps.AutoAddIsIdempotent | src/helpers.ts:500-511 | a second identical row adds no column |
| RowMaps.AutoAddAsWritten | src/helpers.ts:488-511 | the as-written loop never drops or retypes a field of the `TableInfo` snapshot or a column SQLite already holds, including when a statement fails part-way |
| RowMaps.AutoAddFields | src/helpers.ts:500-511 | the `forEach` loop, with the first rejected `alter table` ending it, computes the as-written run; with a current snapshot and plain keys it ends without error at the summary's columns |
| RowMaps.AutoAddAsWrittenKnown | src/helpers.ts:488-498 | the snapshot's fields grow by exactly the fields the loop added, since `addField` records a field only after `db.exec` accepted it |
| RowMaps.AutoAddAsWrittenAdds | src/helpers.ts:500-511 | each added field is a row key the snapshot did not know and not a name every object inherits, and SQLite has the column it read from the unquoted statement |
| RowMaps.AutoAddAsWrittenStops | src/helpers.ts:494-505 | a run without error leaves every key known or inherited; a failed run names a key that was neither and that SQLite could not parse or already had under some case |
| RowMaps.AutoAddAsWrittenIsSummary | src/helpers.ts:500-511 | with the snapshot equal to SQLite's columns, every key read as itself, no inherited names and no case clashes, the as-written loop succeeds and yields exactly `AutoAddColumns` |
| RowMaps.AutoAddOneKey | src/helpers.ts:494-505 | for one new key: an inherited name is skipped and never added, an unreadable spelling is a syntax error, a column SQLite holds under any case is a duplicate, and otherwise the column is added to both the snapshot and SQLite |
| RowMaps.CaseVariantIsDuplicate | src/helpers.ts:494-505 | a key that differs from an existing column only in ASCII case, such as `Name` beside `name`, makes the `alter table` fail |
| RowMaps.StaleSnapshotFails | src/helpers.ts:90-92 | two insert functions built from one snapshot: the first adds the column and the second, which does not know it, fails on the same key |
| RowMaps.CachedInsertRef | src/helpers.ts:274-283 | with an id cache, a row without the field is unchanged; otherwise the field gives way to its id column and no other key or satellite table changes |
| RowMaps.CachedInsertRefIsTransparent | src/helpers.ts:326-332 | a field looked up through a cache that agrees with its satellite table gives the same table and row as the uncached lookup, and the cache keeps agreeing |
| RowMaps.PerFieldCacheIsTransparent | src/helpers.ts:307-332 | with one cache per reference field, each agreeing with its table, the cached reference map gives the same tables and row as the uncached one, and every cache keeps agreeing |
| RowMaps.SharedCacheCollision | src/helpers.ts:307-309 | with one `cache` object shared by `author` and `tag`, a row whose two fields hold the same text gets the author's id as `tag_id`, and the tag table never receives the text |
| Pipeline.Apply | src/helpers.ts:253-263 | the clone and whitelist stages hand a fresh object on; the other stages pass on the object they were given |
| Pipeline.TerminalInsert | src/helpers.ts:178-182 | the insert fails exactly on a missing table or column or a refused rowid; otherwise only that table changes, by the insert into it, and its rowid is returned |
| Pipeline.InsertIntoTable | src/helpers.ts:147-149 | one row is added and the rest keep their order; without an alias it is appended with rowid count + 1; with one, a null alias column gets one more than the largest rowid and the row is appended with it, an integer is the rowid unless taken (a UNIQUE failure), and anything else fails; a row whose integer is above every stored rowid goes at the end as given |
| Pipeline.NextRowid | src/helpers.ts:147-149 | the rowid chosen for a null alias column is above every stored rowid, is 1 in an empty table, and is otherwise one more than a stored rowid |
| Pipeline.Position | src/helpers.ts:147-149 | an explicit rowid goes after every row with a smaller one and before the first with a larger one |
| Pipeline.InsertKeepsRowidOrder | src/helpers.ts:147-149 | a successful insert keeps a table with an alias in ascending rowid order |
| Pipeline.InsertRunsStagesInDocumentedOrder | src/helpers.ts:83-114 | the composed insert runs clone, whitelist, skip, reference map, auto-add, then the insert, each stage only when its option is set |
| Pipeline.InsertRowMutatesCallerOnlyInPlace | src/helpers.ts:99-112 | the caller's row object is changed only under `inplaceUpdate` without a whitelist, and then it is the stored row, apart from a rowid SQLite fills into a null alias column |
| Pipeline.InsertRowStores | src/helpers.ts:83-114 | a successful insert adds exactly one row to the schema's table and keeps the earlier rows in order; without an alias it is appended and its row number returned, with one the returned id is an integer rowid no earlier row had, held by the new row |
| Pipeline.Step | src/helpers.ts:99-112 | one `chain` link run for its side effects: after a throw nothing more runs; otherwise it throws exactly when the stage fails, and hands on the stage's flow |
| Pipeline.StagedEffectAgrees | src/helpers.ts:99-112 | the stages run for their side effects throw exactly when the composed stages fail, and otherwise hand the insert the same flow |
| Pipeline.StagedEffectKeeps | src/helpers.ts:99-112 | the stages, whether or not one throws, keep every table and its rows and every satellite row, and hand on the caller's own row object exactly under `inplaceUpdate` without a whitelist |
| Pipeline.InsertRowEffect | src/helpers.ts:83-114 | the database and the caller's row after the composed insert, whether or not it throws; a successful insert leaves exactly what `InsertRow` gives |
| Pipeline.InsertRowEffectOnFailure | src/helpers.ts:83-114 | a failed insert leaves what the stages before the failure made: no table's rows change, the satellite rows the reference map inserted and the columns auto-add added stay, and the caller's row is the one the stages rewrote under `inplaceUpdate` without a whitelist, untouched otherwise |
| Pipeline.FieldsMapOfDistinct | src/helpers.ts:158-161 | when the entry names are distinct, as the entries of an object always are, each name maps to its own type, so the map reading of `fields` (the created columns) and the list reading (the generated `create table`) agree |
| Pipeline.CreatedColumns | src/helpers.ts:151-170 | the created table has exactly the `fields` entries, or `id integer primary key` without them, and an `integer` column per reference id column (corrected: see Findings) |
| Pipeline.CreatedAlias | src/helpers.ts:147-166 | the created table's rowid alias is a created column declared `integer primary key`, or the single `primaryKeys` column declared `integer`; without `fields` it is `id` unless `id` is a reference id column |
| Pipeline.AsWrittenCreatedColumns | src/helpers.ts:157-159 | as written, without `fields` the reference id columns are written into `defaultTableFields` itself, and the table gets that object as it then stands |
| Pipeline.AsWrittenCreatedColumnsFirstUse | src/helpers.ts:157-159 | while `defaultTableFields` is untouched, the columns as written are the corrected ones |
| Pipeline.DefaultFieldsLeak | src/helpers.ts:157-159 | after `post` with reference field `author` is created without `fields`, a `tag` table without `fields` or reference fields is created with an `author_id` column |
| Pipeline.BuildInsert | src/helpers.ts:151-170 | building fails exactly when a satellite table is missing and not marked `autoCreateTable`, since the lookup statements are prepared against it; it creates the table under `autoCreateTable` without `createTableSql`, and changes no existing table or satellite |
| Pipeline.CreateSatellites | src/helpers.ts:348-366 | each satellite table that is missing and marked `autoCreateTable` is created empty, and every existing one is kept |
| Pipeline.CreatedSatellites | src/helpers.ts:348-366 | the satellites left behind keep every existing one, and after a successful build they are the store `CreateSatellites` gives |
| Pipeline.CreatedSatellitesStop | src/helpers.ts:355-364 | when building fails, the satellites left behind are those the reference fields before some field k created, and field k's satellite is missing and not marked `autoCreateTable` |
| Pipeline.BuildEffect | src/helpers.ts:83-98 | the database after building, whether or not it throws: a successful build leaves exactly what `BuildInsert` gives; the main table exists under `autoCreateTable` without `createTableSql` even when a later lookup fails; existing tables are unchanged; a failed build leaves the satellites the earlier reference fields created |
| Pipeline.BuildPreparesRefTables | src/helpers.ts:94-99 | after a successful build the reference map finds all its satellite tables |
| Pipeline.BuildDedup | src/helpers.ts:211-222 | preparing the dedup select fails on an empty field list, a missing table or a missing column |
| Pipeline.FirstMatch | src/helpers.ts:219-221 | the select finds the first stored row equal to the row on at least one dedup field; NULL matches nothing |
| Pipeline.DedupInsert | src/helpers.ts:184-203 | when a stored row matches, its `idField` is returned and nothing is inserted; otherwise the call goes to the wrapped insert |
| Pipeline.DedupInsertIsIdempotent | src/helpers.ts:195-201 | a row with a value in some dedup field, inserted twice, is stored once |
| Pipeline.LegacyDedupInsert | src/sqlite/helpers.ts:164-183 | a stored row equal on the one dedup field stops the insert; otherwise the call goes to the wrapped insert |
| Pipeline.LegacyDedupIsSingleFieldDedup | src/sqlite/helpers.ts:164-200 | the single-field version is the multi-field one with a one-element list |
| Pipeline.CachedDedupInsert | src/helpers.ts:231-238 | the cache key is the JSON text of the dedup values; a hit skips the database and a miss caches the id |
| Pipeline.CachedDedupRepeatHits | src/helpers.ts:235-238 | a row inserted twice reaches the database at most once and gets the same id, unless the first store cleared the cache |
| Pipeline.LegacyCachedDedupInsert | src/sqlite/helpers.ts:209-216 | the older cache is keyed on the raw dedup value; a hit skips the database and a miss caches the id |
| Pipeline.SelectRow | src/helpers.ts:584-597 | `select * limit 1 offset ?` returns every column, NULL where unset; past the end it yields nothing, and the reference map then fails |
| Pipeline.RefRowRoundTrip | src/helpers.ts:584-597 | a row stored through the reference map at the end of its table, and selected back at that offset, is the original row |
| Pipeline.InsertArrayField | src/helpers.ts:567-576 | `undefined` rows do nothing; each row gets the id fields assigned, overwriting keys of the same name |
| Pipeline.InsertArrayFieldAppendsRows | src/helpers.ts:567-576 | into a table with every needed column, the rows are appended in order with the id fields assigned; a null rowid alias column gets the next rowid, one more for each row |
| Pipeline.InsertArrayFieldEffect | src/helpers.ts:567-576 | the database and the rows as the caller sees them after `insertArrayField`, whether or not it throws; on success the database is `InsertArrayField`'s, and the rows are its assigned rows when the insert does not rewrite them |
| Pipeline.InsertArrayFieldStop | src/helpers.ts:572-575 | a failing `insertArrayField` stops at some row k: the rows before it were inserted and stay, row k with the id fields assigned is rejected, what that insert leaves stays, and no later row is reached or assigned |
| Archive.KeysOf | src/archive.ts:28-30 | the keys come from the first row, and an empty table has none |
| Archive.RowCols | src/archive.ts:38-44 | a row line has one entry per key, in key order, with `undefined` written as null |
| Archive.ExportArchive | src/archive.ts:14-47 | the export ends without error exactly when every table name reads as itself unquoted; it then holds every table's lines, otherwise those of the tables before the first name that does not |
| Archive.ArchiveLines | src/archive.ts:25-46 | the lines of a catalog are one per table plus one per row |
| Archive.TableLinesFraming | src/archive.ts:24-46 | each table gives one meta line (name, create statement, keys, count) followed by one array line per row |
| Archive.OnLine | src/archive.ts:69-99 | a meta line is reported and, with count 0, leaves the machine awaiting meta; a non-zero count needs every name to read as itself and the table and columns to exist; another line awaiting meta fails, reported unless it is `null` or does not parse; a row line spreads an array or a string, and anything else fails |
| Archive.Chars | src/archive.ts:96 | a string spread into arguments gives one one-character string per character |
| Archive.TakenRowidStopsImport | src/archive.ts:91-97 | a row line whose `integer primary key` value a stored row already has stops the import and writes nothing |
| Archive.ImportLines | src/archive.ts:101-105 | once a line has failed, nothing further happens |
| Archive.ImportLinesAppend | src/archive.ts:101-105 | importing two pieces in turn is importing them joined |
| Archive.ImportKeepsNamespace | src/archive.ts:82-98 | importing creates no table and touches no satellite: the table names and the satellites stay as they were, so a database with one namespace keeps it |
| Archive.RowOfRowCols | src/archive.ts:90-96 | inserting a row line positionally into the keys' columns gives the row's stored values |
| Archive.RowLinesAreInserted | src/archive.ts:82-98 | after a meta line with count n, the next n lines are inserted into that table, then the machine awaits meta again |
| Archive.TableLinesAreRead | src/archive.ts:69-99 | a table's lines append its rows (none for `migration`) and report its meta once |
| Archive.ReadTableKeepsImportable | src/archive.ts:82-98 | reading one table's rows leaves every other table exactly as importable as before |
| Archive.ExportThenImport | src/archive.ts:14-106 | importing an export reads every table in turn and reports each meta line in order |
| Archive.ArchiveRoundTrip | src/archive.ts:14-106 | when every table name reads as itself unquoted, the export completes; into target tables with the needed columns and no colliding rowid, its import appends each table's rows (except `migration`) and leaves every other table alone |
| Archive.NegativeCountNeverEnds | src/archive.ts:90-98 | a meta line with a negative count never hands back to the meta parser |
| Migrate.TableName | src/migrate.ts:18 | the bookkeeping table is the given name; a missing or empty name gives `migrations` |
| Migrate.Find | src/migrate.ts:27-31 | the select finds the first row with the name, or nothing when none has it |
| Migrate.EnsureTable | src/migrate.ts:19-26 | `create table if not exists` adds an empty table only when it is missing |
| Migrate.MigrateUp | src/migrate.ts:12-45 | `migrateUp` leaves the bookkeeping table in place |
| Migrate.RecordKeepsInvariants | src/migrate.ts:41-42 | recording a new name keeps the ids ascending and the names unique |
| Migrate.UpEachAppends | src/migrate.ts:38-44 | the migrations in list order only append rows, and the log gets exactly their `up` scripts |
| Migrate.UpEachKeepsInvariants | src/migrate.ts:38-44 | ascending ids and unique names survive a run |
| Migrate.UpEachRecordsAll | src/migrate.ts:38-44 | after a successful run every listed name is recorded |
| Migrate.UpEachOfRecorded | src/migrate.ts:40 | a run whose names are all recorded changes nothing |
| Migrate.MigrateUpIdempotent | src/migrate.ts:12-45 | a second `migrateUp` with the same list changes nothing |
| Migrate.DeleteId | src/migrate.ts:62 | `delete … where id = ?` keeps exactly the rows with another id |
| Migrate.DeleteIdRemovesOne | src/migrate.ts:62-66 | with unique ids, deleting a row's id removes that row alone |
| Migrate.RollBack | src/migrate.ts:63-66 | the rollback transaction either runs `down` and deletes the row, or changes nothing |
| Migrate.MigrateDownOfUnknown | src/migrate.ts:58-61 | an unknown name throws exactly when `throw` is set, and changes nothing |
| Migrate.MigrateDownRemovesRow | src/migrate.ts:47-67 | `migrateDown` runs the row's `down` and deletes exactly that row, or, when `down` fails, changes nothing |
| Migrate.UpThenDown | src/migrate.ts:12-67 | migrating one new migration up and then down restores the bookkeeping table and logs `up` then `down` |
| Migrate.AtLeast | src/migrate.ts:89-96 | the rows to roll back are exactly those with an id at least the named row's |
| Migrate.RollbackOrderIsAscending | src/migrate.ts:89-96 | the rollback order is ascending id |
| Migrate.DownEachCommitsPrefix | src/migrate.ts:97-102 | each rollback is its own transaction: the rows before the first failing `down` are gone, and the later ones stay |
| Migrate.DownUntilTargets | src/migrate.ts:73-103 | `migrateDownUntil` deletes and logs exactly the committed prefix of the rows at or above the named id |
| Migrate.MigrateDownUntilRollsBackSuffix | src/migrate.ts:73-103 | when every `down` succeeds exactly the rows below the named id remain; rows below it survive in any case |
| Migrate.MigrateDownUntilOfUnknown | src/migrate.ts:84-87 | an unknown name throws exactly when `throw` is set, and changes nothing |
| Codegen.InsertSqlColumnsReadBack | src/codegen.ts:18-25 | the column block of `makeInsertSql` reads back as the given fields, in order |
| Codegen.PlaceholderCount | src/codegen.ts:21 | the values list has exactly one `?` per field and nothing else between commas |
| Codegen.NameList | src/codegen.ts:42-51 | the name lists are duplicate-free and hold exactly the non-empty candidates |
| Codegen.NameListOrder | src/codegen.ts:42-51 | names come in the order of their first occurrence among the candidates |
| Codegen.ToRowFieldNames | src/codegen.ts:42-51 | no duplicates, no empty names; exactly the id field, `fields` keys, reference id columns and dedup fields |
| Codegen.RowFieldNamesOrder | src/codegen.ts:42-51 | first-occurrence order is id field, `fields` keys, reference id columns, dedup fields; a set id field comes first |
| Codegen.ToDataFieldNames | src/codegen.ts:53-62 | the same with the reference field names in place of their id columns |
| Codegen.PlainFieldNames | src/codegen.ts:32-40 | `toFieldNames` draws on the id field, `fields` keys and dedup fields only |
| Codegen.FieldNamesReadBack | src/codegen.ts:32-40 | each escaped name reads back as the plain name at its position, and the escaped names are distinct |
| Codegen.FieldNamesWithoutRefs | src/codegen.ts:32-51 | without reference fields, `toFieldNames` escapes exactly `toRowFieldNames` |
| Codegen.CreateTableColumns | src/codegen.ts:64-81 | one column per `fields` entry, one per reference id column, and one more exactly when `primaryKeys` is set |
| Codegen.PrimaryKeyClauseIsLast | src/codegen.ts:73-76 | a column definition is a primary key clause exactly when it is the last one and `primaryKeys` is set |
| Codegen.CreateTableReadBack | src/codegen.ts:64-81 | the column block of `makeCreateTableSql` reads back as the intended definitions in order: each `fields` entry with its own name and type, then each reference id column as `integer`, then the primary key with its names when `primaryKeys` is given; with no definition the block is empty |
| Codegen.RefPieces | src/codegen.ts:195-233 | each reference field gives either nothing or the code of its own satellite table |
| Codegen.RefTablesOncePerTable | src/codegen.ts:191-235 | each distinct create statement gets its code once, at its first occurrence; later duplicates give `''` |
| Codegen.SortImports | src/codegen.ts:317-325 | sorting keeps exactly the import lines |
| Codegen.SortImportsSorted | src/codegen.ts:317-325 | with an antisymmetric `compare`, the lines come out ordered by their last space-separated token |
| Codegen.SortImportsStable | src/codegen.ts:317-325 | the sort is stable, as `Array.prototype.sort` is: the lines of one module come out in their input order, whenever `compare` ranks that module no higher than itself |
| Codegen.ImportsNewCacheIff | src/codegen.ts:302-313 | the `newCache` import is present exactly when some table has a cached reference field, or the caller passed it |
| Codegen.ImportLinesReadBack | src/codegen.ts:293-316 | the import block splits at line breaks into the sorted lines |
| Codegen.AsWrittenInsertValues | src/codegen.ts:120-123 | the generated insert call passes the `toFieldNames` data first and the reference ids after |
| Codegen.AsWrittenValuesMisaligned | src/codegen.ts:113-123 | for a table with a reference field and a dedup field outside `fields`, the arguments as written land in each other's columns |
| Codegen.InsertValues | src/codegen.ts:113-123 | the intended arguments bind one per insert column, in column order, a reference id exactly for a reference id column |
| Codegen.InsertValuesDistinct | src/codegen.ts:113-123 | no column receives two arguments |
| Codegen.MakeTableInsert | src/codegen.ts:107-148 | code is generated exactly when `toCamelCase(schema.table)` succeeds, with the insert functions named after it; the insert names each row column once with one placeholder per argument, the arguments in column order (corrected: see Findings); the dedup code exists exactly when `deduplicateFields` and `idField` are set, and shares that insert |
| Codegen.MakeTableCreate | src/codegen.ts:118-135 | the table is created only under `autoCreateTable`, by `createTableSql` when given and else the generated statement; a given `createIndexSql` runs whatever `autoCreateIndex` says, unlike the deduplicating variant's index, which runs only under `autoCreateIndex` |

## Left out

- SQL execution is abstract. Tables and satellite tables are sequences of rows. The engine's `create`, `alter`, `insert`, `select` and `delete` are functions on them. A transaction is one atomic step, and a failing script leaves the database as it was.
- The text of `createTableSql`, `createIndexSql` and the unique indices is not interpreted. A unique index is not enforced on inserts.
- `autoCreateIndexFromSchema` and `autoCreateIndexFromDeduplicatedSchema` are left out. They only run SQL text.
- PRAGMA, `vacuum`, index and table removal, and `recreateTable` are left out. So is catalog introspection (`getTableFields`, `getAll*`); it becomes the column map of the abstract table.
- `createDB`, `delDBFile`, the `readline` interface, `console` output, src/sqlite/sqlite.ts and src/db.ts are I/O and are left out. The archive reader is a sequence of lines.
- Archive lines are already-parsed JSON values: a meta object, an array, another non-object value, or text that does not parse. `JSON.stringify`/`JSON.parse` of those lines is not modelled.
- Archive.OnLine: an object line other than a well-formed meta object is left out. Its fields would be read as `undefined` and its keys would be joined, and the JavaScript outcome depends on which fields it has.
- JSON text is modelled only for strings (`escapeField`). `JSON.stringify` of the dedup values and the `CacheSink` encoder are parameters.
- `int_to_str` (utils/base-62.ts), `compare` and the `Sink` base class are not part of this model. They are parameters.
- `CacheSink.close` is left out: it only forwards to the downstream sink.
- CacheSink.Write has no contract of its own. Its behaviour is stated by the lemmas in the table.
- The `CacheSink` value map uses JavaScript `Map` identity. The model compares values by equality.
- Values.SqliteType: `isInt` uses `parseInt` and floating point. A number here is an exact rational, and "integral" means no fractional part. Float rounding, `NaN` and infinities are left out.
- Refs.CachedGetRefId: the memo cache has string keys. Only text and nullish reference values are modelled; JavaScript's conversion of other values to property keys is not.
- Refs.LegacyCachedGetRefId: only text values are modelled, for the same reason.
- Pipeline.LegacyCachedDedupInsert: only a text dedup value is modelled, for the same reason.
- `Refs.CachedGetRefValue` keys the cache by numeric id. JavaScript then turns `size` into `NaN`, so that cache never clears; it is an unbounded map.
- Refs.PreparedGetRefId: `val_cache` and `id_cache` are plain objects. The model ignores prototype keys and key coercion, and stores `null` under its own key.
- Refs.PopulateCacheKeepsCoherence: it needs distinct values. With duplicates, `populateCache` keeps the last id for a value.
- A meta line naming a key twice is left out; the row line then sets one column twice.
- Binding a JavaScript object as a column value is left out.
- `makeSelectJoin` and its cached variant, `makeSelectRefFieldArray`, `iterateRows`, `countRows` and `makeSchemaScanner` are not part of this model. They are not in the modelled core, and the cached join calls a cache method the cache interface lacks.
- `makeRowType`, `makeInlineGetRefId`, `makeInlineGetCachedRefId`, the statement-name helpers and the text layout of the generated TypeScript are not part of this model. Generated code is a record of its statements and insert arguments.
- Migration scripts are opaque. A predicate says whether a script succeeds, and the log records the scripts that committed. A script that changes the bookkeeping table itself is left out.
- Migration names are not unique in the table. `migrateDown` finds the first row with the name.
- Pipeline.Apply: the reference map stage is modelled with uncached lookups, as with a cache per field. The `cache` option that src/helpers.ts:307-309 copies into every listed field is modelled separately (`RowMaps.SharedCacheInsertRefs`, see Findings).
- Pipeline.SelectRow: the select-side value caches are left out for the same reason; a shared `cache` would equally return one field's value for another's id.
- Pipeline.TerminalInsert: a text value in an `integer primary key` column that SQLite would convert to an integer is refused, not converted. A rowid alias is recognised only from the exact spelling `integer primary key` or from a one-column `primaryKeys` declared `integer`. The random rowid SQLite picks once the largest rowid is the largest 64-bit integer is left out.
- Pipeline.CreatedAlias: a table with both an `integer primary key` column and `primaryKeys` fails to be created in SQLite ("more than one primary key"); the model creates it with the first alias.
- Pipeline.RefRowRoundTrip: it needs the row to go in at the end as given (no alias, or an alias value above every stored rowid). An alias left null is filled with the rowid and does not read back as the original.
- Pipeline.InsertRow: its `Err` carries only the message. Nothing rolls a failed insert back (src/helpers.ts:83-114), so the satellite rows and columns the earlier stages added and the rewritten caller row stay; `Pipeline.InsertRowEffect` gives that state.
- Pipeline.InsertArrayField: its `Err` carries only the message, and its rows are those after `Object.assign` only. The rows and satellite rows inserted before the failing one stay (src/helpers.ts:572-575), and an `inplaceUpdate` insert rewrites each row further; `Pipeline.InsertArrayFieldEffect` gives both, with what one insert leaves as the parameters `fail` and `seen`.
- Pipeline.TerminalInsert: table and column names are matched exactly. SQLite resolves both without regard to ASCII case, quoted or not (src/helpers.ts:178-182), so a row key `Title` for a column `title`, or the table `Post` for `post`, is accepted by SQLite and refused by the model. Only the auto-add duplicate check folds case (`RowMaps.HasColumn`).
- Pipeline.InsertIntoTable: a row's keys are column names compared exactly, for the same reason; two keys that differ only in ASCII case are two columns here.
- Pipeline.InsertArrayFieldAppendsRows: it needs every row to leave the rowid alias null. Rows with explicit ids are placed by `InsertIntoTable`.
- Refs.GetRefValueInvertsGetRefId: satellite values are stored as given. SQLite type affinity is left out: the older satellite column is declared `text` (src/sqlite/helpers.ts:303-305), so a number stored there reads back as text, and a declared reference field may carry its own column `type` (src/helpers.ts:781).
- Refs.LegacyGetRefId: the same; values are compared as given, not after `text` affinity.
- RowMaps.SelectRefsInvertsInsertRefs: the same; it holds for values that affinity leaves unchanged.
- Pipeline.RefRowRoundTrip: the same affinity caveat applies to every column, reference values included.
- Values.SqlEq: a number and a bigint of the same value are not equated.
- MemoCache.Get: it models an own-key lookup; the `in` test as written also hits names inherited from `Object.prototype` (see Findings). Storing under `__proto__`, which sets the object's prototype instead, is left out.
- MemoCache.GetIsTransparent: the same; it holds for keys that name no `Object.prototype` member.
- Refs.CachedGetRefId: the same; a value such as `"constructor"` makes the lookup as written return a function.
- Refs.CachedGetRefIdIsTransparent: the same.
- Refs.LegacyCachedGetRefId: the same.
- Refs.LegacyCachedGetRefIdIsTransparent: the same.
- RowMaps.CachedInsertRef: a value that is neither text nor nullish is looked up directly, not under its property-key spelling.
- MemoCache.GetPreservesValid: key length is in UTF-16 code units via `KeyLength`; a string is a sequence of code points, so lone surrogates are not represented.
- StringUtil.ToCamelCasePieces: upper-casing is ASCII only. JavaScript's `toUpperCase` also maps other letters, some to two characters (`ß` to `SS`).
- StringUtil.ToCamelCaseShape: the same; the length claim holds because ASCII upper-casing keeps one character per character.
- StringUtil.Capitalize: the same.
- Codegen.MakeTableInsert: it states the corrected argument order, not the order as written (see Findings). Its `Codegen.AsWrittenInsertValues` states the order as written.
- `makeTables` is left out: it maps `makeTable` over the list and joins the text.
- Archive.ArchiveRoundTrip: table and column names are read unquoted by SQLite according to the `bare` parameter; SQLite's keyword list and tokenizer are not modelled.
- RowMaps.AutoAddColumns: it is the summary the pipeline uses, and equals the as-written loop only under the conditions of `RowMaps.AutoAddAsWrittenIsSummary`: a current snapshot, keys SQLite reads as themselves, no inherited names and no case clashes. Which spellings SQLite reads unquoted as themselves is a parameter (`read`), since its tokenizer and keyword list are not modelled.
- RowMaps.AutoAddFields: the declared type in the unquoted `alter table` is assumed to be read as given; only the column name's reading is a parameter.
- Pipeline.Apply: the auto-add stage uses the summary `RowMaps.AutoAddColumns` on the table's current columns, so it models a run where `RowMaps.AutoAddAsWrittenIsSummary` applies. The failures of `RowMaps.AutoAddAsWritten` (unreadable names, case clashes, a stale snapshot) and the inherited names it skips do not reach the pipeline.
- Pipeline.CreatedColumns: the newer `autoCreateTable` joins each name and type with a space, unquoted (src/helpers.ts:160-161, src/sqlite/helpers.ts:146). The model assumes every field and reference id name is read by SQLite as itself; a name with a space or a keyword would make the `create table` fail.
- Pipeline.BuildInsert: the same unquoted names; the build is modelled as if the `create table` always parses.
- Refs.LoadAllRefCache: `select ${idField}, ${field} from ${field}` splices the names in unquoted (src/helpers.ts:820). The model assumes both names are read by SQLite as themselves.
- Pipeline.BuildInsert: it is the successful outcome only. A failed build throws after `autoCreateTable` (src/helpers.ts:87) and the satellite tables of the earlier reference fields (src/helpers.ts:355-357) have run, so those tables stay; `Pipeline.BuildEffect` gives that database.
- Pipeline.Db: ordinary tables and satellites are kept in two maps, while SQLite has one namespace (`Pipeline.OneNamespace`). Building does not check it, so a main table named like a satellite is created in both maps where SQLite's `create table if not exists` would find the existing table. The archive import keeps the namespace (`Archive.ImportKeepsNamespace`).
- Archive.OnLine: a meta line's table and column names are checked exactly against the model's tables. SQLite resolves the names in `insert into ${table} (${fields})` (src/archive.ts:83-87) without regard to ASCII case, so a meta line naming `Post` for the table `post` stops the import here and not in SQLite.
- Archive.OnLine: the export lists every table of `sqlite_master`, satellites included (src/archive.ts:18-22), but the import inserts only into the ordinary tables of the model. A meta line naming a satellite finds no such table and stops the import, where SQLite would insert into the satellite.
- Codegen.CreateTableReadBack: it needs every declared type to be free of line breaks. A type holding a break splits its definition over two lines, and the block can no longer be read line by line.

## Findings

| source | as written | input that shows it | evidently intended | confidence | as-written member | corrected member |
|---|---|---|---|---|---|---|
| src/codegen.ts:113-123 | the insert statement lists the columns of `toRowFieldNames` (reference id columns before dedup fields), but the call passes the `toFieldNames` data (dedup fields included) first and all reference ids after | table `post` with `refFields: ['author']` and `deduplicateFields: ['url']`: the columns are `author_id`, `url` and the arguments `data["url"]`, `author_id` | one argument per insert column, in the same order | not executed | Codegen.AsWrittenValuesMisaligned | Codegen.InsertValues |
| src/utils/cache.ts:13 | `key in cache` on a plain object also holds for names inherited from `Object.prototype` | `get("constructor", genFn)` on a fresh cache returns the `Object` function and never calls `genFn` | only keys the cache stored hit (`hasOwnProperty`, or a prototype-less object) | not executed | MemoCache.AsWrittenGetDiffersOnPrototypeNames | MemoCache.Get |
| src/helpers.ts:157-159 | without `fields`, the reference id columns are assigned into the shared `defaultTableFields` object itself | create `post` with reference field `author` and then `tag` with neither `fields` nor reference fields, both under `autoCreateTable`: `tag` gets an `author_id` column | each table gets `id` plus its own reference id columns | not executed | Pipeline.DefaultFieldsLeak | Pipeline.CreatedColumns |
| src/helpers.ts:307-309 | one `cache` object is copied into every field listed in `cacheFields`, and the id cache is keyed by the value alone | `author` and `tag` both cached through one `cache`, with the tag table already holding `y`, and the row `{author: 'x', tag: 'x'}`: `tag_id` is 1, the author's id, and `x` never reaches the tag table | a separate cache per reference field | not executed | RowMaps.SharedCacheCollision | RowMaps.PerFieldCacheIsTransparent |

=== FILE: archive.dfy ===
/** The archive format of src/archive.ts: `exportArchive` writes, for each
    table, one meta line and then one positional line per row;
    `importArchive` reads lines with a two-state machine. Lines are modelled
    as already-parsed JSON values; the text encoding is not modelled. Table
    and column names are written into the SQL text unquoted; whether SQLite
    reads a name written that way as itself is a parameter, `bare`, since
    SQLite's tokenizer and keyword list are not part of this model. */
module Archive {
  import opened Outcomes
  import opened Values
  import Pipeline
  import ArrayUtil

  /** `ArchiveTableMeta`. */
  datatype Meta = Meta(tableName: string, createTable: string, keys: seq<string>, count: int)

  /** One archive line after `JSON.parse`: a meta object, an array of column
      values, another JSON value (a number, a string, a boolean or `null`),
      or text that does not parse. */
  datatype Line = MetaLine(meta: Meta) | ArrayLine(cols: seq<Value>) | ScalarLine(value: Value) | Unparsable

  /** A table of the exported database, as `sqlite_master` and `select *`
      show it: its name, its `create table` text, its columns in declared
      order, and its rows in rowid order. */
  datatype SourceTable = SourceTable(name: string, createSql: string, columns: seq<string>, rows: seq<Row>)

  /** A stored value as read back: `undefined` was bound as NULL. */
  function Stored(v: Value): (r: Value)
    ensures !IsNullish(r) || r == Null
    ensures !IsNullish(v) ==> r == v
  {
    if IsNullish(v) then Null else v
  }

  /** `Object.keys` of the first row, or of `{}` for an empty table. */
  function KeysOf(t: SourceTable): (keys: seq<string>)
    ensures |t.rows| == 0 ==> keys == []
    ensures |t.rows| > 0 ==> keys == t.columns
  {
    if |t.rows| > 0 then t.columns else []
  }

  /** One row line: the row's values in `keys` order. */
  function RowCols(keys: seq<string>, row: Row): (cols: seq<Value>)
    ensures |cols| == |keys|
    ensures forall i :: 0 <= i < |keys| ==> cols[i] == Stored(Column(row, keys[i]))
  {
    seq(|keys|, i requires 0 <= i < |keys| => Stored(Column(row, keys[i])))
  }

  /** The lines `exportArchive` emits for one table. */
  function TableLines(t: SourceTable): (lines: seq<Line>)
    ensures |lines| == 1 + |t.rows|
  {
    var keys := KeysOf(t);
    [MetaLine(Meta(t.name, t.createSql, keys, |t.rows|))]
      + seq(|t.rows|, i requires 0 <= i < |t.rows| => ArrayLine(RowCols(keys, t.rows[i])))
  }

  /** The number of lines the export of `tables` takes. */
  function LineCount(tables: seq<SourceTable>): nat {
    if |tables| == 0 then 0 else 1 + |tables[0].rows| + LineCount(tables[1..])
  }

  /** The lines of every table in catalog order; no table is skipped. */
  function ArchiveLines(tables: seq<SourceTable>): (lines: seq<Line>)
    ensures |lines| == LineCount(tables)
  {
    if |tables| == 0 then [] else TableLines(tables[0]) + ArchiveLines(tables[1..])
  }

  /** `exportArchive`: the lines emitted and the error that ended it, if
      any. The count query of a table whose name does not read as itself
      unquoted throws, after the lines of the tables before it. */
  function ExportArchive(tables: seq<SourceTable>, bare: string -> bool): (r: (seq<Line>, Option<string>))
    ensures r.1.None? <==> forall i :: 0 <= i < |tables| ==> bare(tables[i].name)
    ensures r.1.None? ==> r.0 == ArchiveLines(tables)
    ensures r.1.Some? ==>
      exists k :: 0 <= k < |tables| && !bare(tables[k].name) &&
                  (forall j :: 0 <= j < k ==> bare(tables[j].name)) && r.0 == ArchiveLines(tables[..k])
    decreases |tables|
  {
    if |tables| == 0 then ([], None)
    else if !bare(tables[0].name) then
      assert ArchiveLines(tables[..0]) == [];
      ([], Some("syntax error"))
    else
      var (rest, e) := ExportArchive(tables[1..], bare);
      assert forall i :: 1 <= i < |tables| ==> tables[i] == tables[1..][i - 1];
      if e.Some? then
        var k :| 0 <= k < |tables[1..]| && !bare(tables[1..][k].name) &&
                 (forall j :: 0 <= j < k ==> bare(tables[1..][j].name)) && rest == ArchiveLines(tables[1..][..k]);
        ArchiveLinesPrefix(tables, k);
        (TableLines(tables[0]) + rest, e)
      else (TableLines(tables[0]) + rest, e)
  }

  lemma ArchiveLinesPrefix(tables: seq<SourceTable>, k: nat)
    requires k < |tables|
    ensures ArchiveLines(tables[..k + 1]) == TableLines(tables[0]) + ArchiveLines(tables[1..][..k])
  {
    assert tables[..k + 1][1..] == tables[1..][..k];
  }

  /** Framing of one table's block: the meta line first, carrying the
      table's name, creation text, keys and row count, then one array line
      per row, of length |keys|, holding that row's values in key order. */
  lemma TableLinesFraming(t: SourceTable)
    ensures var lines := TableLines(t);
      && lines[0] == MetaLine(Meta(t.name, t.createSql, KeysOf(t), |t.rows|))
      && (forall i :: 1 <= i < |lines| ==> lines[i].ArrayLine? && |lines[i].cols| == |KeysOf(t)|)
      && (forall i :: 1 <= i < |lines| ==> lines[i] == ArrayLine(RowCols(KeysOf(t), t.rows[i - 1])))
  {
  }

  /** The import handler in use: `parseTableMeta`, or the row handler of the
      table being read, with how many rows it expects and has seen, and
      whether it discards them. */
  datatype State =
    | AwaitMeta
    | AwaitRows(table: string, keys: seq<string>, count: int, seen: nat, discard: bool)

  /** The import so far: the handler, the target database, the lines handed
      to `onTable`, and the error that stopped the import, if any. Rows
      inserted before an error stay inserted. */
  datatype Progress = Progress(state: State, db: Pipeline.Db, reports: seq<Line>, error: Option<string>)

  /** The row the prepared insert writes: `keys[i]` set to `cols[i]`. */
  function RowOf(keys: seq<string>, cols: seq<Value>): (row: Row)
    requires |keys| == |cols|
    ensures row.Keys == set k | k in keys
    decreases |keys|
  {
    if |keys| == 0 then map[]
    else
      var n := |keys| - 1;
      assert keys == keys[..n] + [keys[n]];
      RowOf(keys[..n], cols[..n])[keys[n] := cols[n]]
  }

  /** The table exists and has every named column. */
  predicate HasColumns(db: Pipeline.Db, table: string, keys: seq<string>) {
    table in db.tables && forall k :: k in keys ==> k in db.tables[table].columns
  }

  /** Whether `insert into table (keys) values (?, ...)` can be prepared:
      the list is not empty, every name reads as itself unquoted, and the
      table and columns exist. */
  predicate CanPrepare(db: Pipeline.Db, table: string, keys: seq<string>, bare: string -> bool) {
    |keys| > 0 && bare(table) && (forall k :: k in keys ==> bare(k)) && HasColumns(db, table, keys)
  }

  /** A JavaScript string spread into arguments: one string per
      character. */
  function Chars(s: string): (cols: seq<Value>)
    ensures |cols| == |s|
    ensures forall i :: 0 <= i < |s| ==> cols[i] == Text([s[i]])
  {
    seq(|s|, i requires 0 <= i < |s| => Text([s[i]]))
  }

  /** The handler for one line. A meta line goes to `onTable` and prepares
      the insert; anything else in its place is still handed to `onTable`
      unless reading its fields fails first (`null`, or text that does not
      parse). A row line is spread into the insert's arguments: an array
      spreads into its elements, a string into its characters, and anything
      else throws. */
  function OnLine(p: Progress, line: Line, bare: string -> bool): (q: Progress)
    requires p.error.None?
    ensures p.state.AwaitMeta? && line.MetaLine? ==> q.reports == p.reports + [line]
    ensures p.state.AwaitMeta? && line.MetaLine? && line.meta.count == 0 ==> q == p.(reports := p.reports + [line])
    ensures p.state.AwaitMeta? && line.MetaLine? && line.meta.count != 0 ==>
      (q.error.None? <==> CanPrepare(p.db, line.meta.tableName, line.meta.keys, bare))
    ensures p.state.AwaitMeta? && !line.MetaLine? ==> q.error.Some? && q.db == p.db
    ensures p.state.AwaitMeta? && (line.ArrayLine? || (line.ScalarLine? && line.value != Null)) ==> q.reports == p.reports + [line]
    ensures p.state.AwaitMeta? && (line.Unparsable? || line == ScalarLine(Null)) ==> q.reports == p.reports
    ensures p.state.AwaitRows? && !(line.ArrayLine? || (line.ScalarLine? && line.value.Text?)) ==> q.error.Some? && q.db == p.db
    ensures p.state.AwaitRows? && line.ScalarLine? && line.value.Text? ==> q == OnRow(p, Chars(line.value.s))
    ensures q.error.None? && p.state.AwaitRows? ==> q.reports == p.reports
  {
    match p.state
    case AwaitMeta =>
      (match line
      case MetaLine(m) =>
        var reports := p.reports + [line];
        if m.count == 0 then p.(reports := reports)
        else if !CanPrepare(p.db, m.tableName, m.keys, bare) then
          p.(reports := reports, error := Some("no such table or column, or syntax error"))
        else
          p.(state := AwaitRows(m.tableName, m.keys, m.count, 0, m.tableName == "migration"), reports := reports)
      case ArrayLine(_) => p.(reports := p.reports + [line], error := Some("Cannot read properties of undefined (reading 'join')"))
      case ScalarLine(v) =>
        if v == Null then p.(error := Some("Cannot read properties of null (reading 'tableName')"))
        else p.(reports := p.reports + [line], error := Some("Cannot read properties of undefined (reading 'join')"))
      case Unparsable => p.(error := Some("Unexpected token in JSON")))
    case AwaitRows(table, keys, count, seen, discard) =>
      match line
      case ArrayLine(cols) => OnRow(p, cols)
      case ScalarLine(v) =>
        if v.Text? then OnRow(p, Chars(v.s)) else p.(error := Some("Spread syntax requires an iterable"))
      case MetaLine(_) => p.(error := Some("Spread syntax requires an iterable"))
      case Unparsable => p.(error := Some("Unexpected token in JSON"))
  }

  /** The row handler given the spread arguments: it counts the line and,
      unless the table is discarded, runs the insert, which needs exactly
      one argument per key. */
  function OnRow(p: Progress, cols: seq<Value>): (q: Progress)
    requires p.error.None? && p.state.AwaitRows?
    ensures q.reports == p.reports
    ensures q.error.Some? ==> q.db == p.db
  {
    var AwaitRows(table, keys, count, seen, discard) := p.state;
    var next := if seen + 1 == count then AwaitMeta else AwaitRows(table, keys, count, seen + 1, discard);
    if discard then p.(state := next)
    else if |cols| != |keys| then p.(error := Some("Too few or too many parameter values"))
    else
      match Pipeline.TerminalInsert(p.db, table, RowOf(keys, cols))
      case Ok((db', _)) => p.(state := next, db := db')
      case Err(e) => p.(error := Some(e))
  }

  /** A row line whose `integer primary key` value is already taken stops
      the import with the UNIQUE failure, and nothing is written. */
  lemma TakenRowidStopsImport(p: Progress, cols: seq<Value>, bare: string -> bool)
    requires p.error.None? && p.state.AwaitRows? && !p.state.discard && |cols| == |p.state.keys|
    requires p.state.table in p.db.tables && p.db.tables[p.state.table].alias.Some?
    requires var t := p.db.tables[p.state.table];
      var v := Pipeline.IntegerOf(Column(RowOf(p.state.keys, cols), t.alias.value));
      v.Some? && Pipeline.HasRowid(t.rows, t.alias.value, v.value)
    ensures OnLine(p, ArrayLine(cols), bare).error.Some?
    ensures OnLine(p, ArrayLine(cols), bare).db == p.db
  {
  }

  /** Feeding lines in order; after an error, later lines change nothing. */
  function ImportLines(p: Progress, lines: seq<Line>, bare: string -> bool): (q: Progress)
    ensures p.error.Some? ==> q == p
    decreases |lines|
  {
    if p.error.Some? || |lines| == 0 then p else ImportLines(OnLine(p, lines[0], bare), lines[1..], bare)
  }

  /** One line creates no table and touches no satellite: rows go only
      into ordinary tables that already exist. */
  lemma OnLineKeepsNames(p: Progress, line: Line, bare: string -> bool)
    requires p.error.None?
    ensures var q := OnLine(p, line, bare);
      q.db.sats == p.db.sats && q.db.tables.Keys == p.db.tables.Keys
  {
    var q := OnLine(p, line, bare);
    if q.db != p.db {
      var AwaitRows(table, keys, count, seen, discard) := p.state;
      assert table in p.db.tables;
    }
  }

  /** The import never reaches a satellite and never creates a table, so
      the tables stay in one namespace when they started in one. */
  lemma {:induction false} ImportKeepsNamespace(p: Progress, lines: seq<Line>, bare: string -> bool)
    ensures var q := ImportLines(p, lines, bare);
      q.db.sats == p.db.sats && q.db.tables.Keys == p.db.tables.Keys
      && (Pipeline.OneNamespace(p.db) ==> Pipeline.OneNamespace(q.db))
    decreases |lines|
  {
    if p.error.None? && |lines| > 0 {
      OnLineKeepsNames(p, lines[0], bare);
      ImportKeepsNamespace(OnLine(p, lines[0], bare), lines[1..], bare);
    }
  }

  /** `importArchive`: starts awaiting a meta line. */
  function ImportArchive(db: Pipeline.Db, lines: seq<Line>, bare: string -> bool): Progress {
    ImportLines(Progress(AwaitMeta, db, [], None), lines, bare)
  }

  lemma {:induction false} ImportLinesAppend(p: Progress, a: seq<Line>, b: seq<Line>, bare: string -> bool)
    ensures ImportLines(p, a + b, bare) == ImportLines(ImportLines(p, a, bare), b, bare)
    decreases |a|
  {
    if p.error.None? && |a| > 0 {
      assert (a + b)[1..] == a[1..] + b;
      ImportLinesAppend(OnLine(p, a[0], bare), a[1..], b, bare);
    } else if |a| == 0 {
      assert a + b == b;
    }
  }

  /** The table that a block of row lines is read into, with the rows
      appended. */
  function AppendRows(db: Pipeline.Db, table: string, rows: seq<Row>): Pipeline.Db
    requires table in db.tables
  {
    var t := db.tables[table];
    db.(tables := db.tables[table := t.(rows := t.rows + rows)])
  }

  /** A stored row as the import writes it back: every column, with the
      value it was read with. */
  function Normalize(columns: seq<string>, row: Row): (r: Row)
    ensures r.Keys == set c | c in columns
  {
    map c | c in columns :: Stored(Column(row, c))
  }

  lemma NormalizeLast(keys: seq<string>, row: Row)
    requires |keys| > 0
    ensures var n := |keys| - 1;
      Normalize(keys, row) == Normalize(keys[..n], row)[keys[n] := Stored(Column(row, keys[n]))]
  {
    var n := |keys| - 1;
    var a := Normalize(keys, row);
    var b := Normalize(keys[..n], row)[keys[n] := Stored(Column(row, keys[n]))];
    assert keys == keys[..n] + [keys[n]];
    assert a.Keys == b.Keys;
  }

  lemma {:induction false} RowOfRowCols(keys: seq<string>, row: Row)
    ensures RowOf(keys, RowCols(keys, row)) == Normalize(keys, row)
    decreases |keys|
  {
    if |keys| > 0 {
      var n := |keys| - 1;
      assert RowCols(keys, row)[..n] == RowCols(keys[..n], row);
      RowOfRowCols(keys[..n], row);
      NormalizeLast(keys, row);
    }
  }

  /** The rows go in at the end of `t` one after another, each exactly as
      given: no `integer primary key` value among them is null or below a
      rowid already there. */
  predicate AppendsAllAsGiven(t: Pipeline.Table, rows: seq<Row>)
    decreases |rows|
  {
    |rows| == 0 ||
    (Pipeline.AppendsAsGiven(t, rows[0]) && AppendsAllAsGiven(t.(rows := t.rows + [rows[0]]), rows[1..]))
  }

  /** The rows of `t` from `seen` on, as the import writes them. */
  function RestRows(t: SourceTable, seen: nat): seq<Row>
    requires seen <= |t.rows|
  {
    seq(|t.rows| - seen, i requires 0 <= i < |t.rows| - seen => Normalize(t.columns, t.rows[seen + i]))
  }

  /** One row line of `t`: the handler counts it and inserts the row unless
      the table is discarded. */
  lemma RowLineStep(p: Progress, t: SourceTable, seen: nat, bare: string -> bool)
    requires ReadingRows(p, t, seen)
    ensures var q := OnLine(p, ArrayLine(RowCols(t.columns, t.rows[seen])), bare);
      && q.error.None? && q.reports == p.reports
      && q.state == (if seen + 1 == |t.rows| then AwaitMeta
                     else AwaitRows(t.name, t.columns, |t.rows|, seen + 1, t.name == "migration"))
      && q.db == (if t.name == "migration" then p.db
                  else AppendRows(p.db, t.name, [Normalize(t.columns, t.rows[seen])]))
  {
    RowOfRowCols(t.columns, t.rows[seen]);
    var keys := set k | k in t.columns;
    assert keys <= p.db.tables[t.name].columns.Keys;
    if t.name != "migration" {
      RestRowsUnfold(t, seen);
      var tab := p.db.tables[t.name];
      var row := Normalize(t.columns, t.rows[seen]);
      assert Pipeline.AppendsAsGiven(tab, row);
      var (t', _) := Pipeline.InsertIntoTable(tab, row).value;
      assert t' == tab.(rows := tab.rows + [row]);
    }
  }

  lemma AppendRowsTwice(db: Pipeline.Db, table: string, a: seq<Row>, b: seq<Row>)
    requires table in db.tables
    ensures AppendRows(AppendRows(db, table, a), table, b) == AppendRows(db, table, a + b)
  {
    assert db.tables[table].rows + a + b == db.tables[table].rows + (a + b);
  }

  /** The row lines of `t` from `seen` on, with the table's columns as
      keys. */
  function RowLinesFrom(t: SourceTable, seen: nat): seq<Line>
    requires seen <= |t.rows|
  {
    seq(|t.rows| - seen, i requires 0 <= i < |t.rows| - seen => ArrayLine(RowCols(t.columns, t.rows[seen + i])))
  }

  /** Where reading the rest of `t`'s row lines from `p` ends: awaiting a
      meta line, with the rows inserted (unless the table is discarded). */
  predicate RowsRead(p: Progress, t: SourceTable, seen: nat, bare: string -> bool)
    requires seen <= |t.rows|
  {
    var q := ImportLines(p, RowLinesFrom(t, seen), bare);
    && q.error.None? && q.state == AwaitMeta && q.reports == p.reports
    && q.db == (if t.name == "migration" then p.db
                else if t.name in p.db.tables then AppendRows(p.db, t.name, RestRows(t, seen))
                else p.db)
  }

  /** The state the row handler of `t` is in after `seen` rows, with the
      rest of the rows still going in as given. */
  predicate ReadingRows(p: Progress, t: SourceTable, seen: nat) {
    && p.error.None? && seen < |t.rows|
    && p.state == AwaitRows(t.name, t.columns, |t.rows|, seen, t.name == "migration")
    && HasColumns(p.db, t.name, t.columns)
    && (t.name != "migration" ==> AppendsAllAsGiven(p.db.tables[t.name], RestRows(t, seen)))
  }

  lemma LastRowLine(p: Progress, t: SourceTable, seen: nat, bare: string -> bool)
    requires ReadingRows(p, t, seen) && seen + 1 == |t.rows|
    ensures RowsRead(p, t, seen, bare)
  {
    var lines := RowLinesFrom(t, seen);
    RowLineStep(p, t, seen, bare);
    assert lines[1..] == [];
    assert RestRows(t, seen) == [Normalize(t.columns, t.rows[seen])];
  }

  lemma RowLinesStep(p: Progress, t: SourceTable, seen: nat, bare: string -> bool)
    requires ReadingRows(p, t, seen) && seen + 1 < |t.rows|
    ensures var q := OnLine(p, RowLinesFrom(t, seen)[0], bare);
      ReadingRows(q, t, seen + 1) && (RowsRead(q, t, seen + 1, bare) ==> RowsRead(p, t, seen, bare))
  {
    var lines := RowLinesFrom(t, seen);
    RowLineStep(p, t, seen, bare);
    var q := OnLine(p, lines[0], bare);
    RowLinesUnfold(t, seen);
    assert ImportLines(p, lines, bare) == ImportLines(q, RowLinesFrom(t, seen + 1), bare);
    if t.name != "migration" {
      RestRowsUnfold(t, seen);
      AppendRowsTwice(p.db, t.name, [Normalize(t.columns, t.rows[seen])], RestRows(t, seen + 1));
    }
  }

  lemma RowLinesUnfold(t: SourceTable, seen: nat)
    requires seen < |t.rows|
    ensures RowLinesFrom(t, seen)[0] == ArrayLine(RowCols(t.columns, t.rows[seen]))
    ensures RowLinesFrom(t, seen)[1..] == RowLinesFrom(t, seen + 1)
  {
  }

  lemma RestRowsUnfold(t: SourceTable, seen: nat)
    requires seen < |t.rows|
    ensures RestRows(t, seen) == [Normalize(t.columns, t.rows[seen])] + RestRows(t, seen + 1)
  {
  }

  /** Reading the row lines of one table: after the last of them the handler
      awaits a meta line again, and each row has been inserted (unless the
      table is discarded). */
  lemma {:induction false} RowLinesAreInserted(p: Progress, t: SourceTable, seen: nat, bare: string -> bool)
    requires ReadingRows(p, t, seen)
    ensures RowsRead(p, t, seen, bare)
    decreases |t.rows| - seen
  {
    if seen + 1 == |t.rows| {
      LastRowLine(p, t, seen, bare);
    } else {
      RowLinesStep(p, t, seen, bare);
      RowLinesAreInserted(OnLine(p, RowLinesFrom(t, seen)[0], bare), t, seen + 1, bare);
    }
  }

  /** The meta line of `t`. */
  function MetaOf(t: SourceTable): Line {
    MetaLine(Meta(t.name, t.createSql, KeysOf(t), |t.rows|))
  }

  /** The meta lines of `tables`, in order. */
  function Metas(tables: seq<SourceTable>): (ms: seq<Line>)
    ensures |ms| == |tables|
    ensures forall i :: 0 <= i < |tables| ==> ms[i] == MetaOf(tables[i])
  {
    seq(|tables|, i requires 0 <= i < |tables| => MetaOf(tables[i]))
  }

  /** The rows the import of `t`'s lines writes, one per row of `t`. */
  function Imported(t: SourceTable): (rows: seq<Row>)
    ensures |rows| == |t.rows|
    ensures forall i :: 0 <= i < |t.rows| ==> rows[i] == Normalize(t.columns, t.rows[i])
  {
    RestRows(t, 0)
  }

  /** The target can take `t`'s lines: an empty table needs nothing; any
      other needs its insert to be preparable (even the discarded
      `migration` table's), and, unless discarded, its rows to go in at
      the end as given, so no `integer primary key` value collides with a
      rowid already in the target. */
  predicate Importable(db: Pipeline.Db, t: SourceTable, bare: string -> bool) {
    |t.rows| == 0 ||
    (CanPrepare(db, t.name, t.columns, bare) &&
     (t.name != "migration" ==> AppendsAllAsGiven(db.tables[t.name], Imported(t))))
  }

  /** The target after `t`'s lines: its rows appended to the table of the
      same name, except for an empty table or one named `migration`. */
  function ReadTable(db: Pipeline.Db, t: SourceTable): (r: Pipeline.Db)
    ensures r.tables.Keys == db.tables.Keys
    ensures forall n :: n in db.tables ==> r.tables[n].columns == db.tables[n].columns
    ensures forall n :: n in db.tables && n != t.name ==> r.tables[n] == db.tables[n]
  {
    if |t.rows| == 0 || t.name == "migration" || t.name !in db.tables then db
    else AppendRows(db, t.name, Imported(t))
  }

  /** The target after the lines of every table in `tables`. */
  function ReadAll(db: Pipeline.Db, tables: seq<SourceTable>): (r: Pipeline.Db)
    ensures r.tables.Keys == db.tables.Keys
    ensures forall n :: n in db.tables ==> r.tables[n].columns == db.tables[n].columns
    decreases |tables|
  {
    if |tables| == 0 then db else ReadAll(ReadTable(db, tables[0]), tables[1..])
  }

  /** Every table of `tables` can be imported into `db`. */
  predicate AllImportable(db: Pipeline.Db, tables: seq<SourceTable>, bare: string -> bool) {
    forall i :: 0 <= i < |tables| ==> Importable(db, tables[i], bare)
  }

  /** Reading one table leaves every other table as importable as it was. */
  lemma ReadTableKeepsImportable(db: Pipeline.Db, t: SourceTable, tables: seq<SourceTable>, bare: string -> bool)
    requires AllImportable(db, tables, bare)
    requires forall i :: 0 <= i < |tables| ==> tables[i].name != t.name
    ensures AllImportable(ReadTable(db, t), tables, bare)
  {
  }

  lemma TableLinesAreRead(p: Progress, t: SourceTable, bare: string -> bool)
    requires p.error.None? && p.state == AwaitMeta && Importable(p.db, t, bare)
    ensures ImportLines(p, TableLines(t), bare) == Progress(AwaitMeta, ReadTable(p.db, t), p.reports + [MetaOf(t)], None)
  {
    var lines := TableLines(t);
    var q := OnLine(p, lines[0], bare);
    assert ImportLines(p, lines, bare) == ImportLines(q, lines[1..], bare);
    if |t.rows| == 0 {
      assert lines[1..] == [];
    } else {
      assert lines[1..] == RowLinesFrom(t, 0);
      RowLinesAreInserted(q, t, 0, bare);
    }
  }

  lemma MetasCons(reports: seq<Line>, tables: seq<SourceTable>)
    requires |tables| > 0
    ensures reports + Metas(tables) == (reports + [MetaOf(tables[0])]) + Metas(tables[1..])
  {
    MetasUnfold(tables);
    ArrayUtil.ConsAssoc(reports, MetaOf(tables[0]), Metas(tables[1..]));
  }

  lemma MetasUnfold(tables: seq<SourceTable>)
    requires |tables| > 0
    ensures Metas(tables) == [MetaOf(tables[0])] + Metas(tables[1..])
  {
    var a := Metas(tables);
    var b := [MetaOf(tables[0])] + Metas(tables[1..]);
    assert |a| == |b|;
    forall i | 0 <= i < |a|
      ensures a[i] == b[i]
    {
      if i > 0 {
        assert tables[1..][i - 1] == tables[i];
      }
    }
  }

  /** The first table's lines of an export: read as one block, leaving the
      rest importable. */
  lemma ExportStep(p: Progress, tables: seq<SourceTable>, bare: string -> bool)
    requires p.error.None? && p.state == AwaitMeta && |tables| > 0
    requires DistinctNames(tables) && AllImportable(p.db, tables, bare)
    ensures var q := Progress(AwaitMeta, ReadTable(p.db, tables[0]), p.reports + [MetaOf(tables[0])], None);
      && ImportLines(p, ArchiveLines(tables), bare) == ImportLines(q, ArchiveLines(tables[1..]), bare)
      && AllImportable(q.db, tables[1..], bare)
  {
    TableLinesAreRead(p, tables[0], bare);
    ImportLinesAppend(p, TableLines(tables[0]), ArchiveLines(tables[1..]), bare);
    DistinctTail(tables);
    ReadTableKeepsImportable(p.db, tables[0], tables[1..], bare);
  }

  /** Importing an export: every meta line goes to `onTable`, the import
      ends awaiting a meta line without error, and the target holds what
      reading each table in turn gives. */
  lemma {:induction false} ExportThenImport(p: Progress, tables: seq<SourceTable>, bare: string -> bool)
    requires p.error.None? && p.state == AwaitMeta
    requires DistinctNames(tables) && AllImportable(p.db, tables, bare)
    ensures ImportLines(p, ArchiveLines(tables), bare) ==
      Progress(AwaitMeta, ReadAll(p.db, tables), p.reports + Metas(tables), None)
    decreases |tables|
  {
    if |tables| > 0 {
      ExportStep(p, tables, bare);
      var q := Progress(AwaitMeta, ReadTable(p.db, tables[0]), p.reports + [MetaOf(tables[0])], None);
      DistinctTail(tables);
      ExportThenImport(q, tables[1..], bare);
      MetasCons(p.reports, tables);
    } else {
      assert p.reports + Metas(tables) == p.reports;
    }
  }

  /** The names of `tables` are pairwise distinct, as in a catalog. */
  predicate DistinctNames(tables: seq<SourceTable>) {
    forall i, j :: 0 <= i < j < |tables| ==> tables[i].name != tables[j].name
  }

  lemma ReadAllRows(db: Pipeline.Db, tables: seq<SourceTable>)
    requires DistinctNames(tables)
    ensures forall k :: 0 <= k < |tables| && tables[k].name in db.tables ==>
      ReadAll(db, tables).tables[tables[k].name].rows ==
        db.tables[tables[k].name].rows + (if tables[k].name == "migration" then [] else Imported(tables[k]))
    ensures forall n :: n in db.tables && (forall k :: 0 <= k < |tables| ==> tables[k].name != n) ==>
      ReadAll(db, tables).tables[n] == db.tables[n]
  {
    forall k | 0 <= k < |tables| && tables[k].name in db.tables
      ensures ReadAll(db, tables).tables[tables[k].name].rows ==
        db.tables[tables[k].name].rows + (if tables[k].name == "migration" then [] else Imported(tables[k]))
    {
      ReadAllRowsOf(db, tables, k);
    }
    forall n | n in db.tables && (forall k :: 0 <= k < |tables| ==> tables[k].name != n)
      ensures ReadAll(db, tables).tables[n] == db.tables[n]
    {
      ReadAllKeepsOthers(db, tables, n);
    }
  }

  /** The tables of `tables` are read into the target one each. */
  lemma {:induction false} ReadAllRowsOf(db: Pipeline.Db, tables: seq<SourceTable>, k: nat)
    requires DistinctNames(tables) && k < |tables| && tables[k].name in db.tables
    ensures ReadAll(db, tables).tables[tables[k].name].rows ==
      db.tables[tables[k].name].rows + (if tables[k].name == "migration" then [] else Imported(tables[k]))
    decreases |tables|
  {
    var db1 := ReadTable(db, tables[0]);
    DistinctTail(tables);
    if k == 0 {
      ReadAllKeepsOthers(db1, tables[1..], tables[0].name);
    } else {
      assert tables[k] == tables[1..][k - 1];
      ReadAllRowsOf(db1, tables[1..], k - 1);
    }
  }

  /** A table the catalog does not name keeps its rows. */
  lemma {:induction false} ReadAllKeepsOthers(db: Pipeline.Db, tables: seq<SourceTable>, n: string)
    requires n in db.tables && forall k :: 0 <= k < |tables| ==> tables[k].name != n
    ensures ReadAll(db, tables).tables[n] == db.tables[n]
    decreases |tables|
  {
    if |tables| > 0 {
      assert tables[0].name != n;
      assert forall j :: 0 <= j < |tables[1..]| ==> tables[1..][j] == tables[j + 1];
      ReadAllKeepsOthers(ReadTable(db, tables[0]), tables[1..], n);
    }
  }

  lemma DistinctTail(tables: seq<SourceTable>)
    requires DistinctNames(tables) && |tables| > 0
    ensures DistinctNames(tables[1..])
    ensures forall j :: 0 <= j < |tables[1..]| ==> tables[1..][j].name != tables[0].name
  {
  }

  /** Export/import fidelity: when every table name reads as itself
      unquoted, the export completes; importing it into a target that has
      every non-empty table with its columns, and no rowid a row would
      collide with, reproduces, table by table, each row's columns after
      the target's existing rows, except for the table named `migration`;
      tables not exported keep their rows. */
  lemma {:induction false} ArchiveRoundTrip(db: Pipeline.Db, tables: seq<SourceTable>, bare: string -> bool)
    requires DistinctNames(tables)
    requires forall i :: 0 <= i < |tables| ==> bare(tables[i].name)
    requires AllImportable(db, tables, bare)
    ensures ExportArchive(tables, bare).1.None?
    ensures var q := ImportArchive(db, ExportArchive(tables, bare).0, bare);
      && q.error.None? && q.state == AwaitMeta && q.reports == Metas(tables)
      && q.db.tables.Keys == db.tables.Keys
      && (forall k :: 0 <= k < |tables| && tables[k].name in db.tables ==>
            q.db.tables[tables[k].name].rows ==
              db.tables[tables[k].name].rows + (if tables[k].name == "migration" then [] else Imported(tables[k])))
      && (forall n :: n in db.tables && (forall k :: 0 <= k < |tables| ==> tables[k].name != n) ==>
            q.db.tables[n] == db.tables[n])
  {
    ExportThenImport(Progress(AwaitMeta, db, [], None), tables, bare);
    assert [] + Metas(tables) == Metas(tables);
    assert ImportArchive(db, ExportArchive(tables, bare).0, bare) ==
      Progress(AwaitMeta, ReadAll(db, tables), Metas(tables), None);
    ReadAllRows(db, tables);
  }

  /** A meta line with a negative count never hands control back: every
      later array line is taken as a row of that table. */
  lemma {:induction false} NegativeCountNeverEnds(p: Progress, lines: seq<Line>, bare: string -> bool)
    requires p.state.AwaitRows? && p.state.count < 0
    requires forall i :: 0 <= i < |lines| ==> lines[i].ArrayLine?
    ensures var q := ImportLines(p, lines, bare);
      q.state.AwaitRows? && q.state.table == p.state.table && q.state.count == p.state.count
    decreases |lines|
  {
    if p.error.None? && |lines| > 0 {
      NegativeCountNeverEnds(OnLine(p, lines[0], bare), lines[1..], bare);
    }
  }
}

=== FILE: array_util.dfy ===
/** `uniqueArray` (src/utils/array.ts): `Array.from(new Set(xs))`, which keeps the
    first occurrence of every element, in the order of first occurrence. */
module ArrayUtil {

  /** No element occurs twice. */
  ghost predicate Distinct<T>(xs: seq<T>) {
    forall i, j :: 0 <= i < j < |xs| ==> xs[i] != xs[j]
  }

  /** The position of the first occurrence of `x` in `xs`. */
  function FirstIndex<T(==)>(xs: seq<T>, x: T): (k: nat)
    requires x in xs
    ensures k < |xs| && xs[k] == x
    ensures x !in xs[..k]
  {
    if xs[0] == x then 0 else 1 + FirstIndex(xs[1..], x)
  }

  /** `uniqueArray`: a `Set` built from `xs` iterates its elements in insertion
      order, and inserting an element already present does not move it. */
  function Unique<T(==)>(xs: seq<T>): (r: seq<T>)
    ensures Distinct(r)
    ensures forall i :: 0 <= i < |r| ==> r[i] in xs
    ensures forall i :: 0 <= i < |xs| ==> xs[i] in r
    ensures |r| <= |xs|
  {
    if |xs| == 0 then []
    else
      var init := xs[..|xs| - 1];
      var last := xs[|xs| - 1];
      var u := Unique(init);
      if last in init then u else u + [last]
  }

  lemma {:induction false} FirstIndexOfPrefix<T>(xs: seq<T>, n: nat, x: T)
    requires n <= |xs| && x in xs[..n]
    ensures FirstIndex(xs, x) == FirstIndex(xs[..n], x)
  {
    var p := xs[..n];
    if xs[0] != x {
      assert p[0] == xs[0];
      assert xs[1..][..n - 1] == p[1..];
      assert x in p[1..];
      FirstIndexOfPrefix(xs[1..], n - 1, x);
    }
  }

  /** Elements of the result keep the order of their first occurrence in the input. */
  lemma {:induction false} UniqueKeepsFirstOccurrenceOrder<T>(xs: seq<T>)
    ensures forall i, j :: 0 <= i < j < |Unique(xs)| ==>
              FirstIndex(xs, Unique(xs)[i]) < FirstIndex(xs, Unique(xs)[j])
  {
    if |xs| > 0 {
      var init := xs[..|xs| - 1];
      var last := xs[|xs| - 1];
      var u := Unique(init);
      UniqueKeepsFirstOccurrenceOrder(init);
      OrderInPrefix(xs, u);
      if last !in init {
        OrderExtend(xs, u);
      }
    }
  }

  /** Order by first occurrence in `xs[..|xs| - 1]` is order by first
      occurrence in `xs`, all before the last position. */
  lemma OrderInPrefix<T>(xs: seq<T>, u: seq<T>)
    requires |xs| > 0 && forall i :: 0 <= i < |u| ==> u[i] in xs[..|xs| - 1]
    requires forall i, j :: 0 <= i < j < |u| ==> FirstIndex(xs[..|xs| - 1], u[i]) < FirstIndex(xs[..|xs| - 1], u[j])
    ensures forall i :: 0 <= i < |u| ==> u[i] in xs
    ensures forall i :: 0 <= i < |u| ==> FirstIndex(xs, u[i]) == FirstIndex(xs[..|xs| - 1], u[i]) < |xs| - 1
    ensures forall i, j :: 0 <= i < j < |u| ==> FirstIndex(xs, u[i]) < FirstIndex(xs, u[j])
  {
    forall i | 0 <= i < |u|
      ensures u[i] in xs && FirstIndex(xs, u[i]) == FirstIndex(xs[..|xs| - 1], u[i]) < |xs| - 1
    {
      IndexInPrefix(xs, u[i]);
    }
  }

  /** An element of all but the last position is first found there. */
  lemma IndexInPrefix<T>(xs: seq<T>, x: T)
    requires |xs| > 0 && x in xs[..|xs| - 1]
    ensures x in xs
    ensures FirstIndex(xs, x) == FirstIndex(xs[..|xs| - 1], x) < |xs| - 1
  {
    var p := xs[..|xs| - 1];
    assert xs == p + [xs[|xs| - 1]];
    FirstIndexOfPrefix(xs, |xs| - 1, x);
    var k := FirstIndex(p, x);
    assert k < |p| == |xs| - 1;
  }

  /** A new last element comes after everything seen before it. */
  lemma OrderExtend<T>(xs: seq<T>, u: seq<T>)
    requires |xs| > 0 && xs[|xs| - 1] !in xs[..|xs| - 1]
    requires forall i :: 0 <= i < |u| ==> u[i] in xs && FirstIndex(xs, u[i]) < |xs| - 1
    requires forall i, j :: 0 <= i < j < |u| ==> FirstIndex(xs, u[i]) < FirstIndex(xs, u[j])
    ensures var r := u + [xs[|xs| - 1]];
      forall i, j :: 0 <= i < j < |r| ==> FirstIndex(xs, r[i]) < FirstIndex(xs, r[j])
  {
    var last := xs[|xs| - 1];
    var r := u + [last];
    assert FirstIndex(xs, last) == |xs| - 1;
    forall i, j | 0 <= i < j < |r|
      ensures FirstIndex(xs, r[i]) < FirstIndex(xs, r[j])
    {
      assert r[i] == u[i];
      if j < |u| {
        assert r[j] == u[j];
      }
    }
  }

  /** A sequence without duplicates is its own `uniqueArray`. */
  lemma {:induction false} UniqueOfDistinct<T>(xs: seq<T>)
    requires Distinct(xs)
    ensures Unique(xs) == xs
  {
    if |xs| > 0 {
      var init := xs[..|xs| - 1];
      assert Distinct(init);
      UniqueOfDistinct(init);
      assert xs[|xs| - 1] !in init;
      assert init + [xs[|xs| - 1]] == xs;
    }
  }

  /** `uniqueArray` is idempotent. */
  lemma UniqueIdempotent<T>(xs: seq<T>)
    ensures Unique(Unique(xs)) == Unique(xs)
  {
    UniqueOfDistinct(Unique(xs));
  }

  /** Sequence concatenation regroups freely. */
  lemma AppendAssoc<T>(a: seq<T>, b: seq<T>, c: seq<T>)
    ensures (a + b) + c == a + (b + c)
  {
  }

  lemma ConsAssoc<T>(a: seq<T>, x: T, b: seq<T>)
    ensures a + ([x] + b) == (a + [x]) + b
  {
  }
}

=== FILE: cache_sink.dfy ===
/** `CacheSink` of src/cache.ts: every value written becomes one line; a
    value chosen for caching is sent in full the first time ('c') and as a
    reference to its key afterwards ('k'); other values are sent in full
    ('v'). The downstream sink is the sequence of lines written to it. */
module CacheSink {
  import opened Outcomes

  /** The options of a sink: which values to cache, how to encode a value
      (`JSON.stringify` by default), and `int_to_str` of utils/base-62.ts,
      which is not part of this model. */
  datatype Encoding<!T> = Encoding(shouldCache: T -> bool, encode: T -> string, keyText: nat -> string)

  /** The cached values with their keys, and the lines written downstream. */
  datatype Sink<T(==)> = Sink(values: map<T, nat>, out: seq<string>)

  function Empty<T(==)>(): Sink<T> {
    Sink(map[], [])
  }

  /** The keys are 0, 1, 2, ..., one per cached value. */
  ghost predicate Dense<T>(values: map<T, nat>) {
    && (forall v :: v in values ==> values[v] < |values|)
    && (forall a, b :: a in values && b in values && a != b ==> values[a] != values[b])
  }

  /** `write`. */
  function Write<T(==)>(s: Sink<T>, data: T, e: Encoding<T>): Sink<T> {
    if !e.shouldCache(data) then Sink(s.values, s.out + ["v" + e.encode(data)])
    else if data in s.values then Sink(s.values, s.out + ["k" + e.keyText(s.values[data])])
    else Sink(s.values[data := |s.values|], s.out + ["c" + e.encode(data)])
  }

  /** Writing once keeps the keys dense, keeps every earlier key, and writes
      exactly one line. */
  lemma WriteKeepsKeys<T>(s: Sink<T>, data: T, e: Encoding<T>)
    requires Dense(s.values)
    ensures var r := Write(s, data, e);
      && Dense(r.values)
      && (forall v :: v in s.values ==> v in r.values && r.values[v] == s.values[v])
      && |r.values| <= |s.values| + 1
      && |r.out| == |s.out| + 1 && r.out[..|s.out|] == s.out
  {
    var r := Write(s, data, e);
    if e.shouldCache(data) && data !in s.values {
      assert r.values.Keys == s.values.Keys + {data};
      assert |r.values| == |s.values| + 1;
    }
  }

  /** Writing a sequence of values in order. */
  function WriteAll<T(==)>(s: Sink<T>, xs: seq<T>, e: Encoding<T>): Sink<T>
    decreases |xs|
  {
    if |xs| == 0 then s else WriteAll(Write(s, xs[0], e), xs[1..], e)
  }

  /** The map only grows and the keys stay dense over any number of
      writes. */
  lemma {:induction false} WriteAllKeepsKeys<T>(s: Sink<T>, xs: seq<T>, e: Encoding<T>)
    requires Dense(s.values)
    ensures var r := WriteAll(s, xs, e);
      && Dense(r.values)
      && (forall v :: v in s.values ==> v in r.values && r.values[v] == s.values[v])
      && |r.out| == |s.out| + |xs|
    decreases |xs|
  {
    if |xs| > 0 {
      WriteKeepsKeys(s, xs[0], e);
      WriteAllKeepsKeys(Write(s, xs[0], e), xs[1..], e);
    }
  }

  /** The lines already written are never touched: the output of a run is
      the earlier output followed by what the same run writes from scratch. */
  lemma {:induction false} WriteAllAppends<T>(values: map<T, nat>, out: seq<string>, xs: seq<T>, e: Encoding<T>)
    ensures WriteAll(Sink(values, out), xs, e).values == WriteAll(Sink(values, []), xs, e).values
    ensures WriteAll(Sink(values, out), xs, e).out == out + WriteAll(Sink(values, []), xs, e).out
    decreases |xs|
  {
    if |xs| > 0 {
      var a := Write(Sink(values, out), xs[0], e);
      var b := Write(Sink(values, []), xs[0], e);
      assert a.values == b.values && a.out == out + b.out;
      WriteAllAppends(b.values, out + b.out, xs[1..], e);
      WriteAllAppends(b.values, b.out, xs[1..], e);
      assert out + b.out + WriteAll(Sink(b.values, []), xs[1..], e).out
          == out + (b.out + WriteAll(Sink(b.values, []), xs[1..], e).out);
    }
  }

  /** The reading side: one line, against the table of values received with
      'c' so far; a 'k' line naming no received value is rejected. */
  function ReadLine<T>(line: string, table: seq<T>, decode: string -> T, parseKey: string -> int): (r: Option<(T, seq<T>)>)
    ensures r.Some? && |line| > 0 && line[0] == 'c' ==> r.value.1 == table + [r.value.0]
    ensures r.Some? && |line| > 0 && line[0] != 'c' ==> r.value.1 == table
  {
    if |line| == 0 then None
    else if line[0] == 'v' then Some((decode(line[1..]), table))
    else if line[0] == 'c' then
      var x := decode(line[1..]);
      Some((x, table + [x]))
    else if line[0] == 'k' then
      var k := parseKey(line[1..]);
      if 0 <= k < |table| then Some((table[k], table)) else None
    else None
  }

  function ReadAll<T>(lines: seq<string>, table: seq<T>, decode: string -> T, parseKey: string -> int): Option<seq<T>>
    decreases |lines|
  {
    if |lines| == 0 then Some([])
    else
      match ReadLine(lines[0], table, decode, parseKey)
      case None => None
      case Some((x, next)) =>
        match ReadAll(lines[1..], next, decode, parseKey)
        case None => None
        case Some(rest) => Some([x] + rest)
  }

  /** The reader's table holds every cached value at its key. */
  ghost predicate Mirrors<T>(values: map<T, nat>, table: seq<T>) {
    && Dense(values)
    && |table| == |values|
    && (forall v :: v in values ==> table[values[v]] == v)
  }

  lemma WriteMirrored<T>(values: map<T, nat>, table: seq<T>, x: T, e: Encoding<T>,
                         decode: string -> T, parseKey: string -> int)
    requires Mirrors(values, table)
    requires decode(e.encode(x)) == x
    requires forall n: nat :: parseKey(e.keyText(n)) == n
    ensures var w := Write(Sink(values, []), x, e);
      && |w.out| == 1
      && (exists next :: ReadLine(w.out[0], table, decode, parseKey) == Some((x, next)) && Mirrors(w.values, next))
  {
    var w := Write(Sink(values, []), x, e);
    var line := w.out[0];
    if !e.shouldCache(x) {
      assert line[1..] == e.encode(x);
      assert ReadLine(line, table, decode, parseKey) == Some((x, table));
    } else if x in values {
      assert line[1..] == e.keyText(values[x]);
      assert ReadLine(line, table, decode, parseKey) == Some((x, table));
    } else {
      assert line[1..] == e.encode(x);
      var next := table + [x];
      assert ReadLine(line, table, decode, parseKey) == Some((x, next));
      WriteKeepsKeys(Sink(values, []), x, e);
      assert Mirrors(w.values, next);
    }
  }

  lemma {:induction false} WriteAllReadsBack<T>(values: map<T, nat>, table: seq<T>, xs: seq<T>, e: Encoding<T>,
                                                decode: string -> T, parseKey: string -> int)
    requires Mirrors(values, table)
    requires forall x :: decode(e.encode(x)) == x
    requires forall n: nat :: parseKey(e.keyText(n)) == n
    ensures ReadAll(WriteAll(Sink(values, []), xs, e).out, table, decode, parseKey) == Some(xs)
    decreases |xs|
  {
    if |xs| > 0 {
      var w := Write(Sink(values, []), xs[0], e);
      WriteMirrored(values, table, xs[0], e, decode, parseKey);
      var next :| ReadLine(w.out[0], table, decode, parseKey) == Some((xs[0], next)) && Mirrors(w.values, next);
      WriteAllReadsBack(w.values, next, xs[1..], e, decode, parseKey);
      WriteAllAppends(w.values, w.out, xs[1..], e);
      var lines := WriteAll(Sink(values, []), xs, e).out;
      assert lines == w.out + WriteAll(Sink(w.values, []), xs[1..], e).out;
      assert lines[0] == w.out[0];
      assert lines[1..] == WriteAll(Sink(w.values, []), xs[1..], e).out;
      assert xs == [xs[0]] + xs[1..];
    }
  }

  /** Round trip: when decoding inverts the encoding and parsing a key
      inverts `int_to_str`, reading the lines of a fresh sink gives back every
      value written, in order. */
  lemma RoundTrip<T>(xs: seq<T>, e: Encoding<T>, decode: string -> T, parseKey: string -> int)
    requires forall x :: decode(e.encode(x)) == x
    requires forall n: nat :: parseKey(e.keyText(n)) == n
    ensures ReadAll(WriteAll(Empty(), xs, e).out, [], decode, parseKey) == Some(xs)
  {
    WriteAllReadsBack(map[], [], xs, e, decode, parseKey);
  }

  /** The first occurrence of a cached value takes the next key (the number
      of values cached before it) and is sent in full; writing it again sends
      that key and assigns none. */
  lemma RepeatWritesFirstKey<T>(s: Sink<T>, data: T, e: Encoding<T>)
    requires Dense(s.values) && e.shouldCache(data)
    ensures var once := Write(s, data, e); var twice := Write(once, data, e);
      && data in once.values
      && (data !in s.values ==> once.values[data] == |s.values| && once.out == s.out + ["c" + e.encode(data)])
      && twice.values == once.values
      && twice.out == once.out + ["k" + e.keyText(once.values[data])]
  {
  }

  /** Over a whole run, a value not chosen for caching is sent in full at
      its own position, and it is never given a key, however often it is
      written. */
  lemma {:induction false} UncachedWritesValue<T>(s: Sink<T>, xs: seq<T>, e: Encoding<T>)
    ensures var r := WriteAll(s, xs, e);
      |r.out| == |s.out| + |xs|
      && (forall i :: 0 <= i < |xs| && !e.shouldCache(xs[i]) ==>
            r.out[|s.out| + i] == "v" + e.encode(xs[i]))
      && (forall x :: !e.shouldCache(x) && x !in s.values ==> x !in r.values)
    decreases |xs|
  {
    if |xs| > 0 {
      var s1 := Write(s, xs[0], e);
      var r := WriteAll(s, xs, e);
      assert r == WriteAll(s1, xs[1..], e);
      UncachedWritesValue(s1, xs[1..], e);
      WriteAllAppends(s1.values, s1.out, xs[1..], e);
      assert r.out[..|s1.out|] == s1.out;
      forall i | 0 <= i < |xs| && !e.shouldCache(xs[i])
        ensures r.out[|s.out| + i] == "v" + e.encode(xs[i])
      {
        if i == 0 {
          assert r.out[|s.out|] == s1.out[|s.out|];
        } else {
          assert xs[i] == xs[1..][i - 1];
        }
      }
    }
  }
}

=== FILE: codegen.dfy ===
/** The SQL and module text that src/codegen.ts derives from a table schema
    for the generated, specialised insert functions: `makeInsertSql`, the
    field-name lists, `makeCreateTableSql`, `makeRefTables`, `makeImports`
    and the SQL that `makeTable` embeds. */
module Codegen {
  import opened Outcomes
  import Schema
  import ArrayUtil
  import StringUtil
  import JsonText

  /** `escapeField`. */
  function Escape(field: string): string {
    JsonText.Quote(field)
  }

  /** The column lines of `makeInsertSql`: two spaces and the escaped name. */
  function ColumnLines(fields: seq<string>): (lines: seq<string>)
    ensures |lines| == |fields|
    ensures forall i :: 0 <= i < |fields| ==> lines[i] == "  " + Escape(fields[i])
  {
    seq(|fields|, i requires 0 <= i < |fields| => "  " + Escape(fields[i]))
  }

  /** `fields.map(() => '?').join(',')`. */
  function Placeholders(n: nat): string {
    StringUtil.Join(seq(n, _ => "?"), ",")
  }

  /** `makeInsertSql`. */
  function MakeInsertSql(table: string, fields: seq<string>): string {
    "insert into " + Escape(table) + " (\n" + StringUtil.Join(ColumnLines(fields), ",\n")
      + "\n) values (" + Placeholders(|fields|) + ")"
  }

  /** Reads one column line back: the two-space indent, the quoted name, and
      a trailing comma on every line but the last. */
  function ReadColumnLine(line: string): Option<string> {
    if |line| < 2 || line[..2] != "  " then None
    else if |line| > 2 && line[|line| - 1] == ',' then JsonText.Unquote(line[2..|line| - 1])
    else JsonText.Unquote(line[2..])
  }

  function ReadColumnLines(lines: seq<string>): Option<seq<string>> {
    if |lines| == 0 then Some([])
    else
      var head := ReadColumnLine(lines[0]);
      var tail := ReadColumnLines(lines[1..]);
      if head.None? || tail.None? then None else Some([head.value] + tail.value)
  }

  /** Reads the column block of an insert statement back into names. */
  function ReadColumns(block: string): Option<seq<string>> {
    ReadColumnLines(StringUtil.Split(block, '\n'))
  }

  /** `lines` with a comma after every line but the last. */
  function CommaLines(lines: seq<string>): (r: seq<string>)
    ensures |r| == |lines|
    ensures forall i :: 0 <= i < |lines| - 1 ==> r[i] == lines[i] + ","
    ensures |lines| > 0 ==> r[|lines| - 1] == lines[|lines| - 1]
  {
    seq(|lines|, i requires 0 <= i < |lines| => if i < |lines| - 1 then lines[i] + "," else lines[i])
  }

  /** The lines a block of comma-joined lines splits into at line breaks,
      when no line holds a break itself. */
  lemma {:induction false} SplitCommaLines(lines: seq<string>)
    requires |lines| >= 1
    requires forall i :: 0 <= i < |lines| ==> '\n' !in lines[i]
    ensures StringUtil.Split(StringUtil.Join(lines, ",\n"), '\n') == CommaLines(lines)
    decreases |lines|
  {
    if |lines| >= 2 {
      var rest := lines[1..];
      SplitCommaLines(rest);
      CommaLinesStep(lines);
      StringUtil.SplitAfterPiece(lines[0] + ",", '\n', StringUtil.Join(rest, ",\n"));
    } else {
      assert CommaLines(lines) == [lines[0]];
    }
  }

  lemma CommaLinesStep(lines: seq<string>)
    requires |lines| >= 2 && '\n' !in lines[0]
    ensures StringUtil.Join(lines, ",\n") == (lines[0] + ",") + ['\n'] + StringUtil.Join(lines[1..], ",\n")
    ensures CommaLines(lines) == [lines[0] + ","] + CommaLines(lines[1..])
    ensures '\n' !in lines[0] + ","
  {
    JoinCommaStep(lines);
    CommaLinesCons(lines);
    CommaKeepsNoBreak(lines[0]);
  }

  lemma JoinCommaStep(lines: seq<string>)
    requires |lines| >= 2
    ensures StringUtil.Join(lines, ",\n") == (lines[0] + ",") + ['\n'] + StringUtil.Join(lines[1..], ",\n")
  {
    var j := StringUtil.Join(lines[1..], ",\n");
    assert StringUtil.Join(lines, ",\n") == lines[0] + ",\n" + j;
    CommaBreak(lines[0]);
  }

  lemma CommaBreak(x: string)
    ensures x + ",\n" == (x + ",") + ['\n']
  {
    var a := x + ",\n";
    var b := (x + ",") + ['\n'];
    assert |a| == |b|;
    forall k | 0 <= k < |a| ensures a[k] == b[k] {
      if k < |x| {
        assert a[k] == x[k] && b[k] == x[k];
      }
    }
  }

  lemma CommaLinesCons(lines: seq<string>)
    requires |lines| >= 2
    ensures CommaLines(lines) == [lines[0] + ","] + CommaLines(lines[1..])
  {
    var a := CommaLines(lines);
    var rest := lines[1..];
    var c := CommaLines(rest);
    var b := [lines[0] + ","] + c;
    forall i | 0 <= i < |a| ensures a[i] == b[i] {
      if i > 0 {
        assert b[i] == c[i - 1];
        assert lines[i] == rest[i - 1];
      }
    }
  }

  lemma CommaKeepsNoBreak(line: string)
    requires '\n' !in line
    ensures '\n' !in line + ","
  {
    var x := line + ",";
    assert forall k :: 0 <= k < |line| ==> x[k] == line[k];
  }

  lemma EscapeHasNoBreak(field: string)
    ensures '\n' !in Escape(field) && Escape(field)[|Escape(field)| - 1] == '"'
  {
    var q := Escape(field);
    assert forall i :: 0 <= i < |q| ==> q[i] != '\n';
  }

  lemma {:induction false} ReadEachLine(lines: seq<string>, names: seq<string>)
    requires |lines| == |names|
    requires forall i :: 0 <= i < |lines| ==> ReadColumnLine(lines[i]) == Some(names[i])
    ensures ReadColumnLines(lines) == Some(names)
    decreases |lines|
  {
    if |lines| > 0 {
      ReadEachLine(lines[1..], names[1..]);
      assert [names[0]] + names[1..] == names;
    }
  }

  lemma ReadOneLine(field: string, comma: bool)
    ensures ReadColumnLine("  " + Escape(field) + (if comma then "," else "")) == Some(field)
  {
    JsonText.QuoteRoundTrip(field);
    EscapeHasNoBreak(field);
    var q := Escape(field);
    var line := "  " + q + (if comma then "," else "");
    assert line[..2] == "  ";
    if comma {
      assert line[2..|line| - 1] == q;
    } else {
      assert line[2..] == q;
    }
  }

  /** `makeInsertSql` lists one escaped column per field, in the given
      order: reading its column block back gives the fields. */
  lemma InsertSqlColumnsReadBack(fields: seq<string>)
    requires |fields| >= 1
    ensures ReadColumns(StringUtil.Join(ColumnLines(fields), ",\n")) == Some(fields)
  {
    var lines := ColumnLines(fields);
    forall i | 0 <= i < |lines| ensures '\n' !in lines[i] {
      EscapeHasNoBreak(fields[i]);
      assert lines[i] == "  " + Escape(fields[i]);
    }
    SplitCommaLines(lines);
    var marked := CommaLines(lines);
    forall i | 0 <= i < |lines| ensures ReadColumnLine(marked[i]) == Some(fields[i]) {
      if i < |lines| - 1 {
        assert marked[i] == "  " + Escape(fields[i]) + ",";
        ReadOneLine(fields[i], true);
      } else {
        assert marked[i] == "  " + Escape(fields[i]) + "";
        ReadOneLine(fields[i], false);
      }
    }
    ReadEachLine(marked, fields);
  }

  /** `makeInsertSql` has exactly one `?` placeholder per field, and nothing
      else but the commas between them. */
  lemma {:induction false} PlaceholderCount(n: nat)
    ensures StringUtil.Count('?', Placeholders(n)) == n
    ensures n >= 1 ==> StringUtil.Split(Placeholders(n), ',') == seq(n, _ => "?")
    decreases n
  {
    if n >= 2 {
      PlaceholderCount(n - 1);
      var rest := Placeholders(n - 1);
      assert seq(n, _ => "?")[1..] == seq(n - 1, _ => "?");
      assert Placeholders(n) == "?" + [','] + rest;
      StringUtil.CountAppend('?', "?", [','] + rest);
      StringUtil.CountAppend('?', [','], rest);
      StringUtil.SplitAfterPiece("?", ',', rest);
    } else if n == 1 {
      assert Placeholders(1) == "?";
    }
  }

  /** `.filter(s => s)`: the non-empty names, in order. */
  function NonEmpty(xs: seq<string>): (r: seq<string>)
    ensures forall x :: x in r <==> x in xs && x != ""
  {
    if |xs| == 0 then []
    else if xs[0] == "" then NonEmpty(xs[1..])
    else [xs[0]] + NonEmpty(xs[1..])
  }

  /** `uniqueArray([...].filter(s => s))`: the distinct non-empty names of
      `candidates`. */
  function NameList(candidates: seq<string>): (r: seq<string>)
    ensures ArrayUtil.Distinct(r)
    ensures forall x :: x in r <==> x in candidates && x != ""
  {
    ArrayUtil.Unique(NonEmpty(candidates))
  }

  lemma {:induction false} NonEmptyKeepsOrder(xs: seq<string>, a: string, b: string)
    requires a in NonEmpty(xs) && b in NonEmpty(xs)
    requires ArrayUtil.FirstIndex(NonEmpty(xs), a) < ArrayUtil.FirstIndex(NonEmpty(xs), b)
    ensures ArrayUtil.FirstIndex(xs, a) < ArrayUtil.FirstIndex(xs, b)
    decreases |xs|
  {
    if xs[0] != a && xs[0] != b {
      if xs[0] != "" {
        assert NonEmpty(xs)[1..] == NonEmpty(xs[1..]);
      }
      NonEmptyKeepsOrder(xs[1..], a, b);
    }
  }

  /** The names come in the order of their first occurrence among the
      candidates. */
  lemma NameListOrder(candidates: seq<string>)
    ensures var r := NameList(candidates);
      forall i, j :: 0 <= i < j < |r| ==>
        ArrayUtil.FirstIndex(candidates, r[i]) < ArrayUtil.FirstIndex(candidates, r[j])
  {
    var ne := NonEmpty(candidates);
    var r := NameList(candidates);
    ArrayUtil.UniqueKeepsFirstOccurrenceOrder(ne);
    forall i, j | 0 <= i < j < |r|
      ensures ArrayUtil.FirstIndex(candidates, r[i]) < ArrayUtil.FirstIndex(candidates, r[j])
    {
      NonEmptyKeepsOrder(candidates, r[i], r[j]);
    }
  }

  function DedupFields(schema: Schema.TableSchema): seq<string> {
    schema.deduplicateFields.GetOr([])
  }

  /** The candidates of `toRowFieldNames`: `idField`, the `fields` keys,
      the reference id columns, the deduplication fields. */
  function RowCandidates(schema: Schema.TableSchema): seq<string> {
    [schema.idField] + Schema.FieldKeys(schema) + Schema.RefIdFieldNames(schema) + DedupFields(schema)
  }

  /** The candidates of `toDataFieldNames`: as for rows, with the reference
      value fields in place of their id columns. */
  function DataCandidates(schema: Schema.TableSchema): seq<string> {
    [schema.idField] + Schema.FieldKeys(schema) + Schema.RefFieldNames(schema) + DedupFields(schema)
  }

  /** The candidates of `toFieldNames`: no reference fields at all. */
  function PlainCandidates(schema: Schema.TableSchema): seq<string> {
    [schema.idField] + Schema.FieldKeys(schema) + DedupFields(schema)
  }

  /** `toRowFieldNames`: the columns of a stored row, without duplicates or
      empty names. */
  function ToRowFieldNames(schema: Schema.TableSchema): (r: seq<string>)
    ensures ArrayUtil.Distinct(r) && "" !in r
    ensures forall x :: x in r <==> (x != "" &&
      (x == schema.idField || x in Schema.FieldKeys(schema) || x in Schema.RefIdFieldNames(schema) || x in DedupFields(schema)))
  {
    NameList(RowCandidates(schema))
  }

  /** `toDataFieldNames`: the keys of the data a caller passes in. */
  function ToDataFieldNames(schema: Schema.TableSchema): (r: seq<string>)
    ensures ArrayUtil.Distinct(r) && "" !in r
    ensures forall x :: x in r <==> (x != "" &&
      (x == schema.idField || x in Schema.FieldKeys(schema) || x in Schema.RefFieldNames(schema) || x in DedupFields(schema)))
  {
    NameList(DataCandidates(schema))
  }

  /** The unescaped names of `toFieldNames`. */
  function PlainFieldNames(schema: Schema.TableSchema): (r: seq<string>)
    ensures ArrayUtil.Distinct(r) && "" !in r
    ensures forall x :: x in r <==> x != "" && (x == schema.idField || x in Schema.FieldKeys(schema) || x in DedupFields(schema))
  {
    NameList(PlainCandidates(schema))
  }

  function EscapeAll(names: seq<string>): (r: seq<string>)
    ensures |r| == |names|
    ensures forall i :: 0 <= i < |names| ==> r[i] == Escape(names[i])
  {
    seq(|names|, i requires 0 <= i < |names| => Escape(names[i]))
  }

  /** `toFieldNames`: the escaped non-reference names. */
  function ToFieldNames(schema: Schema.TableSchema): (r: seq<string>)
    ensures |r| == |PlainFieldNames(schema)|
  {
    EscapeAll(PlainFieldNames(schema))
  }

  /** Each escaped name unquotes to the plain name at its position, and the
      escaped names are as distinct as the plain ones. */
  lemma FieldNamesReadBack(schema: Schema.TableSchema)
    ensures var names := PlainFieldNames(schema); var r := ToFieldNames(schema);
      && (forall i :: 0 <= i < |r| ==> JsonText.Unquote(r[i]) == Some(names[i]))
      && ArrayUtil.Distinct(r)
  {
    var names := PlainFieldNames(schema);
    var r := ToFieldNames(schema);
    forall i | 0 <= i < |r| ensures JsonText.Unquote(r[i]) == Some(names[i]) {
      JsonText.QuoteRoundTrip(names[i]);
    }
    forall i, j | 0 <= i < j < |r| ensures r[i] != r[j] {
      JsonText.QuoteInjective(names[i], names[j]);
    }
  }

  /** First-occurrence order of `toRowFieldNames`: the id field first, then
      the `fields` keys, the reference id columns and the deduplication
      fields; a set id field heads the list. */
  lemma RowFieldNamesOrder(schema: Schema.TableSchema)
    ensures var r := ToRowFieldNames(schema);
      && (forall i, j :: 0 <= i < j < |r| ==>
            ArrayUtil.FirstIndex(RowCandidates(schema), r[i]) < ArrayUtil.FirstIndex(RowCandidates(schema), r[j]))
      && (schema.idField != "" ==> |r| > 0 && r[0] == schema.idField)
  {
    var c := RowCandidates(schema);
    var r := ToRowFieldNames(schema);
    NameListOrder(c);
    if schema.idField != "" {
      assert schema.idField in r;
      var k :| 0 <= k < |r| && r[k] == schema.idField;
      assert ArrayUtil.FirstIndex(c, schema.idField) == 0;
      forall j | 0 < j < |r| ensures ArrayUtil.FirstIndex(c, r[j]) > 0 {
        assert ArrayUtil.FirstIndex(c, r[0]) < ArrayUtil.FirstIndex(c, r[j]);
      }
    }
  }

  /** Without reference fields, `toFieldNames` escapes exactly the row
      field names. */
  lemma FieldNamesWithoutRefs(schema: Schema.TableSchema)
    requires Schema.RefList(schema) == []
    ensures ToFieldNames(schema) == EscapeAll(ToRowFieldNames(schema))
  {
    var ids := Schema.RefIdFieldNames(schema);
    assert ids == [];
    assert RowCandidates(schema) == PlainCandidates(schema);
    assert PlainFieldNames(schema) == ToRowFieldNames(schema);
  }

  /** One `"<field>" <type>` column per entry of `fields`. */
  function FieldColumns(schema: Schema.TableSchema): (cols: seq<string>)
    ensures |cols| == |schema.fields.GetOr([])|
  {
    var entries := schema.fields.GetOr([]);
    seq(|entries|, i requires 0 <= i < |entries| => Escape(entries[i].0) + " " + entries[i].1)
  }

  /** One `"<id>" integer` column per reference id column. */
  function RefColumns(schema: Schema.TableSchema): (cols: seq<string>)
    ensures |cols| == |Schema.RefList(schema)|
  {
    var ids := Schema.RefIdFieldNames(schema);
    seq(|ids|, i requires 0 <= i < |ids| => Escape(ids[i]) + " integer")
  }

  function PrimaryKeyClause(keys: seq<string>): string {
    "primary key(" + StringUtil.Join(EscapeAll(keys), ", ") + ")"
  }

  predicate IsPrimaryKeyClause(col: string) {
    |col| >= 12 && col[..12] == "primary key("
  }

  /** The column definitions of `makeCreateTableSql`, in order: the declared
      fields, the reference id columns, and a primary key clause whenever
      `primaryKeys` is given (even an empty list). */
  function CreateTableColumns(schema: Schema.TableSchema): (cols: seq<string>)
    ensures |cols| == |schema.fields.GetOr([])| + |Schema.RefList(schema)| + (if schema.primaryKeys.Some? then 1 else 0)
  {
    FieldColumns(schema) + RefColumns(schema)
      + (if schema.primaryKeys.Some? then [PrimaryKeyClause(schema.primaryKeys.value)] else [])
  }

  function Indent(cols: seq<string>): (r: seq<string>)
    ensures |r| == |cols|
  {
    seq(|cols|, i requires 0 <= i < |cols| => "  " + cols[i])
  }

  /** `makeCreateTableSql`. */
  function MakeCreateTableSql(schema: Schema.TableSchema): string {
    "create table if not exists " + Escape(schema.table) + " (\n"
      + StringUtil.Join(Indent(CreateTableColumns(schema)), ",\n") + "\n)"
  }

  lemma QuotedIsNotPrimaryKey(name: string, rest: string)
    ensures !IsPrimaryKeyClause(Escape(name) + rest)
  {
    var c := Escape(name) + rest;
    assert c[0] == '"';
    if |c| >= 12 {
      assert c[..12][0] == '"';
    }
  }

  /** A column definition is a primary key clause exactly when it is the
      last one and `primaryKeys` was given: every other column starts with a
      quoted name. */
  lemma PrimaryKeyClauseIsLast(schema: Schema.TableSchema)
    ensures var cols := CreateTableColumns(schema);
      forall i :: 0 <= i < |cols| ==>
        (IsPrimaryKeyClause(cols[i]) <==> schema.primaryKeys.Some? && i == |cols| - 1)
  {
    var fc := FieldColumns(schema);
    var rc := RefColumns(schema);
    var cols := CreateTableColumns(schema);
    forall i | 0 <= i < |fc| ensures !IsPrimaryKeyClause(fc[i]) {
      FieldColumnIsQuoted(schema, i);
    }
    forall i | 0 <= i < |rc| ensures !IsPrimaryKeyClause(rc[i]) {
      RefColumnIsQuoted(schema, i);
    }
    assert cols[..|fc| + |rc|] == fc + rc;
    if schema.primaryKeys.Some? {
      assert cols[|cols| - 1] == PrimaryKeyClause(schema.primaryKeys.value);
    }
  }

  lemma FieldColumnIsQuoted(schema: Schema.TableSchema, i: nat)
    requires i < |FieldColumns(schema)|
    ensures !IsPrimaryKeyClause(FieldColumns(schema)[i])
  {
    var entries := schema.fields.GetOr([]);
    QuotedIsNotPrimaryKey(entries[i].0, " " + entries[i].1);
  }

  lemma RefColumnIsQuoted(schema: Schema.TableSchema, i: nat)
    requires i < |RefColumns(schema)|
    ensures !IsPrimaryKeyClause(RefColumns(schema)[i])
  {
    QuotedIsNotPrimaryKey(Schema.RefIdFieldNames(schema)[i], " integer");
  }

  /** One definition of a `create table` column list, as SQLite reads it. */
  datatype ColumnDefinition = Column(name: string, sqlType: string) | PrimaryKey(keys: seq<string>)

  /** The definitions `makeCreateTableSql` means to declare, in order: each
      `fields` entry with its type, each reference id column as `integer`,
      and the primary key when `primaryKeys` is given. */
  function Definitions(schema: Schema.TableSchema): seq<ColumnDefinition> {
    var entries := schema.fields.GetOr([]);
    var ids := Schema.RefIdFieldNames(schema);
    seq(|entries|, i requires 0 <= i < |entries| => Column(entries[i].0, entries[i].1))
      + seq(|ids|, j requires 0 <= j < |ids| => Column(ids[j], "integer"))
      + (if schema.primaryKeys.Some? then [PrimaryKey(schema.primaryKeys.value)] else [])
  }

  /** Reads the quoted names of a key list, separated by `, ` and closed by
      `)`. */
  function ReadKeys(t: string): Option<seq<string>>
    decreases |t|, 1
  {
    if t == ")" then Some([])
    else if |t| == 0 || t[0] != '"' then None
    else
      match JsonText.ReadLiteral(t[1..])
      case None => None
      case Some(lit) =>
        match JsonText.Decode(lit.0)
        case None => None
        case Some(name) => KeysAfter(name, lit.1)
  }

  /** The rest of a key list after the name `name`: its closing `)`, or a
      `, ` and further names. */
  function KeysAfter(name: string, rest: string): Option<seq<string>>
    decreases |rest|, 0
  {
    if rest == ")" then Some([name])
    else if |rest| >= 3 && rest[..2] == ", " && rest[2] == '"' then
      match ReadKeys(rest[2..])
      case None => None
      case Some(more) => Some([name] + more)
    else None
  }

  /** Reads one definition line: the two-space indent, then the text. */
  function ReadDefinition(line: string): Option<ColumnDefinition> {
    if |line| < 2 || line[..2] != "  " then None else ReadDefinitionText(line[2..])
  }

  /** Reads a quoted name, a space and the type text, or a primary key
      clause. */
  function ReadDefinitionText(d: string): Option<ColumnDefinition> {
    if |d| > 0 && d[0] == '"' then ReadColumnText(d[1..])
    else if |d| >= 12 && d[..12] == "primary key(" then
      match ReadKeys(d[12..])
      case None => None
      case Some(keys) => Some(PrimaryKey(keys))
    else None
  }

  /** Reads a column after its opening quote: the rest of the name, then a
      space and the type text. */
  function ReadColumnText(t: string): Option<ColumnDefinition> {
    match JsonText.ReadLiteral(t)
    case None => None
    case Some(lit) =>
      if |lit.1| == 0 || lit.1[0] != ' ' then None
      else
        match JsonText.Decode(lit.0)
        case None => None
        case Some(name) => Some(Column(name, lit.1[1..]))
  }

  /** Reads the lines of a column list: every line but the last must end
      in the comma that separates it from the next. */
  function ReadDefinitionLines(lines: seq<string>): Option<seq<ColumnDefinition>>
    decreases |lines|
  {
    if |lines| == 0 then Some([])
    else if |lines| == 1 then ConsRead(ReadDefinition(lines[0]), Some([]))
    else if |lines[0]| == 0 || lines[0][|lines[0]| - 1] != ',' then None
    else ConsRead(ReadDefinition(lines[0][..|lines[0]| - 1]), ReadDefinitionLines(lines[1..]))
  }

  function ConsRead(head: Option<ColumnDefinition>, tail: Option<seq<ColumnDefinition>>): Option<seq<ColumnDefinition>> {
    if head.None? || tail.None? then None else Some([head.value] + tail.value)
  }

  /** Reads the column block of a `create table` statement back. */
  function ReadCreateTableBlock(block: string): Option<seq<ColumnDefinition>> {
    ReadDefinitionLines(StringUtil.Split(block, '\n'))
  }

  lemma IndentedLine(x: string)
    ensures ReadDefinition("  " + x) == ReadDefinitionText(x)
    ensures '\n' !in x ==> '\n' !in "  " + x
  {
    assert ("  " + x)[..2] == "  " && ("  " + x)[2..] == x;
  }

  lemma ReadColumnDefinition(name: string, sqlType: string)
    ensures ReadDefinitionText(Escape(name) + " " + sqlType) == Some(Column(name, sqlType))
  {
    var body := JsonText.Escape(name) + "\"" + (" " + sqlType);
    assert Escape(name) + " " + sqlType == "\"" + body;
    assert ("\"" + body)[1..] == body;
    JsonText.ReadLiteralOfEscape(name, " " + sqlType);
    JsonText.DecodeEscape(name);
    assert (" " + sqlType)[1..] == sqlType;
  }

  lemma {:induction false} ReadKeysOfList(keys: seq<string>)
    ensures ReadKeys(StringUtil.Join(EscapeAll(keys), ", ") + ")") == Some(keys)
    decreases |keys|
  {
    var t := StringUtil.Join(EscapeAll(keys), ", ") + ")";
    if |keys| == 1 {
      assert t == Escape(keys[0]) + ")";
      ReadKeyStep(keys[0], ")");
      assert [keys[0]] == keys;
    } else if |keys| > 1 {
      var more := StringUtil.Join(EscapeAll(keys[1..]), ", ") + ")";
      assert EscapeAll(keys)[1..] == EscapeAll(keys[1..]);
      assert t == Escape(keys[0]) + (", " + more);
      ReadKeysOfList(keys[1..]);
      JoinStartsQuoted(keys[1..]);
      ReadKeyStep(keys[0], ", " + more);
      assert (", " + more)[2..] == more;
      assert [keys[0]] + keys[1..] == keys;
    }
  }

  /** Reading a key list past its first quoted name. */
  lemma ReadKeyStep(k: string, rest: string)
    ensures ReadKeys(Escape(k) + rest) == KeysAfter(k, rest)
  {
    var t := Escape(k) + rest;
    JsonText.ReadLiteralOfEscape(k, rest);
    JsonText.DecodeEscape(k);
    var body := JsonText.Escape(k) + "\"" + rest;
    assert t == "\"" + body;
    assert |t| >= 2 && t != ")" && t[0] == '"';
    assert t[1..] == body;
  }

  lemma JoinStartsQuoted(keys: seq<string>)
    requires |keys| > 0
    ensures var j := StringUtil.Join(EscapeAll(keys), ", "); |j| > 0 && j[0] == '"'
  {
    var q := EscapeAll(keys);
    if |q| > 1 {
      assert StringUtil.Join(q, ", ") == q[0] + ", " + StringUtil.Join(q[1..], ", ");
    }
  }

  lemma ReadPrimaryKeyDefinition(keys: seq<string>)
    ensures ReadDefinitionText(PrimaryKeyClause(keys)) == Some(PrimaryKey(keys))
  {
    var body := StringUtil.Join(EscapeAll(keys), ", ") + ")";
    var d := PrimaryKeyClause(keys);
    assert d == "primary key(" + body;
    assert d[0] == 'p' && d[..12] == "primary key(" && d[12..] == body;
    ReadKeysOfList(keys);
  }

  /** No character of the quoted names or of their `, ` join is a line
      break. */
  lemma {:induction false} KeyListHasNoBreak(keys: seq<string>)
    ensures '\n' !in StringUtil.Join(EscapeAll(keys), ", ")
    decreases |keys|
  {
    var q := EscapeAll(keys);
    if |q| == 1 {
      EscapeHasNoBreak(keys[0]);
    } else if |q| > 1 {
      EscapeHasNoBreak(keys[0]);
      KeyListHasNoBreak(keys[1..]);
      assert q[1..] == EscapeAll(keys[1..]);
      assert StringUtil.Join(q, ", ") == q[0] + ", " + StringUtil.Join(q[1..], ", ");
    }
  }

  lemma {:induction false} ReadEachDefinition(lines: seq<string>, defs: seq<ColumnDefinition>)
    requires |lines| == |defs| >= 1
    requires forall i :: 0 <= i < |lines| ==> ReadDefinition(lines[i]) == Some(defs[i])
    ensures ReadDefinitionLines(CommaLines(lines)) == Some(defs)
    decreases |lines|
  {
    var c := CommaLines(lines);
    if |lines| == 1 {
      assert c == [lines[0]];
      assert [defs[0]] + [] == defs;
    } else {
      CommaLinesCons(lines);
      ReadEachDefinition(lines[1..], defs[1..]);
      assert c[1..] == CommaLines(lines[1..]);
      var line := lines[0] + ",";
      assert c[0] == line && line[..|line| - 1] == lines[0];
      assert [defs[0]] + defs[1..] == defs;
    }
  }

  /** The column block of `makeCreateTableSql` reads back as the intended
      definitions, in order: every `fields` entry with its own type, then
      every reference id column as `integer`, then the primary key with its
      names when `primaryKeys` is given. Without any definition the block is
      empty. */
  lemma CreateTableReadBack(schema: Schema.TableSchema)
    requires var entries := schema.fields.GetOr([]);
      forall i :: 0 <= i < |entries| ==> '\n' !in entries[i].1
    ensures var block := StringUtil.Join(Indent(CreateTableColumns(schema)), ",\n");
      (|CreateTableColumns(schema)| == 0 ==> block == "")
      && (|CreateTableColumns(schema)| > 0 ==> ReadCreateTableBlock(block) == Some(Definitions(schema)))
  {
    var lines := Indent(CreateTableColumns(schema));
    var defs := Definitions(schema);
    forall i | 0 <= i < |lines|
      ensures '\n' !in lines[i] && ReadDefinition(lines[i]) == Some(defs[i])
    {
      DefinitionLine(schema, i);
    }
    if |lines| > 0 {
      SplitCommaLines(lines);
      ReadEachDefinition(lines, defs);
    }
  }

  /** Each indented column definition is one line that reads back as the
      definition at its place. */
  lemma DefinitionLine(schema: Schema.TableSchema, i: nat)
    requires var entries := schema.fields.GetOr([]);
      forall i :: 0 <= i < |entries| ==> '\n' !in entries[i].1
    requires i < |CreateTableColumns(schema)|
    ensures |Definitions(schema)| == |CreateTableColumns(schema)|
    ensures var line := Indent(CreateTableColumns(schema))[i];
      '\n' !in line && ReadDefinition(line) == Some(Definitions(schema)[i])
  {
    var nf := |schema.fields.GetOr([])|;
    var nr := |Schema.RefIdFieldNames(schema)|;
    var cols := CreateTableColumns(schema);
    assert Indent(cols)[i] == "  " + cols[i];
    if i < nf {
      FieldDefinitionLine(schema, i);
    } else if i < nf + nr {
      RefDefinitionLine(schema, i - nf);
    } else {
      KeyDefinitionLine(schema);
    }
  }

  lemma FieldDefinitionLine(schema: Schema.TableSchema, i: nat)
    requires var entries := schema.fields.GetOr([]); i < |entries| && '\n' !in entries[i].1
    ensures var col := CreateTableColumns(schema)[i];
      '\n' !in "  " + col && ReadDefinition("  " + col) == Some(Definitions(schema)[i])
  {
    var entry := schema.fields.GetOr([])[i];
    var col := Escape(entry.0) + " " + entry.1;
    assert CreateTableColumns(schema)[i] == FieldColumns(schema)[i] == col;
    assert Definitions(schema)[i] == Column(entry.0, entry.1);
    EscapeHasNoBreak(entry.0);
    NoBreakConcat(Escape(entry.0), " ");
    NoBreakConcat(Escape(entry.0) + " ", entry.1);
    IndentedLine(col);
    ReadColumnDefinition(entry.0, entry.1);
  }

  lemma RefDefinitionLine(schema: Schema.TableSchema, j: nat)
    requires j < |Schema.RefIdFieldNames(schema)|
    ensures var i := |schema.fields.GetOr([])| + j; var col := CreateTableColumns(schema)[i];
      '\n' !in "  " + col && ReadDefinition("  " + col) == Some(Definitions(schema)[i])
  {
    var id := Schema.RefIdFieldNames(schema)[j];
    var i := |schema.fields.GetOr([])| + j;
    assert CreateTableColumns(schema)[i] == RefColumns(schema)[j] == Escape(id) + " integer";
    assert Definitions(schema)[i] == Column(id, "integer");
    IntegerColumnLine(id);
  }

  lemma IntegerColumnLine(id: string)
    ensures var col := Escape(id) + " integer";
      '\n' !in "  " + col && ReadDefinition("  " + col) == Some(Column(id, "integer"))
  {
    var col := Escape(id) + " integer";
    EscapeHasNoBreak(id);
    NoBreakConcat(Escape(id), " integer");
    IndentedLine(col);
    assert col == Escape(id) + " " + "integer";
    ReadColumnDefinition(id, "integer");
  }

  lemma NoBreakConcat(a: string, b: string)
    requires '\n' !in a && '\n' !in b
    ensures '\n' !in a + b
  {
    var c := a + b;
    forall k | 0 <= k < |c| ensures c[k] != '\n' {
      if k < |a| {
        assert c[k] == a[k];
      } else {
        assert c[k] == b[k - |a|];
      }
    }
  }

  lemma KeyDefinitionLine(schema: Schema.TableSchema)
    requires schema.primaryKeys.Some?
    ensures var cols := CreateTableColumns(schema); var col := cols[|cols| - 1];
      |Definitions(schema)| == |cols|
      && '\n' !in "  " + col && ReadDefinition("  " + col) == Some(Definitions(schema)[|cols| - 1])
  {
    var keys := schema.primaryKeys.value;
    var cols := CreateTableColumns(schema);
    var col := PrimaryKeyClause(keys);
    assert cols[|cols| - 1] == col;
    assert Definitions(schema)[|cols| - 1] == PrimaryKey(keys);
    var names := StringUtil.Join(EscapeAll(keys), ", ");
    KeyListHasNoBreak(keys);
    NoBreakConcat("primary key(", names);
    NoBreakConcat("primary key(" + names, ")");
    assert col == "primary key(" + names + ")";
    IndentedLine(col);
    ReadPrimaryKeyDefinition(keys);
  }

  /** `makeCreateRefTableSql`: the satellite table of a reference field, with
      an integer primary key and the value column, typed when a type is
      declared. */
  function MakeCreateRefTableSql(ref: Schema.RefFieldSchema): string {
    var fieldType := if ref.fieldType != "" then " " + ref.fieldType else "";
    "create table if not exists \"" + ref.field + "\" (\n  \""
      + ref.idField + "\" integer primary key,\n  \"" + ref.field + "\"" + fieldType + "\n)"
  }

  /** `makeUniqueIndexSql`: the names are embedded unescaped in the index
      and table names, escaped in the column list. */
  function MakeUniqueIndexSql(table: string, fields: seq<string>): string {
    "create unique index if not exists \"" + table + "_unique_idx\" on \"" + table + "\" ("
      + StringUtil.Join(EscapeAll(fields), ",") + ")"
  }

  /** `makeRefTableIndexSql`. */
  function MakeRefTableIndexSql(field: string): string {
    MakeUniqueIndexSql(field, [field])
  }

  /** What `makeRefTables` emits for one satellite table: the statements it
      executes when asked to, the two prepared statements with their names,
      and the cache constant with its reset size when `cacheSize` is set. */
  datatype RefTableCode = RefTableCode(
    createTable: Option<string>,
    createIndex: Option<string>,
    selectName: string,
    selectSql: string,
    insertName: string,
    insertSql: string,
    cache: Option<(string, int)>)

  function RefTableCodeOf(ref: Schema.RefFieldSchema): RefTableCode {
    RefTableCode(
      if ref.autoCreateTable then Some(MakeCreateRefTableSql(ref)) else None,
      if ref.autoCreateIndex then Some(MakeRefTableIndexSql(ref.field)) else None,
      "select_" + ref.idField + "_statement",
      "select \"" + ref.idField + "\" from \"" + ref.field + "\" where \"" + ref.field + "\" = ?",
      "insert_" + ref.field + "_statement",
      "insert into \"" + ref.field + "\" (\"" + ref.field + "\") values (?)",
      if ref.cache.cacheSize != 0 then Some((ref.idField + "_cache", ref.cache.cacheSize)) else None)
  }

  /** The reference schemas of every table, in order. */
  function AllRefSchemas(schemas: seq<Schema.TableSchema>): seq<Schema.RefFieldSchema> {
    if |schemas| == 0 then [] else Schema.ToRefSchemas(schemas[0]) + AllRefSchemas(schemas[1..])
  }

  function RefSqls(refs: seq<Schema.RefFieldSchema>): (sqls: seq<string>)
    ensures |sqls| == |refs|
  {
    seq(|refs|, i requires 0 <= i < |refs| => MakeCreateRefTableSql(refs[i]))
  }

  /** The pieces of `makeRefTables` after the create-table statements in
      `created`: a satellite table whose create statement was already seen
      yields the empty piece (`None`). */
  function RefPieces(refs: seq<Schema.RefFieldSchema>, created: set<string>): (r: seq<Option<RefTableCode>>)
    ensures |r| == |refs|
    ensures forall i :: 0 <= i < |r| && r[i].Some? ==> r[i].value == RefTableCodeOf(refs[i])
  {
    if |refs| == 0 then []
    else
      var sql := MakeCreateRefTableSql(refs[0]);
      if sql in created then [None] + RefPieces(refs[1..], created)
      else [Some(RefTableCodeOf(refs[0]))] + RefPieces(refs[1..], created + {sql})
  }

  /** `makeRefTables`. */
  function MakeRefTables(schemas: seq<Schema.TableSchema>): seq<Option<RefTableCode>> {
    RefPieces(AllRefSchemas(schemas), {})
  }

  lemma RefSqlsTail(refs: seq<Schema.RefFieldSchema>)
    requires |refs| > 0
    ensures RefSqls(refs) == [MakeCreateRefTableSql(refs[0])] + RefSqls(refs[1..])
  {
  }

  /** A piece is empty exactly when its create statement was created before
      the call or by an earlier reference field. */
  predicate SkipsDuplicates(refs: seq<Schema.RefFieldSchema>, created: set<string>) {
    var r := RefPieces(refs, created); var sqls := RefSqls(refs);
    forall i :: 0 <= i < |r| ==> (r[i].None? <==> sqls[i] in created || sqls[i] in sqls[..i])
  }

  lemma RefPiecesCons(refs: seq<Schema.RefFieldSchema>, created: set<string>)
    requires |refs| > 0
    ensures var sql := MakeCreateRefTableSql(refs[0]); var r := RefPieces(refs, created);
      && (r[0].None? <==> sql in created)
      && r[1..] == RefPieces(refs[1..], if sql in created then created else created + {sql})
  {
  }

  lemma PrefixCons(xs: seq<string>, i: nat)
    requires 0 < i <= |xs|
    ensures xs[..i] == [xs[0]] + xs[1..][..i - 1]
  {
  }

  lemma SkipsDuplicatesStep(refs: seq<Schema.RefFieldSchema>, created: set<string>)
    requires |refs| > 0
    requires var sql := MakeCreateRefTableSql(refs[0]);
      SkipsDuplicates(refs[1..], if sql in created then created else created + {sql})
    ensures SkipsDuplicates(refs, created)
  {
    var sql := MakeCreateRefTableSql(refs[0]);
    var r := RefPieces(refs, created);
    var sqls := RefSqls(refs);
    RefPiecesCons(refs, created);
    RefSqlsTail(refs);
    var rest := r[1..];
    var tail := sqls[1..];
    forall i | 0 < i < |r|
      ensures r[i].None? <==> sqls[i] in created || sqls[i] in sqls[..i]
    {
      assert r[i] == rest[i - 1];
      assert sqls[i] == tail[i - 1];
      PrefixCons(sqls, i);
    }
  }

  lemma {:induction false} RefPiecesSkipDuplicates(refs: seq<Schema.RefFieldSchema>, created: set<string>)
    ensures SkipsDuplicates(refs, created)
    decreases |refs|
  {
    if |refs| > 0 {
      var sql := MakeCreateRefTableSql(refs[0]);
      RefPiecesSkipDuplicates(refs[1..], if sql in created then created else created + {sql});
      SkipsDuplicatesStep(refs, created);
    }
  }

  /** Every satellite table gets its code exactly once: the first reference
      field with a given create statement carries the piece, later ones are
      empty. */
  lemma RefTablesOncePerTable(schemas: seq<Schema.TableSchema>)
    ensures var refs := AllRefSchemas(schemas); var r := MakeRefTables(schemas); var sqls := RefSqls(refs);
      && |r| == |refs|
      && (forall i :: 0 <= i < |r| ==> (r[i].None? <==> sqls[i] in sqls[..i]))
      && (forall i :: 0 <= i < |r| ==> r[ArrayUtil.FirstIndex(sqls, sqls[i])] == Some(RefTableCodeOf(refs[ArrayUtil.FirstIndex(sqls, sqls[i])])))
  {
    var refs := AllRefSchemas(schemas);
    var r := MakeRefTables(schemas);
    var sqls := RefSqls(refs);
    RefPiecesSkipDuplicates(refs, {});
    forall i | 0 <= i < |r|
      ensures r[ArrayUtil.FirstIndex(sqls, sqls[i])] == Some(RefTableCodeOf(refs[ArrayUtil.FirstIndex(sqls, sqls[i])]))
    {
      var k := ArrayUtil.FirstIndex(sqls, sqls[i]);
      assert sqls[k] !in sqls[..k];
    }
  }

  const StatementImport := "import { Statement } from 'better-sqlite3'"
  const FromSchemaPackage := " from 'better-sqlite3-schema'"
  const TypesImport := "import { SqliteDataType, Int, SingleResult }" + FromSchemaPackage
  const NewCacheImport := "import { newCache }" + FromSchemaPackage

  /** Whether a reference field of `schema` is cached: a bare name listed in
      `cacheFields`, or a full schema with a non-zero `cacheSize`. */
  predicate CachedRef(schema: Schema.TableSchema, ref: Schema.RefField) {
    match ref
    case Bare(name) => Schema.IsCacheField(schema, name)
    case Declared(r) => r.cache.cacheSize != 0
  }

  /** Whether the table has a cached reference field. */
  predicate TableHasCache(schema: Schema.TableSchema) {
    exists j :: 0 <= j < |Schema.RefList(schema)| && CachedRef(schema, Schema.RefList(schema)[j])
  }

  /** `hasCache` of `makeImports`. */
  predicate HasCache(schemas: seq<Schema.TableSchema>) {
    exists i :: 0 <= i < |schemas| && TableHasCache(schemas[i])
  }

  /** The import lines before sorting. */
  function ImportList(schemas: seq<Schema.TableSchema>, extra: Option<seq<string>>): seq<string> {
    [StatementImport, TypesImport] + extra.GetOr([]) + (if HasCache(schemas) then [NewCacheImport] else [])
  }

  /** `code.split(' ').pop()`: the sort key of an import line. */
  function ModuleOf(code: string): string {
    var words := StringUtil.Split(code, ' ');
    words[|words| - 1]
  }

  /** Inserts `x` before the first line whose key is not below its own.
      The lines are inserted from the last one back, so a line lands before
      every line with an equal key that followed it in the input, as a
      stable sort places it. */
  function InsertImport(x: string, sorted: seq<string>, compare: (string, string) -> int): (r: seq<string>)
    ensures multiset(r) == multiset(sorted) + multiset{x}
  {
    if |sorted| == 0 || compare(ModuleOf(x), ModuleOf(sorted[0])) <= 0 then [x] + sorted
    else
      assert sorted == [sorted[0]] + sorted[1..];
      [sorted[0]] + InsertImport(x, sorted[1..], compare)
  }

  /** `sortImports`: a stable sort of the import lines by module, with the
      comparison of utils/compare.ts as a parameter (that file is not part
      of this model). */
  function SortImports(imports: seq<string>, compare: (string, string) -> int): (r: seq<string>)
    ensures multiset(r) == multiset(imports)
  {
    if |imports| == 0 then []
    else
      assert imports == [imports[0]] + imports[1..];
      InsertImport(imports[0], SortImports(imports[1..], compare), compare)
  }

  /** `makeImports`. */
  function MakeImports(schemas: seq<Schema.TableSchema>, extra: Option<seq<string>>,
                       compare: (string, string) -> int): string
  {
    StringUtil.Join(SortImports(ImportList(schemas, extra), compare), "\n")
  }

  /** A comparison that never calls both orders of a pair "greater". */
  ghost predicate Antisymmetric(compare: (string, string) -> int) {
    forall a, b :: compare(a, b) > 0 ==> compare(b, a) <= 0
  }

  predicate SortedByModule(lines: seq<string>, compare: (string, string) -> int) {
    forall i :: 0 <= i < |lines| - 1 ==> compare(ModuleOf(lines[i]), ModuleOf(lines[i + 1])) <= 0
  }

  lemma {:induction false} InsertImportSorted(x: string, sorted: seq<string>, compare: (string, string) -> int)
    requires Antisymmetric(compare) && SortedByModule(sorted, compare)
    ensures var r := InsertImport(x, sorted, compare);
      SortedByModule(r, compare) && |r| > 0 && (r[0] == x || (|sorted| > 0 && r[0] == sorted[0]))
    decreases |sorted|
  {
    if |sorted| > 0 && compare(ModuleOf(x), ModuleOf(sorted[0])) > 0 {
      var rest := InsertImport(x, sorted[1..], compare);
      InsertImportSorted(x, sorted[1..], compare);
      var r := [sorted[0]] + rest;
      forall i | 0 <= i < |r| - 1 ensures compare(ModuleOf(r[i]), ModuleOf(r[i + 1])) <= 0 {
        if i > 0 {
          assert r[i] == rest[i - 1] && r[i + 1] == rest[i];
        } else if rest[0] != x {
          assert rest[0] == sorted[1];
        }
      }
    }
  }

  /** With an antisymmetric comparison the lines come out ordered by module,
      and always as a permutation of the input. */
  lemma {:induction false} SortImportsSorted(imports: seq<string>, compare: (string, string) -> int)
    requires Antisymmetric(compare)
    ensures SortedByModule(SortImports(imports, compare), compare)
    decreases |imports|
  {
    if |imports| > 0 {
      SortImportsSorted(imports[1..], compare);
      InsertImportSorted(imports[0], SortImports(imports[1..], compare), compare);
    }
  }

  /** The lines whose key is `m`, in order. */
  function KeepKey(lines: seq<string>, key: string -> string, m: string): seq<string> {
    if |lines| == 0 then []
    else (if key(lines[0]) == m then [lines[0]] else []) + KeepKey(lines[1..], key, m)
  }

  lemma {:induction false} InsertImportKeeps(x: string, sorted: seq<string>, compare: (string, string) -> int, m: string)
    requires compare(m, m) <= 0
    ensures KeepKey(InsertImport(x, sorted, compare), ModuleOf, m) == KeepKey([x] + sorted, ModuleOf, m)
    decreases |sorted|
  {
    if |sorted| > 0 && compare(ModuleOf(x), ModuleOf(sorted[0])) > 0 {
      InsertImportKeeps(x, sorted[1..], compare, m);
      assert [sorted[0]] + sorted[1..] == sorted;
      SwapKeeps(x, sorted[0], sorted[1..], InsertImport(x, sorted[1..], compare), ModuleOf, m);
    }
  }

  /** Moving `x` past a line with another key leaves the lines of each key
      in order. */
  lemma SwapKeeps(x: string, y: string, tail: seq<string>, rest: seq<string>, key: string -> string, m: string)
    requires KeepKey(rest, key, m) == KeepKey([x] + tail, key, m)
    requires key(x) != m || key(y) != m
    ensures KeepKey([y] + rest, key, m) == KeepKey([x] + ([y] + tail), key, m)
  {
    var a := if key(y) == m then [y] else [];
    var b := if key(x) == m then [x] else [];
    var t := KeepKey(tail, key, m);
    KeepKeyCons(y, rest, key, m);
    KeepKeyCons(x, tail, key, m);
    KeepKeyCons(x, [y] + tail, key, m);
    KeepKeyCons(y, tail, key, m);
    if a == [] {
      assert a + (b + t) == b + t == b + (a + t);
    } else {
      assert a + (b + t) == a + t == b + (a + t);
    }
  }

  lemma KeepKeyCons(a: string, rest: seq<string>, key: string -> string, m: string)
    ensures KeepKey([a] + rest, key, m) == (if key(a) == m then [a] else []) + KeepKey(rest, key, m)
  {
    assert ([a] + rest)[0] == a && ([a] + rest)[1..] == rest;
  }

  /** The sort is stable: the lines of any one module come out in the order
      they went in, whenever `compare` ranks that module no higher than
      itself. */
  lemma {:induction false} SortImportsStable(imports: seq<string>, compare: (string, string) -> int, m: string)
    requires compare(m, m) <= 0
    ensures KeepKey(SortImports(imports, compare), ModuleOf, m) == KeepKey(imports, ModuleOf, m)
    decreases |imports|
  {
    if |imports| > 0 {
      var rest := SortImports(imports[1..], compare);
      SortImportsStable(imports[1..], compare, m);
      InsertImportKeeps(imports[0], rest, compare, m);
      KeepKeyCons(imports[0], rest, ModuleOf, m);
      KeepKeyCons(imports[0], imports[1..], ModuleOf, m);
      assert [imports[0]] + imports[1..] == imports;
    }
  }

  /** The `newCache` import is emitted exactly when some table has a cached
      reference field or the caller asked for it. */
  lemma ImportsNewCacheIff(schemas: seq<Schema.TableSchema>, extra: Option<seq<string>>,
                           compare: (string, string) -> int)
    ensures NewCacheImport in SortImports(ImportList(schemas, extra), compare)
        <==> HasCache(schemas) || (extra.Some? && NewCacheImport in extra.value)
  {
    var list := ImportList(schemas, extra);
    assert NewCacheImport in multiset(SortImports(list, compare)) <==> NewCacheImport in multiset(list);
    assert StatementImport != NewCacheImport && TypesImport != NewCacheImport;
  }

  lemma ImportListHasNoBreak(schemas: seq<Schema.TableSchema>, extra: Option<seq<string>>)
    requires forall line :: line in extra.GetOr([]) ==> '\n' !in line
    ensures forall line :: line in ImportList(schemas, extra) ==> '\n' !in line
  {
    assert forall i :: 0 <= i < |StatementImport| ==> StatementImport[i] != '\n';
    var types := "import { SqliteDataType, Int, SingleResult }";
    var newCache := "import { newCache }";
    assert forall i :: 0 <= i < |FromSchemaPackage| ==> FromSchemaPackage[i] != '\n';
    assert forall i :: 0 <= i < |types| ==> types[i] != '\n';
    assert forall i :: 0 <= i < |newCache| ==> newCache[i] != '\n';
  }

  /** The import block splits back into the sorted lines when no extra
      import spans several lines. */
  lemma ImportLinesReadBack(schemas: seq<Schema.TableSchema>, extra: Option<seq<string>>,
                            compare: (string, string) -> int)
    requires forall line :: line in extra.GetOr([]) ==> '\n' !in line
    ensures StringUtil.Split(MakeImports(schemas, extra, compare), '\n') == SortImports(ImportList(schemas, extra), compare)
  {
    var sorted := SortImports(ImportList(schemas, extra), compare);
    var list := ImportList(schemas, extra);
    ImportListHasNoBreak(schemas, extra);
    forall i | 0 <= i < |sorted| ensures '\n' !in sorted[i] {
      assert sorted[i] in multiset(list);
    }
    assert |multiset(sorted)| == |multiset(list)|;
    StringUtil.SplitJoin(sorted, '\n');
  }

  /** One argument of the generated `insert...run(...)` call: a field of the
      caller's data (`data["<name>"]`) or the id a reference lookup produced
      (the local variable `<name>`). */
  datatype InsertValue = FromData(name: string) | FromRef(name: string)

  /** The arguments as makeTable and makeDeduplicatedTable write them: the
      `toFieldNames` fields, then every reference id. */
  function AsWrittenInsertValues(schema: Schema.TableSchema): (r: seq<InsertValue>)
    ensures |r| == |PlainFieldNames(schema)| + |Schema.RefList(schema)|
    ensures forall i :: 0 <= i < |PlainFieldNames(schema)| ==> r[i] == FromData(PlainFieldNames(schema)[i])
    ensures forall j :: 0 <= j < |Schema.RefList(schema)| ==>
      r[|PlainFieldNames(schema)| + j] == FromRef(Schema.RefIdFieldNames(schema)[j])
  {
    var plain := PlainFieldNames(schema);
    var ids := Schema.RefIdFieldNames(schema);
    seq(|plain|, i requires 0 <= i < |plain| => FromData(plain[i]))
      + seq(|ids|, i requires 0 <= i < |ids| => FromRef(ids[i]))
  }

  /** The arguments bind to the columns of the insert statement one by one. */
  predicate Aligned(columns: seq<string>, values: seq<InsertValue>) {
    |columns| == |values| && forall i :: 0 <= i < |values| ==> values[i].name == columns[i]
  }

  /** A table with one bare reference field and a deduplication field that is
      not among its `fields`. */
  const MisalignedSchema := Schema.PlainSchema("post").(refFields := Some([Schema.Bare("author")]),
                                                        deduplicateFields := Some(["url"]))

  /** As written, the insert statement of `MisalignedSchema` lists the
      columns `author_id`, `url`, while the call passes `data["url"]` first
      and the author id second: each value lands in the other's column. */
  lemma AsWrittenValuesMisaligned()
    ensures ToRowFieldNames(MisalignedSchema) == ["author_id", "url"]
    ensures AsWrittenInsertValues(MisalignedSchema) == [FromData("url"), FromRef("author_id")]
    ensures !Aligned(ToRowFieldNames(MisalignedSchema), AsWrittenInsertValues(MisalignedSchema))
  {
    MisalignedRows();
    MisalignedValues();
    assert AsWrittenInsertValues(MisalignedSchema)[0].name != ToRowFieldNames(MisalignedSchema)[0];
  }

  lemma MisalignedValues()
    ensures AsWrittenInsertValues(MisalignedSchema) == [FromData("url"), FromRef("author_id")]
  {
    MisalignedRefIds();
    MisalignedPlain();
    AsWrittenOfSingletons(MisalignedSchema, "url", "author_id");
  }

  lemma AsWrittenOfSingletons(schema: Schema.TableSchema, field: string, id: string)
    requires PlainFieldNames(schema) == [field] && Schema.RefIdFieldNames(schema) == [id]
    ensures AsWrittenInsertValues(schema) == [FromData(field), FromRef(id)]
  {
    var r := AsWrittenInsertValues(schema);
    assert r[0] == FromData(field);
    assert r[1] == FromRef(id);
  }

  lemma MisalignedRefIds()
    ensures Schema.FieldKeys(MisalignedSchema) == []
    ensures Schema.RefIdFieldNames(MisalignedSchema) == ["author_id"]
  {
    var schema := MisalignedSchema;
    assert Schema.RefList(schema) == [Schema.Bare("author")];
    assert Schema.IdFieldSuffix(schema) == "_id";
    assert Schema.RefIdFieldName(Schema.Bare("author"), "_id") == "author_id";
    assert Schema.RefIdFieldNames(schema)[0] == "author_id";
  }

  lemma MisalignedRows()
    ensures ToRowFieldNames(MisalignedSchema) == ["author_id", "url"]
  {
    MisalignedRefIds();
    assert RowCandidates(MisalignedSchema) == ["", "author_id", "url"];
    assert NonEmpty(["", "author_id", "url"]) == ["author_id", "url"];
    UniqueOfPair("author_id", "url");
  }

  lemma MisalignedPlain()
    ensures PlainFieldNames(MisalignedSchema) == ["url"]
  {
    MisalignedRefIds();
    assert PlainCandidates(MisalignedSchema) == ["", "url"];
    assert NonEmpty(["", "url"]) == ["url"];
    UniqueOfSingle("url");
  }

  lemma UniqueOfSingle(a: string)
    ensures ArrayUtil.Unique([a]) == [a]
  {
    ArrayUtil.UniqueOfDistinct([a]);
  }

  lemma UniqueOfPair(a: string, b: string)
    requires a != b
    ensures ArrayUtil.Unique([a, b]) == [a, b]
  {
    ArrayUtil.UniqueOfDistinct([a, b]);
  }

  /** The intended arguments: one per column of the insert statement, taken
      from the reference lookup for a reference id column and from the data
      otherwise. */
  function InsertValues(schema: Schema.TableSchema): (r: seq<InsertValue>)
    ensures Aligned(ToRowFieldNames(schema), r)
    ensures forall i :: 0 <= i < |r| ==> (r[i].FromRef? <==> r[i].name in Schema.RefIdFieldNames(schema))
  {
    var columns := ToRowFieldNames(schema);
    seq(|columns|, i requires 0 <= i < |columns| =>
      if columns[i] in Schema.RefIdFieldNames(schema) then FromRef(columns[i]) else FromData(columns[i]))
  }

  /** The insert arguments name distinct columns, so no column receives two
      values. */
  lemma InsertValuesDistinct(schema: Schema.TableSchema)
    ensures var r := InsertValues(schema);
      forall i, j :: 0 <= i < j < |r| ==> r[i].name != r[j].name
  {
  }

  /** The statements of the deduplicating variant: the unique index (when
      `autoCreateIndex`), the count statement on the id field, and the same
      insert statement and arguments as the plain insert. */
  datatype DedupCode = DedupCode(
    createIndex: Option<string>,
    insertFnName: string,
    countName: string,
    countSql: string,
    insertName: string,
    insertSql: string,
    values: seq<InsertValue>)

  /** What `makeTable` emits for one table: the type-name stem, the
      statements, and the insert function. */
  datatype TableCode = TableCode(
    typeName: string,
    insertFnName: string,
    createTable: Option<string>,
    createIndex: Option<string>,
    insertName: string,
    insertSql: string,
    values: seq<InsertValue>,
    dedup: Option<DedupCode>)

  /** `makeDeduplicatedTable`, given the camel-cased table name it computes
      again. */
  function MakeDedupCode(schema: Schema.TableSchema, typeName: string): DedupCode {
    var table := schema.table;
    DedupCode(
      if schema.autoCreateIndex then
        Some(if schema.createIndexSql != "" then schema.createIndexSql else MakeUniqueIndexSql(table, DedupFields(schema)))
      else None,
      "deduplicatedInsert" + typeName,
      "count_" + schema.idField + "_statement",
      "select count(*) count from \"" + table + "\" where \"" + schema.idField + "\" = ?",
      "deduplicated_insert_" + table + "_statement",
      MakeInsertSql(table, ToRowFieldNames(schema)),
      InsertValues(schema))
  }

  /** `makeTable`, with the arguments of the insert call in column order.
      It fails, before anything is emitted, when the table name has no
      camel-case form. */
  function MakeTable(schema: Schema.TableSchema): Result<TableCode> {
    match StringUtil.ToCamelCase(schema.table)
    case Err(e) => Err(e)
    case Ok(typeName) => Ok(TableCode(
      typeName,
      "insert" + typeName,
      if schema.autoCreateTable then
        Some(if schema.createTableSql != "" then schema.createTableSql else MakeCreateTableSql(schema))
      else None,
      if schema.createIndexSql != "" then Some(schema.createIndexSql) else None,
      "insert_" + schema.table + "_statement",
      MakeInsertSql(schema.table, ToRowFieldNames(schema)),
      InsertValues(schema),
      if schema.deduplicateFields.Some? && schema.idField != "" then Some(MakeDedupCode(schema, typeName)) else None))
  }

  /** Code is generated exactly when the table name has a camel-case form,
      and the insert functions are named after it. The generated insert
      names every row column once, binds one argument per placeholder, and
      the deduplicating variant exists exactly when `deduplicateFields` and
      `idField` are both set, sharing that insert. */
  lemma MakeTableInsert(schema: Schema.TableSchema)
    ensures MakeTable(schema).Ok? <==> StringUtil.ToCamelCase(schema.table).Ok?
    ensures MakeTable(schema).Ok? ==>
      var t := MakeTable(schema).value; var columns := ToRowFieldNames(schema);
      && t.typeName == StringUtil.ToCamelCase(schema.table).value
      && t.insertFnName == "insert" + t.typeName
      && Aligned(columns, t.values)
      && t.insertSql == MakeInsertSql(schema.table, columns)
      && StringUtil.Count('?', Placeholders(|columns|)) == |t.values|
      && (|columns| > 0 ==> ReadColumns(StringUtil.Join(ColumnLines(columns), ",\n")) == Some(columns))
      && (t.dedup.Some? <==> schema.deduplicateFields.Some? && schema.idField != "")
      && (t.dedup.Some? ==> t.dedup.value.insertSql == t.insertSql && t.dedup.value.values == t.values)
      && (t.dedup.Some? ==> t.dedup.value.insertFnName == "deduplicatedInsert" + t.typeName)
  {
    var columns := ToRowFieldNames(schema);
    PlaceholderCount(|columns|);
    if |columns| > 0 {
      InsertSqlColumnsReadBack(columns);
    }
  }

  /** The table is created only when `autoCreateTable` is set, by the given
      statement or else the generated one. A given `createIndexSql` runs
      whatever `autoCreateIndex` says; the deduplicating variant's unique
      index, given or generated, runs only under `autoCreateIndex`. */
  lemma MakeTableCreate(schema: Schema.TableSchema)
    ensures MakeTable(schema).Ok? ==>
      var t := MakeTable(schema).value;
      && (t.createTable.Some? <==> schema.autoCreateTable)
      && (t.createTable.Some? && schema.createTableSql != "" ==> t.createTable.value == schema.createTableSql)
      && (t.createTable.Some? && schema.createTableSql == "" ==> t.createTable.value == MakeCreateTableSql(schema))
      && t.createIndex == (if schema.createIndexSql != "" then Some(schema.createIndexSql) else None)
      && (t.dedup.Some? ==> (t.dedup.value.createIndex.Some? <==> schema.autoCreateIndex))
      && (t.dedup.Some? && t.dedup.value.createIndex.Some? && schema.createIndexSql != "" ==>
            t.dedup.value.createIndex.value == schema.createIndexSql)
  {
  }
}

=== FILE: function_util.dfy ===
/** `chain` (src/utils/function.ts): composition of two functions, the first
    applied before the second. Row pipelines are built by wrapping stages with it. */
module FunctionUtil {

  /** `chain(first, second)`: feeds the result of `first` to `second`. */
  function Chain<T, M, R>(first: T -> M, second: M -> R): T -> R {
    x => second(first(x))
  }

  /** The result of wrapping `p` repeatedly, `p := chain(m, p)`, once for each
      stage in `stages`, in list order. */
  function WrapAll<T, R>(stages: seq<T -> T>, p: T -> R): T -> R
    decreases |stages|
  {
    if |stages| == 0 then p else WrapAll(stages[1..], Chain(stages[0], p))
  }

  /** Applies `stages` to `x` in list order: `stages[0]` first. */
  function RunInOrder<T>(stages: seq<T -> T>, x: T): T
    decreases |stages|
  {
    if |stages| == 0 then x else RunInOrder(stages[1..], stages[0](x))
  }

  function Reverse<T>(xs: seq<T>): (r: seq<T>)
    ensures |r| == |xs|
    ensures forall i :: 0 <= i < |xs| ==> r[i] == xs[|xs| - 1 - i]
  {
    if |xs| == 0 then [] else Reverse(xs[1..]) + [xs[0]]
  }

  lemma {:induction false} RunInOrderSnoc<T>(stages: seq<T -> T>, m: T -> T, x: T)
    ensures RunInOrder(stages + [m], x) == m(RunInOrder(stages, x))
    decreases |stages|
  {
    if |stages| == 0 {
      assert stages + [m] == [m];
      assert [m][1..] == [];
    } else {
      assert (stages + [m])[1..] == stages[1..] + [m];
      RunInOrderSnoc(stages[1..], m, stages[0](x));
    }
  }

  /** Repeated wrapping runs the stages in reverse order of wrapping: the stage
      added last runs first and the innermost function `p` runs last. */
  lemma {:induction false} WrapAllRunsLastAddedFirst<T, R>(stages: seq<T -> T>, p: T -> R, x: T)
    ensures WrapAll(stages, p)(x) == p(RunInOrder(Reverse(stages), x))
    decreases |stages|
  {
    if |stages| > 0 {
      var m := stages[0];
      WrapAllRunsLastAddedFirst(stages[1..], Chain(m, p), x);
      assert Reverse(stages) == Reverse(stages[1..]) + [m];
      RunInOrderSnoc(Reverse(stages[1..]), m, x);
    }
  }
}

=== FILE: json_text.dfy ===
/** `escapeField` (src/helpers.ts), which is `JSON.stringify` applied to a
    string: the string between double quotes, with `"` and `\` escaped, the
    control characters U+0000..U+001F written as `\b`, `\t`, `\n`, `\f`,
    `\r` or `\u00XX` (lower-case hex), and every other character as is.
    Its partner is the string-literal reader of `JSON.parse`. Characters are
    Unicode scalar values, so lone surrogates do not arise. */
module JsonText {
  import opened Outcomes

  function HexDigit(n: nat): (c: char)
    requires n < 16
  {
    if n < 10 then ('0' as int + n) as char else ('a' as int + n - 10) as char
  }

  /** The value of a hexadecimal digit of either case. */
  function HexValue(c: char): (r: Option<nat>)
    ensures r.Some? ==> r.value < 16
  {
    if '0' <= c <= '9' then Some(c as int - '0' as int)
    else if 'a' <= c <= 'f' then Some(c as int - 'a' as int + 10)
    else if 'A' <= c <= 'F' then Some(c as int - 'A' as int + 10)
    else None
  }

  /** How `JSON.stringify` writes one character of a string. */
  function EscapeChar(c: char): (e: string)
    ensures |e| >= 1
    ensures e[0] == '\\' <==> (c == '"' || c == '\\' || c < ' ')
    ensures forall i :: 0 <= i < |e| ==> e[i] >= ' '
  {
    if c == '"' then "\\\""
    else if c == '\\' then "\\\\"
    else if c == (8 as char) then "\\b"
    else if c == '\t' then "\\t"
    else if c == '\n' then "\\n"
    else if c == (12 as char) then "\\f"
    else if c == '\r' then "\\r"
    else if c < ' ' then "\\u00" + [HexDigit(c as int / 16), HexDigit(c as int % 16)]
    else [c]
  }

  /** The body of the quoted string: each character escaped, in order. */
  function Escape(s: string): (e: string)
    ensures forall i :: 0 <= i < |e| ==> e[i] >= ' '
  {
    if |s| == 0 then "" else EscapeChar(s[0]) + Escape(s[1..])
  }

  /** `escapeField(s)`, that is `JSON.stringify(s)` for a string `s`. */
  function Quote(s: string): (q: string)
    ensures |q| >= 2 && q[0] == '"' && q[|q| - 1] == '"'
    ensures forall i :: 0 <= i < |q| ==> q[i] >= ' '
  {
    "\"" + Escape(s) + "\""
  }

  /** The character a one-letter escape stands for. */
  function ShortEscape(c: char): Option<char> {
    match c
    case '"' => Some('"')
    case '\\' => Some('\\')
    case '/' => Some('/')
    case 'b' => Some(8 as char)
    case 'f' => Some(12 as char)
    case 'n' => Some('\n')
    case 'r' => Some('\r')
    case 't' => Some('\t')
    case _ => None
  }

  /** The character of `\uXXXX`, if the four digits are hexadecimal and
      name a scalar value. */
  function UnicodeEscape(d: string): Option<char>
    requires |d| == 4
  {
    var h := [HexValue(d[0]), HexValue(d[1]), HexValue(d[2]), HexValue(d[3])];
    if h[0].None? || h[1].None? || h[2].None? || h[3].None? then None
    else
      var v := ((h[0].value * 16 + h[1].value) * 16 + h[2].value) * 16 + h[3].value;
      if 0xD800 <= v < 0xE000 then None else Some(v as char)
  }

  function Prepend(c: char, r: Option<string>): Option<string> {
    if r.None? then None else Some([c] + r.value)
  }

  /** The characters a JSON string body stands for: escapes are resolved;
      an unescaped `"`, a raw control character or a malformed escape make
      the text unreadable. */
  function Decode(t: string): (r: Option<string>)
    decreases |t|
  {
    if |t| == 0 then Some("")
    else if t[0] == '\\' then
      if |t| < 2 then None
      else if t[1] == 'u' then
        if |t| < 6 then None
        else
          match UnicodeEscape(t[2..6])
          case None => None
          case Some(c) => Prepend(c, Decode(t[6..]))
      else
        match ShortEscape(t[1])
        case None => None
        case Some(c) => Prepend(c, Decode(t[2..]))
    else if t[0] == '"' || t[0] < ' ' then None
    else Prepend(t[0], Decode(t[1..]))
  }

  /** `JSON.parse` of a text that should be one string literal. */
  function Unquote(q: string): Option<string> {
    if |q| >= 2 && q[0] == '"' && q[|q| - 1] == '"' then Decode(q[1..|q| - 1]) else None
  }

  lemma HexRoundTrip(n: nat)
    requires n < 16
    ensures HexValue(HexDigit(n)) == Some(n)
  {
  }

  lemma DecodeEscapeChar(c: char, rest: string)
    ensures Decode(EscapeChar(c) + rest) == Prepend(c, Decode(rest))
  {
    var t := EscapeChar(c) + rest;
    if c == '"' || c == '\\' || c == (8 as char) || c == '\t' || c == '\n' || c == (12 as char) || c == '\r' {
      assert t[2..] == rest;
    } else if c < ' ' {
      var n := c as int;
      HexRoundTrip(n / 16);
      HexRoundTrip(n % 16);
      assert t[2..6] == "00" + [HexDigit(n / 16), HexDigit(n % 16)];
      assert UnicodeEscape(t[2..6]) == Some(c);
      assert t[6..] == rest;
    } else {
      assert t[1..] == rest;
    }
  }

  /** Reading the escaped body gives back the string. */
  lemma {:induction false} DecodeEscape(s: string)
    ensures Decode(Escape(s)) == Some(s)
    decreases |s|
  {
    if |s| > 0 {
      DecodeEscapeChar(s[0], Escape(s[1..]));
      DecodeEscape(s[1..]);
      assert [s[0]] + s[1..] == s;
    }
  }

  /** `JSON.parse(JSON.stringify(s)) === s`: quoting loses nothing. */
  lemma QuoteRoundTrip(s: string)
    ensures Unquote(Quote(s)) == Some(s)
  {
    var q := Quote(s);
    assert q[1..|q| - 1] == Escape(s);
    DecodeEscape(s);
  }

  /** Scans a string literal whose opening quote is already read: the raw
      body up to the first unescaped `"`, and the text after that quote.
      An escape is skipped whole, so an escaped quote does not end it. */
  function ReadLiteral(t: string): (r: Option<(string, string)>)
    ensures r.Some? ==> |r.value.1| < |t|
    decreases |t|
  {
    if |t| == 0 then None
    else if t[0] == '"' then Some(("", t[1..]))
    else if t[0] == '\\' then
      if |t| < 2 then None
      else
        match ReadLiteral(t[2..])
        case None => None
        case Some(p) => Some((t[..2] + p.0, p.1))
    else
      match ReadLiteral(t[1..])
      case None => None
      case Some(p) => Some(([t[0]] + p.0, p.1))
  }

  /** Scanning past one escaped character keeps it in the body. */
  lemma ReadLiteralEscapeChar(c: char, t: string)
    ensures var r := ReadLiteral(t);
      ReadLiteral(EscapeChar(c) + t) == if r.None? then None else Some((EscapeChar(c) + r.value.0, r.value.1))
  {
    var e := EscapeChar(c);
    var u := e + t;
    if e[0] == '\\' {
      assert u[..2] == e[..2];
      if |e| == 2 {
        assert u[2..] == t;
        assert e[..2] == e;
      } else {
        var d1 := HexDigit(c as int / 16);
        var d2 := HexDigit(c as int % 16);
        assert e == "\\u00" + [d1, d2];
        var x3 := [d2] + t;
        var x2 := [d1] + x3;
        var x1 := ['0'] + x2;
        var x0 := ['0'] + x1;
        assert u[2..] == x0;
        assert x0[1..] == x1 && x1[1..] == x2 && x2[1..] == x3 && x3[1..] == t;
        assert d1 != '"' && d1 != '\\' && d2 != '"' && d2 != '\\';
        var r := ReadLiteral(t);
        if r.Some? {
          assert ReadLiteral(x3) == Some(([d2] + r.value.0, r.value.1));
          assert ReadLiteral(x2) == Some(([d1] + ([d2] + r.value.0), r.value.1));
          assert ReadLiteral(x0) == Some((['0'] + (['0'] + ([d1] + ([d2] + r.value.0))), r.value.1));
          assert e[..2] + (['0'] + (['0'] + ([d1] + ([d2] + r.value.0)))) == e + r.value.0;
        } else {
          assert ReadLiteral(x3) == None && ReadLiteral(x2) == None;
          assert ReadLiteral(x0) == None;
        }
      }
    } else {
      assert e == [c];
      assert u[1..] == t;
    }
  }

  /** The literal `JSON.stringify` writes ends exactly at its closing quote,
      whatever follows it. */
  lemma {:induction false} ReadLiteralOfEscape(s: string, rest: string)
    ensures ReadLiteral(Escape(s) + "\"" + rest) == Some((Escape(s), rest))
    decreases |s|
  {
    if |s| == 0 {
      assert Escape(s) + "\"" + rest == "\"" + rest;
      assert ("\"" + rest)[1..] == rest;
    } else {
      ReadLiteralOfEscape(s[1..], rest);
      ReadLiteralEscapeChar(s[0], Escape(s[1..]) + "\"" + rest);
      assert Escape(s) + "\"" + rest == EscapeChar(s[0]) + (Escape(s[1..]) + "\"" + rest);
    }
  }

  /** Distinct names are quoted differently. */
  lemma QuoteInjective(a: string, b: string)
    ensures Quote(a) == Quote(b) <==> a == b
  {
    if Quote(a) == Quote(b) {
      QuoteRoundTrip(a);
      QuoteRoundTrip(b);
    }
  }
}

=== FILE: lang.dfy ===
/** `toSingular` (src/utils/lang.ts): a naive English singular form of a table
    or field name. */
module Lang {

  predicate EndsWith(word: string, suffix: string) {
    |suffix| <= |word| && word[|word| - |suffix|..] == suffix
  }

  /** `toSingular`: a trailing `ies` becomes `y`; otherwise one trailing `s` is
      dropped; otherwise, the empty word included, the word is kept. */
  function ToSingular(word: string): (r: string)
    ensures |r| <= |word|
    ensures EndsWith(word, "ies") ==> |r| == |word| - 2 && r[..|r| - 1] + "ies" == word && r[|r| - 1] == 'y'
    ensures !EndsWith(word, "ies") && EndsWith(word, "s") ==> r + "s" == word
    ensures !EndsWith(word, "s") ==> r == word
  {
    if EndsWith(word, "ies") then word[..|word| - 3] + "y"
    else
      var last := |word| - 1;
      if last >= 0 && word[last] == 's' then word[..last]
      else
        assert last >= 0 ==> word[last..][0] == word[last];
        word
  }

  /** The regular plural `word + "s"` maps back to `word`, unless the plural
      happens to end in `ies`. */
  lemma SingularOfPlural(word: string)
    requires !EndsWith(word, "ie")
    ensures ToSingular(word + "s") == word
  {
    var w := word + "s";
    assert |w| >= 3 ==> w[|w| - 3..] == word[|word| - 2..] + "s";
    assert w[..|w| - 1] == word;
  }

  /** The plural `stem + "ies"` maps to `stem + "y"`. */
  lemma SingularOfIesPlural(stem: string)
    ensures ToSingular(stem + "ies") == stem + "y"
  {
    var w := stem + "ies";
    assert w[|w| - 3..] == "ies";
    assert w[..|w| - 3] == stem;
  }
}

=== FILE: memo_cache.dfy ===
/** `newCache` (src/utils/cache.ts): a string-keyed memo whose `size` counts the
    UTF-16 code units (`key.length`) of the keys inserted since the last clear,
    and which empties itself once that count reaches the configured
    `resetSize`. */
module MemoCache {
  import opened Outcomes

  /** The closure state of one `newCache` instance. `resetSize` is the option as
      given; `0` stands for an absent, `false` or zero option, all of which are
      falsy in `resetSize && size >= resetSize`. */
  datatype Cache<T> = Cache(entries: map<string, T>, size: nat, resetSize: int)

  /** `newCache({ resetSize })`: no entries and `size = 0`. */
  function NewCache<T>(resetSize: int): (c: Cache<T>)
    ensures Valid(c) && |c.entries| == 0 && c.resetSize == resetSize
  {
    KeyCharsEmpty();
    Cache(map[], 0, resetSize)
  }

  /** `key.length` of a JavaScript string: one UTF-16 code unit per
      character of the Basic Multilingual Plane, two for any other. */
  function KeyLength(key: string): (n: nat)
    ensures |key| <= n <= 2 * |key|
    ensures (forall i :: 0 <= i < |key| ==> key[i] as int <= 0xFFFF) ==> n == |key|
    decreases |key|
  {
    if |key| == 0 then 0
    else (if key[0] as int <= 0xFFFF then 1 else 2) + KeyLength(key[1..])
  }

  /** The own-key lookup `Object.prototype.hasOwnProperty.call(cache, key)`:
      the memoised value, if any. */
  function Lookup<T>(c: Cache<T>, key: string): (r: Option<T>)
    ensures r.Some? <==> key in c.entries
    ensures r.Some? ==> r.value == c.entries[key]
  {
    if key in c.entries then Some(c.entries[key]) else None
  }

  /** `clear`: empties the cache and resets `size`. */
  function Clear<T>(c: Cache<T>): (c': Cache<T>)
    ensures |c'.entries| == 0 && c'.size == 0 && c'.resetSize == c.resetSize
  {
    Cache(map[], 0, c.resetSize)
  }

  /** Whether inserting `key` makes the cache clear itself. */
  predicate ClearsAfter<T>(c: Cache<T>, key: string) {
    c.resetSize != 0 && c.size + KeyLength(key) >= c.resetSize
  }

  /** The miss path of `get`: stores the generated value, adds the key's
      length to `size`, then clears the whole cache if the budget is reached. */
  function Store<T>(c: Cache<T>, key: string, value: T): (c': Cache<T>)
    ensures c'.resetSize == c.resetSize
    ensures ClearsAfter(c, key) ==> |c'.entries| == 0 && c'.size == 0
    ensures !ClearsAfter(c, key) ==> c'.entries == c.entries[key := value] && c'.size == c.size + KeyLength(key)
  {
    var stored := Cache(c.entries[key := value], c.size + KeyLength(key), c.resetSize);
    if stored.resetSize != 0 && stored.size >= stored.resetSize then Clear(stored) else stored
  }

  /** `get(key, genFn)`: the new cache state and the value returned. */
  function Get<T>(c: Cache<T>, key: string, gen: string -> T): (r: (Cache<T>, T))
    ensures key in c.entries ==> r.0 == c && r.1 == c.entries[key]
    ensures key !in c.entries ==> r.1 == gen(key) && r.0 == Store(c, key, gen(key))
  {
    match Lookup(c, key)
    case Some(v) => (c, v)
    case None => var v := gen(key); (Store(c, key, v), v)
  }

  /** The sum of the lengths of the keys in `keys`. */
  ghost function KeyChars(keys: set<string>): nat {
    if keys == {} then 0 else var k :| k in keys; KeyLength(k) + KeyChars(keys - {k})
  }

  lemma KeyCharsEmpty()
    ensures KeyChars({}) == 0
  {
  }

  /** Removing any one key subtracts exactly its length. */
  lemma {:induction false} KeyCharsRemove(keys: set<string>, k: string)
    requires k in keys
    ensures KeyChars(keys) == KeyLength(k) + KeyChars(keys - {k})
    decreases |keys|
  {
    var j :| j in keys && KeyChars(keys) == KeyLength(j) + KeyChars(keys - {j});
    if j != k {
      KeyCharsRemove(keys - {j}, k);
      KeyCharsRemove(keys - {k}, j);
      assert keys - {j} - {k} == keys - {k} - {j};
    }
  }

  /** The cache invariant: `size` is the total length of the resident keys,
      and a positive budget is never reached between calls. */
  ghost predicate Valid<T>(c: Cache<T>) {
    && c.size == KeyChars(c.entries.Keys)
    && (c.resetSize > 0 ==> c.size < c.resetSize)
    && (c.resetSize < 0 ==> |c.entries| == 0)
  }

  /** `clear` leaves a valid, empty cache. */
  lemma ClearIsValid<T>(c: Cache<T>)
    ensures Valid(Clear(c))
  {
    KeyCharsEmpty();
  }

  /** Every `get` preserves the invariant. */
  lemma GetPreservesValid<T>(c: Cache<T>, key: string, gen: string -> T)
    requires Valid(c)
    ensures Valid(Get(c, key, gen).0)
  {
    if key !in c.entries {
      var c' := Get(c, key, gen).0;
      if ClearsAfter(c, key) {
        KeyCharsEmpty();
      } else {
        var keys := c.entries.Keys + {key};
        assert c'.entries.Keys == keys;
        KeyCharsRemove(keys, key);
        assert keys - {key} == c.entries.Keys;
      }
    }
  }

  /** Without a budget the cache never clears itself: a miss makes the key
      resident and keeps every earlier entry. */
  lemma GetWithoutBudgetOnlyGrows<T>(c: Cache<T>, key: string, gen: string -> T)
    requires c.resetSize == 0
    ensures var c' := Get(c, key, gen).0;
      key in c'.entries && forall k :: k in c.entries ==> k in c'.entries && c'.entries[k] == c.entries[k]
  {
  }

  /** The entry that triggers a clear is returned but is no longer resident. */
  lemma TriggeringEntryNotResident<T>(c: Cache<T>, key: string, gen: string -> T)
    requires key !in c.entries && ClearsAfter(c, key)
    ensures Get(c, key, gen).1 == gen(key) && key !in Get(c, key, gen).0.entries
  {
  }

  /** Every resident value is the one `gen` produces for its key. */
  ghost predicate Coherent<T>(c: Cache<T>, gen: string -> T) {
    forall k :: k in c.entries ==> c.entries[k] == gen(k)
  }

  /** Cache transparency: with a deterministic generator, `get` always returns
      what the generator would, and stays coherent, whatever was cached or
      cleared before. */
  lemma GetIsTransparent<T>(c: Cache<T>, key: string, gen: string -> T)
    requires Coherent(c, gen)
    ensures Get(c, key, gen).1 == gen(key)
    ensures Coherent(Get(c, key, gen).0, gen)
  {
  }

  // ---------------------------------------------------------------------
  // `key in cache` as written

  /** The members every plain object inherits from `Object.prototype`: on a
      cache object that does not own them, `key in cache` still holds. */
  const PrototypeNames: set<string> :=
    {"constructor", "__proto__", "hasOwnProperty", "isPrototypeOf", "propertyIsEnumerable",
     "toLocaleString", "toString", "valueOf",
     "__defineGetter__", "__defineSetter__", "__lookupGetter__", "__lookupSetter__"}

  /** What `get` hands back as written: a memoised value, or the inherited
      member of that name (a function, not a `T`). */
  datatype Found<T> = Own(value: T) | Inherited(name: string)

  /** `get` as written, with the `in` test of src/utils/cache.ts:13 on a plain
      object: an inherited member counts as a hit. */
  function AsWrittenGet<T>(c: Cache<T>, key: string, gen: string -> T): (r: (Cache<T>, Found<T>))
    ensures key in c.entries ==> r == (c, Own(c.entries[key]))
    ensures key !in c.entries && key in PrototypeNames ==> r == (c, Inherited(key))
    ensures key !in c.entries && key !in PrototypeNames ==> r == (Store(c, key, gen(key)), Own(gen(key)))
  {
    if key in c.entries then (c, Own(c.entries[key]))
    else if key in PrototypeNames then (c, Inherited(key))
    else var v := gen(key); (Store(c, key, v), Own(v))
  }

  /** As written, `get` agrees with the own-key `Get` on every key that
      names no `Object.prototype` member, and on those it never calls the
      generator: `get("constructor", genFn)` on a fresh cache returns the
      `Object` function instead of `genFn("constructor")`. */
  lemma AsWrittenGetDiffersOnPrototypeNames<T>(c: Cache<T>, key: string, gen: string -> T)
    ensures key !in PrototypeNames ==> AsWrittenGet(c, key, gen) == (Get(c, key, gen).0, Own(Get(c, key, gen).1))
    ensures key !in c.entries && key in PrototypeNames ==>
      AsWrittenGet(c, key, gen).1 != Own(Get(c, key, gen).1) && Get(c, key, gen).1 == gen(key)
  {
  }

  /** On a fresh cache, as written, `get("constructor", genFn)` is a hit. */
  lemma AsWrittenConstructorHit<T>(resetSize: int, gen: string -> T)
    ensures AsWrittenGet(NewCache(resetSize), "constructor", gen) == (NewCache(resetSize), Inherited("constructor"))
  {
  }
}

=== FILE: migrate.dfy ===
/** The migration runner of src/migrate.ts. A bookkeeping table records the
    applied migrations; `migrateUp` applies the ones not yet recorded,
    `migrateDown` rolls one back and `migrateDownUntil` rolls back a suffix.

    Scripts are opaque SQL: `succeeds(script)` says whether running it
    completes, and the effect of a committed script is represented by
    appending it to the database's log. A script that fails rolls its
    transaction back, so it leaves neither its log entry nor its
    bookkeeping change behind. */
module Migrate {
  import opened Outcomes
  import ArrayUtil

  /** One row of the bookkeeping table. */
  datatype MigrationRow = MigrationRow(id: nat, name: string, up: string, down: string)

  /** `MigrationItem`. */
  datatype Migration = Migration(name: string, up: string, down: string)

  /** The database: bookkeeping tables by name, each in rowid order, and
      the committed scripts in the order they ran. */
  datatype Db = Db(books: map<string, seq<MigrationRow>>, log: seq<string>)

  /** What a call leaves behind: the database, and the exception that ended
      it, if any. */
  datatype Run = Run(db: Db, error: Option<string>)

  /** `DefaultMigrationTable`. */
  const DefaultTable := "migrations"

  /** `options.table || DefaultMigrationTable`: an empty name counts as
      absent. */
  function TableName(table: Option<string>): (t: string)
    ensures t != ""
    ensures table.Some? && table.value != "" ==> t == table.value
    ensures table.None? || table.value == "" ==> t == DefaultTable
  {
    if table.None? || table.value == "" then DefaultTable else table.value
  }

  /** `select ... where name = ?` with `.get`: the first row in rowid order
      with that name. */
  function Find(rows: seq<MigrationRow>, name: string): (r: Option<MigrationRow>)
    ensures r.None? <==> forall i :: 0 <= i < |rows| ==> rows[i].name != name
    ensures r.Some? ==> exists i :: (0 <= i < |rows| && rows[i] == r.value && r.value.name == name
      && forall j :: 0 <= j < i ==> rows[j].name != name)
  {
    if |rows| == 0 then None
    else if rows[0].name == name then Some(rows[0])
    else
      var r := Find(rows[1..], name);
      if r.Some? then
        ghost var i :| 0 <= i < |rows[1..]| && rows[1..][i] == r.value && r.value.name == name
          && forall j :: 0 <= j < i ==> rows[1..][j].name != name;
        assert rows[i + 1] == r.value;
        r
      else r
  }

  /** The largest id in `rows`, or 0. */
  function MaxId(rows: seq<MigrationRow>): (m: nat)
    ensures forall i :: 0 <= i < |rows| ==> rows[i].id <= m
    ensures |rows| > 0 ==> exists i :: 0 <= i < |rows| && rows[i].id == m
  {
    if |rows| == 0 then 0
    else
      var m := MaxId(rows[1..]);
      if rows[0].id >= m then rows[0].id
      else
        assert exists i :: 0 <= i < |rows[1..]| && rows[1..][i].id == m;
        m
  }

  /** The id an `integer primary key` gets when none is given: one more than
      the largest in use. */
  function NextId(rows: seq<MigrationRow>): (id: nat)
    ensures id > 0
    ensures forall i :: 0 <= i < |rows| ==> rows[i].id < id
  {
    MaxId(rows) + 1
  }

  /** The ids of `rows` increase strictly, as rowid order shows them. */
  predicate Ascending(rows: seq<MigrationRow>) {
    forall i, j :: 0 <= i < j < |rows| ==> rows[i].id < rows[j].id
  }

  /** No two rows carry the same name. */
  predicate NamesUnique(rows: seq<MigrationRow>) {
    forall i, j :: 0 <= i < j < |rows| ==> rows[i].name != rows[j].name
  }

  /** `create table if not exists`. */
  function EnsureTable(db: Db, t: string): (r: Db)
    ensures t in r.books && r.log == db.log
    ensures t in db.books ==> r == db
    ensures t !in db.books ==> r.books == db.books[t := []]
  {
    if t in db.books then db else db.(books := db.books[t := []])
  }

  /** The per-migration transaction of `migrateUp`, applied to each item in
      list order; the first failing `up` ends the call. */
  function UpEach(succeeds: string -> bool, db: Db, t: string, ms: seq<Migration>): (r: Run)
    requires t in db.books
    ensures t in r.db.books
    decreases |ms|
  {
    if |ms| == 0 then Run(db, None)
    else
      var m := ms[0];
      var rows := db.books[t];
      if Find(rows, m.name).Some? then UpEach(succeeds, db, t, ms[1..])
      else if !succeeds(m.up) then Run(db, Some(m.up))
      else
        var row := MigrationRow(NextId(rows), m.name, m.up, m.down);
        UpEach(succeeds, Db(db.books[t := rows + [row]], db.log + [m.up]), t, ms[1..])
  }

  /** `migrateUp`. */
  function MigrateUp(succeeds: string -> bool, db: Db, table: Option<string>, ms: seq<Migration>): (r: Run)
    ensures TableName(table) in r.db.books
  {
    var t := TableName(table);
    UpEach(succeeds, EnsureTable(db, t), t, ms)
  }

  /** The `up` scripts of `rows`, in order. */
  function Ups(rows: seq<MigrationRow>): (ups: seq<string>)
    ensures |ups| == |rows|
    ensures forall i :: 0 <= i < |rows| ==> ups[i] == rows[i].up
  {
    seq(|rows|, i requires 0 <= i < |rows| => rows[i].up)
  }

  /** Recording a migration whose name is not yet recorded, under the next
      id, keeps ids ascending and names unique. */
  lemma RecordKeepsInvariants(rows: seq<MigrationRow>, m: Migration)
    requires Find(rows, m.name).None?
    ensures var rows' := rows + [MigrationRow(NextId(rows), m.name, m.up, m.down)];
      && (Ascending(rows) ==> Ascending(rows'))
      && (NamesUnique(rows) ==> NamesUnique(rows'))
  {
  }

  /** `after` extends `before` by appending rows to table `t` only, and
      its log by exactly the `up` scripts of those rows, in order. */
  predicate AppendsRows(before: Db, after: Db, t: string)
    requires t in before.books && t in after.books
  {
    var rows := before.books[t];
    var rows' := after.books[t];
    && |rows| <= |rows'| && rows'[..|rows|] == rows
    && after.log == before.log + Ups(rows'[|rows|..])
    && after.books == before.books[t := rows']
  }

  lemma RecordThenAppends(db: Db, t: string, row: MigrationRow, after: Db)
    requires t in db.books && t in after.books
    requires AppendsRows(Db(db.books[t := db.books[t] + [row]], db.log + [row.up]), after, t)
    ensures AppendsRows(db, after, t)
  {
    var rows := db.books[t];
    var rows' := after.books[t];
    var mid := Db(db.books[t := rows + [row]], db.log + [row.up]);
    assert mid.books[t] == rows + [row];
    assert |rows| + 1 <= |rows'| && rows'[..|rows| + 1] == rows + [row];
    UpsOfSuffix(rows, row, rows');
    var tail := Ups(rows'[|rows| + 1..]);
    assert after.log == (db.log + [row.up]) + tail;
    ArrayUtil.AppendAssoc(db.log, [row.up], tail);
    OverwriteTwice(db.books, t, rows + [row], rows');
  }

  lemma OverwriteTwice(m: map<string, seq<MigrationRow>>, k: string, v: seq<MigrationRow>, w: seq<MigrationRow>)
    ensures m[k := v][k := w] == m[k := w]
  {
  }

  lemma UpsOfSuffix(rows: seq<MigrationRow>, row: MigrationRow, rows': seq<MigrationRow>)
    requires |rows| + 1 <= |rows'| && rows'[..|rows| + 1] == rows + [row]
    ensures rows'[..|rows|] == rows
    ensures Ups(rows'[|rows|..]) == [row.up] + Ups(rows'[|rows| + 1..])
  {
    assert rows'[..|rows|] == (rows'[..|rows| + 1])[..|rows|];
    assert rows'[|rows|..] == [row] + rows'[|rows| + 1..];
  }

  /** `migrateUp` only appends: earlier rows stay as they were, and the
      `up` scripts that ran are exactly those of the new rows, in order;
      tables other than the bookkeeping one are untouched. */
  lemma {:induction false} UpEachAppends(succeeds: string -> bool, db: Db, t: string, ms: seq<Migration>)
    requires t in db.books
    ensures AppendsRows(db, UpEach(succeeds, db, t, ms).db, t)
    decreases |ms|
  {
    if |ms| > 0 {
      var m := ms[0];
      var rows := db.books[t];
      if Find(rows, m.name).Some? {
        UpEachAppends(succeeds, db, t, ms[1..]);
      } else if succeeds(m.up) {
        var row := MigrationRow(NextId(rows), m.name, m.up, m.down);
        UpEachAppends(succeeds, Db(db.books[t := rows + [row]], db.log + [m.up]), t, ms[1..]);
        RecordThenAppends(db, t, row, UpEach(succeeds, db, t, ms).db);
      } else {
        assert db.books[t][|db.books[t]|..] == [];
      }
    } else {
      assert db.books[t][|db.books[t]|..] == [];
    }
  }

  /** `migrateUp` keeps the bookkeeping table's ids ascending and its names
      unique: a name is recorded, and its `up` run, at most once. */
  lemma {:induction false} UpEachKeepsInvariants(succeeds: string -> bool, db: Db, t: string, ms: seq<Migration>)
    requires t in db.books
    ensures var rows' := UpEach(succeeds, db, t, ms).db.books[t];
      && (Ascending(db.books[t]) ==> Ascending(rows'))
      && (NamesUnique(db.books[t]) ==> NamesUnique(rows'))
    decreases |ms|
  {
    if |ms| > 0 {
      var m := ms[0];
      var rows := db.books[t];
      if Find(rows, m.name).Some? {
        UpEachKeepsInvariants(succeeds, db, t, ms[1..]);
      } else if succeeds(m.up) {
        RecordKeepsInvariants(rows, m);
        var row := MigrationRow(NextId(rows), m.name, m.up, m.down);
        UpEachKeepsInvariants(succeeds, Db(db.books[t := rows + [row]], db.log + [m.up]), t, ms[1..]);
      }
    }
  }

  lemma FindInExtension(rows: seq<MigrationRow>, rows': seq<MigrationRow>, name: string)
    requires |rows| <= |rows'| && rows'[..|rows|] == rows
    requires Find(rows, name).Some?
    ensures Find(rows', name).Some?
  {
    var i :| 0 <= i < |rows| && rows[i].name == name;
    assert rows'[i] == rows[i];
  }

  /** After a `migrateUp` that ends without error, every listed name is
      recorded. */
  lemma {:induction false} UpEachRecordsAll(succeeds: string -> bool, db: Db, t: string, ms: seq<Migration>)
    requires t in db.books
    ensures var r := UpEach(succeeds, db, t, ms);
      r.error.None? ==> forall k :: 0 <= k < |ms| ==> Find(r.db.books[t], ms[k].name).Some?
    decreases |ms|
  {
    if |ms| > 0 {
      var m := ms[0];
      var rows := db.books[t];
      var db1 := if Find(rows, m.name).Some? then db
                 else Db(db.books[t := rows + [MigrationRow(NextId(rows), m.name, m.up, m.down)]], db.log + [m.up]);
      if Find(rows, m.name).Some? || succeeds(m.up) {
        if Find(rows, m.name).None? {
          FindOfAppend(rows, MigrationRow(NextId(rows), m.name, m.up, m.down));
        }
        UpEachRecordsAll(succeeds, db1, t, ms[1..]);
        UpEachAppends(succeeds, db1, t, ms[1..]);
        var r := UpEach(succeeds, db, t, ms);
        FindInExtension(db1.books[t], r.db.books[t], m.name);
        assert forall k :: 1 <= k < |ms| ==> ms[k] == ms[1..][k - 1];
      }
    }
  }

  /** When every listed name is already recorded, `migrateUp` runs nothing
      and changes nothing. */
  lemma {:induction false} UpEachOfRecorded(succeeds: string -> bool, db: Db, t: string, ms: seq<Migration>)
    requires t in db.books
    requires forall k :: 0 <= k < |ms| ==> Find(db.books[t], ms[k].name).Some?
    ensures UpEach(succeeds, db, t, ms) == Run(db, None)
    decreases |ms|
  {
    if |ms| > 0 {
      assert forall k :: 0 <= k < |ms| - 1 ==> ms[1..][k] == ms[k + 1];
      UpEachOfRecorded(succeeds, db, t, ms[1..]);
    }
  }

  /** `migrateUp` is idempotent: calling it again with the same list after
      it completed runs no script and changes nothing. */
  lemma MigrateUpIdempotent(succeeds: string -> bool, db: Db, table: Option<string>, ms: seq<Migration>)
    ensures var r := MigrateUp(succeeds, db, table, ms);
      r.error.None? ==> MigrateUp(succeeds, r.db, table, ms) == Run(r.db, None)
  {
    var t := TableName(table);
    var r := MigrateUp(succeeds, db, table, ms);
    UpEachRecordsAll(succeeds, EnsureTable(db, t), t, ms);
    if r.error.None? {
      UpEachOfRecorded(succeeds, r.db, t, ms);
    }
  }

  /** `delete from table where id = ?`. */
  function DeleteId(rows: seq<MigrationRow>, id: nat): (r: seq<MigrationRow>)
    ensures |r| <= |rows|
    ensures forall i :: 0 <= i < |r| ==> r[i].id != id
    ensures forall x :: x in r <==> x in rows && x.id != id
  {
    if |rows| == 0 then []
    else if rows[0].id == id then DeleteId(rows[1..], id)
    else [rows[0]] + DeleteId(rows[1..], id)
  }

  /** The ids of `rows` are pairwise distinct, as a primary key keeps them. */
  predicate IdsUnique(rows: seq<MigrationRow>) {
    forall i, j :: 0 <= i < j < |rows| ==> rows[i].id != rows[j].id
  }

  /** With unique ids, deleting the id of row `k` removes exactly that row. */
  lemma {:induction false} DeleteIdRemovesOne(rows: seq<MigrationRow>, k: nat)
    requires IdsUnique(rows) && k < |rows|
    ensures DeleteId(rows, rows[k].id) == rows[..k] + rows[k + 1..]
    decreases |rows|
  {
    if k == 0 {
      assert forall i :: 0 <= i < |rows[1..]| ==> rows[1..][i].id != rows[0].id;
      DeleteIdOfAbsent(rows[1..], rows[0].id);
      assert rows[..0] + rows[1..] == rows[1..];
    } else {
      IdsUniqueTail(rows);
      assert rows[1..][k - 1] == rows[k] && rows[0].id != rows[k].id;
      DeleteIdRemovesOne(rows[1..], k - 1);
      DropAtTail(rows, k);
    }
  }

  lemma DropAtTail(rows: seq<MigrationRow>, k: nat)
    requires 0 < k < |rows|
    ensures rows[..k] + rows[k + 1..] == [rows[0]] + (rows[1..][..k - 1] + rows[1..][k..])
  {
  }

  lemma IdsUniqueTail(rows: seq<MigrationRow>)
    requires IdsUnique(rows) && |rows| > 0
    ensures IdsUnique(rows[1..])
  {
    assert forall i :: 0 <= i < |rows[1..]| ==> rows[1..][i] == rows[i + 1];
  }

  lemma {:induction false} DeleteIdOfAbsent(rows: seq<MigrationRow>, id: nat)
    requires forall i :: 0 <= i < |rows| ==> rows[i].id != id
    ensures DeleteId(rows, id) == rows
    decreases |rows|
  {
    if |rows| > 0 {
      DeleteIdOfAbsent(rows[1..], id);
    }
  }

  /** One rollback transaction: run `down`, then delete the row; a failing
      `down` rolls back and ends the call with its error. */
  function RollBack(succeeds: string -> bool, db: Db, t: string, row: MigrationRow): (r: Run)
    requires t in db.books
    ensures t in r.db.books
    ensures r.error.None? <==> succeeds(row.down)
    ensures r.error.Some? ==> r.db == db
    ensures r.error.None? ==> r.db == Db(db.books[t := DeleteId(db.books[t], row.id)], db.log + [row.down])
  {
    if !succeeds(row.down) then Run(db, Some(row.down))
    else Run(Db(db.books[t := DeleteId(db.books[t], row.id)], db.log + [row.down]), None)
  }

  /** `migrateDown`. The bookkeeping table is not created here, so a missing
      one is an error. */
  function MigrateDown(succeeds: string -> bool, db: Db, table: Option<string>, name: string, throws: bool): (r: Run)
  {
    var t := TableName(table);
    if t !in db.books then Run(db, Some("no such table: " + t))
    else
      match Find(db.books[t], name)
      case None => if throws then Run(db, Some("migration not found")) else Run(db, None)
      case Some(row) => RollBack(succeeds, db, t, row)
  }

  /** `migrateDown` of a name that is not recorded changes nothing, and
      fails exactly when asked to throw. */
  lemma MigrateDownOfUnknown(succeeds: string -> bool, db: Db, table: Option<string>, name: string, throws: bool)
    requires TableName(table) in db.books
    requires forall i :: 0 <= i < |db.books[TableName(table)]| ==> db.books[TableName(table)][i].name != name
    ensures var r := MigrateDown(succeeds, db, table, name, throws);
      r.db == db && (r.error.Some? <==> throws)
  {
  }

  /** `migrateDown` of a recorded name runs that row's `down` and deletes
      exactly that row; if `down` fails, nothing changes. */
  lemma MigrateDownRemovesRow(succeeds: string -> bool, db: Db, table: Option<string>, name: string, throws: bool, k: nat)
    requires TableName(table) in db.books
    requires var rows := db.books[TableName(table)];
      IdsUnique(rows) && NamesUnique(rows) && k < |rows| && rows[k].name == name
    ensures var t := TableName(table);
      var rows := db.books[t];
      var r := MigrateDown(succeeds, db, table, name, throws);
      && (r.error.None? <==> succeeds(rows[k].down))
      && (r.error.None? ==> r.db == Db(db.books[t := rows[..k] + rows[k + 1..]], db.log + [rows[k].down]))
      && (r.error.Some? ==> r.db == db)
  {
    var t := TableName(table);
    var rows := db.books[t];
    var i :| 0 <= i < |rows| && rows[i] == Find(rows, name).value && rows[i].name == name
      && forall j :: 0 <= j < i ==> rows[j].name != name;
    assert i == k;
    DeleteIdRemovesOne(rows, k);
  }

  /** Recording a migration and then rolling it back by name leaves the
      bookkeeping table as it was, with the log holding `up` then `down`. */
  lemma UpThenDown(succeeds: string -> bool, db: Db, table: Option<string>, m: Migration)
    requires var t := TableName(table);
      t in db.books && Find(db.books[t], m.name).None?
    requires succeeds(m.up) && succeeds(m.down)
    ensures var t := TableName(table);
      var up := MigrateUp(succeeds, db, table, [m]);
      var down := MigrateDown(succeeds, up.db, table, m.name, true);
      && up.error.None? && down.error.None?
      && down.db == Db(db.books, db.log + [m.up, m.down])
  {
    var t := TableName(table);
    var rows := db.books[t];
    var row := MigrationRow(NextId(rows), m.name, m.up, m.down);
    var up := MigrateUp(succeeds, db, table, [m]);
    var db1 := Db(db.books[t := rows + [row]], db.log + [m.up]);
    assert EnsureTable(db, t) == db;
    assert UpEach(succeeds, db1, t, [m][1..]) == Run(db1, None) by {
      assert [m][1..] == [];
    }
    assert up == UpEach(succeeds, db, t, [m]);
    FindOfAppend(rows, row);
    DeleteIdOfAppend(rows, row);
    RestoreTable(db.books, t, rows + [row]);
  }

  lemma RestoreTable(books: map<string, seq<MigrationRow>>, t: string, rows: seq<MigrationRow>)
    requires t in books
    ensures books[t := rows][t := books[t]] == books
  {
  }

  lemma {:induction false} FindOfAppend(rows: seq<MigrationRow>, row: MigrationRow)
    requires Find(rows, row.name).None?
    ensures Find(rows + [row], row.name) == Some(row)
    decreases |rows|
  {
    if |rows| > 0 {
      assert (rows + [row])[1..] == rows[1..] + [row];
      FindOfAppend(rows[1..], row);
    }
  }

  lemma {:induction false} DeleteIdOfAppend(rows: seq<MigrationRow>, row: MigrationRow)
    requires forall i :: 0 <= i < |rows| ==> rows[i].id != row.id
    ensures DeleteId(rows + [row], row.id) == rows
    decreases |rows|
  {
    if |rows| > 0 {
      assert (rows + [row])[1..] == rows[1..] + [row];
      DeleteIdOfAppend(rows[1..], row);
    }
  }

  /** `select id, down from table where id >= ?`: the rows from id `k` on,
      in rowid order. */
  function AtLeast(rows: seq<MigrationRow>, k: nat): (r: seq<MigrationRow>)
    ensures forall x :: x in r <==> x in rows && x.id >= k
  {
    if |rows| == 0 then []
    else
      var rest := AtLeast(rows[1..], k);
      if rows[0].id >= k then [rows[0]] + rest else rest
  }

  /** In a table whose ids ascend, as rowid order keeps them,
      `migrateDownUntil` rolls back in ascending id order: the newest
      migration is undone last. */
  lemma {:induction false} RollbackOrderIsAscending(rows: seq<MigrationRow>, k: nat)
    requires Ascending(rows)
    ensures Ascending(AtLeast(rows, k))
    decreases |rows|
  {
    if |rows| > 0 {
      RollbackOrderIsAscending(rows[1..], k);
      if rows[0].id >= k {
        HeadBelowTail(rows);
        ConsAscending(rows[0], AtLeast(rows[1..], k));
      }
    }
  }

  lemma HeadBelowTail(rows: seq<MigrationRow>)
    requires Ascending(rows) && |rows| > 0
    ensures forall x :: x in rows[1..] ==> rows[0].id < x.id
  {
    forall x | x in rows[1..] ensures rows[0].id < x.id {
      var i :| 0 <= i < |rows[1..]| && rows[1..][i] == x;
      assert rows[i + 1] == x;
    }
  }

  lemma ConsAscending(x: MigrationRow, rest: seq<MigrationRow>)
    requires Ascending(rest)
    requires forall y :: y in rest ==> x.id < y.id
    ensures Ascending([x] + rest)
  {
    var r := [x] + rest;
    forall i, j | 0 <= i < j < |r| ensures r[i].id < r[j].id {
      assert r[j] == rest[j - 1];
      if i > 0 {
        assert r[i] == rest[i - 1];
      }
    }
  }

  /** The rows below id `k`, in order. */
  function Below(rows: seq<MigrationRow>, k: nat): (r: seq<MigrationRow>)
    ensures forall x :: x in r <==> x in rows && x.id < k
  {
    if |rows| == 0 then []
    else if rows[0].id < k then [rows[0]] + Below(rows[1..], k)
    else Below(rows[1..], k)
  }

  /** The rows whose id is not in `ids`, in order. */
  function Without(rows: seq<MigrationRow>, ids: set<nat>): (r: seq<MigrationRow>)
    ensures forall x :: x in r <==> x in rows && x.id !in ids
  {
    if |rows| == 0 then []
    else if rows[0].id !in ids then [rows[0]] + Without(rows[1..], ids)
    else Without(rows[1..], ids)
  }

  /** The `down` scripts of `rows`, in order. */
  function Downs(rows: seq<MigrationRow>): (downs: seq<string>)
    ensures |downs| == |rows|
    ensures forall i :: 0 <= i < |rows| ==> downs[i] == rows[i].down
  {
    seq(|rows|, i requires 0 <= i < |rows| => rows[i].down)
  }

  /** The ids of `rows`. */
  function IdSet(rows: seq<MigrationRow>): (ids: set<nat>)
    ensures forall x :: x in rows ==> x.id in ids
  {
    set x | x in rows :: x.id
  }

  /** The rollback transactions of `migrateDownUntil`, one per row in the
      given order; the first failing `down` ends the call. */
  function DownEach(succeeds: string -> bool, db: Db, t: string, targets: seq<MigrationRow>): (r: Run)
    requires t in db.books
    ensures t in r.db.books
    decreases |targets|
  {
    if |targets| == 0 then Run(db, None)
    else
      var r := RollBack(succeeds, db, t, targets[0]);
      if r.error.Some? then r else DownEach(succeeds, r.db, t, targets[1..])
  }

  /** `migrateDownUntil`: rolls back every row whose id is at least that of
      the first row named `name`. */
  function MigrateDownUntil(succeeds: string -> bool, db: Db, table: Option<string>, name: string, throws: bool): (r: Run)
  {
    var t := TableName(table);
    if t !in db.books then Run(db, Some("no such table: " + t))
    else
      match Find(db.books[t], name)
      case None => if throws then Run(db, Some("migration not found")) else Run(db, None)
      case Some(last) => DownEach(succeeds, db, t, AtLeast(db.books[t], last.id))
  }

  /** How many of `targets` roll back before the first failing `down`. */
  function Committed(succeeds: string -> bool, targets: seq<MigrationRow>): (n: nat)
    ensures n <= |targets|
    ensures forall i :: 0 <= i < n ==> succeeds(targets[i].down)
    ensures n < |targets| ==> !succeeds(targets[n].down)
  {
    if |targets| == 0 || !succeeds(targets[0].down) then 0
    else 1 + Committed(succeeds, targets[1..])
  }

  lemma {:induction false} DeleteIdWithout(rows: seq<MigrationRow>, ids: set<nat>, id: nat)
    ensures DeleteId(Without(rows, ids), id) == Without(rows, ids + {id})
    decreases |rows|
  {
    if |rows| > 0 {
      DeleteIdWithout(rows[1..], ids, id);
    }
  }

  lemma {:induction false} WithoutNothing(rows: seq<MigrationRow>)
    ensures Without(rows, {}) == rows
    decreases |rows|
  {
    if |rows| > 0 {
      WithoutNothing(rows[1..]);
    }
  }

  lemma IdSetCons(x: MigrationRow, rest: seq<MigrationRow>)
    ensures IdSet([x] + rest) == {x.id} + IdSet(rest)
  {
    var a := IdSet([x] + rest);
    var b := {x.id} + IdSet(rest);
    forall id | id in a ensures id in b {
      var y :| y in [x] + rest && y.id == id;
      if y != x {
        assert y in rest;
      }
    }
    forall id | id in b ensures id in a {
      if id != x.id {
        var y :| y in rest && y.id == id;
        assert y in [x] + rest;
      }
    }
  }

  lemma PrefixStep(targets: seq<MigrationRow>, n: nat, m: nat, done: set<nat>)
    requires 0 < n <= |targets| && m == n - 1
    ensures done + IdSet(targets[..n]) == (done + {targets[0].id}) + IdSet(targets[1..][..m])
    ensures Downs(targets[..n]) == [targets[0].down] + Downs(targets[1..][..m])
  {
    var rest := targets[1..][..m];
    assert targets[..n] == [targets[0]] + rest;
    IdSetCons(targets[0], rest);
    DownsCons(targets[0], rest);
  }

  lemma DownsCons(x: MigrationRow, rest: seq<MigrationRow>)
    ensures Downs([x] + rest) == [x.down] + Downs(rest)
  {
  }

  /** What the rollbacks of `migrateDownUntil` leave: the rows rolled back
      before the first failure are gone and their `down` scripts are in
      the log, in order; an error is exactly a failing `down`. */
  lemma {:induction false} DownEachCommitsPrefix(succeeds: string -> bool, books: map<string, seq<MigrationRow>>,
                                                t: string, rows: seq<MigrationRow>, log: seq<string>,
                                                targets: seq<MigrationRow>, done: set<nat>)
    ensures var n := Committed(succeeds, targets);
      var r := DownEach(succeeds, Db(books[t := Without(rows, done)], log), t, targets);
      && r.db == Db(books[t := Without(rows, done + IdSet(targets[..n]))], log + Downs(targets[..n]))
      && (r.error.None? <==> n == |targets|)
    decreases |targets|
  {
    var n := Committed(succeeds, targets);
    if |targets| == 0 || !succeeds(targets[0].down) {
      assert targets[..n] == [];
      assert done + IdSet(targets[..n]) == done;
    } else {
      var x := targets[0];
      var m := Committed(succeeds, targets[1..]);
      DownEachStep(succeeds, books, t, rows, log, targets, done);
      DownEachCommitsPrefix(succeeds, books, t, rows, log + [x.down], targets[1..], done + {x.id});
      PrefixStep(targets, n, m, done);
      ArrayUtil.AppendAssoc(log, [x.down], Downs(targets[1..][..m]));
    }
  }

  /** One successful rollback at the head of the targets. */
  lemma DownEachStep(succeeds: string -> bool, books: map<string, seq<MigrationRow>>,
                     t: string, rows: seq<MigrationRow>, log: seq<string>,
                     targets: seq<MigrationRow>, done: set<nat>)
    requires |targets| > 0 && succeeds(targets[0].down)
    ensures var x := targets[0];
      DownEach(succeeds, Db(books[t := Without(rows, done)], log), t, targets)
        == DownEach(succeeds, Db(books[t := Without(rows, done + {x.id})], log + [x.down]), t, targets[1..])
  {
    var x := targets[0];
    var db := Db(books[t := Without(rows, done)], log);
    DeleteIdWithout(rows, done, x.id);
    assert db.books[t] == Without(rows, done);
    OverwriteTwice(books, t, Without(rows, done), Without(rows, done + {x.id}));
    assert RollBack(succeeds, db, t, x).db == Db(books[t := Without(rows, done + {x.id})], log + [x.down]);
  }

  lemma {:induction false} WithoutIsBelow(rows: seq<MigrationRow>, ids: set<nat>, k: nat)
    requires forall i :: 0 <= i < |rows| ==> (rows[i].id in ids <==> rows[i].id >= k)
    ensures Without(rows, ids) == Below(rows, k)
    decreases |rows|
  {
    if |rows| > 0 {
      WithoutIsBelow(rows[1..], ids, k);
    }
  }

  lemma RolledBackIdsAreAtLeast(rows: seq<MigrationRow>, k: nat)
    ensures forall i :: 0 <= i < |rows| ==> (rows[i].id in IdSet(AtLeast(rows, k)) <==> rows[i].id >= k)
  {
    forall i | 0 <= i < |rows| ensures rows[i].id in IdSet(AtLeast(rows, k)) <==> rows[i].id >= k {
      if rows[i].id >= k {
        assert rows[i] in AtLeast(rows, k);
      } else {
        assert forall y :: y in AtLeast(rows, k) ==> y.id != rows[i].id;
      }
    }
  }

  /** `migrateDownUntil` of a recorded name is the rollback of every row
      from the named row's id on, in rowid order. */
  lemma DownUntilTargets(succeeds: string -> bool, db: Db, table: Option<string>, name: string, throws: bool)
    requires TableName(table) in db.books && Find(db.books[TableName(table)], name).Some?
    ensures var t := TableName(table);
      var rows := db.books[t];
      var targets := AtLeast(rows, Find(rows, name).value.id);
      var n := Committed(succeeds, targets);
      MigrateDownUntil(succeeds, db, table, name, throws)
        == Run(Db(db.books[t := Without(rows, IdSet(targets[..n]))], db.log + Downs(targets[..n])),
               if n == |targets| then None else MigrateDownUntil(succeeds, db, table, name, throws).error)
      && (MigrateDownUntil(succeeds, db, table, name, throws).error.None? <==> n == |targets|)
  {
    var t := TableName(table);
    var rows := db.books[t];
    var targets := AtLeast(rows, Find(rows, name).value.id);
    var n := Committed(succeeds, targets);
    WithoutNothing(rows);
    assert db.books[t := Without(rows, {})] == db.books;
    DownEachCommitsPrefix(succeeds, db.books, t, rows, db.log, targets, {});
    assert {} + IdSet(targets[..n]) == IdSet(targets[..n]);
  }

  /** `migrateDownUntil` of a recorded name: the `down` scripts of every
      row from the named row's id on run in rowid order, one transaction
      each. When all succeed, exactly the rows with a smaller id remain;
      the first failing `down` ends the call with its rows rolled back so
      far. Rows with a smaller id are never touched. */
  lemma MigrateDownUntilRollsBackSuffix(succeeds: string -> bool, db: Db, table: Option<string>, name: string, throws: bool)
    requires TableName(table) in db.books && Find(db.books[TableName(table)], name).Some?
    ensures var t := TableName(table);
      var rows := db.books[t];
      var last := Find(rows, name).value;
      var targets := AtLeast(rows, last.id);
      var r := MigrateDownUntil(succeeds, db, table, name, throws);
      && (r.error.None? <==> forall i :: 0 <= i < |targets| ==> succeeds(targets[i].down))
      && (r.error.None? ==> r.db == Db(db.books[t := Below(rows, last.id)], db.log + Downs(targets)))
      && (forall x :: x in rows && x.id < last.id ==> x in r.db.books[t])
  {
    var t := TableName(table);
    var rows := db.books[t];
    var last := Find(rows, name).value;
    var targets := AtLeast(rows, last.id);
    var n := Committed(succeeds, targets);
    DownUntilTargets(succeeds, db, table, name, throws);
    if n == |targets| {
      assert targets[..n] == targets;
      AllRolledBack(rows, last.id, n);
    }
    BelowSurvives(rows, last.id, n);
  }

  lemma AllRolledBack(rows: seq<MigrationRow>, k: nat, n: nat)
    requires n == |AtLeast(rows, k)|
    ensures Without(rows, IdSet(AtLeast(rows, k)[..n])) == Below(rows, k)
  {
    assert AtLeast(rows, k)[..n] == AtLeast(rows, k);
    RolledBackIdsAreAtLeast(rows, k);
    WithoutIsBelow(rows, IdSet(AtLeast(rows, k)), k);
  }

  lemma BelowSurvives(rows: seq<MigrationRow>, k: nat, n: nat)
    requires n <= |AtLeast(rows, k)|
    ensures forall x :: x in rows && x.id < k ==> x in Without(rows, IdSet(AtLeast(rows, k)[..n]))
  {
    var done := AtLeast(rows, k)[..n];
    forall x | x in rows && x.id < k ensures x.id !in IdSet(done) {
      assert forall y :: y in done ==> y in AtLeast(rows, k);
      assert forall y :: y in done ==> y.id != x.id;
    }
  }

  /** `migrateDownUntil` of a name that is not recorded changes nothing, and
      fails exactly when asked to throw. */
  lemma MigrateDownUntilOfUnknown(succeeds: string -> bool, db: Db, table: Option<string>, name: string, throws: bool)
    requires TableName(table) in db.books
    requires forall i :: 0 <= i < |db.books[TableName(table)]| ==> db.books[TableName(table)][i].name != name
    ensures var r := MigrateDownUntil(succeeds, db, table, name, throws);
      r.db == db && (r.error.Some? <==> throws)
  {
  }
}

=== FILE: object_util.dfy ===
/** `mapObject` (src/utils/object.ts): a fresh object with the same keys as the
    input, each value replaced by `fn(value, key)`. */
module ObjectUtil {

  /** `mapObject` iterates over the entries of `object`, writing one key of the
      fresh result per entry; the input map is a value and cannot change. */
  method MapObject<V, R>(obj: map<string, V>, fn: (V, string) -> R) returns (res: map<string, R>)
    ensures res.Keys == obj.Keys
    ensures forall k :: k in obj ==> res[k] == fn(obj[k], k)
  {
    res := map[];
    var todo := obj.Keys;
    while todo != {}
      invariant todo <= obj.Keys
      invariant res.Keys == obj.Keys - todo
      invariant forall k :: k in res ==> res[k] == fn(obj[k], k)
      decreases todo
    {
      var key :| key in todo;
      res := res[key := fn(obj[key], key)];
      todo := todo - {key};
    }
  }
}

=== FILE: outcomes.dfy ===
/** Failure-carrying result types shared by every module of the model.

    JavaScript code in the modelled system signals failure by throwing; the model
    returns `Err` instead, carrying a short description of the exception. */
module Outcomes {

  /** An optional value: JavaScript `undefined` or a present value. */
  datatype Option<+T> = None | Some(value: T) {
    function GetOr(default: T): T {
      match this
      case Some(v) => v
      case None => default
    }
  }

  /** The outcome of an operation that may throw. */
  datatype Result<+T> = Ok(value: T) | Err(error: string) {
    predicate IsFailure() {
      Err?
    }

    function PropagateFailure<U>(): Result<U>
      requires Err?
    {
      Err(error)
    }

    function Extract(): T
      requires Ok?
    {
      value
    }
  }
}

=== FILE: pipeline.dfy ===
/** `makeInsertRowFnFromSchema` and its neighbours in src/helpers.ts (and the
    same composition in src/sqlite/helpers.ts): the insert pipeline built by
    wrapping map-row stages around the terminal insert with `chain`, the
    deduplicating insert, the select-by-offset function and
    `insertArrayField`, over an abstract database. */
module Pipeline {
  import opened Outcomes
  import opened Values
  import Refs
  import RowMaps
  import Schema
  import FunctionUtil
  import MemoCache
  import ArrayUtil

  /** A table: declared column types, the stored rows in rowid order, and
      the rowid alias, the column whose declared type makes it the `integer
      primary key`, if there is one. Without an alias the row at index `i`
      has rowid `i + 1`; with one, a row's rowid is the integer it holds in
      that column. A stored row holds the columns the insert named (and the
      alias); the others read as NULL. */
  datatype Table = Table(columns: map<string, string>, rows: seq<Row>, alias: Option<string>)

  /** The database: ordinary tables, and satellite tables by name. */
  datatype Db = Db(tables: map<string, Table>, sats: RowMaps.Store)

  /** SQLite keeps every table in one namespace: no name is both an
      ordinary table and a satellite. */
  predicate OneNamespace(db: Db) {
    forall n :: n in db.tables ==> n !in db.sats
  }

  /** What flows from stage to stage: the database, the row the next stage
      receives, and whether that row object is still the caller's own. */
  datatype Flow = Flow(db: Db, row: Row, callers: bool)

  /** The map-row stages. */
  datatype Stage =
    | Clone
    | Whitelist(names: seq<string>)
    | Skip(names: seq<string>)
    | RefMap(refs: seq<RowMaps.RefPair>)
    | AutoAdd(table: string)

  /** What one stage does to the flow. The clone and whitelist maps return a
      fresh object; skip and the ref map mutate the row they are given; the
      auto-add map adds a column per new key with `alter table`. */
  function Apply(stage: Stage, legacy: bool, f: Flow): (r: Result<Flow>)
    ensures r.Ok? && (stage.Clone? || stage.Whitelist?) ==> !r.value.callers
    ensures r.Ok? && !(stage.Clone? || stage.Whitelist?) ==> r.value.callers == f.callers
  {
    match stage
    case Clone => Ok(f.(row := RowMaps.CloneRow(f.row), callers := false))
    case Whitelist(names) => Ok(f.(row := RowMaps.WhitelistRow(f.row, names), callers := false))
    case Skip(names) => Ok(f.(row := RowMaps.SkipRow(f.row, names)))
    case RefMap(refs) =>
      if forall i :: 0 <= i < |refs| ==> refs[i].field in f.db.sats then
        var (sats', row') := RowMaps.InsertRefs(f.db.sats, f.row, refs, legacy);
        Ok(f.(db := f.db.(sats := sats'), row := row'))
      else Err("no such table")
    case AutoAdd(table) =>
      if table in f.db.tables then
        var t := f.db.tables[table];
        var t' := t.(columns := RowMaps.AutoAddColumns(t.columns, f.row, legacy));
        Ok(f.(db := f.db.(tables := f.db.tables[table := t'])))
      else Err("no such table: " + table)
  }

  /** A stage as a function on outcomes: a failure passes through. */
  function StageFn(stage: Stage, legacy: bool): Result<Flow> -> Result<Flow> {
    (r: Result<Flow>) => if r.Err? then r else Apply(stage, legacy, r.value)
  }

  // ---------------------------------------------------------------------
  // The terminal insert and the rowid

  /** The integer a value is stored as in an `integer primary key` column:
      an integral number or a bigint; anything else is a datatype mismatch. */
  function IntegerOf(v: Value): (r: Option<int>)
    ensures r.Some? <==> (v.Num? && IsInt(v.n)) || v.BigInt?
    ensures v.Num? && r.Some? ==> r.value as real == v.n
    ensures v.BigInt? ==> r == Some(v.i)
  {
    match v
    case Num(n) => if IsInt(n) then Some(n.Floor) else None
    case BigInt(i) => Some(i)
    case _ => None
  }

  /** The rowid a stored row holds in the alias column `c`. */
  function RowidIn(row: Row, c: string): int {
    IntegerOf(Column(row, c)).GetOr(0)
  }

  /** Some stored row has rowid `id`. */
  predicate HasRowid(rows: seq<Row>, c: string, id: int) {
    exists i :: 0 <= i < |rows| && RowidIn(rows[i], c) == id
  }

  /** Every stored rowid is below `id`. */
  predicate Above(rows: seq<Row>, c: string, id: int) {
    forall i :: 0 <= i < |rows| ==> RowidIn(rows[i], c) < id
  }

  /** The stored rows are in increasing rowid order. */
  predicate Ordered(rows: seq<Row>, c: string) {
    forall i, j :: 0 <= i < j < |rows| ==> RowidIn(rows[i], c) < RowidIn(rows[j], c)
  }

  /** The rowid SQLite chooses for a row that gives none: one more than the
      largest stored rowid, 1 in an empty table. */
  function NextRowid(rows: seq<Row>, c: string): (id: int)
    ensures Above(rows, c, id)
    ensures |rows| == 0 ==> id == 1
    ensures |rows| > 0 ==> HasRowid(rows, c, id - 1)
    decreases |rows|
  {
    if |rows| == 0 then 1
    else
      var n := |rows| - 1;
      var last := RowidIn(rows[n], c);
      assert forall i :: 0 <= i < n ==> rows[..n][i] == rows[i];
      if n == 0 then last + 1
      else
        var prev := NextRowid(rows[..n], c);
        if prev > last + 1 then prev else last + 1
  }

  /** Where a row with rowid `id` goes: before the first stored row with a
      larger rowid. */
  function Position(rows: seq<Row>, c: string, id: int): (k: nat)
    ensures k <= |rows|
    ensures forall i :: 0 <= i < k ==> RowidIn(rows[i], c) <= id
    ensures k < |rows| ==> RowidIn(rows[k], c) > id
    ensures Above(rows, c, id) ==> k == |rows|
    decreases |rows|
  {
    if |rows| == 0 || RowidIn(rows[0], c) > id then 0
    else
      assert forall i :: 1 <= i < |rows| ==> rows[i] == rows[1..][i - 1];
      1 + Position(rows[1..], c, id)
  }

  /** The row as stored: when the alias column is null or missing, SQLite
      puts the new rowid there. */
  function WithRowid(alias: Option<string>, row: Row, id: Value): (stored: Row)
    ensures alias.None? || !IsNullish(Column(row, alias.value)) ==> stored == row
    ensures alias.Some? && IsNullish(Column(row, alias.value)) ==> stored == row[alias.value := id]
  {
    if alias.Some? && IsNullish(Column(row, alias.value)) then row[alias.value := id] else row
  }

  /** The rowid the row asks for is acceptable: there is no alias, or the
      alias column is null, or it holds an integer no stored row has. */
  predicate Admits(t: Table, row: Row) {
    t.alias.None? ||
    var v := Column(row, t.alias.value);
    IsNullish(v) || (IntegerOf(v).Some? && !HasRowid(t.rows, t.alias.value, IntegerOf(v).value))
  }

  /** The row goes in at the end of the table exactly as given: there is no
      alias, or the row's alias column holds an integer above every stored
      rowid. */
  predicate AppendsAsGiven(t: Table, row: Row) {
    t.alias.None? ||
    var v := IntegerOf(Column(row, t.alias.value));
    v.Some? && Above(t.rows, t.alias.value, v.value)
  }

  /** An insert into one table, and the rowid it reports. Without an alias
      the row is appended with the next row number. With one, a null alias
      column takes one more than the largest rowid and the row is appended
      with it; an integer is taken as the rowid, unless a stored row has it
      already (a UNIQUE constraint failure), and the row goes to its place in
      rowid order; any other value is a datatype mismatch. */
  function InsertIntoTable(t: Table, row: Row): (r: Result<(Table, int)>)
    ensures r.Ok? <==> row.Keys <= t.columns.Keys && Admits(t, row)
    ensures r.Ok? ==> r.value.0.columns == t.columns && r.value.0.alias == t.alias && |r.value.0.rows| == |t.rows| + 1
    ensures r.Ok? ==>
      exists k :: 0 <= k <= |t.rows| &&
                  r.value.0.rows == t.rows[..k] + [WithRowid(t.alias, row, IdValue(r.value.1))] + t.rows[k..]
    ensures r.Ok? && t.alias.None? ==> r.value.0.rows == t.rows + [row] && r.value.1 == |t.rows| + 1
    ensures r.Ok? && t.alias.Some? ==>
      !HasRowid(t.rows, t.alias.value, r.value.1) &&
      RowidIn(WithRowid(t.alias, row, IdValue(r.value.1)), t.alias.value) == r.value.1
    ensures r.Ok? && t.alias.Some? && IsNullish(Column(row, t.alias.value)) ==>
      r.value.1 == NextRowid(t.rows, t.alias.value) &&
      r.value.0.rows == t.rows + [row[t.alias.value := IdValue(r.value.1)]]
    ensures r.Ok? && t.alias.Some? && !IsNullish(Column(row, t.alias.value)) ==>
      IntegerOf(Column(row, t.alias.value)) == Some(r.value.1)
    ensures row.Keys <= t.columns.Keys && AppendsAsGiven(t, row) ==> r.Ok? && r.value.0.rows == t.rows + [row]
  {
    if !(row.Keys <= t.columns.Keys) then Err("table has no such column")
    else match t.alias
      case None => Ok((PutAt(t, |t.rows|, row), |t.rows| + 1))
      case Some(c) =>
        var v := Column(row, c);
        if IsNullish(v) then
          var id := NextRowid(t.rows, c);
          Ok((PutAt(t, |t.rows|, row[c := IdValue(id)]), id))
        else if IntegerOf(v).None? then Err("datatype mismatch")
        else
          var id := IntegerOf(v).value;
          if HasRowid(t.rows, c, id) then Err("UNIQUE constraint failed: " + c)
          else Ok((PutAt(t, Position(t.rows, c, id), row), id))
  }

  /** The table with `stored` placed at index `k` of its rows. */
  function PutAt(t: Table, k: nat, stored: Row): (t': Table)
    requires k <= |t.rows|
    ensures t'.columns == t.columns && t'.alias == t.alias
    ensures t'.rows == t.rows[..k] + [stored] + t.rows[k..]
    ensures k == |t.rows| ==> t'.rows == t.rows + [stored]
  {
    assert k == |t.rows| ==> t.rows[..k] == t.rows && t.rows[k..] == [];
    t.(rows := t.rows[..k] + [stored] + t.rows[k..])
  }

  /** An insert that succeeds keeps a table in rowid order. */
  lemma InsertKeepsRowidOrder(t: Table, row: Row)
    requires t.alias.Some? && Ordered(t.rows, t.alias.value)
    requires InsertIntoTable(t, row).Ok?
    ensures Ordered(InsertIntoTable(t, row).value.0.rows, t.alias.value)
  {
    var c := t.alias.value;
    var (t', id) := InsertIntoTable(t, row).value;
    var stored := WithRowid(t.alias, row, IdValue(id));
    if IsNullish(Column(row, c)) {
      AppendKeepsOrder(t.rows, c, stored);
    } else {
      InsertAtKeepsOrder(t.rows, c, stored, Position(t.rows, c, id));
    }
  }

  lemma AppendKeepsOrder(rows: seq<Row>, c: string, x: Row)
    requires Ordered(rows, c) && Above(rows, c, RowidIn(x, c))
    ensures Ordered(rows + [x], c)
  {
    assert forall i :: 0 <= i < |rows| ==> (rows + [x])[i] == rows[i];
  }

  lemma InsertAtKeepsOrder(rows: seq<Row>, c: string, x: Row, k: nat)
    requires Ordered(rows, c) && k <= |rows|
    requires forall i :: 0 <= i < k ==> RowidIn(rows[i], c) < RowidIn(x, c)
    requires k < |rows| ==> RowidIn(rows[k], c) > RowidIn(x, c)
    ensures Ordered(rows[..k] + [x] + rows[k..], c)
  {
    var r := rows[..k] + [x] + rows[k..];
    var id := RowidIn(x, c);
    assert forall i :: 0 <= i < k ==> r[i] == rows[i];
    assert forall i :: k < i < |r| ==> r[i] == rows[i - 1];
    assert forall j :: k <= j < |rows| ==> RowidIn(rows[j], c) > id by {
      forall j | k <= j < |rows| ensures RowidIn(rows[j], c) > id {
        if j > k {
          assert RowidIn(rows[k], c) < RowidIn(rows[j], c);
        }
      }
    }
  }

  /** `db.insert(table, row)`: an insert naming the row's keys. It fails when
      the table or one of the named columns does not exist, or the row's
      rowid is refused; otherwise only that table changes, and the rowid is
      returned. */
  function TerminalInsert(db: Db, table: string, row: Row): (r: Result<(Db, Value)>)
    ensures r.Ok? <==> table in db.tables && row.Keys <= db.tables[table].columns.Keys && Admits(db.tables[table], row)
    ensures r.Ok? ==> var (t', id) := InsertIntoTable(db.tables[table], row).value;
      r.value == (db.(tables := db.tables[table := t']), IdValue(id))
  {
    if table !in db.tables then Err("no such table: " + table)
    else
      match InsertIntoTable(db.tables[table], row)
      case Err(e) => Err(e)
      case Ok((t', id)) => Ok((db.(tables := db.tables[table := t']), IdValue(id)))
  }

  /** `makeInsertRowFn`, the innermost function of the pipeline. */
  function Terminal(table: string): Result<Flow> -> Result<(Flow, Value)> {
    (r: Result<Flow>) =>
      if r.Err? then Err(r.error)
      else
        match TerminalInsert(r.value.db, table, r.value.row)
        case Err(e) => Err(e)
        case Ok((db', id)) => Ok((r.value.(db := db'), id))
  }

  /** The reference fields of a schema as (field, idField) pairs, via
      `toRefSchemas`. */
  function RefPairs(schema: Schema.TableSchema): (pairs: seq<RowMaps.RefPair>)
    ensures |pairs| == |Schema.RefList(schema)|
    ensures forall i :: 0 <= i < |pairs| ==>
      pairs[i].field == Schema.RefFieldNames(schema)[i] && pairs[i].idField == Schema.RefIdFieldNames(schema)[i]
  {
    Schema.RefSchemasAgreeWithNames(schema);
    var refs := Schema.ToRefSchemas(schema);
    seq(|refs|, i requires 0 <= i < |refs| => RowMaps.RefPair(refs[i].field, refs[i].idField))
  }

  /** A stage when its option is set, nothing otherwise. */
  function Opt(on: bool, stage: Stage, legacy: bool): seq<Result<Flow> -> Result<Flow>> {
    if on then [StageFn(stage, legacy)] else []
  }

  /** The stages in the order `makeInsertRowFnFromSchema` wraps them around
      the insert: auto-add, ref map, skip, whitelist, clone. */
  function WrappedStages(schema: Schema.TableSchema, legacy: bool): seq<Result<Flow> -> Result<Flow>> {
    var whitelist := Schema.WhitelistFields(schema);
    Opt(schema.autoAddField, AutoAdd(schema.table), legacy)
    + Opt(schema.refFields.Some?, RefMap(RefPairs(schema)), legacy)
    + Opt(schema.skipFields.Some?, Skip(schema.skipFields.GetOr([])), legacy)
    + Opt(whitelist.Some?, Whitelist(whitelist.GetOr([])), legacy)
    + Opt(!schema.inplaceUpdate, Clone, legacy)
  }

  /** `makeInsertRowFnFromSchema`: `insertRowFn := chain(stage, insertRowFn)`
      for each stage in turn. */
  function MakeInsertRowFn(schema: Schema.TableSchema, legacy: bool): Result<Flow> -> Result<(Flow, Value)> {
    FunctionUtil.WrapAll(WrappedStages(schema, legacy), Terminal(schema.table))
  }

  /** Runs `stage` on `r` when `on` holds. */
  function When(on: bool, stage: Stage, legacy: bool, r: Result<Flow>): Result<Flow> {
    if on then StageFn(stage, legacy)(r) else r
  }

  /** The stages in execution order, spelled out: clone, whitelist, skip, ref
      map, auto-add, then the insert. */
  function RunInDocumentedOrder(schema: Schema.TableSchema, legacy: bool, r: Result<Flow>): Result<(Flow, Value)> {
    Terminal(schema.table)(Staged(schema, legacy, r))
  }

  /** The flow the insert receives after the map-row stages. */
  function Staged(schema: Schema.TableSchema, legacy: bool, r: Result<Flow>): Result<Flow> {
    var whitelist := Schema.WhitelistFields(schema);
    var r1 := When(!schema.inplaceUpdate, Clone, legacy, r);
    var r2 := When(whitelist.Some?, Whitelist(whitelist.GetOr([])), legacy, r1);
    var r3 := When(schema.skipFields.Some?, Skip(schema.skipFields.GetOr([])), legacy, r2);
    var r4 := When(schema.refFields.Some?, RefMap(RefPairs(schema)), legacy, r3);
    When(schema.autoAddField, AutoAdd(schema.table), legacy, r4)
  }

  lemma {:induction false} RunInOrderAppend<T>(a: seq<T -> T>, b: seq<T -> T>, x: T)
    ensures FunctionUtil.RunInOrder(a + b, x) == FunctionUtil.RunInOrder(b, FunctionUtil.RunInOrder(a, x))
    decreases |a|
  {
    if |a| > 0 {
      assert (a + b)[1..] == a[1..] + b;
      RunInOrderAppend(a[1..], b, a[0](x));
    } else {
      assert a + b == b;
    }
  }

  lemma ReverseAppend<T>(a: seq<T>, b: seq<T>)
    ensures FunctionUtil.Reverse(a + b) == FunctionUtil.Reverse(b) + FunctionUtil.Reverse(a)
  {
  }

  lemma RunOpt(on: bool, stage: Stage, legacy: bool, r: Result<Flow>)
    ensures FunctionUtil.RunInOrder(FunctionUtil.Reverse(Opt(on, stage, legacy)), r) == When(on, stage, legacy, r)
  {
    if on {
      assert FunctionUtil.Reverse(Opt(on, stage, legacy)) == [StageFn(stage, legacy)];
    }
  }

  lemma RunReversedConcat<T>(p: seq<T -> T>, q: seq<T -> T>, r: T)
    ensures FunctionUtil.RunInOrder(FunctionUtil.Reverse(p + q), r)
         == FunctionUtil.RunInOrder(FunctionUtil.Reverse(p), FunctionUtil.RunInOrder(FunctionUtil.Reverse(q), r))
  {
    ReverseAppend(p, q);
    RunInOrderAppend(FunctionUtil.Reverse(q), FunctionUtil.Reverse(p), r);
  }

  /** Running five wrapped groups of stages: the group wrapped last runs
      first. */
  lemma RunReversedFive<T>(a: seq<T -> T>, b: seq<T -> T>, c: seq<T -> T>, d: seq<T -> T>, e: seq<T -> T>, r: T)
    ensures FunctionUtil.RunInOrder(FunctionUtil.Reverse(a + b + c + d + e), r)
         == FunctionUtil.RunInOrder(FunctionUtil.Reverse(a),
              FunctionUtil.RunInOrder(FunctionUtil.Reverse(b),
                FunctionUtil.RunInOrder(FunctionUtil.Reverse(c),
                  FunctionUtil.RunInOrder(FunctionUtil.Reverse(d),
                    FunctionUtil.RunInOrder(FunctionUtil.Reverse(e), r)))))
  {
    var r1 := FunctionUtil.RunInOrder(FunctionUtil.Reverse(e), r);
    var r2 := FunctionUtil.RunInOrder(FunctionUtil.Reverse(d), r1);
    var r3 := FunctionUtil.RunInOrder(FunctionUtil.Reverse(c), r2);
    RunReversedConcat(a + b + c + d, e, r);
    RunReversedConcat(a + b + c, d, r1);
    RunReversedConcat(a + b, c, r2);
    RunReversedConcat(a, b, r3);
  }

  /** The stage order of the composed insert: although the code wraps
      auto-add first and clone last, each `chain` puts the new stage in front,
      so the row goes through clone, whitelist, skip, ref map and auto-add, in
      that order, before the insert. */
  lemma InsertRunsStagesInDocumentedOrder(schema: Schema.TableSchema, legacy: bool, r: Result<Flow>)
    ensures MakeInsertRowFn(schema, legacy)(r) == RunInDocumentedOrder(schema, legacy, r)
  {
    FunctionUtil.WrapAllRunsLastAddedFirst(WrappedStages(schema, legacy), Terminal(schema.table), r);
    ReversedStagesAreStaged(schema, legacy, r);
  }

  /** Running the wrapped stages last-added first is the staged flow. */
  lemma ReversedStagesAreStaged(schema: Schema.TableSchema, legacy: bool, r: Result<Flow>)
    ensures FunctionUtil.RunInOrder(FunctionUtil.Reverse(WrappedStages(schema, legacy)), r) == Staged(schema, legacy, r)
  {
    var whitelist := Schema.WhitelistFields(schema);
    var a := Opt(schema.autoAddField, AutoAdd(schema.table), legacy);
    var b := Opt(schema.refFields.Some?, RefMap(RefPairs(schema)), legacy);
    var c := Opt(schema.skipFields.Some?, Skip(schema.skipFields.GetOr([])), legacy);
    var d := Opt(whitelist.Some?, Whitelist(whitelist.GetOr([])), legacy);
    var e := Opt(!schema.inplaceUpdate, Clone, legacy);
    assert WrappedStages(schema, legacy) == a + b + c + d + e;
    RunReversedFive(a, b, c, d, e, r);
    var r1 := When(!schema.inplaceUpdate, Clone, legacy, r);
    var r2 := When(whitelist.Some?, Whitelist(whitelist.GetOr([])), legacy, r1);
    var r3 := When(schema.skipFields.Some?, Skip(schema.skipFields.GetOr([])), legacy, r2);
    var r4 := When(schema.refFields.Some?, RefMap(RefPairs(schema)), legacy, r3);
    RunOpt(!schema.inplaceUpdate, Clone, legacy, r);
    RunOpt(whitelist.Some?, Whitelist(whitelist.GetOr([])), legacy, r1);
    RunOpt(schema.skipFields.Some?, Skip(schema.skipFields.GetOr([])), legacy, r2);
    RunOpt(schema.refFields.Some?, RefMap(RefPairs(schema)), legacy, r3);
    RunOpt(schema.autoAddField, AutoAdd(schema.table), legacy, r4);
  }

  /** Calling the composed insert with a row: the database afterwards, the
      id returned, and the row object as the caller sees it afterwards. */
  function InsertRow(schema: Schema.TableSchema, legacy: bool, db: Db, row: Row): Result<(Db, Value, Row)> {
    match MakeInsertRowFn(schema, legacy)(Ok(Flow(db, row, true)))
    case Err(e) => Err(e)
    case Ok((f, id)) => Ok((f.db, id, if f.callers then f.row else row))
  }

  /** The caller's row object: untouched unless `inplaceUpdate` is set and no
      whitelist applies, in which case it is the very row that was stored
      (without the rowid SQLite puts into a null alias column). */
  lemma InsertRowMutatesCallerOnlyInPlace(schema: Schema.TableSchema, legacy: bool, db: Db, row: Row)
    requires InsertRow(schema, legacy, db, row).Ok?
    ensures schema.table in db.tables
    ensures var (db', id, seen) := InsertRow(schema, legacy, db, row).value;
      var t := db.tables[schema.table];
      && schema.table in db'.tables
      && (if schema.inplaceUpdate && Schema.WhitelistFields(schema).None?
          then exists k :: 0 <= k <= |t.rows| &&
                 db'.tables[schema.table].rows == t.rows[..k] + [WithRowid(t.alias, seen, id)] + t.rows[k..]
          else seen == row)
  {
    var r := Ok(Flow(db, row, true));
    InsertRowIsStagedInsert(schema, legacy, db, row);
    StagedCallers(schema, legacy, r);
    StagedKeepsRows(schema, legacy, r, schema.table);
  }

  /** The composed insert is the terminal insert of the staged flow. */
  lemma InsertRowIsStagedInsert(schema: Schema.TableSchema, legacy: bool, db: Db, row: Row)
    ensures var s := Staged(schema, legacy, Ok(Flow(db, row, true)));
      InsertRow(schema, legacy, db, row).Ok? <==>
        s.Ok? && TerminalInsert(s.value.db, schema.table, s.value.row).Ok?
    ensures var s := Staged(schema, legacy, Ok(Flow(db, row, true)));
      InsertRow(schema, legacy, db, row).Ok? ==>
        var (db', id) := TerminalInsert(s.value.db, schema.table, s.value.row).value;
        InsertRow(schema, legacy, db, row).value == (db', id, if s.value.callers then s.value.row else row)
  {
    InsertRunsStagesInDocumentedOrder(schema, legacy, Ok(Flow(db, row, true)));
  }

  /** The row object reaching the insert is still the caller's exactly when
      it was to begin with, `inplaceUpdate` skips the clone and no whitelist
      applies. */
  lemma StagedCallers(schema: Schema.TableSchema, legacy: bool, r: Result<Flow>)
    requires Staged(schema, legacy, r).Ok?
    ensures r.Ok?
    ensures Staged(schema, legacy, r).value.callers
        == (r.value.callers && schema.inplaceUpdate && Schema.WhitelistFields(schema).None?)
  {
    var whitelist := Schema.WhitelistFields(schema);
    var r1 := When(!schema.inplaceUpdate, Clone, legacy, r);
    var r2 := When(whitelist.Some?, Whitelist(whitelist.GetOr([])), legacy, r1);
    var r3 := When(schema.skipFields.Some?, Skip(schema.skipFields.GetOr([])), legacy, r2);
    var r4 := When(schema.refFields.Some?, RefMap(RefPairs(schema)), legacy, r3);
    WhenCallers(schema.autoAddField, AutoAdd(schema.table), legacy, r4);
    WhenCallers(schema.refFields.Some?, RefMap(RefPairs(schema)), legacy, r3);
    WhenCallers(schema.skipFields.Some?, Skip(schema.skipFields.GetOr([])), legacy, r2);
    WhenCallers(whitelist.Some?, Whitelist(whitelist.GetOr([])), legacy, r1);
    WhenCallers(!schema.inplaceUpdate, Clone, legacy, r);
  }

  lemma WhenCallers(on: bool, stage: Stage, legacy: bool, r: Result<Flow>)
    requires When(on, stage, legacy, r).Ok?
    ensures r.Ok?
    ensures When(on, stage, legacy, r).value.callers
        == (r.value.callers && !(on && (stage.Clone? || stage.Whitelist?)))
  {
  }

  /** No map-row stage adds or removes a stored row; a stage that succeeds
      keeps every table's rows and rowid alias and fails only on its own
      input. */
  lemma WhenKeepsRows(on: bool, stage: Stage, legacy: bool, r: Result<Flow>, table: string)
    requires When(on, stage, legacy, r).Ok?
    ensures r.Ok?
    ensures var r' := When(on, stage, legacy, r).value;
      (table in r'.db.tables <==> table in r.value.db.tables) &&
      (table in r.value.db.tables ==> r'.db.tables[table].rows == r.value.db.tables[table].rows &&
                                      r'.db.tables[table].alias == r.value.db.tables[table].alias)
  {
  }

  /** The map-row stages keep the stored rows of every table. */
  lemma StagedKeepsRows(schema: Schema.TableSchema, legacy: bool, r: Result<Flow>, t: string)
    requires Staged(schema, legacy, r).Ok?
    ensures r.Ok?
    ensures var s := Staged(schema, legacy, r).value;
      (t in s.db.tables <==> t in r.value.db.tables) &&
      (t in r.value.db.tables ==> s.db.tables[t].rows == r.value.db.tables[t].rows &&
                                  s.db.tables[t].alias == r.value.db.tables[t].alias)
  {
    var whitelist := Schema.WhitelistFields(schema);
    var r1 := When(!schema.inplaceUpdate, Clone, legacy, r);
    var r2 := When(whitelist.Some?, Whitelist(whitelist.GetOr([])), legacy, r1);
    var r3 := When(schema.skipFields.Some?, Skip(schema.skipFields.GetOr([])), legacy, r2);
    var r4 := When(schema.refFields.Some?, RefMap(RefPairs(schema)), legacy, r3);
    WhenKeepsRows(schema.autoAddField, AutoAdd(schema.table), legacy, r4, t);
    WhenKeepsRows(schema.refFields.Some?, RefMap(RefPairs(schema)), legacy, r3, t);
    WhenKeepsRows(schema.skipFields.Some?, Skip(schema.skipFields.GetOr([])), legacy, r2, t);
    WhenKeepsRows(whitelist.Some?, Whitelist(whitelist.GetOr([])), legacy, r1, t);
    WhenKeepsRows(!schema.inplaceUpdate, Clone, legacy, r, t);
  }

  /** A successful insert adds exactly one row to the schema's table and
      keeps the rows that were there, in order. Without a rowid alias the row
      is appended and its row number returned; with one, the id returned is
      a rowid no earlier row had, and the new row holds it. */
  lemma InsertRowStores(schema: Schema.TableSchema, legacy: bool, db: Db, row: Row)
    requires InsertRow(schema, legacy, db, row).Ok?
    ensures schema.table in db.tables
    ensures var (db', id, _) := InsertRow(schema, legacy, db, row).value;
      var t := db.tables[schema.table];
      var n := |t.rows|;
      && schema.table in db'.tables
      && db'.tables[schema.table].alias == t.alias
      && |db'.tables[schema.table].rows| == n + 1
      && (exists k :: 0 <= k <= n && db'.tables[schema.table].rows == t.rows[..k] + [db'.tables[schema.table].rows[k]] + t.rows[k..])
      && (t.alias.None? ==> db'.tables[schema.table].rows[..n] == t.rows && id == IdValue(n + 1))
      && (t.alias.Some? ==> id.Num? && IsInt(id.n) && !HasRowid(t.rows, t.alias.value, id.n.Floor)
                            && HasRowid(db'.tables[schema.table].rows, t.alias.value, id.n.Floor))
  {
    InsertRowIsStagedInsert(schema, legacy, db, row);
    StagedKeepsRows(schema, legacy, Ok(Flow(db, row, true)), schema.table);
  }

  // ---------------------------------------------------------------------
  // What an insert leaves behind when it throws

  /** A stage on a run that may already have thrown, `(flow, threw)`. No
      transaction wraps the composed insert, so a stage that throws leaves
      what the stages before it did, and the run stops there. */
  function Step(on: bool, stage: Stage, legacy: bool, s: (Flow, bool)): (r: (Flow, bool))
    ensures s.1 ==> r == s
    ensures !s.1 ==> (r.1 <==> When(on, stage, legacy, Ok(s.0)).Err?)
    ensures !s.1 && !r.1 ==> r.0 == When(on, stage, legacy, Ok(s.0)).value
  {
    if s.1 || !on then s
    else match Apply(stage, legacy, s.0)
      case Ok(f) => (f, false)
      case Err(_) => (s.0, true)
  }

  /** The map-row stages in execution order, keeping the flow of the last
      stage that ran to completion. */
  function StagedEffect(schema: Schema.TableSchema, legacy: bool, f: Flow): (Flow, bool) {
    var whitelist := Schema.WhitelistFields(schema);
    var s1 := Step(!schema.inplaceUpdate, Clone, legacy, (f, false));
    var s2 := Step(whitelist.Some?, Whitelist(whitelist.GetOr([])), legacy, s1);
    var s3 := Step(schema.skipFields.Some?, Skip(schema.skipFields.GetOr([])), legacy, s2);
    var s4 := Step(schema.refFields.Some?, RefMap(RefPairs(schema)), legacy, s3);
    Step(schema.autoAddField, AutoAdd(schema.table), legacy, s4)
  }

  /** The stages throw exactly when `Staged` fails, and otherwise give its
      flow. */
  lemma StagedEffectAgrees(schema: Schema.TableSchema, legacy: bool, f: Flow)
    ensures var (g, threw) := StagedEffect(schema, legacy, f);
      (threw <==> Staged(schema, legacy, Ok(f)).Err?) && (!threw ==> g == Staged(schema, legacy, Ok(f)).value)
  {
  }

  /** Calling the composed insert, whether or not it throws: the database
      afterwards and the caller's row object afterwards. On success this is
      what `InsertRow` gives. */
  function InsertRowEffect(schema: Schema.TableSchema, legacy: bool, db: Db, row: Row): (r: (Db, Row))
    ensures InsertRow(schema, legacy, db, row).Ok? ==>
      r == (InsertRow(schema, legacy, db, row).value.0, InsertRow(schema, legacy, db, row).value.2)
  {
    StagedEffectAgrees(schema, legacy, Flow(db, row, true));
    InsertRowIsStagedInsert(schema, legacy, db, row);
    var (g, threw) := StagedEffect(schema, legacy, Flow(db, row, true));
    var seen := if g.callers then g.row else row;
    if threw then (g.db, seen)
    else match TerminalInsert(g.db, schema.table, g.row)
      case Ok((db', _)) => (db', seen)
      case Err(_) => (g.db, seen)
  }

  /** `b` has the tables of `a` with the same rows, and every satellite row
      of `a` at the same id. */
  ghost predicate KeepsRows(a: Db, b: Db) {
    && (forall t :: t in b.tables <==> t in a.tables)
    && (forall t :: t in a.tables ==> b.tables[t].rows == a.tables[t].rows)
    && RowMaps.Extends(a.sats, b.sats)
  }

  lemma KeepsRowsTransitive(a: Db, b: Db, c: Db)
    requires KeepsRows(a, b) && KeepsRows(b, c)
    ensures KeepsRows(a, c)
  {
    RowMaps.ExtendsTransitive(a.sats, b.sats, c.sats);
  }

  /** A step only adds satellite rows, and only a clone or whitelist that
      runs hands the next stage a row that is not the caller's. */
  lemma StepKeeps(on: bool, stage: Stage, legacy: bool, s: (Flow, bool))
    ensures var s' := Step(on, stage, legacy, s);
      && KeepsRows(s.0.db, s'.0.db)
      && s'.0.callers == (s.0.callers && !(!s.1 && on && (stage.Clone? || stage.Whitelist?)))
  {
    RowMaps.ExtendsTransitive(s.0.db.sats, s.0.db.sats, s.0.db.sats);
    if !s.1 && on && stage.RefMap? && Apply(stage, legacy, s.0).Ok? {
      RowMaps.InsertRefsExtendsStore(s.0.db.sats, s.0.row, stage.refs, legacy);
    }
  }

  /** The stages keep the table names and every table's rows, only add
      satellite rows, and leave the row object the caller's exactly under
      `inplaceUpdate` without a whitelist. */
  lemma StagedEffectKeeps(schema: Schema.TableSchema, legacy: bool, f: Flow)
    ensures var (g, _) := StagedEffect(schema, legacy, f);
      && KeepsRows(f.db, g.db)
      && g.callers == (f.callers && schema.inplaceUpdate && Schema.WhitelistFields(schema).None?)
  {
    var whitelist := Schema.WhitelistFields(schema);
    var s1 := Step(!schema.inplaceUpdate, Clone, legacy, (f, false));
    var s2 := Step(whitelist.Some?, Whitelist(whitelist.GetOr([])), legacy, s1);
    var s3 := Step(schema.skipFields.Some?, Skip(schema.skipFields.GetOr([])), legacy, s2);
    var s4 := Step(schema.refFields.Some?, RefMap(RefPairs(schema)), legacy, s3);
    var s5 := Step(schema.autoAddField, AutoAdd(schema.table), legacy, s4);
    StepKeeps(!schema.inplaceUpdate, Clone, legacy, (f, false));
    StepKeeps(whitelist.Some?, Whitelist(whitelist.GetOr([])), legacy, s1);
    StepKeeps(schema.skipFields.Some?, Skip(schema.skipFields.GetOr([])), legacy, s2);
    StepKeeps(schema.refFields.Some?, RefMap(RefPairs(schema)), legacy, s3);
    StepKeeps(schema.autoAddField, AutoAdd(schema.table), legacy, s4);
    KeepsRowsTransitive(f.db, s1.0.db, s2.0.db);
    KeepsRowsTransitive(f.db, s2.0.db, s3.0.db);
    KeepsRowsTransitive(f.db, s3.0.db, s4.0.db);
    KeepsRowsTransitive(f.db, s4.0.db, s5.0.db);
  }

  /** An insert that throws stores no row in any table, yet keeps what its
      stages did: the satellite rows the reference map inserted stay, and
      under `inplaceUpdate` without a whitelist the caller's row is the one
      the stages rewrote, whose reference fields were replaced by ids. */
  lemma InsertRowEffectOnFailure(schema: Schema.TableSchema, legacy: bool, db: Db, row: Row)
    requires InsertRow(schema, legacy, db, row).Err?
    ensures var (db', seen) := InsertRowEffect(schema, legacy, db, row);
      var (g, _) := StagedEffect(schema, legacy, Flow(db, row, true));
      && (forall t :: t in db'.tables <==> t in db.tables)
      && (forall t :: t in db.tables ==> db'.tables[t].rows == db.tables[t].rows)
      && RowMaps.Extends(db.sats, db'.sats)
      && db' == g.db
      && seen == (if schema.inplaceUpdate && Schema.WhitelistFields(schema).None? then g.row else row)
  {
    var f := Flow(db, row, true);
    StagedEffectKeeps(schema, legacy, f);
    StagedEffectAgrees(schema, legacy, f);
    InsertRowIsStagedInsert(schema, legacy, db, row);
  }

  // ---------------------------------------------------------------------
  // Building: autoCreateTable and the satellite tables

  /** The entries of the `fields` object as a map; a later duplicate key
      wins, as in an object literal. */
  function FieldsMap(entries: seq<(string, string)>): (m: map<string, string>)
    ensures m.Keys == set e | e in entries :: e.0
  {
    if |entries| == 0 then map[]
    else
      var last := entries[|entries| - 1];
      assert entries == entries[..|entries| - 1] + [last];
      FieldsMap(entries[..|entries| - 1])[last.0 := last.1]
  }

  /** The entries of an object have distinct names; for such a list the map
      and the list of entries agree: every entry's name maps to its own
      type. */
  lemma {:induction false} FieldsMapOfDistinct(entries: seq<(string, string)>)
    requires forall i, j :: 0 <= i < j < |entries| ==> entries[i].0 != entries[j].0
    ensures forall i :: 0 <= i < |entries| ==>
      entries[i].0 in FieldsMap(entries) && FieldsMap(entries)[entries[i].0] == entries[i].1
    decreases |entries|
  {
    if |entries| > 0 {
      var init := entries[..|entries| - 1];
      FieldsMapOfDistinct(init);
      forall i | 0 <= i < |entries|
        ensures entries[i].0 in FieldsMap(entries) && FieldsMap(entries)[entries[i].0] == entries[i].1
      {
        if i < |entries| - 1 {
          assert init[i] == entries[i];
        }
      }
    }
  }

  /** `defaultTableFields`: the columns of a table created without
      `fields`. */
  const DefaultTableFields: map<string, string> := map["id" := "integer primary key"]

  /** The reference id columns, each declared `integer`. */
  function IdColumns(schema: Schema.TableSchema): (m: map<string, string>)
    ensures m.Keys == set n | n in Schema.RefIdFieldNames(schema)
    ensures forall n :: n in Schema.RefIdFieldNames(schema) ==> n in m
    ensures forall n :: n in m ==> m[n] == "integer"
  {
    map n | n in Schema.RefIdFieldNames(schema) :: "integer"
  }

  /** The columns `autoCreateTable` declares: the `fields` entries, or
      `id integer primary key` without them, then every reference id column
      as `integer`. */
  function CreatedColumns(schema: Schema.TableSchema): (columns: map<string, string>)
    ensures forall n :: n in Schema.RefIdFieldNames(schema) ==> n in columns && columns[n] == "integer"
    ensures schema.fields.None? ==> "id" in columns
    ensures forall i :: 0 <= i < |schema.fields.GetOr([])| ==> schema.fields.value[i].0 in columns
    ensures forall n :: n in columns ==>
      (n in Schema.RefIdFieldNames(schema) ||
       if schema.fields.Some? then n in FieldsMap(schema.fields.value) && columns[n] == FieldsMap(schema.fields.value)[n]
       else n == "id" && columns[n] == "integer primary key")
  {
    (if schema.fields.Some? then FieldsMap(schema.fields.value) else DefaultTableFields) + IdColumns(schema)
  }

  /** The created columns in declaration order: the `fields` keys, or `id`. */
  function DeclaredNames(schema: Schema.TableSchema): (names: seq<string>)
    ensures forall n :: n in names ==> n in CreatedColumns(schema)
  {
    match schema.fields
    case None => ["id"]
    case Some(entries) => seq(|entries|, i requires 0 <= i < |entries| => entries[i].0)
  }

  /** The first of `names` declared `integer primary key` in `columns`. */
  function FirstIntegerKey(names: seq<string>, columns: map<string, string>): (r: Option<string>)
    ensures r.Some? ==> r.value in names && r.value in columns && columns[r.value] == "integer primary key"
    ensures r.None? <==> forall n :: n in names && n in columns ==> columns[n] != "integer primary key"
  {
    if |names| == 0 then None
    else if names[0] in columns && columns[names[0]] == "integer primary key" then Some(names[0])
    else FirstIntegerKey(names[1..], columns)
  }

  /** The rowid alias of the table `autoCreateTable` creates: the first
      column declared `integer primary key`, or else the single column of
      `primaryKeys` when it is declared `integer`. */
  function CreatedAlias(schema: Schema.TableSchema): (alias: Option<string>)
    ensures alias.Some? ==> alias.value in CreatedColumns(schema)
    ensures schema.fields.None? && "id" !in Schema.RefIdFieldNames(schema) ==> alias == Some("id")
    ensures alias.None? ==> schema.fields.Some? || "id" in Schema.RefIdFieldNames(schema)
    ensures alias.Some? ==>
      CreatedColumns(schema)[alias.value] == "integer primary key" ||
      (schema.primaryKeys == Some([alias.value]) && CreatedColumns(schema)[alias.value] == "integer")
  {
    var columns := CreatedColumns(schema);
    match FirstIntegerKey(DeclaredNames(schema), columns)
    case Some(n) => Some(n)
    case None =>
      if schema.primaryKeys.Some? && |schema.primaryKeys.value| == 1
         && schema.primaryKeys.value[0] in columns && columns[schema.primaryKeys.value[0]] == "integer"
      then
        assert schema.primaryKeys.value == [schema.primaryKeys.value[0]];
        Some(schema.primaryKeys.value[0])
      else None
  }

  /** The columns `autoCreateTable` declares as src/helpers.ts:158-159
      write them, given the module-level `defaultTableFields` object as it
      stands: each id column is assigned into the object the fields were read
      from, so without `fields` it goes into `defaultTableFields` itself.
      Returns the columns and that object afterwards. */
  function AsWrittenCreatedColumns(defaults: map<string, string>, schema: Schema.TableSchema)
    : (r: (map<string, string>, map<string, string>))
    ensures schema.fields.Some? ==> r == (CreatedColumns(schema), defaults)
    ensures schema.fields.None? ==> r.0 == r.1 && defaults.Keys <= r.1.Keys
    ensures schema.fields.None? ==> forall n :: n in Schema.RefIdFieldNames(schema) ==> n in r.1 && r.1[n] == "integer"
  {
    if schema.fields.Some? then (CreatedColumns(schema), defaults)
    else var fields := defaults + IdColumns(schema); (fields, fields)
  }

  /** While nobody has written into `defaultTableFields`, the code as written
      declares the corrected columns. */
  lemma AsWrittenCreatedColumnsFirstUse(schema: Schema.TableSchema)
    ensures AsWrittenCreatedColumns(DefaultTableFields, schema).0 == CreatedColumns(schema)
  {
  }

  /** The leak: after a table with a reference field `author` is created
      without `fields`, a second table created without `fields` and with no
      reference field at all declares an `author_id` column. */
  lemma DefaultFieldsLeak()
    ensures var post := Schema.PlainSchema("post").(refFields := Some([Schema.Bare("author")]), autoCreateTable := true);
      var tag := Schema.PlainSchema("tag").(autoCreateTable := true);
      var defaults := AsWrittenCreatedColumns(DefaultTableFields, post).1;
      "author_id" in AsWrittenCreatedColumns(defaults, tag).0 && "author_id" !in CreatedColumns(tag)
  {
    var post := Schema.PlainSchema("post").(refFields := Some([Schema.Bare("author")]), autoCreateTable := true);
    var tag := Schema.PlainSchema("tag").(autoCreateTable := true);
    assert Schema.RefList(post) == [Schema.Bare("author")];
    assert Schema.IdFieldSuffix(post) == "_id";
    assert Schema.RefIdFieldNames(post)[0] == "author_id";
    assert Schema.RefIdFieldNames(tag) == [];
  }

  /** The table-creating part of `makeInsertRowFnFromSchema`: an explicit
      `createTableSql` runs as given (its text is not interpreted here);
      otherwise `autoCreateTable` creates the table if it does not exist.
      Each reference field's satellite table is created when its schema says
      so; preparing the lookup on a satellite table that still does not exist
      fails. */
  function BuildInsert(db: Db, schema: Schema.TableSchema): (r: Result<Db>)
    ensures r.Ok? <==> AllAvailable(db.sats, Schema.ToRefSchemas(schema))
    ensures r.Ok? ==> forall i :: 0 <= i < |RefPairs(schema)| ==> RefPairs(schema)[i].field in r.value.sats
    ensures r.Ok? ==> forall f :: f in db.sats ==> f in r.value.sats && r.value.sats[f] == db.sats[f]
    ensures r.Ok? && schema.createTableSql == "" && schema.autoCreateTable ==> schema.table in r.value.tables
    ensures r.Ok? ==> forall t :: t in db.tables ==> t in r.value.tables && r.value.tables[t] == db.tables[t]
  {
    var sats :- CreateSatellites(db.sats, Schema.ToRefSchemas(schema));
    Ok(Db(CreateMainTable(db.tables, schema), sats))
  }

  /** `autoCreateTable`: the table is added, empty, when the schema asks
      for it and it does not exist yet. */
  function CreateMainTable(tables: map<string, Table>, schema: Schema.TableSchema): map<string, Table> {
    if schema.createTableSql == "" && schema.autoCreateTable && schema.table !in tables
    then tables[schema.table := Table(CreatedColumns(schema), [], CreatedAlias(schema))]
    else tables
  }

  /** The database after `makeInsertRowFnFromSchema` has run, whether or not
      it throws: the statements before the failing `prepare` have already
      executed, so the main table and the satellites of the reference
      fields before the failing one exist. A successful build leaves exactly
      the database `BuildInsert` gives. */
  function BuildEffect(db: Db, schema: Schema.TableSchema): (r: Db)
    ensures BuildInsert(db, schema).Ok? ==> r == BuildInsert(db, schema).value
    ensures schema.createTableSql == "" && schema.autoCreateTable ==> schema.table in r.tables
    ensures forall t :: t in db.tables ==> t in r.tables && r.tables[t] == db.tables[t]
    ensures BuildInsert(db, schema).Err? ==>
      var refs := Schema.ToRefSchemas(schema);
      exists k :: 0 <= k < |refs| && r.sats == CreatedSatellites(db.sats, refs[..k]) &&
                  refs[k].field !in r.sats && !refs[k].autoCreateTable
  {
    if CreateSatellites(db.sats, Schema.ToRefSchemas(schema)).Err? then
      CreatedSatellitesStop(db.sats, Schema.ToRefSchemas(schema));
      Db(CreateMainTable(db.tables, schema), CreatedSatellites(db.sats, Schema.ToRefSchemas(schema)))
    else
      Db(CreateMainTable(db.tables, schema), CreatedSatellites(db.sats, Schema.ToRefSchemas(schema)))
  }

  /** The satellite table of `refs[i]` exists when its lookup is prepared:
      it existed before, or it or an earlier reference field of the same name
      creates it. */
  ghost predicate Available(sats: RowMaps.Store, refs: seq<Schema.RefFieldSchema>, i: nat)
    requires i < |refs|
  {
    refs[i].field in sats || exists j :: 0 <= j <= i && refs[j].field == refs[i].field && refs[j].autoCreateTable
  }

  ghost predicate AllAvailable(sats: RowMaps.Store, refs: seq<Schema.RefFieldSchema>) {
    forall i :: 0 <= i < |refs| ==> Available(sats, refs, i)
  }

  lemma AvailableAfterFirst(sats: RowMaps.Store, refs: seq<Schema.RefFieldSchema>)
    requires |refs| > 0 && (refs[0].field in sats || refs[0].autoCreateTable)
    ensures var sats1 := if refs[0].field in sats then sats else sats[refs[0].field := []];
      AllAvailable(sats, refs) <==> AllAvailable(sats1, refs[1..])
  {
    var sats1 := if refs[0].field in sats then sats else sats[refs[0].field := []];
    var rest := refs[1..];
    if AllAvailable(sats, refs) {
      forall i | 0 <= i < |rest| ensures Available(sats1, rest, i) {
        assert Available(sats, refs, i + 1);
        if rest[i].field !in sats1 {
          var j :| 0 <= j <= i + 1 && refs[j].field == refs[i + 1].field && refs[j].autoCreateTable;
          assert j != 0;
          assert rest[j - 1] == refs[j];
        }
      }
    }
    if AllAvailable(sats1, rest) {
      forall i | 0 <= i < |refs| ensures Available(sats, refs, i) {
        if i == 0 {
          assert refs[0].field in sats || (0 <= 0 <= 0 && refs[0].field == refs[0].field && refs[0].autoCreateTable);
        } else {
          assert Available(sats1, rest, i - 1);
          assert rest[i - 1] == refs[i];
          if refs[i].field !in sats {
            if refs[i].field in sats1 {
              assert refs[0].field == refs[i].field && refs[0].autoCreateTable;
            } else {
              var j :| 0 <= j <= i - 1 && rest[j].field == rest[i - 1].field && rest[j].autoCreateTable;
              assert refs[j + 1] == rest[j];
            }
          }
        }
      }
    }
  }

  /** `makeInsertRefSqls` for each reference field in turn. */
  function CreateSatellites(sats: RowMaps.Store, refs: seq<Schema.RefFieldSchema>): (r: Result<RowMaps.Store>)
    ensures r.Ok? <==> AllAvailable(sats, refs)
    ensures r.Ok? ==> forall i :: 0 <= i < |refs| ==> refs[i].field in r.value
    ensures r.Ok? ==> forall f :: f in sats ==> f in r.value && r.value[f] == sats[f]
    ensures r.Ok? ==> forall f :: f in r.value && f !in sats ==> r.value[f] == []
    decreases |refs|
  {
    if |refs| == 0 then Ok(sats)
    else
      var ref := refs[0];
      if ref.field !in sats && !ref.autoCreateTable then
        assert !Available(sats, refs, 0);
        Err("no such table: " + ref.field)
      else
        var sats1 := if ref.field in sats then sats else sats[ref.field := []];
        AvailableAfterFirst(sats, refs);
        var r := CreateSatellites(sats1, refs[1..]);
        assert r.Ok? ==> forall i :: 1 <= i < |refs| ==> refs[i].field in r.value by {
          assert forall i :: 1 <= i < |refs| ==> refs[1..][i - 1] == refs[i];
        }
        r
  }

  /** The satellites `makeInsertRefSqls` leaves behind, one reference
      field after another until a lookup cannot be prepared. On success that
      is the store `CreateSatellites` gives. */
  function CreatedSatellites(sats: RowMaps.Store, refs: seq<Schema.RefFieldSchema>): (r: RowMaps.Store)
    ensures forall f :: f in sats ==> f in r && r[f] == sats[f]
    ensures CreateSatellites(sats, refs).Ok? ==> r == CreateSatellites(sats, refs).value
    decreases |refs|
  {
    if |refs| == 0 then sats
    else if refs[0].field !in sats && !refs[0].autoCreateTable then sats
    else
      var sats1 := if refs[0].field in sats then sats else sats[refs[0].field := []];
      assert CreateSatellites(sats, refs) == CreateSatellites(sats1, refs[1..]);
      CreatedSatellites(sats1, refs[1..])
  }

  /** When building fails, what is left is what the reference fields before
      the failing one created, and the failing one's table is still
      missing. */
  lemma {:induction false} CreatedSatellitesStop(sats: RowMaps.Store, refs: seq<Schema.RefFieldSchema>)
    requires CreateSatellites(sats, refs).Err?
    ensures exists k :: 0 <= k < |refs| && CreatedSatellites(sats, refs) == CreatedSatellites(sats, refs[..k]) &&
                        refs[k].field !in CreatedSatellites(sats, refs) && !refs[k].autoCreateTable
    decreases |refs|
  {
    var r := CreatedSatellites(sats, refs);
    if refs[0].field !in sats && !refs[0].autoCreateTable {
      assert refs[..0] == [];
      assert r == CreatedSatellites(sats, refs[..0]);
    } else {
      var sats1 := if refs[0].field in sats then sats else sats[refs[0].field := []];
      assert CreateSatellites(sats, refs) == CreateSatellites(sats1, refs[1..]);
      CreatedSatellitesStop(sats1, refs[1..]);
      var k :| 0 <= k < |refs[1..]| && CreatedSatellites(sats1, refs[1..]) == CreatedSatellites(sats1, refs[1..][..k])
        && refs[1..][k].field !in CreatedSatellites(sats1, refs[1..]) && !refs[1..][k].autoCreateTable;
      assert refs[..k + 1][1..] == refs[1..][..k];
      assert refs[..k + 1][0] == refs[0];
      assert CreatedSatellites(sats, refs[..k + 1]) == CreatedSatellites(sats1, refs[1..][..k]);
    }
  }

  /** After a successful build, the ref-map stage always finds its satellite
      tables, so an insert fails only at the auto-add stage or the insert
      itself. */
  lemma BuildPreparesRefTables(db: Db, schema: Schema.TableSchema, row: Row, legacy: bool)
    requires BuildInsert(db, schema).Ok?
    ensures var f := Flow(BuildInsert(db, schema).value, row, true);
      Apply(RefMap(RefPairs(schema)), legacy, f).Ok?
  {
  }

  // ---------------------------------------------------------------------
  // makeDeduplicatedInsertRowFn(FromSchema)

  /** The prepared `select "idField" from "table" where "f1" = ? or ...`. */
  datatype DedupPlan = DedupPlan(table: string, fields: seq<string>, idField: string)

  /** Preparing the dedup select: it fails when `deduplicateFields` is empty
      (the `where` clause is empty), the table does not exist, or a named
      column does not. */
  function BuildDedup(db: Db, table: string, fields: seq<string>, idField: string): (r: Result<DedupPlan>)
    ensures r.Ok? <==> (|fields| > 0 && table in db.tables && idField in db.tables[table].columns &&
                        forall f :: f in fields ==> f in db.tables[table].columns)
    ensures r.Ok? ==> r.value == DedupPlan(table, fields, idField)
  {
    if |fields| == 0 then Err("incomplete input")
    else if table !in db.tables then Err("no such table: " + table)
    else if !(idField in db.tables[table].columns && forall f :: f in fields ==> f in db.tables[table].columns)
    then Err("no such column")
    else Ok(DedupPlan(table, fields, idField))
  }

  /** Whether a stored row matches `row` on some dedup field; a missing key
      binds `undefined`, i.e. NULL, which matches nothing. */
  predicate MatchesSome(stored: Row, row: Row, fields: seq<string>) {
    exists f :: f in fields && SqlEq(Column(stored, f), Column(row, f))
  }

  /** The first stored row that matches, in rowid order. */
  function FirstMatch(rows: seq<Row>, row: Row, fields: seq<string>): (r: Option<nat>)
    ensures r.Some? ==> r.value < |rows| && MatchesSome(rows[r.value], row, fields)
    ensures r.Some? ==> forall j :: 0 <= j < r.value ==> !MatchesSome(rows[j], row, fields)
    ensures r.None? <==> forall j :: 0 <= j < |rows| ==> !MatchesSome(rows[j], row, fields)
  {
    if |rows| == 0 then None
    else if MatchesSome(rows[0], row, fields) then Some(0)
    else
      match FirstMatch(rows[1..], row, fields)
      case None => assert forall j :: 1 <= j < |rows| ==> rows[j] == rows[1..][j - 1]; None
      case Some(k) => assert forall j :: 1 <= j <= k ==> rows[j] == rows[1..][j - 1]; Some(k + 1)
  }

  /** The function `makeDeduplicatedInsertRowFn` returns: when a stored row
      matches on some dedup field, its `idField` and no insert; otherwise the
      wrapped insert. */
  function DedupInsert(db: Db, plan: DedupPlan, row: Row, inner: (Db, Row) -> Result<(Db, Value)>): (r: Result<(Db, Value)>)
    ensures plan.table !in db.tables ==> r.Err?
    ensures plan.table in db.tables && (exists j :: 0 <= j < |db.tables[plan.table].rows| && MatchesSome(db.tables[plan.table].rows[j], row, plan.fields))
      ==> r.Ok? && r.value.0 == db &&
          exists j :: 0 <= j < |db.tables[plan.table].rows| && MatchesSome(db.tables[plan.table].rows[j], row, plan.fields) &&
                      r.value.1 == Column(db.tables[plan.table].rows[j], plan.idField)
    ensures plan.table in db.tables && (forall j :: 0 <= j < |db.tables[plan.table].rows| ==> !MatchesSome(db.tables[plan.table].rows[j], row, plan.fields))
      ==> r == inner(db, row)
  {
    if plan.table !in db.tables then Err("no such table: " + plan.table)
    else
      var rows := db.tables[plan.table].rows;
      match FirstMatch(rows, row, plan.fields)
      case Some(j) => Ok((db, Column(rows[j], plan.idField)))
      case None => inner(db, row)
  }

  /** The plain insert as the function a dedup insert wraps. */
  function InsertInto(table: string): (Db, Row) -> Result<(Db, Value)> {
    (db: Db, row: Row) => TerminalInsert(db, table, row)
  }

  /** Dedup makes the insert idempotent for a row that holds a value in some
      dedup column: inserting it a second time finds the first copy and
      leaves the database as the first call left it. */
  lemma DedupInsertIsIdempotent(db: Db, plan: DedupPlan, row: Row)
    requires exists f :: f in plan.fields && f in row && !IsNullish(row[f])
    requires DedupInsert(db, plan, row, InsertInto(plan.table)).Ok?
    ensures var (db1, id1) := DedupInsert(db, plan, row, InsertInto(plan.table)).value;
      var r2 := DedupInsert(db1, plan, row, InsertInto(plan.table));
      r2.Ok? && r2.value.0 == db1
  {
    var (db1, _) := DedupInsert(db, plan, row, InsertInto(plan.table)).value;
    var f :| f in plan.fields && f in row && !IsNullish(row[f]);
    var rows1 := db1.tables[plan.table].rows;
    assert MatchesSome(row, row, plan.fields) by {
      assert SqlEq(Column(row, f), Column(row, f));
    }
    assert exists j :: 0 <= j < |rows1| && MatchesSome(rows1[j], row, plan.fields) by {
      var rows := db.tables[plan.table].rows;
      if FirstMatch(rows, row, plan.fields).None? {
        var j := InsertedRowMatches(db, plan.table, row, f);
        assert MatchesSome(rows1[j], row, plan.fields);
      } else {
        var j := FirstMatch(rows, row, plan.fields).value;
        assert rows1[j] == rows[j];
      }
    }
  }

  /** The row an insert stores agrees with the given row on every column
      the row fills. */
  lemma InsertedRowMatches(db: Db, table: string, row: Row, f: string) returns (j: nat)
    requires TerminalInsert(db, table, row).Ok?
    requires f in row && !IsNullish(row[f])
    ensures var rows1 := TerminalInsert(db, table, row).value.0.tables[table].rows;
      j < |rows1| && SqlEq(Column(rows1[j], f), Column(row, f))
  {
    var t := db.tables[table];
    var (t', id) := InsertIntoTable(t, row).value;
    var stored := WithRowid(t.alias, row, IdValue(id));
    var k :| 0 <= k <= |t.rows| && t'.rows == t.rows[..k] + [stored] + t.rows[k..];
    assert t'.rows[k] == stored;
    assert Column(stored, f) == Column(row, f);
    j := k;
  }

  /** `makeDeduplicatedInsertRowFn` of src/sqlite/helpers.ts: a single dedup
      field. */
  function LegacyDedupInsert(db: Db, table: string, field: string, idField: string, row: Row, inner: (Db, Row) -> Result<(Db, Value)>): (r: Result<(Db, Value)>)
    ensures table in db.tables && (exists j :: 0 <= j < |db.tables[table].rows| && SqlEq(Column(db.tables[table].rows[j], field), Column(row, field)))
      ==> r.Ok? && r.value.0 == db
    ensures table in db.tables && (forall j :: 0 <= j < |db.tables[table].rows| ==> !SqlEq(Column(db.tables[table].rows[j], field), Column(row, field)))
      ==> r == inner(db, row)
  {
    if table !in db.tables then Err("no such table: " + table)
    else
      var rows := db.tables[table].rows;
      match FirstMatchOn(rows, Column(row, field), field)
      case Some(j) => Ok((db, Column(rows[j], idField)))
      case None => inner(db, row)
  }

  /** The first stored row whose `field` is SQL-equal to `v`. */
  function FirstMatchOn(rows: seq<Row>, v: Value, field: string): (r: Option<nat>)
    ensures r.Some? ==> r.value < |rows| && SqlEq(Column(rows[r.value], field), v)
    ensures r.Some? ==> forall j :: 0 <= j < r.value ==> !SqlEq(Column(rows[j], field), v)
    ensures r.None? <==> forall j :: 0 <= j < |rows| ==> !SqlEq(Column(rows[j], field), v)
  {
    if |rows| == 0 then None
    else if SqlEq(Column(rows[0], field), v) then Some(0)
    else
      match FirstMatchOn(rows[1..], v, field)
      case None => assert forall j :: 1 <= j < |rows| ==> rows[j] == rows[1..][j - 1]; None
      case Some(k) => assert forall j :: 1 <= j <= k ==> rows[j] == rows[1..][j - 1]; Some(k + 1)
  }

  /** The single-field version is the multi-field one with a one-element
      field list. */
  lemma LegacyDedupIsSingleFieldDedup(db: Db, table: string, field: string, idField: string, row: Row, inner: (Db, Row) -> Result<(Db, Value)>)
    ensures LegacyDedupInsert(db, table, field, idField, row, inner)
         == DedupInsert(db, DedupPlan(table, [field], idField), row, inner)
  {
    if table in db.tables {
      var rows := db.tables[table].rows;
      forall j | 0 <= j < |rows|
        ensures MatchesSome(rows[j], row, [field]) <==> SqlEq(Column(rows[j], field), Column(row, field))
      {
        if SqlEq(Column(rows[j], field), Column(row, field)) {
          assert field in [field];
        }
      }
      assert FirstMatchOn(rows, Column(row, field), field) == FirstMatch(rows, row, [field]);
    }
  }

  /** The cached version of `makeDeduplicatedInsertRowFnFromSchema`: the key
      is the JSON text of the dedup values (`stringify` stands for
      `JSON.stringify` of the value list); a hit returns the cached id without
      touching the database; a miss runs the dedup insert and caches its id. */
  function CachedDedupInsert(db: Db, cache: MemoCache.Cache<Value>, plan: DedupPlan, row: Row,
                             stringify: seq<Value> -> string, inner: (Db, Row) -> Result<(Db, Value)>)
    : (r: Result<(Db, MemoCache.Cache<Value>, Value)>)
    ensures var key := stringify(DedupValues(plan.fields, row));
      key in cache.entries ==> r == Ok((db, cache, cache.entries[key]))
    ensures var key := stringify(DedupValues(plan.fields, row));
      key !in cache.entries ==>
        match DedupInsert(db, plan, row, inner)
        case Err(e) => r == Err(e)
        case Ok((db', id)) => r == Ok((db', MemoCache.Store(cache, key, id), id))
  {
    var key := stringify(DedupValues(plan.fields, row));
    match MemoCache.Lookup(cache, key)
    case Some(id) => Ok((db, cache, id))
    case None =>
      var (db', id) :- DedupInsert(db, plan, row, inner);
      Ok((db', MemoCache.Store(cache, key, id), id))
  }

  /** `deduplicateFields.map(field => row[field])`. */
  function DedupValues(fields: seq<string>, row: Row): (vs: seq<Value>)
    ensures |vs| == |fields| && forall i :: 0 <= i < |fields| ==> vs[i] == (if fields[i] in row then row[fields[i]] else Undefined)
  {
    seq(|fields|, i requires 0 <= i < |fields| => if fields[i] in row then row[fields[i]] else Undefined)
  }

  /** With the cache, the same row inserted twice reaches the database at
      most once and gets the same id both times, unless storing the first id
      made the cache clear itself. */
  lemma CachedDedupRepeatHits(db: Db, cache: MemoCache.Cache<Value>, plan: DedupPlan, row: Row,
                              stringify: seq<Value> -> string, inner: (Db, Row) -> Result<(Db, Value)>)
    requires CachedDedupInsert(db, cache, plan, row, stringify, inner).Ok?
    requires !MemoCache.ClearsAfter(cache, stringify(DedupValues(plan.fields, row)))
    ensures var (db1, cache1, id1) := CachedDedupInsert(db, cache, plan, row, stringify, inner).value;
      CachedDedupInsert(db1, cache1, plan, row, stringify, inner) == Ok((db1, cache1, id1))
  {
  }

  /** The cached version of the single-field dedup of src/sqlite/helpers.ts:
      the key is the raw value of the dedup field. Cache keys are strings, so
      only a text value is modelled. */
  function LegacyCachedDedupInsert(db: Db, cache: MemoCache.Cache<Value>, table: string, field: string, idField: string,
                                   row: Row, inner: (Db, Row) -> Result<(Db, Value)>)
    : (r: Result<(Db, MemoCache.Cache<Value>, Value)>)
    requires Column(row, field).Text?
    ensures var key := Column(row, field).s;
      key in cache.entries ==> r == Ok((db, cache, cache.entries[key]))
    ensures var key := Column(row, field).s;
      key !in cache.entries ==>
        match LegacyDedupInsert(db, table, field, idField, row, inner)
        case Err(e) => r == Err(e)
        case Ok((db', id)) => r == Ok((db', MemoCache.Store(cache, key, id), id))
  {
    var key := Column(row, field).s;
    match MemoCache.Lookup(cache, key)
    case Some(id) => Ok((db, cache, id))
    case None =>
      var (db', id) :- LegacyDedupInsert(db, table, field, idField, row, inner);
      Ok((db', MemoCache.Store(cache, key, id), id))
  }

  /** Two rows with the same text in the dedup field get the same id from
      the cached single-field dedup, and the second one leaves the database
      alone, unless storing the first id made the cache clear itself. */
  lemma LegacyCachedDedupSharesIds(db: Db, cache: MemoCache.Cache<Value>, table: string, field: string, idField: string,
                                   row: Row, other: Row, inner: (Db, Row) -> Result<(Db, Value)>)
    requires Column(row, field).Text? && Column(other, field) == Column(row, field)
    requires LegacyCachedDedupInsert(db, cache, table, field, idField, row, inner).Ok?
    requires !MemoCache.ClearsAfter(cache, Column(row, field).s)
    ensures var (db1, cache1, id1) := LegacyCachedDedupInsert(db, cache, table, field, idField, row, inner).value;
      LegacyCachedDedupInsert(db1, cache1, table, field, idField, other, inner) == Ok((db1, cache1, id1))
  {
  }

  // ---------------------------------------------------------------------
  // makeSelectRowFnFromSchema

  /** `select * from "table" limit 1 offset ?`, then the select ref map when
      the schema has `refFields`. Every column comes back, NULL where the
      insert did not name it. A negative offset counts as zero. Past the end
      the statement yields `undefined`, which the ref map cannot inspect. */
  function SelectRow(db: Db, table: string, refs: Option<seq<RowMaps.RefPair>>, offset: int): (r: Result<Option<Row>>)
    ensures table !in db.tables ==> r.Err?
    ensures table in db.tables && offset >= |db.tables[table].rows| ==>
      ((r == Ok(None) <==> refs.None? || |refs.value| == 0) && (r.Ok? ==> r == Ok(None)))
    ensures table in db.tables && 0 <= offset < |db.tables[table].rows| && refs.None? ==>
      r.Ok? && r.value.Some? && r.value.value.Keys == db.tables[table].columns.Keys &&
      forall c :: c in db.tables[table].columns ==> r.value.value[c] == Column(db.tables[table].rows[offset], c)
  {
    if table !in db.tables then Err("no such table: " + table)
    else
      var t := db.tables[table];
      var k := if offset < 0 then 0 else offset;
      if k >= |t.rows| then
        if refs.Some? && |refs.value| > 0 then Err("Cannot use 'in' operator to search in undefined")
        else Ok(None)
      else
        var full := map c | c in t.columns :: Column(t.rows[k], c);
        if refs.None? then Ok(Some(full))
        else if forall i :: 0 <= i < |refs.value| ==> refs.value[i].field in db.sats then
          var row :- RowMaps.SelectRefs(db.sats, full, refs.value);
          Ok(Some(row))
        else Err("no such table")
  }

  /** Storing a row through the ref map and selecting it back: when the
      table's columns are exactly the keys of the mapped row, and the row
      goes in at the end as given, the select function returns the original
      row. */
  lemma RefRowRoundTrip(db: Db, table: string, row: Row, refs: seq<RowMaps.RefPair>, legacy: bool)
    requires table in db.tables
    requires forall i :: 0 <= i < |refs| ==> refs[i].field in db.sats
    requires RowMaps.IndependentRefs(refs) && RowMaps.RefsPresent(row, refs)
    requires RowMaps.InsertRefs(db.sats, row, refs, legacy).1.Keys == db.tables[table].columns.Keys
    requires AppendsAsGiven(db.tables[table], RowMaps.InsertRefs(db.sats, row, refs, legacy).1)
    ensures var (sats', mapped) := RowMaps.InsertRefs(db.sats, row, refs, legacy);
      var r := TerminalInsert(db.(sats := sats'), table, mapped);
      r.Ok? && SelectRow(r.value.0, table, Some(refs), |db.tables[table].rows|) == Ok(Some(row))
  {
    var (sats', mapped) := RowMaps.InsertRefs(db.sats, row, refs, legacy);
    var db' := TerminalInsert(db.(sats := sats'), table, mapped).value.0;
    var t := db'.tables[table];
    var k := |db.tables[table].rows|;
    assert t.rows[k] == mapped && t.columns == db.tables[table].columns;
    assert db'.sats == sats';
    SelectStoredRow(db', table, refs, k);
    FullRowOfStored(t.columns, mapped);
    ExtendsItself(sats');
    RowMaps.SelectRefsInvertsInsertRefs(db.sats, row, refs, legacy, sats');
  }

  /** Selecting a stored row with the select ref map: the ref map runs on
      the full row. */
  lemma SelectStoredRow(db: Db, table: string, refs: seq<RowMaps.RefPair>, k: nat)
    requires table in db.tables && k < |db.tables[table].rows|
    requires forall i :: 0 <= i < |refs| ==> refs[i].field in db.sats
    ensures var t := db.tables[table];
      var full := map c | c in t.columns :: Column(t.rows[k], c);
      SelectRow(db, table, Some(refs), k)
        == (match RowMaps.SelectRefs(db.sats, full, refs) case Err(e) => Err(e) case Ok(row) => Ok(Some(row)))
  {
  }

  /** Reading every column of a stored row whose keys are the columns gives
      the row itself. */
  lemma FullRowOfStored(columns: map<string, string>, row: Row)
    requires row.Keys == columns.Keys
    ensures (map c | c in columns :: Column(row, c)) == row
  {
  }

  lemma ExtendsItself(sats: RowMaps.Store)
    ensures RowMaps.Extends(sats, sats)
  {
    forall f | f in sats ensures sats[f][..|sats[f]|] == sats[f] { }
  }

  // ---------------------------------------------------------------------
  // insertArrayField

  /** `insertArrayField`: each row in turn gets the id fields assigned into
      it (overwriting keys of the same name) and is passed to the insert;
      `undefined` rows do nothing. The assignment updates the caller's rows
      in place, so the assigned rows are returned too; what the insert
      itself then does to a row, or leaves behind when it throws, is
      `InsertArrayFieldEffect`. The first failing insert aborts. */
  function InsertArrayField(db: Db, rows: Option<seq<Row>>, idFields: Row, insert: (Db, Row) -> Result<(Db, Value)>)
    : (r: Result<(Db, seq<Row>)>)
    ensures rows.None? ==> r == Ok((db, []))
    ensures rows.Some? && r.Ok? ==> (|r.value.1| == |rows.value| &&
      forall i :: 0 <= i < |rows.value| ==> r.value.1[i] == rows.value[i] + idFields)
    decreases if rows.Some? then |rows.value| else 0
  {
    if rows.None? || |rows.value| == 0 then Ok((db, []))
    else
      var row := rows.value[0] + idFields;
      var (db1, _) :- insert(db, row);
      var (db2, rest) :- InsertArrayField(db1, Some(rows.value[1..]), idFields, insert);
      Ok((db2, [row] + rest))
  }

  /** What `insertArrayField` leaves behind, whether it returns or throws.
      `fail(db, row)` is the database a throwing insert leaves (the
      satellite rows and columns it added stay, since nothing rolls them
      back) and `seen(db, row)` is the row as the caller sees it after the
      insert (an `inplaceUpdate` insert rewrites it). The rows handed back
      are those the loop reached, the failing one last. */
  function InsertArrayFieldEffect(db: Db, rows: Option<seq<Row>>, idFields: Row, insert: (Db, Row) -> Result<(Db, Value)>,
                                  fail: (Db, Row) -> Db, seen: (Db, Row) -> Row)
    : (r: (Db, seq<Row>))
    ensures rows.None? ==> r == (db, [])
    ensures rows.Some? ==> 0 < |r.1| <= |rows.value| || (r.1 == [] && r.0 == db && InsertArrayField(db, rows, idFields, insert).Ok?)
    ensures InsertArrayField(db, rows, idFields, insert).Ok? ==>
      r.0 == InsertArrayField(db, rows, idFields, insert).value.0 && |r.1| == |InsertArrayField(db, rows, idFields, insert).value.1|
    ensures (forall d, w :: seen(d, w) == w) && InsertArrayField(db, rows, idFields, insert).Ok? ==>
      r == InsertArrayField(db, rows, idFields, insert).value
    decreases if rows.Some? then |rows.value| else 0
  {
    if rows.None? || |rows.value| == 0 then (db, [])
    else
      var row := rows.value[0] + idFields;
      match insert(db, row)
      case Err(_) => (fail(db, row), [seen(db, row)])
      case Ok((db1, _)) =>
        var (db2, rest) := InsertArrayFieldEffect(db1, Some(rows.value[1..]), idFields, insert, fail, seen);
        (db2, [seen(db, row)] + rest)
  }

  /** The run over `rows` throws at row `k`: the rows before it went in,
      row `k` with the id fields assigned is rejected, and what is left is
      what the rows before it made plus what the rejected insert left. */
  ghost predicate StopsAt(db: Db, rows: seq<Row>, idFields: Row, insert: (Db, Row) -> Result<(Db, Value)>,
                          fail: (Db, Row) -> Db, seen: (Db, Row) -> Row, k: nat)
  {
    && k < |rows|
    && InsertArrayField(db, Some(rows[..k]), idFields, insert).Ok?
    && var dbk := InsertArrayField(db, Some(rows[..k]), idFields, insert).value.0;
    && var row := rows[k] + idFields;
    && insert(dbk, row).Err?
    && InsertArrayFieldEffect(db, Some(rows), idFields, insert, fail, seen) ==
       (fail(dbk, row), InsertArrayFieldEffect(db, Some(rows[..k]), idFields, insert, fail, seen).1 + [seen(dbk, row)])
  }

  /** One step of `insertArrayField` when the first insert succeeds. */
  lemma InsertArrayFieldStep(db: Db, rows: seq<Row>, idFields: Row, insert: (Db, Row) -> Result<(Db, Value)>,
                             fail: (Db, Row) -> Db, seen: (Db, Row) -> Row)
    requires |rows| > 0 && insert(db, rows[0] + idFields).Ok?
    ensures var row := rows[0] + idFields;
      var db1 := insert(db, row).value.0;
      && (InsertArrayField(db, Some(rows), idFields, insert).Ok? <==> InsertArrayField(db1, Some(rows[1..]), idFields, insert).Ok?)
      && (InsertArrayField(db1, Some(rows[1..]), idFields, insert).Ok? ==>
            InsertArrayField(db, Some(rows), idFields, insert).value.0 == InsertArrayField(db1, Some(rows[1..]), idFields, insert).value.0)
      && InsertArrayFieldEffect(db, Some(rows), idFields, insert, fail, seen) ==
           (InsertArrayFieldEffect(db1, Some(rows[1..]), idFields, insert, fail, seen).0,
            [seen(db, row)] + InsertArrayFieldEffect(db1, Some(rows[1..]), idFields, insert, fail, seen).1)
  {
  }

  /** A run whose first insert throws stops at row 0. */
  lemma StopsAtFirst(db: Db, rows: seq<Row>, idFields: Row, insert: (Db, Row) -> Result<(Db, Value)>,
                     fail: (Db, Row) -> Db, seen: (Db, Row) -> Row)
    requires |rows| > 0 && insert(db, rows[0] + idFields).Err?
    ensures StopsAt(db, rows, idFields, insert, fail, seen, 0)
  {
    var row := rows[0] + idFields;
    assert rows[..0] == [];
    assert InsertArrayField(db, Some(rows[..0]), idFields, insert) == Ok((db, []));
    assert InsertArrayFieldEffect(db, Some(rows[..0]), idFields, insert, fail, seen) == (db, []);
    assert InsertArrayFieldEffect(db, Some(rows), idFields, insert, fail, seen) == (fail(db, row), [seen(db, row)]);
    assert [] + [seen(db, row)] == [seen(db, row)];
  }

  /** The first k + 1 rows, when the first insert succeeds, run like the
      first k of the remaining rows after it. */
  lemma PrefixNext(db: Db, rows: seq<Row>, idFields: Row, insert: (Db, Row) -> Result<(Db, Value)>,
                   fail: (Db, Row) -> Db, seen: (Db, Row) -> Row, k: nat)
    requires k < |rows| && insert(db, rows[0] + idFields).Ok?
    ensures var db1 := insert(db, rows[0] + idFields).value.0;
      && (InsertArrayField(db, Some(rows[..k + 1]), idFields, insert).Ok? <==>
          InsertArrayField(db1, Some(rows[1..][..k]), idFields, insert).Ok?)
      && (InsertArrayField(db1, Some(rows[1..][..k]), idFields, insert).Ok? ==>
          InsertArrayField(db, Some(rows[..k + 1]), idFields, insert).value.0 ==
          InsertArrayField(db1, Some(rows[1..][..k]), idFields, insert).value.0)
      && InsertArrayFieldEffect(db, Some(rows[..k + 1]), idFields, insert, fail, seen).1 ==
         [seen(db, rows[0] + idFields)] + InsertArrayFieldEffect(db1, Some(rows[1..][..k]), idFields, insert, fail, seen).1
  {
    var pre := rows[..k + 1];
    assert pre[1..] == rows[1..][..k] && pre[0] == rows[0];
    InsertArrayFieldStep(db, pre, idFields, insert, fail, seen);
  }

  /** A run whose first insert succeeds stops one row later than the run
      over the remaining rows. */
  lemma StopsAtNext(db: Db, rows: seq<Row>, idFields: Row, insert: (Db, Row) -> Result<(Db, Value)>,
                    fail: (Db, Row) -> Db, seen: (Db, Row) -> Row, k: nat)
    requires |rows| > 0 && insert(db, rows[0] + idFields).Ok?
    requires StopsAt(insert(db, rows[0] + idFields).value.0, rows[1..], idFields, insert, fail, seen, k)
    ensures StopsAt(db, rows, idFields, insert, fail, seen, k + 1)
  {
    var row := rows[0] + idFields;
    var db1 := insert(db, row).value.0;
    assert rows[1..][k] == rows[k + 1];
    InsertArrayFieldStep(db, rows, idFields, insert, fail, seen);
    PrefixNext(db, rows, idFields, insert, fail, seen, k);
    var dbk := InsertArrayField(db1, Some(rows[1..][..k]), idFields, insert).value.0;
    var last := rows[k + 1] + idFields;
    var e1 := InsertArrayFieldEffect(db1, Some(rows[1..][..k]), idFields, insert, fail, seen).1;
    assert [seen(db, row)] + (e1 + [seen(dbk, last)]) == [seen(db, row)] + e1 + [seen(dbk, last)];
  }

  /** A failing `insertArrayField` stops at one row: the rows before it are
      inserted (and stay), the failing insert's own leftovers stay too, and
      no later row is reached. */
  lemma {:induction false} InsertArrayFieldStop(db: Db, rows: seq<Row>, idFields: Row, insert: (Db, Row) -> Result<(Db, Value)>,
                                                fail: (Db, Row) -> Db, seen: (Db, Row) -> Row)
    requires InsertArrayField(db, Some(rows), idFields, insert).Err?
    ensures exists k: nat :: StopsAt(db, rows, idFields, insert, fail, seen, k)
    decreases |rows|
  {
    if insert(db, rows[0] + idFields).Err? {
      StopsAtFirst(db, rows, idFields, insert, fail, seen);
    } else {
      var db1 := insert(db, rows[0] + idFields).value.0;
      InsertArrayFieldStep(db, rows, idFields, insert, fail, seen);
      InsertArrayFieldStop(db1, rows[1..], idFields, insert, fail, seen);
      var k: nat :| StopsAt(db1, rows[1..], idFields, insert, fail, seen, k);
      StopsAtNext(db, rows, idFields, insert, fail, seen, k);
    }
  }

  /** The rows with the id fields assigned, in order. */
  function Assigned(rows: seq<Row>, idFields: Row): (r: seq<Row>)
    ensures |r| == |rows|
    ensures forall i :: 0 <= i < |rows| ==> r[i] == rows[i] + idFields
  {
    if |rows| == 0 then [] else [rows[0] + idFields] + Assigned(rows[1..], idFields)
  }

  /** The rows as a run of inserts into `t` stores them when none of them
      gives the rowid alias a value: each in turn gets the next rowid. */
  function Numbered(t: Table, rows: seq<Row>): (r: seq<Row>)
    ensures |r| == |rows|
    ensures t.alias.None? ==> r == rows
    ensures t.alias.Some? ==> forall i :: 0 <= i < |rows| ==>
      r[i] == rows[i][t.alias.value := IdValue(NextRowid(t.rows, t.alias.value) + i)]
  {
    match t.alias
    case None => rows
    case Some(c) => seq(|rows|, i requires 0 <= i < |rows| => rows[i][c := IdValue(NextRowid(t.rows, c) + i)])
  }

  /** Into a table that has every needed column, `insertArrayField` appends
      each row with the id fields assigned, in order; when the table has a
      rowid alias that the rows leave null, each row gets the next rowid. */
  lemma {:induction false} InsertArrayFieldAppendsRows(db: Db, table: string, rows: seq<Row>, idFields: Row)
    requires table in db.tables
    requires forall i :: 0 <= i < |rows| ==> (rows[i] + idFields).Keys <= db.tables[table].columns.Keys
    requires db.tables[table].alias.Some? ==>
      forall i :: 0 <= i < |rows| ==> IsNullish(Column(rows[i] + idFields, db.tables[table].alias.value))
    ensures var r := InsertArrayField(db, Some(rows), idFields, InsertInto(table));
      r.Ok? && table in r.value.0.tables &&
      r.value.0.tables[table].rows == db.tables[table].rows + Numbered(db.tables[table], Assigned(rows, idFields))
    decreases |rows|
  {
    if |rows| > 0 {
      var t := db.tables[table];
      var row := rows[0] + idFields;
      var (t1, _) := InsertIntoTable(t, row).value;
      var db1 := TerminalInsert(db, table, row).value.0;
      var a := Assigned(rows, idFields);
      assert db1.tables[table] == t1;
      assert t1.rows == t.rows + [Numbered(t, a)[0]];
      assert forall i :: 0 <= i < |rows| - 1 ==> rows[1..][i] == rows[i + 1];
      InsertArrayFieldAppendsRows(db1, table, rows[1..], idFields);
      InsertArrayFieldUnfold(db, table, rows, idFields);
      assert a[1..] == Assigned(rows[1..], idFields);
      NumberedStep(t, t1, a);
    }
  }

  /** Numbering a run of rows is numbering the first, then the rest in the
      table that holds the first. */
  lemma NumberedStep(t: Table, t1: Table, rows: seq<Row>)
    requires |rows| > 0 && t1 == t.(rows := t.rows + [Numbered(t, rows)[0]])
    ensures t.rows + Numbered(t, rows) == t1.rows + Numbered(t1, rows[1..])
  {
    if t.alias.Some? {
      var c := t.alias.value;
      var x := Numbered(t, rows)[0];
      IdRowid(rows[0], c, NextRowid(t.rows, c));
      NextRowidAfter(t.rows, c, x);
      NumberedTail(t, t1, rows);
    } else {
      assert Numbered(t, rows) == [rows[0]] + rows[1..];
    }
  }

  /** The alias column set to an id reads back as that id. */
  lemma IdRowid(row: Row, c: string, n: int)
    ensures RowidIn(row[c := IdValue(n)], c) == n
  {
    assert (n as real).Floor == n;
  }

  /** Numbering continues in the next table where it left off. */
  lemma NumberedTail(t: Table, t1: Table, rows: seq<Row>)
    requires |rows| > 0 && t.alias.Some? && t1.alias == t.alias
    requires NextRowid(t1.rows, t.alias.value) == NextRowid(t.rows, t.alias.value) + 1
    ensures Numbered(t, rows) == [Numbered(t, rows)[0]] + Numbered(t1, rows[1..])
  {
    var a := Numbered(t, rows);
    var b := Numbered(t1, rows[1..]);
    forall i | 0 < i < |a|
      ensures a[i] == b[i - 1]
    {
      assert rows[1..][i - 1] == rows[i];
    }
  }

  /** Appending a row whose rowid is at least the next one makes its
      successor the next one. */
  lemma NextRowidAfter(rows: seq<Row>, c: string, x: Row)
    requires RowidIn(x, c) >= NextRowid(rows, c)
    ensures NextRowid(rows + [x], c) == RowidIn(x, c) + 1
  {
    assert (rows + [x])[..|rows|] == rows;
  }

  lemma InsertArrayFieldUnfold(db: Db, table: string, rows: seq<Row>, idFields: Row)
    requires table in db.tables && |rows| > 0
    requires (rows[0] + idFields).Keys <= db.tables[table].columns.Keys
    requires Admits(db.tables[table], rows[0] + idFields)
    ensures var db1 := TerminalInsert(db, table, rows[0] + idFields).value.0;
      InsertArrayField(db, Some(rows), idFields, InsertInto(table))
        == (match InsertArrayField(db1, Some(rows[1..]), idFields, InsertInto(table))
            case Err(e) => Err(e)
            case Ok((db2, rest)) => Ok((db2, [rows[0] + idFields] + rest)))
  {
  }
}

=== FILE: refs.dfy ===
/** The reference normalizer of src/helpers.ts and src/sqlite/helpers.ts:
    get-or-create of a surrogate id in a satellite table (`getRefId`), the
    inverse lookup (`getRefValue`), and their cache-backed variants.

    A satellite table is modelled by its value column in rowid order: the row
    with id `k` holds `sat[k - 1]`. Rows are only ever appended, so a new row
    gets id `|sat| + 1`, the rowid SQLite assigns. */
module Refs {
  import opened Outcomes
  import opened Values
  import MemoCache

  type Satellite = seq<Value>

  /** `select idField from field where field = ? limit 1`: the id of the first
      row whose value is SQL-equal to `v`. */
  function FindId(sat: Satellite, v: Value): (r: Option<nat>)
    ensures r.Some? ==> 1 <= r.value <= |sat| && SqlEq(sat[r.value - 1], v)
    ensures r.Some? ==> forall j :: 0 <= j < r.value - 1 ==> !SqlEq(sat[j], v)
    ensures r.None? ==> forall j :: 0 <= j < |sat| ==> !SqlEq(sat[j], v)
  {
    FindFrom(sat, v, 0)
  }

  function FindFrom(sat: Satellite, v: Value, from: nat): (r: Option<nat>)
    requires from <= |sat|
    requires forall j :: 0 <= j < from ==> !SqlEq(sat[j], v)
    ensures r.Some? ==> from < r.value <= |sat| && SqlEq(sat[r.value - 1], v)
    ensures r.Some? ==> forall j :: 0 <= j < r.value - 1 ==> !SqlEq(sat[j], v)
    ensures r.None? ==> forall j :: 0 <= j < |sat| ==> !SqlEq(sat[j], v)
    decreases |sat| - from
  {
    if from == |sat| then None
    else if SqlEq(sat[from], v) then Some(from + 1)
    else FindFrom(sat, v, from + 1)
  }

  /** Select, then insert when nothing matched: the id of the found or new row
      and the satellite afterwards. */
  function SelectOrInsert(sat: Satellite, v: Value): (r: (Satellite, nat))
    ensures (1 <= r.1 <= |r.0| && r.0[r.1 - 1] == v) || (IsNullish(v) && r.0 == sat + [v])
    ensures r.0 == sat || r.0 == sat + [v]
    ensures r.0 == sat + [v] <==> FindId(sat, v).None?
    ensures r.0 == sat + [v] ==> r.1 == |sat| + 1
    ensures 1 <= r.1 <= |r.0|
  {
    match FindId(sat, v)
    case Some(id) => (sat, id)
    case None => (sat + [v], |sat| + 1)
  }

  /** `getRefId` of src/helpers.ts: `null` for `undefined`/`null`, without
      touching the table; otherwise the id of the row holding the value,
      inserting one row when none does. */
  function GetRefId(sat: Satellite, v: Value): (r: (Satellite, Value))
    ensures IsNullish(v) ==> r == (sat, Null)
    ensures !IsNullish(v) ==> exists k :: 1 <= k <= |r.0| && r.1 == IdValue(k) && r.0[k - 1] == v
    ensures !IsNullish(v) ==> (r.0 == sat <==> v in sat)
    ensures !IsNullish(v) ==> (r.0 == sat || r.0 == sat + [v])
  {
    if IsNullish(v) then (sat, Null)
    else
      var (sat', id) := SelectOrInsert(sat, v);
      assert v in sat ==> FindId(sat, v).Some? by {
        if v in sat {
          var j :| 0 <= j < |sat| && sat[j] == v;
          assert SqlEq(sat[j], v);
        }
      }
      (sat', IdValue(id))
  }

  /** `getRefId` of src/sqlite/helpers.ts: no guard, so `undefined` and `null`
      are looked up (and, as NULL equals nothing in SQL, never found) and
      inserted like any other value. */
  function LegacyGetRefId(sat: Satellite, v: Value): (r: (Satellite, Value))
    ensures exists k :: 1 <= k <= |r.0| && r.1 == IdValue(k) && r.0[k - 1] == v
    ensures r.0 == sat || r.0 == sat + [v]
    ensures IsNullish(v) ==> r == (sat + [v], IdValue(|sat| + 1))
  {
    var (sat', id) := SelectOrInsert(sat, v);
    (sat', IdValue(id))
  }

  /** Get-or-create is idempotent: a second call with the same value finds the
      row the first call returned and inserts nothing. */
  lemma GetRefIdIdempotent(sat: Satellite, v: Value)
    ensures var (sat1, id1) := GetRefId(sat, v); GetRefId(sat1, v) == (sat1, id1)
  {
    var (sat1, id1) := GetRefId(sat, v);
    if !IsNullish(v) {
      var k :| 1 <= k <= |sat1| && id1 == IdValue(k) && sat1[k - 1] == v;
      var f := FindId(sat1, v);
      assert f.Some? by { assert SqlEq(sat1[k - 1], v); }
      FindIdOfAppend(sat, v, v);
    }
  }

  /** The legacy version is not idempotent for `null`: every call adds a row. */
  lemma LegacyGetRefIdOfNullAlwaysInserts(sat: Satellite)
    ensures LegacyGetRefId(sat, Null).0 == sat + [Null]
    ensures LegacyGetRefId(LegacyGetRefId(sat, Null).0, Null).0 == sat + [Null, Null]
  {
  }

  /** A lookup that succeeds keeps its answer when rows are appended. */
  lemma FindIdOfAppend(sat: Satellite, v: Value, extra: Value)
    ensures FindId(sat, v).Some? ==> FindId(sat + [extra], v) == FindId(sat, v)
    ensures FindId(sat, v).None? && SqlEq(extra, v) ==> FindId(sat + [extra], v) == Some(|sat| + 1)
  {
    var s := sat + [extra];
    if FindId(sat, v).Some? {
      var k := FindId(sat, v).value;
      assert SqlEq(s[k - 1], v);
    } else if SqlEq(extra, v) {
      assert SqlEq(s[|sat|], v);
    }
  }

  /** No two rows hold SQL-equal values: the satellite table's unique index. */
  predicate UniqueValues(sat: Satellite) {
    forall i, j :: 0 <= i < j < |sat| ==> !SqlEq(sat[i], sat[j])
  }

  /** Both versions of get-or-create keep the values unique, so each distinct
      non-null value has at most one id. */
  lemma GetRefIdKeepsUniqueValues(sat: Satellite, v: Value)
    requires UniqueValues(sat)
    ensures UniqueValues(GetRefId(sat, v).0)
    ensures UniqueValues(LegacyGetRefId(sat, v).0)
  {
  }

  /** `getRefValue`: `select field from field where idField = ?` and read the
      field of the row found; with no row, `select.get` yields `undefined` and
      reading a property of it throws. Only a number equal to an existing id
      matches; NULL matches nothing. */
  function GetRefValue(sat: Satellite, id: Value): (r: Result<Value>)
    ensures r.Ok? <==> exists k :: 1 <= k <= |sat| && id == IdValue(k)
    ensures forall k :: 1 <= k <= |sat| && id == IdValue(k) ==> r == Ok(sat[k - 1])
  {
    if id.Num? && IsInt(id.n) && 1.0 <= id.n <= |sat| as real then
      var k := id.n.Floor;
      assert IdValue(k) == id;
      Ok(sat[k - 1])
    else
      assert forall k :: 1 <= k <= |sat| ==> IdValue(k) != id;
      Err("Cannot read properties of undefined (reading the ref field)")
  }

  /** `getRefValue` inverts `getRefId` for every present value. */
  lemma GetRefValueInvertsGetRefId(sat: Satellite, v: Value)
    requires !IsNullish(v)
    ensures var (sat', id) := GetRefId(sat, v); GetRefValue(sat', id) == Ok(v)
  {
  }

  /** A `null` id, which is what `getRefId` returns for an absent value, has
      no row: the select direction throws instead of restoring `null`. */
  lemma NullIdDoesNotRoundTrip(sat: Satellite, v: Value)
    requires IsNullish(v)
    ensures GetRefValue(GetRefId(sat, v).0, GetRefId(sat, v).1).Err?
  {
  }

  /** Conversely, in a table with unique values, resolving an id to a present
      value and then getting the id of that value gives back the same id
      without inserting. */
  lemma GetRefIdInvertsGetRefValue(sat: Satellite, id: Value)
    requires UniqueValues(sat)
    requires GetRefValue(sat, id).Ok? && !IsNullish(GetRefValue(sat, id).value)
    ensures GetRefId(sat, GetRefValue(sat, id).value) == (sat, id)
  {
    var k :| 1 <= k <= |sat| && id == IdValue(k);
    FindIdOfUnique(sat, k);
  }

  /** Resolving the same value many times: the satellite table afterwards and
      the ids returned, in order. */
  function GetRefIds(sat: Satellite, vs: seq<Value>): (r: (Satellite, seq<Value>))
    ensures |r.1| == |vs|
    decreases |vs|
  {
    if |vs| == 0 then (sat, [])
    else
      var (sat1, id) := GetRefId(sat, vs[0]);
      var (sat2, ids) := GetRefIds(sat1, vs[1..]);
      (sat2, [id] + ids)
  }

  /** Reference dedup: resolving one present value any number of times adds
      at most one row, and every call returns the id the first call did. */
  lemma {:induction false} RepeatedValueSharesOneRow(sat: Satellite, v: Value, vs: seq<Value>)
    requires !IsNullish(v) && forall i :: 0 <= i < |vs| ==> vs[i] == v
    ensures var (sat', ids) := GetRefIds(sat, vs);
      (sat' == sat || sat' == sat + [v]) &&
      forall i :: 0 <= i < |vs| ==> ids[i] == GetRefId(sat, v).1
  {
    if |vs| > 0 {
      GetRefIdIdempotent(sat, v);
      RepeatedValueFindsSameRow(GetRefId(sat, v).0, v, vs[1..]);
    }
  }

  lemma {:induction false} RepeatedValueFindsSameRow(sat: Satellite, v: Value, vs: seq<Value>)
    requires !IsNullish(v) && GetRefId(sat, v).0 == sat
    requires forall i :: 0 <= i < |vs| ==> vs[i] == v
    ensures GetRefIds(sat, vs).0 == sat
    ensures forall i :: 0 <= i < |vs| ==> GetRefIds(sat, vs).1[i] == GetRefId(sat, v).1
    decreases |vs|
  {
    if |vs| > 0 {
      RepeatedValueFindsSameRow(sat, v, vs[1..]);
    }
  }

  // ---------------------------------------------------------------------
  // Cache-backed variants

  /** A string-keyed `newCache` of ids agrees with the satellite table: every
      cached text value maps to the id a lookup would find. */
  ghost predicate IdCacheCoherent(cache: MemoCache.Cache<Value>, sat: Satellite) {
    forall s :: s in cache.entries ==>
      FindId(sat, Text(s)).Some? && cache.entries[s] == IdValue(FindId(sat, Text(s)).value)
  }

  /** `makeCachedGetRefIdFn` of src/helpers.ts: `null` for `undefined`/`null`
      without touching the cache; otherwise `cache.get(value, getRefId)`.
      Cache keys are strings, so only text values are modelled. */
  function CachedGetRefId(sat: Satellite, cache: MemoCache.Cache<Value>, v: Value)
    : (r: (Satellite, MemoCache.Cache<Value>, Value))
    requires v.Text? || IsNullish(v)
    ensures IsNullish(v) ==> r == (sat, cache, Null)
    ensures v.Text? && v.s in cache.entries ==> r == (sat, cache, cache.entries[v.s])
    ensures v.Text? && v.s !in cache.entries ==>
      (r.0, r.2) == GetRefId(sat, v) && r.1 == MemoCache.Store(cache, v.s, r.2)
  {
    if IsNullish(v) then (sat, cache, Null)
    else
      match MemoCache.Lookup(cache, v.s)
      case Some(id) => (sat, cache, id)
      case None =>
        var (sat', id) := GetRefId(sat, v);
        (sat', MemoCache.Store(cache, v.s, id), id)
  }

  /** `makeCachedGetRefIdFn` of src/sqlite/helpers.ts: no `null` guard; for a
      text value, `cache.get(value, getRefId)`. */
  function LegacyCachedGetRefId(sat: Satellite, cache: MemoCache.Cache<Value>, v: Value)
    : (r: (Satellite, MemoCache.Cache<Value>, Value))
    requires v.Text?
    ensures v.s in cache.entries ==> r == (sat, cache, cache.entries[v.s])
    ensures v.s !in cache.entries ==>
      (r.0, r.2) == LegacyGetRefId(sat, v) && r.1 == MemoCache.Store(cache, v.s, r.2)
  {
    match MemoCache.Lookup(cache, v.s)
    case Some(id) => (sat, cache, id)
    case None =>
      var (sat', id) := LegacyGetRefId(sat, v);
      (sat', MemoCache.Store(cache, v.s, id), id)
  }

  /** Appending one row keeps every successful id lookup. */
  lemma AppendKeepsFoundIds(sat: Satellite, extra: Value)
    ensures forall w :: FindId(sat, w).Some? ==> FindId(sat + [extra], w) == FindId(sat, w)
  {
    forall w | FindId(sat, w).Some?
      ensures FindId(sat + [extra], w) == FindId(sat, w)
    {
      FindIdOfAppend(sat, w, extra);
    }
  }

  /** Appending one row keeps a coherent id cache coherent. */
  lemma IdCoherentAfterAppend(cache: MemoCache.Cache<Value>, sat: Satellite, extra: Value)
    requires IdCacheCoherent(cache, sat)
    ensures IdCacheCoherent(cache, sat + [extra])
  {
    forall s | s in cache.entries
      ensures FindId(sat + [extra], Text(s)) == FindId(sat, Text(s))
    {
      FindIdOfAppend(sat, Text(s), extra);
    }
  }

  /** Storing the id a lookup finds keeps the cache coherent, whether or not
      the store clears it. */
  lemma StoreKeepsIdCoherence(cache: MemoCache.Cache<Value>, sat: Satellite, s: string, id: Value)
    requires IdCacheCoherent(cache, sat)
    requires FindId(sat, Text(s)).Some? && id == IdValue(FindId(sat, Text(s)).value)
    ensures IdCacheCoherent(MemoCache.Store(cache, s, id), sat)
  {
    if !MemoCache.ClearsAfter(cache, s) {
      assert MemoCache.Store(cache, s, id).entries == cache.entries[s := id];
    }
  }

  lemma StorePreservesIdCoherence(cache: MemoCache.Cache<Value>, sat: Satellite, extra: Value, grew: bool, s: string, id: Value)
    requires IdCacheCoherent(cache, sat)
    requires var sat' := if grew then sat + [extra] else sat;
      FindId(sat', Text(s)).Some? && id == IdValue(FindId(sat', Text(s)).value)
    ensures IdCacheCoherent(MemoCache.Store(cache, s, id), if grew then sat + [extra] else sat)
  {
    var sat' := if grew then sat + [extra] else sat;
    if grew {
      IdCoherentAfterAppend(cache, sat, extra);
    }
    StoreKeepsIdCoherence(cache, sat', s, id);
  }

  /** Cache transparency for the insert direction: with a coherent cache, the
      cached get-or-create returns the same id and leaves the same table as
      the plain one, and the cache stays coherent, whether it hit, missed, or
      cleared itself. */
  lemma CachedGetRefIdIsTransparent(sat: Satellite, cache: MemoCache.Cache<Value>, v: Value)
    requires v.Text? || IsNullish(v)
    requires IdCacheCoherent(cache, sat)
    ensures var (sat', cache', id) := CachedGetRefId(sat, cache, v);
      (sat', id) == GetRefId(sat, v) && IdCacheCoherent(cache', sat')
  {
    if v.Text? {
      if v.s in cache.entries {
        var k := FindId(sat, v).value;
        GetRefIdOfFound(sat, v, k);
      } else {
        var (sat', id) := GetRefId(sat, v);
        FindIdOfAppend(sat, v, v);
        StorePreservesIdCoherence(cache, sat, v, sat' != sat, v.s, id);
      }
    }
  }

  lemma GetRefIdOfFound(sat: Satellite, v: Value, k: nat)
    requires !IsNullish(v) && FindId(sat, v) == Some(k)
    ensures GetRefId(sat, v) == (sat, IdValue(k))
  {
  }

  /** The legacy cached variant is transparent in the same way. */
  lemma LegacyCachedGetRefIdIsTransparent(sat: Satellite, cache: MemoCache.Cache<Value>, v: Value)
    requires v.Text?
    requires IdCacheCoherent(cache, sat)
    ensures var (sat', cache', id) := LegacyCachedGetRefId(sat, cache, v);
      (sat', id) == LegacyGetRefId(sat, v) && IdCacheCoherent(cache', sat')
  {
    if v.s !in cache.entries {
      var (sat', id) := LegacyGetRefId(sat, v);
      FindIdOfAppend(sat, v, v);
      StorePreservesIdCoherence(cache, sat, v, sat' != sat, v.s, id);
    }
  }

  /** `makeCachedGetRefValueFn`: `cache.get(id, getRefValue)`. The key is a
      number, so `size += key.length` makes `size` NaN and the cache never
      clears itself: it behaves as an unbounded memo from id to value. A
      failed lookup throws inside the generator and stores nothing. */
  function CachedGetRefValue(sat: Satellite, memo: map<Value, Value>, id: Value)
    : (r: (map<Value, Value>, Result<Value>))
    ensures id in memo ==> r == (memo, Ok(memo[id]))
    ensures id !in memo ==> r.1 == GetRefValue(sat, id)
    ensures id !in memo && r.1.Ok? ==> r.0 == memo[id := r.1.value]
    ensures r.1.Err? ==> r.0 == memo
  {
    if id in memo then (memo, Ok(memo[id]))
    else
      match GetRefValue(sat, id)
      case Ok(v) => (memo[id := v], Ok(v))
      case Err(e) => (memo, Err(e))
  }

  /** Every memoised id resolves, in the table, to its memoised value. */
  ghost predicate ValueMemoCoherent(memo: map<Value, Value>, sat: Satellite) {
    forall id :: id in memo ==> GetRefValue(sat, id) == Ok(memo[id])
  }

  /** Cache transparency for the select direction, also across rows appended
      to the satellite table in between. */
  lemma CachedGetRefValueIsTransparent(sat: Satellite, memo: map<Value, Value>, id: Value, extra: seq<Value>)
    requires ValueMemoCoherent(memo, sat)
    ensures CachedGetRefValue(sat, memo, id).1 == GetRefValue(sat, id)
    ensures ValueMemoCoherent(CachedGetRefValue(sat, memo, id).0, sat)
    ensures ValueMemoCoherent(memo, sat + extra)
  {
    ValueMemoCoherentAfterAppend(sat, memo, extra);
    if id !in memo && GetRefValue(sat, id).Ok? {
      ValueMemoStore(memo, sat, id, GetRefValue(sat, id).value);
    }
  }

  /** Memoising a value the table resolves keeps the memo coherent. */
  lemma ValueMemoStore(memo: map<Value, Value>, sat: Satellite, id: Value, v: Value)
    requires ValueMemoCoherent(memo, sat) && GetRefValue(sat, id) == Ok(v)
    ensures ValueMemoCoherent(memo[id := v], sat)
  {
  }

  /** Appended rows do not move any id already resolved. */
  lemma ValueMemoCoherentAfterAppend(sat: Satellite, memo: map<Value, Value>, extra: seq<Value>)
    requires ValueMemoCoherent(memo, sat)
    ensures ValueMemoCoherent(memo, sat + extra)
  {
    forall i | i in memo
      ensures GetRefValue(sat + extra, i) == Ok(memo[i])
    {
      var k :| 1 <= k <= |sat| && i == IdValue(k);
      assert (sat + extra)[k - 1] == sat[k - 1];
    }
  }

  // ---------------------------------------------------------------------
  // makeCachedPreparedRefFns and the fully loaded id -> value cache

  /** The closure state of `makeCachedPreparedRefFns`: the table and its two
      unbounded caches, `val_cache` (value to id) and `id_cache` (id to
      value). The caches are modelled with value keys; JavaScript's string
      coercion of property keys is not modelled. */
  datatype PreparedRefFns = PreparedRefFns(sat: Satellite, valCache: map<Value, Value>, idCache: map<Value, Value>)

  /** Both caches agree with the table. A `null` key, which a value lookup
      never asks for, is unconstrained. */
  ghost predicate PreparedCoherent(p: PreparedRefFns) {
    ValCacheCoherent(p.valCache, p.sat) && ValueMemoCoherent(p.idCache, p.sat)
  }

  /** Every cached non-null value maps to the id a lookup would find. */
  ghost predicate ValCacheCoherent(valCache: map<Value, Value>, sat: Satellite) {
    forall v :: v in valCache && !IsNullish(v) ==> FindId(sat, v).Some? && valCache[v] == IdValue(FindId(sat, v).value)
  }

  /** Its `getRefId(value)`: the cached id, else select-or-insert and cache
      the id; the value is typed `string`. */
  function PreparedGetRefId(p: PreparedRefFns, value: string): (r: (PreparedRefFns, Value))
    ensures Text(value) in p.valCache ==> r == (p, p.valCache[Text(value)])
    ensures Text(value) !in p.valCache ==>
      (r.0.sat, r.1) == LegacyGetRefId(p.sat, Text(value)) &&
      r.0.valCache == p.valCache[Text(value) := r.1] && r.0.idCache == p.idCache
  {
    var v := Text(value);
    if v in p.valCache then (p, p.valCache[v])
    else
      var (sat', id) := LegacyGetRefId(p.sat, v);
      (p.(sat := sat', valCache := p.valCache[v := id]), id)
  }

  /** Its `getRefValue(id)`: the cached value, else select, throw `unknown id`
      when no row matches, and cache the value. */
  function PreparedGetRefValue(p: PreparedRefFns, id: Value): (r: (PreparedRefFns, Result<Value>))
    ensures id in p.idCache ==> r == (p, Ok(p.idCache[id]))
    ensures id !in p.idCache ==> r.1.Ok? == GetRefValue(p.sat, id).Ok?
    ensures id !in p.idCache && r.1.Ok? ==> r.1 == GetRefValue(p.sat, id) && r.0 == p.(idCache := p.idCache[id := r.1.value])
    ensures r.1.Err? ==> r.0 == p
  {
    if id in p.idCache then (p, Ok(p.idCache[id]))
    else
      match GetRefValue(p.sat, id)
      case Ok(v) => (p.(idCache := p.idCache[id := v]), Ok(v))
      case Err(_) => (p, Err("unknown id"))
  }

  /** `populateCache`: for every row of the table, in order, caches id to
      value and value to id; a later row with the same value overwrites the
      earlier one's id. Entries already cached are kept unless overwritten. */
  function PopulateCache(p: PreparedRefFns): (r: PreparedRefFns)
    ensures r.sat == p.sat
    ensures forall k :: 1 <= k <= |p.sat| ==> IdValue(k) in r.idCache && r.idCache[IdValue(k)] == p.sat[k - 1]
    ensures forall i :: 0 <= i < |p.sat| ==> p.sat[i] in r.valCache
  {
    PopulateRowsCaches(p, |p.sat|);
    PopulateRows(p, |p.sat|)
  }

  /** The first `n` iterations of the `populateCache` loop. */
  function PopulateRows(p: PreparedRefFns, n: nat): (r: PreparedRefFns)
    requires n <= |p.sat|
    ensures r.sat == p.sat
  {
    if n == 0 then p else PopulateStep(PopulateRows(p, n - 1), n)
  }

  /** After `n` iterations, the first `n` rows are in both caches and no
      earlier key was dropped. */
  lemma {:induction false} PopulateRowsCaches(p: PreparedRefFns, n: nat)
    requires n <= |p.sat|
    ensures var r := PopulateRows(p, n);
      && (forall k :: 1 <= k <= n ==> IdValue(k) in r.idCache && r.idCache[IdValue(k)] == p.sat[k - 1])
      && (forall i :: 0 <= i < n ==> p.sat[i] in r.valCache)
      && (forall id :: id in p.idCache ==> id in r.idCache)
      && (forall v :: v in p.valCache ==> v in r.valCache)
  {
    if n > 0 {
      PopulateRowsCaches(p, n - 1);
      var q := PopulateRows(p, n - 1);
      var r := PopulateRows(p, n);
      assert r.idCache == q.idCache[IdValue(n) := p.sat[n - 1]];
      forall k | 1 <= k < n
        ensures IdValue(k) in r.idCache && r.idCache[IdValue(k)] == p.sat[k - 1]
      {
        assert IdValue(k) != IdValue(n);
      }
    }
  }

  /** One iteration of the loop: row `n` goes into both caches. */
  function PopulateStep(q: PreparedRefFns, n: nat): (r: PreparedRefFns)
    requires 1 <= n <= |q.sat|
    ensures r.sat == q.sat
    ensures r.idCache == q.idCache[IdValue(n) := q.sat[n - 1]]
    ensures r.valCache == q.valCache[q.sat[n - 1] := IdValue(n)]
  {
    q.(idCache := q.idCache[IdValue(n) := q.sat[n - 1]], valCache := q.valCache[q.sat[n - 1] := IdValue(n)])
  }

  /** In a table with unique values (the satellite table's unique index),
      populating coherent caches leaves them coherent. */
  lemma PopulateCacheKeepsCoherence(p: PreparedRefFns, n: nat)
    requires n <= |p.sat|
    requires UniqueValues(p.sat) && PreparedCoherent(p)
    ensures PreparedCoherent(PopulateRows(p, n))
  {
    PopulateKeepsValCache(p, n);
    PopulateKeepsIdCache(p, n);
  }

  lemma {:induction false} PopulateKeepsValCache(p: PreparedRefFns, n: nat)
    requires n <= |p.sat|
    requires UniqueValues(p.sat) && ValCacheCoherent(p.valCache, p.sat)
    ensures ValCacheCoherent(PopulateRows(p, n).valCache, p.sat)
  {
    if n > 0 {
      var q := PopulateRows(p, n - 1);
      PopulateKeepsValCache(p, n - 1);
      ValCacheStep(q.valCache, p.sat, n);
      assert PopulateRows(p, n).valCache == q.valCache[p.sat[n - 1] := IdValue(n)];
    }
  }

  lemma {:induction false} PopulateKeepsIdCache(p: PreparedRefFns, n: nat)
    requires n <= |p.sat|
    requires ValueMemoCoherent(p.idCache, p.sat)
    ensures ValueMemoCoherent(PopulateRows(p, n).idCache, p.sat)
  {
    if n == 0 {
      assert PopulateRows(p, 0) == p;
    } else {
      PopulateKeepsIdCache(p, n - 1);
      PopulateIdCacheStep(p, n);
    }
  }

  lemma PopulateIdCacheStep(p: PreparedRefFns, n: nat)
    requires 1 <= n <= |p.sat|
    requires ValueMemoCoherent(PopulateRows(p, n - 1).idCache, p.sat)
    ensures ValueMemoCoherent(PopulateRows(p, n).idCache, p.sat)
  {
    var q := PopulateRows(p, n - 1);
    IdCacheStep(q.idCache, p.sat, n);
    assert PopulateRows(p, n).idCache == q.idCache[IdValue(n) := p.sat[n - 1]];
  }

  /** Caching row `n` as value to id keeps the value cache coherent. */
  lemma ValCacheStep(valCache: map<Value, Value>, sat: Satellite, n: nat)
    requires 1 <= n <= |sat| && UniqueValues(sat) && ValCacheCoherent(valCache, sat)
    ensures ValCacheCoherent(valCache[sat[n - 1] := IdValue(n)], sat)
  {
    if !IsNullish(sat[n - 1]) {
      FindIdOfUnique(sat, n);
    }
  }

  /** Caching row `n` as id to value keeps the id cache coherent. */
  lemma IdCacheStep(idCache: map<Value, Value>, sat: Satellite, n: nat)
    requires 1 <= n <= |sat| && ValueMemoCoherent(idCache, sat)
    ensures ValueMemoCoherent(idCache[IdValue(n) := sat[n - 1]], sat)
  {
    assert GetRefValue(sat, IdValue(n)) == Ok(sat[n - 1]);
    ValueMemoStore(idCache, sat, IdValue(n), sat[n - 1]);
  }

  /** In a table with unique values, a present value is found at its own
      row. */
  lemma FindIdOfUnique(sat: Satellite, k: nat)
    requires UniqueValues(sat) && 1 <= k <= |sat| && !IsNullish(sat[k - 1])
    ensures FindId(sat, sat[k - 1]) == Some(k)
  {
    assert SqlEq(sat[k - 1], sat[k - 1]);
  }

  /** The prepared `getRefId` with coherent caches answers exactly as the
      uncached `makePreparedRefFns` would, and keeps both caches coherent. */
  lemma PreparedGetRefIdIsTransparent(p: PreparedRefFns, value: string)
    requires PreparedCoherent(p)
    ensures (PreparedGetRefId(p, value).0.sat, PreparedGetRefId(p, value).1) == LegacyGetRefId(p.sat, Text(value))
    ensures PreparedCoherent(PreparedGetRefId(p, value).0)
  {
    var v := Text(value);
    if v !in p.valCache {
      var (sat', id) := LegacyGetRefId(p.sat, v);
      LegacyGetRefIdFinds(p.sat, v);
      if sat' != p.sat {
        ValCacheAfterAppend(p.valCache, p.sat, v);
        ValueMemoCoherentAfterAppend(p.sat, p.idCache, [v]);
      }
      ValCacheStore(p.valCache, sat', v, id);
    } else {
      GetRefIdOfFoundLegacy(p.sat, v, FindId(p.sat, v).value);
    }
  }

  /** The legacy get-or-create of a text value returns the id a lookup in
      the resulting table finds. */
  lemma LegacyGetRefIdFinds(sat: Satellite, v: Value)
    requires v.Text?
    ensures var (sat', id) := LegacyGetRefId(sat, v);
      FindId(sat', v).Some? && id == IdValue(FindId(sat', v).value)
  {
    FindIdOfAppend(sat, v, v);
    if FindId(sat, v).Some? {
      GetRefIdOfFoundLegacy(sat, v, FindId(sat, v).value);
    }
  }

  lemma ValCacheAfterAppend(valCache: map<Value, Value>, sat: Satellite, extra: Value)
    requires ValCacheCoherent(valCache, sat)
    ensures ValCacheCoherent(valCache, sat + [extra])
  {
    forall v | v in valCache && !IsNullish(v)
      ensures FindId(sat + [extra], v) == FindId(sat, v)
    {
      FindIdOfAppend(sat, v, extra);
    }
  }

  lemma ValCacheStore(valCache: map<Value, Value>, sat: Satellite, v: Value, id: Value)
    requires ValCacheCoherent(valCache, sat)
    requires FindId(sat, v).Some? && id == IdValue(FindId(sat, v).value)
    ensures ValCacheCoherent(valCache[v := id], sat)
  {
  }

  lemma GetRefIdOfFoundLegacy(sat: Satellite, v: Value, k: nat)
    requires FindId(sat, v) == Some(k)
    ensures LegacyGetRefId(sat, v) == (sat, IdValue(k))
  {
  }

  /** The prepared `getRefValue` with coherent caches succeeds exactly when
      the uncached select finds a row, returns that row's value, and keeps
      both caches coherent. */
  lemma PreparedGetRefValueIsTransparent(p: PreparedRefFns, id: Value)
    requires PreparedCoherent(p)
    ensures PreparedGetRefValue(p, id).1.Ok? == GetRefValue(p.sat, id).Ok?
    ensures PreparedGetRefValue(p, id).1.Ok? ==> PreparedGetRefValue(p, id).1 == GetRefValue(p.sat, id)
    ensures PreparedCoherent(PreparedGetRefValue(p, id).0)
  {
  }

  /** `loadAllRefCache`: every row of the table, keyed by id. */
  function LoadAllRefCache(sat: Satellite): (cache: map<Value, Value>)
    ensures forall k :: 1 <= k <= |sat| ==> IdValue(k) in cache && cache[IdValue(k)] == sat[k - 1]
    ensures forall id :: id in cache ==> exists k :: 1 <= k <= |sat| && id == IdValue(k)
  {
    map id | id in (set k | 1 <= k <= |sat| :: IdValue(k)) :: sat[id.n.Floor - 1]
  }

  /** `getRefValueFromCache`: the cached value, or an `unknown ref value id`
      error. */
  function GetRefValueFromCache(cache: map<Value, Value>, id: Value): (r: Result<Value>)
    ensures r.Ok? <==> id in cache
    ensures r.Ok? ==> r.value == cache[id]
  {
    if id in cache then Ok(cache[id]) else Err("unknown ref value id")
  }

  /** A fully loaded cache answers like the table: same successes, same
      values. */
  lemma LoadedCacheAgreesWithTable(sat: Satellite, id: Value)
    ensures GetRefValueFromCache(LoadAllRefCache(sat), id).Ok? == GetRefValue(sat, id).Ok?
    ensures GetRefValue(sat, id).Ok? ==> GetRefValueFromCache(LoadAllRefCache(sat), id) == GetRefValue(sat, id)
  {
  }
}

=== FILE: row_maps.dfy ===
/** The map-row stages of the insert and select pipelines (src/helpers.ts and
    src/sqlite/helpers.ts): clone, whitelist, skip, the two ref-field maps and
    the auto-add-column map. A row is a value here, so a stage returns the
    row it produced; which object the caller sees is tracked by the pipeline. */
module RowMaps {
  import opened Outcomes
  import opened Values
  import Refs
  import MemoCache

  /** The satellite tables by name; a ref field's table is named after the
      field. */
  type Store = map<string, Refs.Satellite>

  /** The two names a ref field maps between. */
  datatype RefPair = RefPair(field: string, idField: string)

  /** `cloneRowFn`: a shallow copy, equal to its input. */
  function CloneRow(row: Row): (r: Row)
    ensures r.Keys == row.Keys && forall k :: k in r ==> r[k] == row[k]
  {
    map k | k in row :: row[k]
  }

  /** `makeWhitelistFieldsMapRowFn`: a fresh object with exactly the listed
      keys, each set to the row's value or to `undefined`. */
  function WhitelistRow(row: Row, names: seq<string>): (r: Row)
    ensures r.Keys == set x | x in names
    ensures forall k :: k in r ==> r[k] == (if k in row then row[k] else Undefined)
  {
    if |names| == 0 then map[]
    else
      var field := names[|names| - 1];
      assert names == names[..|names| - 1] + [field];
      WhitelistRow(row, names[..|names| - 1])[field := if field in row then row[field] else Undefined]
  }

  /** `makeSkipFieldsMapRowFn`: deletes each listed key. */
  function SkipRow(row: Row, skip: seq<string>): (r: Row)
    ensures r.Keys == row.Keys - set x | x in skip
    ensures forall k :: k in r ==> r[k] == row[k]
  {
    if |skip| == 0 then row
    else
      assert skip == skip[..|skip| - 1] + [skip[|skip| - 1]];
      SkipRow(row, skip[..|skip| - 1]) - {skip[|skip| - 1]}
  }

  /** Whitelisting is idempotent, and skipping the same keys twice is the
      same as skipping them once. */
  lemma WhitelistAndSkipIdempotent(row: Row, names: seq<string>, skip: seq<string>)
    ensures WhitelistRow(WhitelistRow(row, names), names) == WhitelistRow(row, names)
    ensures SkipRow(SkipRow(row, skip), skip) == SkipRow(row, skip)
  {
  }

  /** The id a ref field's value resolves to, in the current or the older
      version of `getRefId`. */
  function ResolveRef(sat: Refs.Satellite, v: Value, legacy: bool): (r: (Refs.Satellite, Value))
    ensures r.0 == sat || r.0 == sat + [v]
    ensures legacy || !IsNullish(v) ==> exists k :: 1 <= k <= |r.0| && r.1 == IdValue(k) && r.0[k - 1] == v
    ensures !legacy && IsNullish(v) ==> r == (sat, Null)
  {
    if legacy then Refs.LegacyGetRefId(sat, v) else Refs.GetRefId(sat, v)
  }

  /** One ref field of `makeInsertRefFieldsMapRowFn`: when the field key is
      present (even holding `undefined`), it is replaced by `idField` holding
      the resolved id; otherwise nothing happens. */
  function InsertRef(store: Store, row: Row, ref: RefPair, legacy: bool): (r: (Store, Row))
    requires ref.field in store
    ensures ref.field !in row ==> r == (store, row)
    ensures ref.field in row ==> r.1.Keys == row.Keys - {ref.field} + {ref.idField}
    ensures ref.field in row ==> r.1[ref.idField] == ResolveRef(store[ref.field], row[ref.field], legacy).1
    ensures forall k :: k in row && k != ref.field && k != ref.idField ==> r.1[k] == row[k]
    ensures ref.field in r.0 && r.0 == store[ref.field := r.0[ref.field]]
  {
    if ref.field !in row then (store, row)
    else
      var (sat', id) := ResolveRef(store[ref.field], row[ref.field], legacy);
      (store[ref.field := sat'], (row - {ref.field})[ref.idField := id])
  }

  /** `makeInsertRefFieldsMapRowFn`: every ref field in list order. */
  function InsertRefs(store: Store, row: Row, refs: seq<RefPair>, legacy: bool): (r: (Store, Row))
    requires forall i :: 0 <= i < |refs| ==> refs[i].field in store
    ensures r.0.Keys == store.Keys
    decreases |refs|
  {
    if |refs| == 0 then (store, row)
    else
      var (store1, row1) := InsertRef(store, row, refs[0], legacy);
      InsertRefs(store1, row1, refs[1..], legacy)
  }

  /** One ref field of `makeSelectRefFieldsMapRowFn`: when `idField` is
      present, it is replaced by the field holding the satellite value; an id
      with no row throws. */
  function SelectRef(store: Store, row: Row, ref: RefPair): (r: Result<Row>)
    requires ref.field in store
    ensures ref.idField !in row ==> r == Ok(row)
    ensures ref.idField in row ==>
      (r.Ok? <==> Refs.GetRefValue(store[ref.field], row[ref.idField]).Ok?)
    ensures ref.idField in row && r.Ok? ==>
      r.value.Keys == row.Keys - {ref.idField} + {ref.field} &&
      r.value[ref.field] == Refs.GetRefValue(store[ref.field], row[ref.idField]).value &&
      forall k :: k in row && k != ref.field && k != ref.idField ==> r.value[k] == row[k]
  {
    if ref.idField !in row then Ok(row)
    else
      var v :- Refs.GetRefValue(store[ref.field], row[ref.idField]);
      Ok((row - {ref.idField})[ref.field := v])
  }

  /** `makeSelectRefFieldsMapRowFn`: every ref field in list order; the first
      failure aborts. */
  function SelectRefs(store: Store, row: Row, refs: seq<RefPair>): (r: Result<Row>)
    requires forall i :: 0 <= i < |refs| ==> refs[i].field in store
    ensures (forall i :: 0 <= i < |refs| ==> refs[i].idField !in row && refs[i].field !in row) ==> r == Ok(row)
    decreases |refs|
  {
    if |refs| == 0 then Ok(row)
    else
      var row1 :- SelectRef(store, row, refs[0]);
      SelectRefs(store, row1, refs[1..])
  }

  /** Every name a list of ref fields touches. */
  function RefNames(refs: seq<RefPair>): (names: set<string>)
    ensures forall i :: 0 <= i < |refs| ==> refs[i].field in names && refs[i].idField in names
  {
    if |refs| == 0 then {} else {refs[0].field, refs[0].idField} + RefNames(refs[1..])
  }

  /** "Only these keys change": a key that names no ref field keeps its
      presence and value through the insert map, and every satellite table
      only grows. */
  lemma {:induction false} InsertRefsKeepsOtherKeys(store: Store, row: Row, refs: seq<RefPair>, legacy: bool, k: string)
    requires forall i :: 0 <= i < |refs| ==> refs[i].field in store
    requires k !in RefNames(refs)
    ensures var (_, row') := InsertRefs(store, row, refs, legacy);
      (k in row' <==> k in row) && (k in row ==> row'[k] == row[k])
    decreases |refs|
  {
    if |refs| > 0 {
      var (store1, row1) := InsertRef(store, row, refs[0], legacy);
      InsertRefsKeepsOtherKeys(store1, row1, refs[1..], legacy, k);
    }
  }

  /** A satellite store `big` holds every row of `small`, at the same ids. */
  ghost predicate Extends(small: Store, big: Store) {
    forall f :: f in small ==> f in big && |small[f]| <= |big[f]| && big[f][..|small[f]|] == small[f]
  }

  lemma ExtendsTransitive(a: Store, b: Store, c: Store)
    requires Extends(a, b) && Extends(b, c)
    ensures Extends(a, c)
  {
    forall f | f in a
      ensures c[f][..|a[f]|] == a[f]
    {
      assert c[f][..|a[f]|] == c[f][..|b[f]|][..|a[f]|];
    }
  }

  /** The insert map only ever appends to satellite tables. */
  lemma {:induction false} InsertRefsExtendsStore(store: Store, row: Row, refs: seq<RefPair>, legacy: bool)
    requires forall i :: 0 <= i < |refs| ==> refs[i].field in store
    ensures Extends(store, InsertRefs(store, row, refs, legacy).0)
    decreases |refs|
  {
    if |refs| > 0 {
      var (store1, row1) := InsertRef(store, row, refs[0], legacy);
      assert Extends(store, store1) by {
        forall f | f in store ensures store1[f][..|store[f]|] == store[f] {
          if f == refs[0].field && store1[f] != store[f] {
            assert store1[f] == store[f] + [row[f]];
          }
        }
      }
      InsertRefsExtendsStore(store1, row1, refs[1..], legacy);
      ExtendsTransitive(store, store1, InsertRefs(store, row, refs, legacy).0);
    }
  }

  /** Setting or deleting a key that names no ref field commutes with the
      insert map. */
  lemma {:induction false} InsertRefsCommutesWithOtherKeys(store: Store, row: Row, refs: seq<RefPair>, legacy: bool, k: string, v: Value)
    requires forall i :: 0 <= i < |refs| ==> refs[i].field in store
    requires k !in RefNames(refs)
    ensures var (s', row') := InsertRefs(store, row, refs, legacy);
      InsertRefs(store, row[k := v], refs, legacy) == (s', row'[k := v]) &&
      InsertRefs(store, row - {k}, refs, legacy) == (s', row' - {k})
    decreases |refs|
  {
    if |refs| > 0 {
      var ref := refs[0];
      var (store1, row1) := InsertRef(store, row, ref, legacy);
      if ref.field in row {
        var id := ResolveRef(store[ref.field], row[ref.field], legacy).1;
        assert (row[k := v] - {ref.field})[ref.idField := id] == row1[k := v];
        assert (row - {k} - {ref.field})[ref.idField := id] == row1 - {k};
      }
      InsertRefsCommutesWithOtherKeys(store1, row1, refs[1..], legacy, k, v);
    }
  }

  /** The ref fields can be mapped independently: no name of one is a name of
      another, and a field differs from its own id field. */
  ghost predicate IndependentRefs(refs: seq<RefPair>) {
    && (forall i :: 0 <= i < |refs| ==> refs[i].field != refs[i].idField)
    && (forall i, j :: 0 <= i < j < |refs| ==>
          refs[i].field !in {refs[j].field, refs[j].idField} &&
          refs[i].idField !in {refs[j].field, refs[j].idField})
  }

  /** A row every ref field of which is present, with a value, and none of
      whose id fields is set. */
  ghost predicate RefsPresent(row: Row, refs: seq<RefPair>) {
    forall i :: 0 <= i < |refs| ==>
      refs[i].field in row && !IsNullish(row[refs[i].field]) && refs[i].idField !in row
  }

  /** The insert map over `ref :: rest`, seen from the end: `rest` maps the
      original row, then `ref`'s field is swapped for its id. */
  lemma InsertRefsFirstLast(store: Store, row: Row, refs: seq<RefPair>, legacy: bool)
    requires |refs| > 0 && forall i :: 0 <= i < |refs| ==> refs[i].field in store
    requires refs[0].field in row
    requires refs[0].field !in RefNames(refs[1..]) && refs[0].idField !in RefNames(refs[1..])
    ensures var (store1, _) := InsertRef(store, row, refs[0], legacy);
      var id := ResolveRef(store[refs[0].field], row[refs[0].field], legacy).1;
      var (storeA, rowA) := InsertRefs(store1, row, refs[1..], legacy);
      InsertRefs(store, row, refs, legacy) == (storeA, (rowA - {refs[0].field})[refs[0].idField := id])
  {
    var ref := refs[0];
    var (store1, row1) := InsertRef(store, row, ref, legacy);
    var id := ResolveRef(store[ref.field], row[ref.field], legacy).1;
    InsertRefsCommutesWithOtherKeys(store1, row, refs[1..], legacy, ref.field, row[ref.field]);
    InsertRefsCommutesWithOtherKeys(store1, row - {ref.field}, refs[1..], legacy, ref.idField, id);
  }

  /** The id the insert map stored for `ref` resolves, in any later store, to
      the value the row held. */
  lemma InsertedIdResolves(store: Store, row: Row, refs: seq<RefPair>, legacy: bool, later: Store)
    requires |refs| > 0 && forall i :: 0 <= i < |refs| ==> refs[i].field in store
    requires refs[0].field in row && !IsNullish(row[refs[0].field])
    requires Extends(InsertRefs(InsertRef(store, row, refs[0], legacy).0, row, refs[1..], legacy).0, later)
    ensures var id := ResolveRef(store[refs[0].field], row[refs[0].field], legacy).1;
      Refs.GetRefValue(later[refs[0].field], id) == Ok(row[refs[0].field])
  {
    var ref := refs[0];
    var (store1, _) := InsertRef(store, row, ref, legacy);
    var (sat1, id) := ResolveRef(store[ref.field], row[ref.field], legacy);
    var storeA := InsertRefs(store1, row, refs[1..], legacy).0;
    InsertRefsExtendsStore(store1, row, refs[1..], legacy);
    ExtendsTransitive(store1, storeA, later);
    var k :| 1 <= k <= |sat1| && id == IdValue(k) && sat1[k - 1] == row[ref.field];
    assert later[ref.field][..|sat1|] == sat1;
    assert later[ref.field][k - 1] == sat1[k - 1];
  }

  /** Selecting `ref` undoes swapping its field for a resolvable id. */
  lemma SelectRefUndoesSwap(later: Store, rowA: Row, ref: RefPair, id: Value, v: Value)
    requires ref.field in later && ref.field != ref.idField
    requires ref.field in rowA && rowA[ref.field] == v && ref.idField !in rowA
    requires Refs.GetRefValue(later[ref.field], id) == Ok(v)
    ensures SelectRef(later, (rowA - {ref.field})[ref.idField := id], ref) == Ok(rowA)
  {
    var row2 := (rowA - {ref.field})[ref.idField := id];
    assert (row2 - {ref.idField})[ref.field := v] == rowA;
  }

  /** Peeling the first ref field off the round trip: selecting it undoes
      its insertion, leaving the round trip of the remaining fields. */
  lemma SelectRefsFirstStep(store: Store, row: Row, refs: seq<RefPair>, legacy: bool, later: Store)
    requires |refs| > 0 && forall i :: 0 <= i < |refs| ==> refs[i].field in store
    requires refs[0].field != refs[0].idField && refs[0].field in row && refs[0].idField !in row
    requires !IsNullish(row[refs[0].field])
    requires refs[0].field !in RefNames(refs[1..]) && refs[0].idField !in RefNames(refs[1..])
    requires Extends(InsertRefs(store, row, refs, legacy).0, later)
    ensures var store1 := InsertRef(store, row, refs[0], legacy).0;
      && Extends(InsertRefs(store1, row, refs[1..], legacy).0, later)
      && SelectRefs(later, InsertRefs(store, row, refs, legacy).1, refs)
         == SelectRefs(later, InsertRefs(store1, row, refs[1..], legacy).1, refs[1..])
  {
    var ref, rest := refs[0], refs[1..];
    var store1 := InsertRef(store, row, ref, legacy).0;
    var id := ResolveRef(store[ref.field], row[ref.field], legacy).1;
    var (storeA, rowA) := InsertRefs(store1, row, rest, legacy);
    InsertRefsFirstLast(store, row, refs, legacy);
    InsertedIdResolves(store, row, refs, legacy, later);
    InsertRefsKeepsOtherKeys(store1, row, rest, legacy, ref.field);
    InsertRefsKeepsOtherKeys(store1, row, rest, legacy, ref.idField);
    SelectRefUndoesSwap(later, rowA, ref, id, row[ref.field]);
  }

  /** The select map inverts the insert map: a row whose ref fields all hold
      values comes back unchanged, also when read later from a satellite
      store that has grown since. */
  lemma {:induction false} SelectRefsInvertsInsertRefs(store: Store, row: Row, refs: seq<RefPair>, legacy: bool, later: Store)
    requires forall i :: 0 <= i < |refs| ==> refs[i].field in store
    requires IndependentRefs(refs) && RefsPresent(row, refs)
    requires Extends(InsertRefs(store, row, refs, legacy).0, later)
    ensures SelectRefs(later, InsertRefs(store, row, refs, legacy).1, refs) == Ok(row)
    decreases |refs|
  {
    if |refs| > 0 {
      var rest := refs[1..];
      IndependentHead(row, refs);
      RefNamesOfIndependentTail(refs);
      SelectRefsFirstStep(store, row, refs, legacy, later);
      var store1 := InsertRef(store, row, refs[0], legacy).0;
      InsertRefKeepsFields(store, row, refs, legacy);
      IndependentTail(row, refs);
      SelectRefsInvertsInsertRefs(store1, row, rest, legacy, later);
    }
  }

  lemma IndependentHead(row: Row, refs: seq<RefPair>)
    requires |refs| > 0 && IndependentRefs(refs) && RefsPresent(row, refs)
    ensures refs[0].field != refs[0].idField && refs[0].field in row && refs[0].idField !in row
    ensures !IsNullish(row[refs[0].field])
  {
  }

  lemma InsertRefKeepsFields(store: Store, row: Row, refs: seq<RefPair>, legacy: bool)
    requires |refs| > 0 && forall i :: 0 <= i < |refs| ==> refs[i].field in store
    ensures var store1 := InsertRef(store, row, refs[0], legacy).0;
      forall i :: 0 <= i < |refs[1..]| ==> refs[1..][i].field in store1
  {
    var store1 := InsertRef(store, row, refs[0], legacy).0;
    assert store1.Keys == store.Keys;
  }

  lemma IndependentTail(row: Row, refs: seq<RefPair>)
    requires |refs| > 0 && IndependentRefs(refs) && RefsPresent(row, refs)
    ensures IndependentRefs(refs[1..]) && RefsPresent(row, refs[1..])
  {
    assert forall j :: 0 <= j < |refs| - 1 ==> refs[1..][j] == refs[j + 1];
  }

  lemma RefNamesOfIndependentTail(refs: seq<RefPair>)
    requires |refs| > 0 && IndependentRefs(refs)
    ensures refs[0].field !in RefNames(refs[1..]) && refs[0].idField !in RefNames(refs[1..])
  {
    RefNamesAreNamesOf(refs[1..]);
    assert forall j :: 0 <= j < |refs[1..]| ==> refs[1..][j] == refs[j + 1];
  }

  lemma {:induction false} RefNamesAreNamesOf(refs: seq<RefPair>)
    ensures forall n :: n in RefNames(refs) ==> exists i :: 0 <= i < |refs| && n in {refs[i].field, refs[i].idField}
    decreases |refs|
  {
    if |refs| > 0 {
      RefNamesAreNamesOf(refs[1..]);
      forall n | n in RefNames(refs[1..])
        ensures exists i :: 0 <= i < |refs| && n in {refs[i].field, refs[i].idField}
      {
        var i :| 0 <= i < |refs[1..]| && n in {refs[1..][i].field, refs[1..][i].idField};
        assert refs[i + 1] == refs[1..][i];
      }
    }
  }

  /** A ref field holding `undefined` or `null` is stored as a `null` id by
      the current version, which the select map cannot resolve. */
  lemma NullRefDoesNotRoundTrip(store: Store, row: Row, ref: RefPair)
    requires ref.field in store && ref.field in row && IsNullish(row[ref.field])
    ensures var (s', row') := InsertRef(store, row, ref, false);
      row'[ref.idField] == Null && SelectRef(s', row', ref).Err?
  {
  }

  /** The older version stores `undefined` or `null` as a new satellite row
      every time, so the same row inserted twice adds two rows. */
  lemma LegacyNullRefAddsRowEachTime(store: Store, row: Row, ref: RefPair)
    requires ref.field in store && ref.field in row && IsNullish(row[ref.field])
    ensures var (s1, _) := InsertRef(store, row, ref, true);
      var (s2, _) := InsertRef(s1, row, ref, true);
      |s2[ref.field]| == |store[ref.field]| + 2
  {
  }

  // ---------------------------------------------------------------------
  // makeAutoAddFieldMapRowFn

  /** The declared type of a column added for a value, by version. */
  function ColumnType(v: Value, legacy: bool): string {
    if legacy then LegacySqliteType(v) else SqliteType(v)
  }

  /** The column set after the auto-add map has seen `row`: every key of the
      row becomes a column; an existing column keeps its type, a new one gets
      the type of the row's value. The row itself passes through unchanged. */
  function AutoAddColumns(columns: map<string, string>, row: Row, legacy: bool): (r: map<string, string>)
    ensures r.Keys == columns.Keys + row.Keys
    ensures forall k :: k in columns ==> r[k] == columns[k]
    ensures forall k :: k in row && k !in columns ==> r[k] == ColumnType(row[k], legacy)
  {
    map k | k in columns.Keys + row.Keys :: if k in columns then columns[k] else ColumnType(row[k], legacy)
  }

  /** After the auto-add map every key of the row is a column and no existing
      column changed; running it again adds nothing. */
  lemma AutoAddIsIdempotent(columns: map<string, string>, row: Row, legacy: bool)
    ensures AutoAddColumns(AutoAddColumns(columns, row, legacy), row, legacy) == AutoAddColumns(columns, row, legacy)
  {
  }

  // ---------------------------------------------------------------------
  // The auto-add map as written

  /** SQLite compares column names with ASCII case folding. */
  function FoldCase(s: string): (r: string)
    ensures |r| == |s|
    ensures forall i :: 0 <= i < |s| ==> r[i] == (if 'A' <= s[i] <= 'Z' then s[i] - 'A' + 'a' else s[i])
  {
    if s == [] then []
    else [if 'A' <= s[0] <= 'Z' then s[0] - 'A' + 'a' else s[0]] + FoldCase(s[1..])
  }

  /** Whether SQLite already holds a column that `name` denotes. */
  predicate HasColumn(columns: map<string, string>, name: string) {
    exists c :: c in columns && FoldCase(c) == FoldCase(name)
  }

  /** How SQLite reads a field spliced unquoted into
      `alter table "t" add ${field} ${type}`: the name of the column it
      creates, or `None` when the statement does not parse. SQLite's
      tokenizer and keyword list are not modelled, so this is a parameter. */
  type NameReading = string -> Option<string>

  /** The state after the auto-add map has run on one row as written:
      `known` is the `TableInfo` object's fields (the snapshot taken when the
      insert function was built, grown by each `addField`), `columns` is what
      SQLite holds, `added` the fields added in order, and `error` what
      stopped the loop, if anything did. */
  datatype AutoAddRun = AutoAddRun(known: map<string, string>, columns: map<string, string>,
                                   added: seq<string>, error: Option<string>)

  /** `makeAutoAddFieldMapRowFn` over the keys of `row` in `Object.keys`
      order. `field in table.fields` also holds for the names every object
      inherits, which are skipped like known ones; `db.exec` throws before
      `addField` records the field, on a statement that does not parse or on
      a column SQLite already has under another spelling or since the
      snapshot was taken. */
  function AutoAddAsWritten(known: map<string, string>, columns: map<string, string>, row: Row,
                            keys: seq<string>, legacy: bool, read: NameReading): (r: AutoAddRun)
    requires forall i :: 0 <= i < |keys| ==> keys[i] in row
    ensures forall k :: k in known ==> k in r.known && r.known[k] == known[k]
    ensures forall k :: k in columns ==> k in r.columns && r.columns[k] == columns[k]
    decreases |keys|
  {
    if keys == [] then AutoAddRun(known, columns, [], None)
    else
      var field := keys[0];
      if field in known || field in MemoCache.PrototypeNames then
        AutoAddAsWritten(known, columns, row, keys[1..], legacy, read)
      else match read(field)
        case None => AutoAddRun(known, columns, [], Some("syntax error"))
        case Some(name) =>
          if HasColumn(columns, name) then AutoAddRun(known, columns, [], Some("duplicate column name: " + name))
          else
            var t := ColumnType(row[field], legacy);
            var r := AutoAddAsWritten(known[field := t], columns[name := t], row, keys[1..], legacy, read);
            r.(added := [field] + r.added)
  }

  /** One step of the loop. */
  lemma AutoAddUnfold(known: map<string, string>, columns: map<string, string>, row: Row,
                      keys: seq<string>, legacy: bool, read: NameReading)
    requires |keys| > 0 && forall i :: 0 <= i < |keys| ==> keys[i] in row
    ensures var f := keys[0];
      var r := AutoAddAsWritten(known, columns, row, keys, legacy, read);
      if f in known || f in MemoCache.PrototypeNames then r == AutoAddAsWritten(known, columns, row, keys[1..], legacy, read)
      else if read(f).None? then r == AutoAddRun(known, columns, [], Some("syntax error"))
      else if HasColumn(columns, read(f).value) then
        r == AutoAddRun(known, columns, [], Some("duplicate column name: " + read(f).value))
      else
        var t := ColumnType(row[f], legacy);
        var r1 := AutoAddAsWritten(known[f := t], columns[read(f).value := t], row, keys[1..], legacy, read);
        r == r1.(added := [f] + r1.added)
  {
  }

  /** The snapshot grows by exactly the fields added. */
  lemma {:induction false} AutoAddAsWrittenKnown(known: map<string, string>, columns: map<string, string>, row: Row,
                                                 keys: seq<string>, legacy: bool, read: NameReading)
    requires forall i :: 0 <= i < |keys| ==> keys[i] in row
    ensures var r := AutoAddAsWritten(known, columns, row, keys, legacy, read);
      forall k :: k in r.known <==> k in known || k in r.added
    decreases |keys|
  {
    if keys != [] {
      var field := keys[0];
      AutoAddUnfold(known, columns, row, keys, legacy, read);
      if field in known || field in MemoCache.PrototypeNames {
        AutoAddAsWrittenKnown(known, columns, row, keys[1..], legacy, read);
      } else if read(field).Some? && !HasColumn(columns, read(field).value) {
        var t := ColumnType(row[field], legacy);
        AutoAddAsWrittenKnown(known[field := t], columns[read(field).value := t], row, keys[1..], legacy, read);
      }
    }
  }

  /** Each field added is a row key the snapshot did not know and no
      inherited name, and SQLite now has the column it read. */
  lemma {:induction false} AutoAddAsWrittenAdds(known: map<string, string>, columns: map<string, string>, row: Row,
                                                keys: seq<string>, legacy: bool, read: NameReading)
    requires forall i :: 0 <= i < |keys| ==> keys[i] in row
    ensures var r := AutoAddAsWritten(known, columns, row, keys, legacy, read);
      forall i :: 0 <= i < |r.added| ==>
        r.added[i] in row && r.added[i] !in known && r.added[i] !in MemoCache.PrototypeNames &&
        read(r.added[i]).Some? && read(r.added[i]).value in r.columns
    decreases |keys|
  {
    if keys != [] {
      var field := keys[0];
      AutoAddUnfold(known, columns, row, keys, legacy, read);
      if field in known || field in MemoCache.PrototypeNames {
        AutoAddAsWrittenAdds(known, columns, row, keys[1..], legacy, read);
      } else if read(field).Some? && !HasColumn(columns, read(field).value) {
        var t := ColumnType(row[field], legacy);
        var name := read(field).value;
        AutoAddAsWrittenAdds(known[field := t], columns[name := t], row, keys[1..], legacy, read);
        var r1 := AutoAddAsWritten(known[field := t], columns[name := t], row, keys[1..], legacy, read);
        var r := AutoAddAsWritten(known, columns, row, keys, legacy, read);
        assert r.added == [field] + r1.added && r.columns == r1.columns;
        forall i | 0 <= i < |r.added|
          ensures r.added[i] in row && r.added[i] !in known && r.added[i] !in MemoCache.PrototypeNames &&
            read(r.added[i]).Some? && read(r.added[i]).value in r.columns
        {
          if i > 0 {
            assert r.added[i] == r1.added[i - 1];
          }
        }
      }
    }
  }

  /** On success every key is known or inherited; on failure some key was
      neither, and SQLite could not read it or already had its column. */
  lemma {:induction false} AutoAddAsWrittenStops(known: map<string, string>, columns: map<string, string>, row: Row,
                                                 keys: seq<string>, legacy: bool, read: NameReading)
    requires forall i :: 0 <= i < |keys| ==> keys[i] in row
    ensures var r := AutoAddAsWritten(known, columns, row, keys, legacy, read);
      && (r.error.None? ==> forall i :: 0 <= i < |keys| ==> keys[i] in r.known || keys[i] in MemoCache.PrototypeNames)
      && (r.error.Some? ==> exists i :: (0 <= i < |keys| && keys[i] !in r.known && keys[i] !in MemoCache.PrototypeNames &&
            (read(keys[i]).None? || HasColumn(r.columns, read(keys[i]).value))))
    decreases |keys|
  {
    if keys != [] {
      var field := keys[0];
      AutoAddUnfold(known, columns, row, keys, legacy, read);
      var r := AutoAddAsWritten(known, columns, row, keys, legacy, read);
      if field in known || field in MemoCache.PrototypeNames {
        AutoAddAsWrittenStops(known, columns, row, keys[1..], legacy, read);
        if r.error.Some? {
          var i :| 0 <= i < |keys| - 1 && keys[1..][i] !in r.known && keys[1..][i] !in MemoCache.PrototypeNames &&
            (read(keys[1..][i]).None? || HasColumn(r.columns, read(keys[1..][i]).value));
          assert keys[i + 1] == keys[1..][i];
        } else {
          assert field in r.known || field in MemoCache.PrototypeNames;
        }
      } else if read(field).Some? && !HasColumn(columns, read(field).value) {
        var t := ColumnType(row[field], legacy);
        AutoAddAsWrittenStops(known[field := t], columns[read(field).value := t], row, keys[1..], legacy, read);
        if r.error.Some? {
          var i :| 0 <= i < |keys| - 1 && keys[1..][i] !in r.known && keys[1..][i] !in MemoCache.PrototypeNames &&
            (read(keys[1..][i]).None? || HasColumn(r.columns, read(keys[1..][i]).value));
          assert keys[i + 1] == keys[1..][i];
        }
      } else {
        assert keys[0] == field;
      }
    }
  }

  /** When the summary `AutoAddColumns` is what the map does: every key is
      read by SQLite as itself, none is a name objects inherit, and no key
      folds onto a different existing column or a different key. */
  predicate PlainKeys(columns: map<string, string>, row: Row, keys: seq<string>, read: NameReading) {
    && (forall i :: 0 <= i < |keys| ==> keys[i] in row && read(keys[i]) == Some(keys[i]) && keys[i] !in MemoCache.PrototypeNames)
    && (forall i, c :: 0 <= i < |keys| && c in columns && FoldCase(c) == FoldCase(keys[i]) ==> c == keys[i])
    && (forall i, j :: 0 <= i < |keys| && 0 <= j < |keys| && FoldCase(keys[i]) == FoldCase(keys[j]) ==> keys[i] == keys[j])
  }

  lemma PlainKeysTail(columns: map<string, string>, row: Row, keys: seq<string>, read: NameReading, t: string)
    requires |keys| > 0 && PlainKeys(columns, row, keys, read)
    ensures PlainKeys(columns, row, keys[1..], read)
    ensures PlainKeys(columns[keys[0] := t], row, keys[1..], read)
  {
    var c' := columns[keys[0] := t];
    forall i, c | 0 <= i < |keys| - 1 && c in c' && FoldCase(c) == FoldCase(keys[1..][i])
      ensures c == keys[1..][i]
    {
      assert keys[1..][i] == keys[i + 1];
      if c == keys[0] {
        assert FoldCase(keys[0]) == FoldCase(keys[i + 1]);
      }
    }
  }

  /** With a current snapshot and plain keys, the loop succeeds, keeps the
      snapshot equal to SQLite's columns, and adds exactly the missing keys
      with the type of their values. */
  lemma {:induction false} AutoAddAsWrittenOfPlainKeys(columns: map<string, string>, row: Row, keys: seq<string>,
                                                       legacy: bool, read: NameReading)
    requires PlainKeys(columns, row, keys, read)
    ensures var r := AutoAddAsWritten(columns, columns, row, keys, legacy, read);
      r.error.None? && r.known == r.columns &&
      (forall k :: k in r.columns <==> k in columns || k in keys) &&
      (forall k :: k in r.columns && k !in columns ==> k in row && r.columns[k] == ColumnType(row[k], legacy))
    decreases |keys|
  {
    if keys != [] {
      var field := keys[0];
      var t := ColumnType(row[field], legacy);
      PlainKeysTail(columns, row, keys, read, t);
      if field in columns {
        AutoAddAsWrittenOfPlainKeys(columns, row, keys[1..], legacy, read);
      } else {
        assert !HasColumn(columns, field);
        AutoAddAsWrittenOfPlainKeys(columns[field := t], row, keys[1..], legacy, read);
      }
    }
  }

  /** A column set that keeps `columns` and adds exactly the keys of `row`
      with the type of their values is the summary. */
  lemma SummaryOfColumns(columns: map<string, string>, row: Row, keys: seq<string>, legacy: bool,
                         m: map<string, string>)
    requires forall i :: 0 <= i < |keys| ==> keys[i] in row
    requires forall k :: k in row ==> k in keys
    requires forall k :: k in m <==> k in columns || k in keys
    requires forall k :: k in columns ==> m[k] == columns[k]
    requires forall k :: k in m && k !in columns ==> k in row && m[k] == ColumnType(row[k], legacy)
    ensures m == AutoAddColumns(columns, row, legacy)
  {
    var s := AutoAddColumns(columns, row, legacy);
    forall k | k in s ensures k in m && m[k] == s[k] {
      if k !in columns {
        assert k in keys;
      }
    }
    forall k | k in m ensures k in s {
      if k !in columns {
        assert k in row;
      }
    }
    assert m.Keys == s.Keys;
  }

  /** Under those conditions the as-written map is the summary, which the
      pipeline uses. */
  lemma AutoAddAsWrittenIsSummary(columns: map<string, string>, row: Row, keys: seq<string>,
                                  legacy: bool, read: NameReading)
    requires PlainKeys(columns, row, keys, read)
    requires forall k :: k in row ==> k in keys
    ensures var r := AutoAddAsWritten(columns, columns, row, keys, legacy, read);
      r.error.None? && r.known == r.columns && r.columns == AutoAddColumns(columns, row, legacy)
  {
    AutoAddAsWrittenOfPlainKeys(columns, row, keys, legacy, read);
    var r := AutoAddAsWritten(columns, columns, row, keys, legacy, read);
    SummaryOfColumns(columns, row, keys, legacy, r.columns);
  }

  /** One key, case by case: a name objects inherit is never added, whatever
      SQLite holds; a spelling SQLite does not read is a syntax error; a
      column SQLite already holds under any case is a duplicate, even when
      the snapshot does not know it; otherwise the column is added to both. */
  lemma AutoAddOneKey(known: map<string, string>, columns: map<string, string>, row: Row, k: string,
                      legacy: bool, read: NameReading)
    requires k in row && k !in known
    ensures var r := AutoAddAsWritten(known, columns, row, [k], legacy, read);
      && (k in MemoCache.PrototypeNames ==> r == AutoAddRun(known, columns, [], None))
      && (k !in MemoCache.PrototypeNames && read(k).None? ==> r.error == Some("syntax error") && r.columns == columns)
      && (k !in MemoCache.PrototypeNames && read(k).Some? && HasColumn(columns, read(k).value) ==>
            r.error.Some? && r.known == known && r.columns == columns)
      && (k !in MemoCache.PrototypeNames && read(k).Some? && !HasColumn(columns, read(k).value) ==>
            r.error.None? && r.added == [k] &&
            r.known == known[k := ColumnType(row[k], legacy)] &&
            r.columns == columns[read(k).value := ColumnType(row[k], legacy)])
  {
  }

  /** `Name` and `name` are one column to SQLite: a row key that differs from
      an existing column only in case stops the loop. */
  lemma CaseVariantIsDuplicate(columns: map<string, string>, row: Row, k: string, c: string,
                               legacy: bool, read: NameReading)
    requires k in row && k !in columns && k !in MemoCache.PrototypeNames && read(k) == Some(k)
    requires c in columns && FoldCase(c) == FoldCase(k)
    ensures AutoAddAsWritten(columns, columns, row, [k], legacy, read).error.Some?
  {
  }

  /** Two insert functions built before either adds a column share one stale
      snapshot: the first adds the column and the second, whose snapshot
      does not know it, fails on it. */
  lemma StaleSnapshotFails(snapshot: map<string, string>, row: Row, k: string, legacy: bool, read: NameReading)
    requires k in row && k !in MemoCache.PrototypeNames && read(k) == Some(k)
    requires !HasColumn(snapshot, k)
    ensures var first := AutoAddAsWritten(snapshot, snapshot, row, [k], legacy, read);
      var second := AutoAddAsWritten(snapshot, first.columns, row, [k], legacy, read);
      first.error.None? && k in first.columns && second.error.Some?
  {
  }

  /** The `Object.keys(row).forEach` loop itself, one `addField` at a time;
      the first statement SQLite rejects ends it, leaving the columns added
      before it in place. With a current snapshot and plain keys it is the
      summary. */
  method AutoAddFields(known: map<string, string>, columns: map<string, string>, row: Row, keys: seq<string>,
                       legacy: bool, read: NameReading)
    returns (r: AutoAddRun)
    requires forall i :: 0 <= i < |keys| ==> keys[i] in row
    ensures r == AutoAddAsWritten(known, columns, row, keys, legacy, read)
    ensures known == columns && PlainKeys(columns, row, keys, read) && (forall k :: k in row ==> k in keys) ==>
      r.error.None? && r.columns == AutoAddColumns(columns, row, legacy)
  {
    var kn, cols, added, error := known, columns, [], None;
    ghost var orig := AutoAddAsWritten(known, columns, row, keys, legacy, read);
    var todo := keys;
    while todo != []
      invariant forall i :: 0 <= i < |todo| ==> todo[i] in row
      invariant var rest := AutoAddAsWritten(kn, cols, row, todo, legacy, read);
        orig == rest.(added := added + rest.added)
      decreases |todo|
    {
      var field := todo[0];
      AutoAddUnfold(kn, cols, row, todo, legacy, read);
      if field !in kn && field !in MemoCache.PrototypeNames {
        if read(field).None? {
          error := Some("syntax error");
          break;
        }
        var name := read(field).value;
        if HasColumn(cols, name) {
          error := Some("duplicate column name: " + name);
          break;
        }
        var t := ColumnType(row[field], legacy);
        ghost var rest1 := AutoAddAsWritten(kn[field := t], cols[name := t], row, todo[1..], legacy, read);
        assert added + ([field] + rest1.added) == (added + [field]) + rest1.added;
        kn, cols, added := kn[field := t], cols[name := t], added + [field];
      }
      todo := todo[1..];
    }
    if error.None? {
      assert added + [] == added;
    }
    r := AutoAddRun(kn, cols, added, error);
    if known == columns && PlainKeys(columns, row, keys, read) && (forall k :: k in row ==> k in keys) {
      AutoAddAsWrittenIsSummary(columns, row, keys, legacy, read);
    }
  }

  // ---------------------------------------------------------------------
  // Cached ref-field lookups and the shared `cache` option

  /** One ref field through an id cache, as the current
      `makeCachedGetRefIdFn` does it. A value that is neither text nor
      nullish, whose spelling as a property key is not modelled, is looked up
      directly. */
  function CachedInsertRef(store: Store, cache: MemoCache.Cache<Value>, row: Row, ref: RefPair)
    : (r: (Store, MemoCache.Cache<Value>, Row))
    requires ref.field in store
    ensures ref.field !in row ==> r == (store, cache, row)
    ensures ref.field in row ==> r.2.Keys == row.Keys - {ref.field} + {ref.idField}
    ensures forall k :: k in row && k != ref.field && k != ref.idField ==> r.2[k] == row[k]
    ensures ref.field in r.0 && r.0 == store[ref.field := r.0[ref.field]]
  {
    if ref.field !in row then (store, cache, row)
    else
      var v := row[ref.field];
      if v.Text? || IsNullish(v) then
        var (sat', cache', id) := Refs.CachedGetRefId(store[ref.field], cache, v);
        (store[ref.field := sat'], cache', (row - {ref.field})[ref.idField := id])
      else
        var (sat', id) := Refs.GetRefId(store[ref.field], v);
        (store[ref.field := sat'], cache, (row - {ref.field})[ref.idField := id])
  }

  /** The ref map as src/helpers.ts:307-309 builds it when the schema passes
      one `cache` object and lists every ref field in `cacheFields`: that one
      object is copied into each field, so every field's lookup reads and
      writes the same cache, keyed by the value alone. */
  function SharedCacheInsertRefs(store: Store, cache: MemoCache.Cache<Value>, row: Row, refs: seq<RefPair>)
    : (r: (Store, MemoCache.Cache<Value>, Row))
    requires forall i :: 0 <= i < |refs| ==> refs[i].field in store
    ensures r.0.Keys == store.Keys
    decreases |refs|
  {
    if |refs| == 0 then (store, cache, row)
    else
      var (store1, cache1, row1) := CachedInsertRef(store, cache, row, refs[0]);
      SharedCacheInsertRefs(store1, cache1, row1, refs[1..])
  }

  /** The ref map with a cache of its own per field, as a `cacheSize`
      option gives it: the lookup of a field reads and writes
      `caches[field]` only. */
  function PerFieldCacheInsertRefs(store: Store, caches: map<string, MemoCache.Cache<Value>>, row: Row, refs: seq<RefPair>)
    : (r: (Store, map<string, MemoCache.Cache<Value>>, Row))
    requires forall i :: 0 <= i < |refs| ==> refs[i].field in store && refs[i].field in caches
    ensures r.0.Keys == store.Keys && r.1.Keys == caches.Keys
    decreases |refs|
  {
    if |refs| == 0 then (store, caches, row)
    else
      var f := refs[0].field;
      var (store1, cache1, row1) := CachedInsertRef(store, caches[f], row, refs[0]);
      PerFieldCacheInsertRefs(store1, caches[f := cache1], row1, refs[1..])
  }

  /** Every field's cache agrees with that field's satellite table. */
  ghost predicate CachesCoherent(caches: map<string, MemoCache.Cache<Value>>, store: Store) {
    forall f :: f in caches && f in store ==> Refs.IdCacheCoherent(caches[f], store[f])
  }

  /** One cached field gives what the plain one gives, and its cache keeps
      agreeing with its table. */
  lemma CachedInsertRefIsTransparent(store: Store, cache: MemoCache.Cache<Value>, row: Row, ref: RefPair)
    requires ref.field in store && Refs.IdCacheCoherent(cache, store[ref.field])
    ensures var (store', cache', row') := CachedInsertRef(store, cache, row, ref);
      (store', row') == InsertRef(store, row, ref, false) && Refs.IdCacheCoherent(cache', store'[ref.field])
  {
    if ref.field in row {
      var v := row[ref.field];
      if v.Text? || IsNullish(v) {
        Refs.CachedGetRefIdIsTransparent(store[ref.field], cache, v);
      } else if Refs.GetRefId(store[ref.field], v).0 != store[ref.field] {
        Refs.IdCoherentAfterAppend(cache, store[ref.field], v);
      }
    }
  }

  /** Cache transparency with a cache per field: when every cache agrees
      with its satellite table, the cached ref map leaves the same tables and
      the same row as the plain one, and the caches still agree. */
  lemma {:induction false} PerFieldCacheIsTransparent(store: Store, caches: map<string, MemoCache.Cache<Value>>, row: Row, refs: seq<RefPair>)
    requires forall i :: 0 <= i < |refs| ==> refs[i].field in store && refs[i].field in caches
    requires CachesCoherent(caches, store)
    ensures var (store', caches', row') := PerFieldCacheInsertRefs(store, caches, row, refs);
      (store', row') == InsertRefs(store, row, refs, false) && CachesCoherent(caches', store')
    decreases |refs|
  {
    if |refs| > 0 {
      var f := refs[0].field;
      var (store1, cache1, row1) := CachedInsertRef(store, caches[f], row, refs[0]);
      CachedInsertRefIsTransparent(store, caches[f], row, refs[0]);
      assert CachesCoherent(caches[f := cache1], store1);
      PerFieldCacheIsTransparent(store1, caches[f := cache1], row1, refs[1..]);
    }
  }

  /** The shared cache is not transparent: with the `tag` table already
      holding "y", a row whose `author` and `tag` are both "x" gets for
      `tag_id` the id the author lookup cached, 1, instead of the tag
      table's id for "x", 2, and "x" never reaches the tag table. */
  lemma SharedCacheCollision()
    ensures var store: Store := map["author" := [], "tag" := [Text("y")]];
      var row := map["author" := Text("x"), "tag" := Text("x")];
      var refs := [RefPair("author", "author_id"), RefPair("tag", "tag_id")];
      var (store', _, row') := SharedCacheInsertRefs(store, MemoCache.NewCache(0), row, refs);
      var (plainStore, plainRow) := InsertRefs(store, row, refs, false);
      && "tag_id" in row' && row'["tag_id"] == IdValue(1) && store'["tag"] == [Text("y")]
      && "tag_id" in plainRow && plainRow["tag_id"] == IdValue(2) && plainStore["tag"] == [Text("y"), Text("x")]
  {
    var store: Store := map["author" := [], "tag" := [Text("y")]];
    var row := map["author" := Text("x"), "tag" := Text("x")];
    var a := RefPair("author", "author_id");
    var t := RefPair("tag", "tag_id");
    var store1 := store["author" := [Text("x")]];
    var cache1 := MemoCache.Cache(map["x" := IdValue(1)], 1, 0);
    var row1 := (row - {"author"})["author_id" := IdValue(1)];
    CollisionAuthorStep(store, row);
    CollisionTagStep(store1, cache1, row1);
    SharedCacheTwo(store, MemoCache.NewCache(0), row, a, t);
    assert SharedCacheInsertRefs(store, MemoCache.NewCache(0), row, [a, t])
        == (store1, cache1, (row1 - {"tag"})["tag_id" := IdValue(1)]);
    PlainAuthorStep(store, row);
    PlainTagStep(store1, row1);
    PlainTwo(store, row, a, t);
    assert InsertRefs(store, row, [a, t], false)
        == (store1["tag" := [Text("y"), Text("x")]], (row1 - {"tag"})["tag_id" := IdValue(2)]);
  }

  lemma CollisionAuthorStep(store: Store, row: Row)
    requires "author" in store && store["author"] == [] && "author" in row && row["author"] == Text("x")
    ensures CachedInsertRef(store, MemoCache.NewCache(0), row, RefPair("author", "author_id"))
         == (store["author" := [Text("x")]], MemoCache.Cache(map["x" := IdValue(1)], 1, 0),
             (row - {"author"})["author_id" := IdValue(1)])
  {
    FirstIdInEmpty(Text("x"));
    assert MemoCache.KeyLength("x") == 1;
  }

  lemma CollisionTagStep(store: Store, cache: MemoCache.Cache<Value>, row: Row)
    requires "tag" in store && "tag" in row && row["tag"] == Text("x")
    requires cache == MemoCache.Cache(map["x" := IdValue(1)], 1, 0)
    ensures CachedInsertRef(store, cache, row, RefPair("tag", "tag_id"))
         == (store, cache, (row - {"tag"})["tag_id" := IdValue(1)])
  {
    assert "x" in cache.entries;
    assert Refs.CachedGetRefId(store["tag"], cache, Text("x")) == (store["tag"], cache, IdValue(1));
    assert store["tag" := store["tag"]] == store;
  }

  lemma PlainAuthorStep(store: Store, row: Row)
    requires "author" in store && store["author"] == [] && "author" in row && row["author"] == Text("x")
    ensures InsertRef(store, row, RefPair("author", "author_id"), false)
         == (store["author" := [Text("x")]], (row - {"author"})["author_id" := IdValue(1)])
  {
    FirstIdInEmpty(Text("x"));
  }

  lemma PlainTagStep(store: Store, row: Row)
    requires "tag" in store && store["tag"] == [Text("y")] && "tag" in row && row["tag"] == Text("x")
    ensures InsertRef(store, row, RefPair("tag", "tag_id"), false)
         == (store["tag" := [Text("y"), Text("x")]], (row - {"tag"})["tag_id" := IdValue(2)])
  {
    SecondIdAfterOther(Text("y"), Text("x"));
  }

  lemma FirstIdInEmpty(v: Value)
    requires !IsNullish(v)
    ensures Refs.GetRefId([], v) == ([v], IdValue(1))
  {
    var r := Refs.GetRefId([], v);
    assert v !in [];
    assert r.0 == [v];
    var k :| 1 <= k <= |r.0| && r.1 == IdValue(k) && r.0[k - 1] == v;
    assert k == 1;
  }

  lemma SecondIdAfterOther(w: Value, v: Value)
    requires !IsNullish(v) && !IsNullish(w) && v != w
    ensures Refs.GetRefId([w], v) == ([w, v], IdValue(2))
  {
    var r := Refs.GetRefId([w], v);
    assert v !in [w];
    assert r.0 == [w, v];
    var k :| 1 <= k <= |r.0| && r.1 == IdValue(k) && r.0[k - 1] == v;
    assert r.0[0] == w;
    assert r == ([w, v], IdValue(2));
  }

  lemma SharedCacheTwo(store: Store, cache: MemoCache.Cache<Value>, row: Row, a: RefPair, b: RefPair)
    requires a.field in store && b.field in store
    ensures var (s1, c1, r1) := CachedInsertRef(store, cache, row, a);
      SharedCacheInsertRefs(store, cache, row, [a, b]) == CachedInsertRef(s1, c1, r1, b)
  {
    var (s1, c1, r1) := CachedInsertRef(store, cache, row, a);
    assert [a, b][1..] == [b];
    var (s2, c2, r2) := CachedInsertRef(s1, c1, r1, b);
    assert [b][1..] == [];
    assert SharedCacheInsertRefs(s1, c1, r1, [b]) == SharedCacheInsertRefs(s2, c2, r2, []);
  }

  lemma PlainTwo(store: Store, row: Row, a: RefPair, b: RefPair)
    requires a.field in store && b.field in store
    ensures var (s1, r1) := InsertRef(store, row, a, false);
      InsertRefs(store, row, [a, b], false) == InsertRef(s1, r1, b, false)
  {
    var (s1, r1) := InsertRef(store, row, a, false);
    assert [a, b][1..] == [b];
    var (s2, r2) := InsertRef(s1, r1, b, false);
    assert [b][1..] == [];
    assert InsertRefs(s1, r1, [b], false) == InsertRefs(s2, r2, [], false);
  }
}

=== FILE: schema.dfy ===
/** The schema declaration surface of src/helpers.ts (`TableSchema`,
    `RefFieldSchema`, `CacheOptions`) and the pure helpers that derive names
    and reference-field schemas from it. The older src/sqlite/helpers.ts uses
    the same declarations without `primaryKeys`, `idField` and
    `deduplicateFields`, and identical name helpers. */
module Schema {
  import opened Outcomes
  import ArrayUtil

  /** `CacheOptions`: a caller-supplied cache object (`cache`) and/or a
      `cacheSize`; `cacheSize` 0 stands for an absent or zero option. */
  datatype CacheOptions = CacheOptions(hasCache: bool, cacheSize: int)

  const NoCacheOptions := CacheOptions(false, 0)

  /** `RefFieldSchema`: a satellite table named `field`, with value column
      `field` and integer primary key `idField`. `fieldType` is the optional
      declared type of the value column ("" when absent). */
  datatype RefFieldSchema = RefFieldSchema(
    field: string,
    idField: string,
    fieldType: string,
    cache: CacheOptions,
    autoCreateTable: bool,
    autoCreateIndex: bool)

  /** An entry of `refFields`: a bare field name or a full schema. */
  datatype RefField = Bare(name: string) | Declared(ref: RefFieldSchema)

  /** `whitelistFields?: string[] | boolean`. */
  datatype WhitelistOption = NoWhitelist | WhitelistFlag(on: bool) | WhitelistList(names: seq<string>)

  /** `TableSchema`. Optional strings combined with `||` in the source
      (`idFieldSuffix`, `idField`, `createTableSql`, `createIndexSql`) use ""
      for absent; optional objects and arrays, which are truthy even when
      empty, use `Option`. `fields` lists the entries of the `fields` object in
      key order. */
  datatype TableSchema = TableSchema(
    table: string,
    fields: Option<seq<(string, string)>>,
    autoAddField: bool,
    skipFields: Option<seq<string>>,
    refFields: Option<seq<RefField>>,
    cacheFields: Option<seq<string>>,
    whitelist: WhitelistOption,
    idFieldSuffix: string,
    inplaceUpdate: bool,
    deduplicateFields: Option<seq<string>>,
    idField: string,
    primaryKeys: Option<seq<string>>,
    cache: CacheOptions,
    autoCreateTable: bool,
    autoCreateIndex: bool,
    createTableSql: string,
    createIndexSql: string)

  /** A schema with only a table name, every option absent. */
  function PlainSchema(table: string): TableSchema {
    TableSchema(table, None, false, None, None, None, NoWhitelist, "", false,
                None, "", None, NoCacheOptions, false, false, "", "")
  }

  const DefaultIdFieldSuffix := "_id"

  /** `schema.idFieldSuffix || defaultIdFieldSuffix`. */
  function IdFieldSuffix(schema: TableSchema): (suffix: string)
    ensures |suffix| > 0
  {
    if schema.idFieldSuffix == "" then DefaultIdFieldSuffix else schema.idFieldSuffix
  }

  function RefList(schema: TableSchema): seq<RefField> {
    schema.refFields.GetOr([])
  }

  /** The keys of the `fields` object, in order. */
  function FieldKeys(schema: TableSchema): (keys: seq<string>)
    ensures |keys| == |schema.fields.GetOr([])|
    ensures forall i :: 0 <= i < |keys| ==> keys[i] == schema.fields.value[i].0
  {
    var entries := schema.fields.GetOr([]);
    seq(|entries|, i requires 0 <= i < |entries| => entries[i].0)
  }

  /** `toRefIdFieldNames` for one entry. */
  function RefIdFieldName(ref: RefField, suffix: string): string {
    match ref
    case Bare(name) => name + suffix
    case Declared(r) => r.idField
  }

  /** `toRefIdFieldNames`: the id column of every reference field, in order;
      `[]` without `refFields`. */
  function RefIdFieldNames(schema: TableSchema): (names: seq<string>)
    ensures |names| == |RefList(schema)|
    ensures schema.refFields.None? ==> names == []
  {
    var refs := RefList(schema);
    seq(|refs|, i requires 0 <= i < |refs| => RefIdFieldName(refs[i], IdFieldSuffix(schema)))
  }

  /** `toRefFieldNames`: the value field of every reference field, in order. */
  function RefFieldNames(schema: TableSchema): (names: seq<string>)
    ensures |names| == |RefList(schema)|
  {
    var refs := RefList(schema);
    seq(|refs|, i requires 0 <= i < |refs| =>
      match refs[i] case Bare(name) => name case Declared(r) => r.field)
  }

  /** `schema.cacheFields?.includes(field)`. */
  predicate IsCacheField(schema: TableSchema, field: string) {
    schema.cacheFields.Some? && field in schema.cacheFields.value
  }

  /** `toRefSchema`: a full schema is kept; a bare name gets the suffixed id
      column, the table's auto-create flags, and the table's cache options
      when the name is listed in `cacheFields`. */
  function ToRefSchema(ref: RefField, schema: TableSchema): (r: RefFieldSchema)
    ensures ref.Declared? ==> r == ref.ref
    ensures ref.Bare? ==> r.field == ref.name && r.idField == ref.name + IdFieldSuffix(schema)
    ensures ref.Bare? ==> (r.cache == if IsCacheField(schema, ref.name) then schema.cache else NoCacheOptions)
  {
    match ref
    case Declared(r) => r
    case Bare(field) =>
      RefFieldSchema(field, field + IdFieldSuffix(schema), "",
                     if IsCacheField(schema, field) then schema.cache else NoCacheOptions,
                     schema.autoCreateTable, schema.autoCreateIndex)
  }

  /** `toRefSchemas`. */
  function ToRefSchemas(schema: TableSchema): (refs: seq<RefFieldSchema>)
    ensures |refs| == |RefList(schema)|
  {
    var list := RefList(schema);
    seq(|list|, i requires 0 <= i < |list| => ToRefSchema(list[i], schema))
  }

  /** The id columns `toRefIdFieldNames` lists are those of the schemas
      `toRefSchemas` builds, and likewise for the value fields: the two
      independent derivations agree entry by entry. */
  lemma RefSchemasAgreeWithNames(schema: TableSchema)
    ensures forall i :: 0 <= i < |ToRefSchemas(schema)| ==>
      ToRefSchemas(schema)[i].idField == RefIdFieldNames(schema)[i] &&
      ToRefSchemas(schema)[i].field == RefFieldNames(schema)[i]
  {
  }

  /** `getWhitelistFields`: `undefined` unless `whitelistFields` is truthy; an
      explicit list (even an empty one) is used as is; `true` means the keys
      of `fields` followed by the reference id columns, or `undefined` when
      `fields` is absent. */
  function WhitelistFields(schema: TableSchema): (r: Option<seq<string>>)
    ensures r.None? <==> (schema.whitelist.NoWhitelist? || schema.whitelist == WhitelistFlag(false)
                          || (schema.whitelist == WhitelistFlag(true) && schema.fields.None?))
    ensures schema.whitelist.WhitelistList? ==> r == Some(schema.whitelist.names)
    ensures schema.whitelist == WhitelistFlag(true) && schema.fields.Some? ==>
      r == Some(FieldKeys(schema) + RefIdFieldNames(schema))
  {
    match schema.whitelist
    case NoWhitelist => None
    case WhitelistFlag(on) =>
      if !on || schema.fields.None? then None
      else Some(FieldKeys(schema) + RefIdFieldNames(schema))
    case WhitelistList(names) => Some(names)
  }

  /** `cacheAllRefFields`: `cacheFields` becomes the distinct union of the old
      `cacheFields` and every reference field name, old entries first. */
  function CacheAllRefFields(schema: TableSchema): (s: TableSchema)
    ensures s.cacheFields.Some? && ArrayUtil.Distinct(s.cacheFields.value)
    ensures forall f :: f in RefFieldNames(schema) ==> IsCacheField(s, f)
    ensures forall f :: IsCacheField(schema, f) ==> IsCacheField(s, f)
    ensures forall f :: IsCacheField(s, f) ==> IsCacheField(schema, f) || f in RefFieldNames(schema)
    ensures s == schema.(cacheFields := s.cacheFields)
  {
    var all := schema.cacheFields.GetOr([]) + RefFieldNames(schema);
    var unique := ArrayUtil.Unique(all);
    assert forall f :: f in all ==> f in unique by {
      forall f | f in all ensures f in unique {
        var i :| 0 <= i < |all| && all[i] == f;
      }
    }
    assert forall f :: f in unique ==> f in all by {
      forall f | f in unique ensures f in all {
        var i :| 0 <= i < |unique| && unique[i] == f;
      }
    }
    schema.(cacheFields := Some(unique))
  }

  /** After `cacheAllRefFields`, every bare reference field resolves to a
      schema carrying the table's cache options. */
  lemma CacheAllRefFieldsCachesEveryBareRef(schema: TableSchema, i: nat)
    requires i < |RefList(schema)| && RefList(schema)[i].Bare?
    ensures ToRefSchemas(CacheAllRefFields(schema))[i].cache == schema.cache
  {
    var s := CacheAllRefFields(schema);
    assert RefFieldNames(schema)[i] == RefList(schema)[i].name;
    assert RefList(s) == RefList(schema);
  }

  /** What `toCache` yields for some cache options. */
  datatype CacheChoice = NoCache | SharedCache | FreshCache(resetSize: int)

  /** `toCache`: the supplied cache object wins; otherwise a truthy
      `cacheSize` creates a fresh `newCache({ resetSize: cacheSize })`. */
  function ToCache(options: CacheOptions): (c: CacheChoice)
    ensures c.NoCache? <==> !options.hasCache && options.cacheSize == 0
    ensures c.FreshCache? ==> c.resetSize == options.cacheSize
  {
    if options.hasCache then SharedCache
    else if options.cacheSize != 0 then FreshCache(options.cacheSize)
    else NoCache
  }
}

=== FILE: string_util.dfy ===
/** `toCamelCase` (src/utils/string.ts) together with the `split` / `join`
    string primitives it is built from. */
module StringUtil {
  import opened Outcomes

  /** The number of occurrences of `c` in `s`. */
  function Count(c: char, s: string): nat {
    if |s| == 0 then 0 else (if s[0] == c then 1 else 0) + Count(c, s[1..])
  }

  lemma {:induction false} CountAppend(c: char, a: string, b: string)
    ensures Count(c, a + b) == Count(c, a) + Count(c, b)
  {
    if |a| == 0 {
      assert a + b == b;
    } else {
      assert (a + b)[1..] == a[1..] + b;
      CountAppend(c, a[1..], b);
    }
  }

  /** JavaScript `s.split(sep)` for a one-character separator: the maximal
      separator-free pieces, including empty ones at either end or between two
      adjacent separators; the empty string splits into one empty piece. */
  function Split(s: string, sep: char): (parts: seq<string>)
    ensures |parts| >= 1
    ensures forall i :: 0 <= i < |parts| ==> sep !in parts[i]
  {
    if sep !in s then [s]
    else
      var i := IndexOf(s, sep);
      [s[..i]] + Split(s[i + 1..], sep)
  }

  function IndexOf(s: string, c: char): (i: nat)
    requires c in s
    ensures i < |s| && s[i] == c && c !in s[..i]
  {
    if s[0] == c then 0 else 1 + IndexOf(s[1..], c)
  }

  /** JavaScript `parts.join(sep)`. */
  function Join(parts: seq<string>, sep: string): string {
    if |parts| == 0 then ""
    else if |parts| == 1 then parts[0]
    else parts[0] + sep + Join(parts[1..], sep)
  }

  /** `split` and `join` with the same separator are inverse. */
  lemma {:induction false} JoinSplit(s: string, sep: char)
    ensures Join(Split(s, sep), [sep]) == s
  {
    if sep in s {
      var i := IndexOf(s, sep);
      var rest := Split(s[i + 1..], sep);
      JoinSplit(s[i + 1..], sep);
      assert |rest| >= 1;
      assert s == s[..i] + [sep] + s[i + 1..];
    }
  }

  /** Splitting text whose first separator follows the piece `x`. */
  lemma SplitAfterPiece(x: string, sep: char, y: string)
    requires sep !in x
    ensures Split(x + [sep] + y, sep) == [x] + Split(y, sep)
  {
    var s := x + [sep] + y;
    assert s[|x|] == sep;
    assert s[..|x|] == x;
    assert IndexOf(s, sep) == |x|;
    assert s[|x| + 1..] == y;
  }

  /** Joining pieces free of the separator and splitting again gives the
      pieces back. */
  lemma {:induction false} SplitJoin(parts: seq<string>, sep: char)
    requires |parts| >= 1
    requires forall i :: 0 <= i < |parts| ==> sep !in parts[i]
    ensures Split(Join(parts, [sep]), sep) == parts
    decreases |parts|
  {
    if |parts| > 1 {
      SplitJoin(parts[1..], sep);
      SplitAfterPiece(parts[0], sep, Join(parts[1..], [sep]));
      assert parts == [parts[0]] + parts[1..];
    }
  }

  /** The concatenation of `parts`: JavaScript `parts.join('')`. */
  function Concat(parts: seq<string>): string {
    if |parts| == 0 then "" else parts[0] + Concat(parts[1..])
  }

  /** `toUpperCase` of one character; only ASCII letters are modelled. */
  function ToUpper(c: char): char {
    if 'a' <= c <= 'z' then (c as int - 32) as char else c
  }

  /** `word[0].toUpperCase() + word.substring(1)`; `word[0]` of an empty word is
      `undefined`, and calling `toUpperCase` on it throws. */
  function Capitalize(word: string): (r: Result<string>)
    ensures r.Ok? <==> |word| > 0
    ensures r.Ok? ==> |r.value| == |word| && r.value[0] == ToUpper(word[0]) && r.value[1..] == word[1..]
  {
    if |word| == 0 then Err("Cannot read properties of undefined (reading 'toUpperCase')")
    else Ok([ToUpper(word[0])] + word[1..])
  }

  /** Capitalizes every word in order and concatenates them; fails at the first
      empty word. */
  function CapitalizeAll(words: seq<string>): (r: Result<string>)
    ensures r.Ok? <==> forall i :: 0 <= i < |words| ==> |words[i]| > 0
  {
    if |words| == 0 then Ok("")
    else
      var head :- Capitalize(words[0]);
      var tail :- CapitalizeAll(words[1..]);
      Ok(head + tail)
  }

  /** `toCamelCase`: splits a table name on `_`, capitalizes each piece and
      concatenates them. */
  function ToCamelCase(table: string): Result<string> {
    CapitalizeAll(Split(table, '_'))
  }

  /** A word with its first character upper-cased and the rest kept. */
  function UpperFirst(word: string): string {
    if |word| == 0 then word else [ToUpper(word[0])] + word[1..]
  }

  /** On success, `toCamelCase` is the concatenation of the `_`-separated
      pieces of the name, in order, each with its first character upper-cased
      and the rest unchanged. */
  lemma ToCamelCasePieces(table: string)
    requires ToCamelCase(table).Ok?
    ensures var words := Split(table, '_');
      ToCamelCase(table).value == Concat(seq(|words|, i requires 0 <= i < |words| => UpperFirst(words[i])))
  {
    var words := Split(table, '_');
    CapitalizeAllPieces(words);
  }

  lemma {:induction false} CapitalizeAllPieces(words: seq<string>)
    requires CapitalizeAll(words).Ok?
    ensures CapitalizeAll(words).value == Concat(seq(|words|, i requires 0 <= i < |words| => UpperFirst(words[i])))
    decreases |words|
  {
    if |words| > 0 {
      CapitalizeAllPieces(words[1..]);
      var all := seq(|words|, i requires 0 <= i < |words| => UpperFirst(words[i]));
      var rest := seq(|words[1..]|, i requires 0 <= i < |words[1..]| => UpperFirst(words[1..][i]));
      assert all[1..] == rest;
    }
  }

  /** `s` holds two adjacent separators. */
  predicate AdjacentSeparators(s: string, sep: char) {
    exists i :: 0 <= i < |s| - 1 && s[i] == sep && s[i + 1] == sep
  }

  /** `s` has an empty `sep`-separated piece: it is empty, or starts or ends with
      the separator, or holds two adjacent separators. */
  predicate HasEmptySegment(s: string, sep: char) {
    |s| == 0 || s[0] == sep || s[|s| - 1] == sep || AdjacentSeparators(s, sep)
  }

  /** Some piece is empty. */
  predicate SomeEmpty(parts: seq<string>) {
    exists k :: 0 <= k < |parts| && |parts[k]| == 0
  }

  lemma SomeEmptyCons(head: string, rest: seq<string>)
    ensures SomeEmpty([head] + rest) <==> |head| == 0 || SomeEmpty(rest)
  {
    var parts := [head] + rest;
    if |head| == 0 {
      assert |parts[0]| == 0;
    }
    if SomeEmpty(rest) {
      var k :| 0 <= k < |rest| && |rest[k]| == 0;
      assert parts[k + 1] == rest[k];
    }
    if SomeEmpty(parts) {
      var k :| 0 <= k < |parts| && |parts[k]| == 0;
      if k > 0 {
        assert parts[k] == rest[k - 1];
      }
    }
  }

  lemma AdjacentAfterFirst(s: string, sep: char)
    requires sep in s
    ensures var i := IndexOf(s, sep); var rest := s[i + 1..];
      AdjacentSeparators(s, sep) <==> (|rest| > 0 && rest[0] == sep) || AdjacentSeparators(rest, sep)
  {
    var i := IndexOf(s, sep);
    var rest := s[i + 1..];
    if AdjacentSeparators(rest, sep) {
      var j :| 0 <= j < |rest| - 1 && rest[j] == sep && rest[j + 1] == sep;
      assert s[i + 1 + j] == sep && s[i + 2 + j] == sep;
    }
    if |rest| > 0 && rest[0] == sep {
      assert s[i] == sep && s[i + 1] == sep;
    }
    if AdjacentSeparators(s, sep) {
      var j :| 0 <= j < |s| - 1 && s[j] == sep && s[j + 1] == sep;
      if j > i {
        assert rest[j - i - 1] == sep && rest[j - i] == sep;
      }
    }
  }

  lemma {:induction false} SplitHasEmptyPiece(s: string, sep: char)
    ensures SomeEmpty(Split(s, sep)) <==> HasEmptySegment(s, sep)
  {
    if sep in s {
      var i := IndexOf(s, sep);
      var rest := s[i + 1..];
      SplitHasEmptyPiece(rest, sep);
      SomeEmptyCons(s[..i], Split(rest, sep));
      AdjacentAfterFirst(s, sep);
      if |rest| > 0 {
        assert rest[|rest| - 1] == s[|s| - 1];
      }
    } else {
      assert Split(s, sep) == [s];
      SomeEmptyCons(s, []);
      assert forall j :: 0 <= j < |s| ==> s[j] != sep;
      assert !AdjacentSeparators(s, sep);
    }
  }

  /** `toCamelCase` throws exactly when the name has an empty piece. */
  lemma ToCamelCaseFailsIffEmptySegment(table: string)
    ensures ToCamelCase(table).Err? <==> HasEmptySegment(table, '_')
  {
    SplitHasEmptyPiece(table, '_');
  }

  lemma {:induction false} CapitalizeAllShape(words: seq<string>)
    requires CapitalizeAll(words).Ok?
    ensures (forall i :: 0 <= i < |words| ==> '_' !in words[i]) ==> '_' !in CapitalizeAll(words).value
    ensures |CapitalizeAll(words).value| == |Concat(words)|
  {
    if |words| > 0 {
      CapitalizeAllShape(words[1..]);
      var head := Capitalize(words[0]).value;
      if forall i :: 0 <= i < |words| ==> '_' !in words[i] {
        assert '_' !in words[0];
        assert forall i :: 0 <= i < |words[1..]| ==> '_' !in words[1..][i] by {
          forall i | 0 <= i < |words[1..]| ensures '_' !in words[1..][i] {
            assert words[1..][i] == words[i + 1];
          }
        }
        assert forall j :: 0 <= j < |head| ==> head[j] != '_' by {
          forall j | 0 <= j < |head| ensures head[j] != '_' {
            if j > 0 {
              assert head[j] == words[0][j];
            }
          }
        }
      }
    }
  }

  lemma {:induction false} ConcatSplitLength(s: string, sep: char)
    ensures |Concat(Split(s, sep))| == |s| - Count(sep, s)
  {
    if sep in s {
      var i := IndexOf(s, sep);
      ConcatSplitLength(s[i + 1..], sep);
      assert s == s[..i] + [sep] + s[i + 1..];
      CountAppend(sep, s[..i] + [sep], s[i + 1..]);
      CountAppend(sep, s[..i], [sep]);
      assert Count(sep, s[..i]) == 0 by { CountAbsent(sep, s[..i]); }
    } else {
      CountAbsent(sep, s);
    }
  }

  lemma {:induction false} CountAbsent(c: char, s: string)
    requires c !in s
    ensures Count(c, s) == 0
  {
    if |s| > 0 {
      assert c !in s[1..];
      CountAbsent(c, s[1..]);
    }
  }

  /** On success the result holds no `_`, and each character of the name other
      than `_` is kept (ASCII upper-casing keeps the length), so the length drops
      by exactly the number of `_`. */
  lemma ToCamelCaseShape(table: string)
    requires ToCamelCase(table).Ok?
    ensures '_' !in ToCamelCase(table).value
    ensures |ToCamelCase(table).value| == |table| - Count('_', table)
  {
    var words := Split(table, '_');
    CapitalizeAllShape(words);
    ConcatSplitLength(table, '_');
  }
}

=== FILE: values.dfy ===
/** Row values as the normalizer sees them: a closed variant for the JavaScript
    values a row object can hold, rows as string-keyed maps, the SQL equality a
    `where column = ?` lookup uses, and `toSqliteDataType` in both versions of
    the helpers (src/helpers.ts and src/sqlite/helpers.ts). */
module Values {

  /** A JavaScript value held by a row. Numbers are real-valued (`Num`); an
      integral one is stored as an SQLite integer. `Obj` covers every value
      whose `typeof` is `'object'` other than `null` (plain objects, arrays,
      dates, buffers), represented by its entries. */
  datatype Value =
    | Undefined
    | Null
    | Bool(b: bool)
    | Num(n: real)
    | Text(s: string)
    | BigInt(i: int)
    | Obj(entries: map<string, Value>)

  /** A row object: own enumerable keys and their values. */
  type Row = map<string, Value>

  /** `undefined` or `null`. */
  predicate IsNullish(v: Value) {
    v.Undefined? || v.Null?
  }

  /** A surrogate id or rowid as a row value (a JavaScript number). */
  function IdValue(id: int): (v: Value)
    ensures v.Num? && !IsNullish(v)
  {
    Num(id as real)
  }

  /** The column `key` of a stored row; a missing column, like a bound
      `undefined`, reads as SQL NULL. */
  function Column(row: Row, key: string): (v: Value)
    ensures key !in row ==> v == Null
  {
    if key in row then row[key] else Null
  }

  /** SQL `a = b` in a `where` clause: NULL equals nothing, not even NULL. */
  predicate SqlEq(a: Value, b: Value) {
    !IsNullish(a) && !IsNullish(b) && a == b
  }

  /** `isInt`: the number has no fractional part. */
  predicate IsInt(n: real) {
    n.Floor as real == n
  }

  /** `toSqliteDataType` of src/helpers.ts: the declared type of a column added
      for a value. */
  function SqliteType(v: Value): (t: string)
    ensures t in {"text", "integer", "json", "real", "blob"}
    ensures t == "text" <==> v.Text?
    ensures t == "integer" <==> v.Bool? || (v.Num? && IsInt(v.n))
    ensures t == "json" <==> v.Null? || v.Obj?
    ensures t == "real" <==> v.Num? && !IsInt(v.n)
    ensures t == "blob" <==> v.Undefined? || v.BigInt?
  {
    match v
    case Text(_) => "text"
    case Bool(_) => "integer"
    case Null => "json"
    case Obj(_) => "json"
    case Num(n) => if IsInt(n) then "integer" else "real"
    case Undefined => "blob"
    case BigInt(_) => "blob"
  }

  /** `toSqliteDataType` of src/sqlite/helpers.ts: booleans get the declared
      type `boolean` instead of `integer`. */
  function LegacySqliteType(v: Value): (t: string)
    ensures t in {"text", "boolean", "integer", "json", "real", "blob"}
    ensures t == "boolean" <==> v.Bool?
  {
    match v
    case Text(_) => "text"
    case Bool(_) => "boolean"
    case Null => "json"
    case Obj(_) => "json"
    case Num(n) => if IsInt(n) then "integer" else "real"
    case Undefined => "blob"
    case BigInt(_) => "blob"
  }

  /** The two versions of `toSqliteDataType` differ on booleans only. */
  lemma SqliteTypeVersionsDifferOnBooleansOnly(v: Value)
    ensures SqliteType(v) == LegacySqliteType(v) <==> !v.Bool?
  {
  }
}
